=== FILE: README.md ===
# PluginBans punishment engine — a Dafny model

This project models the core of PluginBans (RubinBans). PluginBans keeps bans, temporary bans, IP bans, mutes, warnings and checks ("проверки") for a Minecraft network. It has four parts:

- **Core library.** The punishment record and its rules, the duration parser and formatter, the id generator, IP hashing, the JDBC repository with its history table, and the `PunishmentService` engine. The engine is a per-player cache, listeners, expiry and polling.
- **Paper plugin.**
  - The commands `/ban`, `/ipban`, `/mute`, `/warn`, `/idban`, `/unpunish` and `/punish` with its menu.
  - The join, chat and command listener.
  - The check manager and the punishment service that announces new records.
  - The forum HTTP API.
  - The configuration sanitiser.
  - The plugin-message sender towards the proxy.
- **Velocity proxy plugin.** The login gate with its own expiry, the sync message receiver, the connection throttle and the `config.toml` reader.
- **Python gateway.** It sits in front of the forum API.

Every operation is a pure function over immutable data, organised as follows:

- **Effects as data.** Database writes, listener calls, messages and kicks are returned as values.
- **Inputs.** The clock, randomness, the SHA-256 digest, URL decoding, player lookups, a record's expiry test `isExpired` and the iteration order of hash maps are parameters. PunishmentRecord, which defines `isExpired`, is not part of this model.
- **Row order.** The repository's SELECTs of active rows have no `ORDER BY`; the model returns rows in insertion order, called store order below.
- **Failures.** Java's `null` is `Option`, and a thrown exception is `None` or a `Failure`.
- **Time.** An `Instant` is an integer count of epoch milliseconds.

## Modules

- wrappers.dfy (`Wrappers`): `Option` and `Result`
- java_text.dfy (`JavaText`): `trim`, `isBlank`, case mapping, `indexOf`, `split`, `replace`, `String.join`, Python's `strip`
- java_numbers.dfy (`JavaNumbers`): `Long.parseLong`, `Integer.parseInt`, `Long.toString`, 64-bit wrap-around
- model.dfy (`Model`): punishment kinds, the current record, the history row, the older 10-field record
- rules.dfy (`PunishmentRules`): `isBanLike`, `blocksLogin`
- snapshot.dfy (`Snapshot`): `ActivePunishment`
- duration_parser.dfy, duration_examples.dfy (`DurationParser, DurationExamples`): `DurationParser.parseToSeconds`
- duration_formatter.dfy (`DurationFormatter`): `DurationFormatter.formatSeconds`
- id_generator.dfy (`PunishmentIdGenerator`): `PunishmentIdGenerator.generate`
- ip_hashing.dfy (`IpHashing`): `IpHashing.hash`
- columns.dfy (`Columns`): the repository's row mapping and time columns
- repository.dfy, repository_scenario.dfy (`Repository, RepositoryScenario`): `JdbcPunishmentRepository` and its test scenario
- merge.dfy (`ConnectionMerge`): the `LinkedHashMap` merge of `getActiveForConnection`
- notifications.dfy (`Notifications`): listener notification and `detectChanges`
- engine.dfy (`Engine`): `PunishmentService`
- messages.dfy (`Messages`): placeholders, the `%id%` line, the message prefix
- paper_service.dfy (`PaperService`): `PaperPunishmentService`
- checks.dfy (`Checks`): `CheckManager` and `CheckSession`
- login_gate.dfy (`LoginGate`): the Paper `PunishmentListener`
- command_args.dfy (`CommandArgs`): the three `joinArgs` and `hasFlag`
- standard_punish.dfy (`StandardPunish`): `StandardPunishCommand`
- unpunish.dfy (`Unpunish`): `UnpunishCommand`
- custom_punish.dfy (`CustomPunish`): `CustomPunishCommand` and its menu
- forum_api.dfy (`ForumApi`): `ForumApiServer`
- paper_config.dfy (`PaperConfig`): poll period and `sanitizeList` of `PluginBansPaper`
- sync_payload.dfy (`SyncPayload`): the `DataOutputStream.writeUTF` payload of `VelocityMessenger` and its reader on the proxy
- proxy_gate.dfy (`ProxyGate`): `VelocityPunishmentService` and the proxy's login and sync handlers
- throttle.dfy (`ConnectionThrottle`): `ConnectionThrottle`
- toml_config.dfy (`TomlConfig`): `VelocityConfigLoader`
- gateway.dfy (`Gateway`): the Python gateway

## Model

Paths are relative to the repository root.

| member | source | states |
|---|---|---|
| Model.PlusSeconds | core/src/plugin/java/com/pluginbans/core/PunishmentRecord.java:26 | a positive number of seconds moves the instant later, and zero leaves it where it is |
| Model.ParseType | core/src/plugin/java/com/pluginbans/core/JdbcPunishmentRepository.java:217 | a name it accepts is exactly the name of the kind it gives, case included |
| Model.ParseTypeName | core/src/plugin/java/com/pluginbans/core/JdbcPunishmentRepository.java:217 | every kind written by name reads back as itself |
| Model.ExpiresAt | core/src/plugin/java/com/pluginbans/core/PunishmentRecord.java:18-27 | no end exactly for a permanent record; an end always lies after the issue time |
| Model.ExpiresAfterDuration | core/src/plugin/java/com/pluginbans/core/PunishmentRecord.java:22-27 | a non-permanent record lapses exactly its duration after it was issued |
| PunishmentRules.RuleClasses | core/src/plugin/java/com/pluginbans/core/PunishmentRules.java:7-15 | the kinds fall into three classes: bans block login, warnings block login without being bans, the rest block nothing |
| Snapshot.Get | core/src/plugin/java/com/pluginbans/core/ActivePunishment.java:13-15 | `get` finds a record of the kind asked for, and the first such record |
| Snapshot.HasIffGet | core/src/plugin/java/com/pluginbans/core/ActivePunishment.java:13-19 | `has` holds exactly when `get` finds a record |
| Snapshot.AllIsConstructorList | core/src/plugin/java/com/pluginbans/core/ActivePunishment.java:9-11 | `all` is the list the snapshot was built from, element for element |
| DurationParser.Scan | core/src/plugin/java/com/pluginbans/core/DurationParser.java:25-40 | the scan yields only well-formed digit-group/unit tokens and never leaves more over than its input |
| DurationParser.ScanRender | core/src/plugin/java/com/pluginbans/core/DurationParser.java:25-40 | scanning the text of well-formed tokens finds exactly those tokens and leaves nothing over |
| DurationParser.SumWrapped | core/src/plugin/java/com/pluginbans/core/DurationParser.java:26-39 | the running total stays inside the `long` range, as the 64-bit arithmetic of the loop keeps it |
| DurationParser.ParseToSecondsAsWritten | core/src/plugin/java/com/pluginbans/core/DurationParser.java:20-44 | whatever the source accepts lies between 0 and `Long.MAX_VALUE` |
| DurationParser.ExactSum | core/src/plugin/java/com/pluginbans/core/DurationParser.java:26-39 | the mathematical sum of the tokens is never negative |
| DurationParser.ParseToSeconds | core/src/plugin/java/com/pluginbans/core/DurationParser.java:20-44 | the permanent words give 0; any other accepted text is a non-empty token sequence written out exactly, whose exact sum is the result and fits in a `long` |
| DurationParser.SumWrappedExact | core/src/plugin/java/com/pluginbans/core/DurationParser.java:26-39 | without overflow, the wrapping loop computes the exact sum |
| DurationParser.AsWrittenAgreesWithoutOverflow | core/src/plugin/java/com/pluginbans/core/DurationParser.java:20-44 | the two parsers agree on every input whose exact total fits in a `long` |
| DurationParser.ParseRender | core/src/plugin/java/com/pluginbans/core/DurationParser.java:20-44 | well-formed tokens, written out and parsed back, give their total, in any order and with repeated units |
| DurationParser.ForeignCharRejected | core/src/plugin/java/com/pluginbans/core/DurationParser.java:40-42 | any character that is neither a digit nor a unit letter makes the input invalid |
| DurationParser.ParseLongDigits | core/src/plugin/java/com/pluginbans/core/DurationParser.java:30 | a digit group within range parses to its value |
| DurationParser.FirstOverlong | core/src/plugin/java/com/pluginbans/core/DurationParser.java:28-30 | the first digit group beyond `Long.MAX_VALUE` in scan order, and none exactly when every group parses |
| DurationParser.ExactSumFailsIff | core/src/plugin/java/com/pluginbans/core/DurationParser.java:28-39 | the exact sum fails exactly when some digit group is beyond `Long.MAX_VALUE` |
| DurationParser.SumWrappedFailsIff | core/src/plugin/java/com/pluginbans/core/DurationParser.java:28-39 | the wrapping loop fails at the same groups, whatever it has summed before them |
| DurationParser.OverlongRejected | core/src/plugin/java/com/pluginbans/core/DurationParser.java:20-44 | text holding a digit group beyond `Long.MAX_VALUE` is rejected by both parsers, even when the rest of it is well-formed |
| DurationExamples.WrapAroundAccepted | core/src/plugin/java/com/pluginbans/core/DurationParser.java:33-40 | `213503982334602d` wraps to 61184 and passes the `total < 0` guard |
| DurationFormatter.NonZero | core/src/plugin/java/com/pluginbans/core/DurationFormatter.java:14-33 | only non-zero components of the input, and none exactly when every component is zero |
| DurationFormatter.NonZeroValue | core/src/plugin/java/com/pluginbans/core/DurationFormatter.java:14-33 | dropping zero components loses no seconds |
| DurationFormatter.AllPieces | core/src/plugin/java/com/pluginbans/core/DurationFormatter.java:14-33 | the days, hours, minutes and seconds components, in unit order, recombining to the input, with hours below 24 and minutes and seconds below 60 |
| DurationFormatter.AllPiecesUnique | core/src/plugin/java/com/pluginbans/core/DurationFormatter.java:14-33 | these components are the only way to write the input with hours below a day, minutes below an hour and seconds below a minute |
| DurationFormatter.Pieces | core/src/plugin/java/com/pluginbans/core/DurationFormatter.java:14-33 | exactly the non-zero components, in unit order, recombining to the input; none exactly for zero |
| DurationFormatter.FormatSeconds | core/src/plugin/java/com/pluginbans/core/DurationFormatter.java:10-35 | `Навсегда` exactly for a non-positive input; otherwise the non-zero components (hours below 24, minutes and seconds below 60) joined by spaces, never empty |
| PunishmentIdGenerator.Generate | core/src/plugin/java/com/pluginbans/core/PunishmentIdGenerator.java:12-18 | `PBRB-`, the category code, `-`, then five characters of the alphabet |
| PunishmentIdGenerator.AlphabetLayout | core/src/plugin/java/com/pluginbans/core/PunishmentIdGenerator.java:6 | the alphabet is A-Z and then 0-9 |
| PunishmentIdGenerator.GenerateInjective | core/src/plugin/java/com/pluginbans/core/PunishmentIdGenerator.java:12-18 | the id determines both the category and the random draws |
| IpHashing.Hex | core/src/plugin/java/com/pluginbans/core/IpHashing.java:18-22 | two lowercase hex digits per byte, high digit first |
| IpHashing.UnhexHex | core/src/plugin/java/com/pluginbans/core/IpHashing.java:18-22 | reading the hex back gives the bytes, so the encoding is injective |
| IpHashing.Hash | core/src/plugin/java/com/pluginbans/core/IpHashing.java:11-26 | null for a null or blank address; otherwise the 64-character hex of the digest |
| IpHashing.HashDigestIff | core/src/plugin/java/com/pluginbans/core/IpHashing.java:11-26 | two addresses hash to the same text exactly when their digests agree |
| Columns.ReadNullableEpochMillis | core/src/plugin/java/com/pluginbans/core/JdbcPunishmentRepository.java:254-279 | a number is read as a 64-bit value; a text is null exactly when blank or an absent word, and otherwise the `long` it spells; any other column type fails |
| Columns.ReadRequiredEpochMillis | core/src/plugin/java/com/pluginbans/core/JdbcPunishmentRepository.java:246-252 | like the nullable reader, but an absent value fails too |
| Columns.EpochMillisRoundTrip | core/src/plugin/java/com/pluginbans/core/JdbcPunishmentRepository.java:246-279 | a stored instant reads back as itself, and a missing end time stays missing |
| Columns.DecodeRow | core/src/plugin/java/com/pluginbans/core/JdbcPunishmentRepository.java:211-226 | an unknown type name or a bad time column fails; otherwise the row's fields |
| Columns.RowRoundTrip | core/src/plugin/java/com/pluginbans/core/JdbcPunishmentRepository.java:27-57 | every row the store writes reads back as the same punishment, a permanent one with a NULL end |
| Columns.AbsentWordsRead | core/src/plugin/java/com/pluginbans/core/JdbcPunishmentRepository.java:262-266 | the spellings of "no end time" are accepted in any case and with surrounding blanks |
| Repository.HistoryIdUnique | core/src/plugin/java/com/pluginbans/core/JdbcPunishmentRepository.java:281-297 | for times after the epoch, the history key determines both the punishment and the millisecond |
| Repository.BuildHistory | core/src/plugin/java/com/pluginbans/core/JdbcPunishmentRepository.java:281-297 | the history entry carries the record's fields, the action and the time |
| Repository.InsertHistory | core/src/plugin/java/com/pluginbans/core/JdbcPunishmentRepository.java:299-327 | a duplicate key is rejected and nothing is appended |
| Repository.Add | core/src/plugin/java/com/pluginbans/core/JdbcPunishmentRepository.java:27-57 | the row is inserted, then one CREATE history entry; a failed history write leaves the row written |
| Repository.SetInactive | core/src/plugin/java/com/pluginbans/core/JdbcPunishmentRepository.java:60-100 | only the rows with that internal id change, and only their active flag |
| Repository.Deactivate | core/src/plugin/java/com/pluginbans/core/JdbcPunishmentRepository.java:60-100 | an unknown id changes nothing; a known one is switched off with one history entry carrying the new actor and reason; the write fails exactly when the store is down or that history key is taken |
| Repository.FindActiveByUuid | core/src/plugin/java/com/pluginbans/core/JdbcPunishmentRepository.java:103-108 | fails exactly when the store is unreachable; otherwise exactly the active rows of the player |
| Repository.FindActiveByIp | core/src/plugin/java/com/pluginbans/core/JdbcPunishmentRepository.java:111-116 | fails exactly when the store is unreachable; otherwise exactly the active rows with that address, and nothing for a null address |
| Repository.FindActiveByIpHash | core/src/plugin/java/com/pluginbans/core/JdbcPunishmentRepository.java:119-124 | fails exactly when the store is unreachable; otherwise exactly the active rows with that hash, and nothing for a null hash |
| Repository.FindByInternalId | core/src/plugin/java/com/pluginbans/core/JdbcPunishmentRepository.java:127-143 | the row with that id, or nothing for an unknown id |
| Repository.InsertByTime | core/src/plugin/java/com/pluginbans/core/JdbcPunishmentRepository.java:146-163 | the entry goes after every entry at least as recent, so the result stays sorted, most recent first |
| Repository.FindHistory | core/src/plugin/java/com/pluginbans/core/JdbcPunishmentRepository.java:146-163 | the player's history entries, all of them, most recent first |
| Repository.DeactivateDropsOnlyThatId | core/src/plugin/java/com/pluginbans/core/JdbcPunishmentRepository.java:60-108 | after a deactivation, the player's active list is the old one without that punishment |
| Repository.DeactivatedReadsInactive | core/src/plugin/java/com/pluginbans/core/JdbcPunishmentRepository.java:60-143 | a deactivated punishment reads back as inactive |
| Repository.AddShowsActive | core/src/plugin/java/com/pluginbans/core/JdbcPunishmentRepository.java:27-108 | a successful add makes the punishment visible as active and leaves the other active records as they were |
| RepositoryScenario.IssuedRecordsPersist | core/src/test/java/com/pluginbans/core/JdbcPunishmentRepositoryTest.java:61-84 | after adding a ban and a mute, both are active, the mute is found by id, and the history holds two CREATE entries |
| RepositoryScenario.LiftingMuteKeepsBan | core/src/test/java/com/pluginbans/core/JdbcPunishmentRepositoryTest.java:87-115 | lifting the mute leaves only the ban active, stores the mute as inactive and adds a third history entry |
| ConnectionMerge.Put | core/src/plugin/java/com/pluginbans/core/PunishmentService.java:124-129 | a new key goes to the end; an existing key keeps its place and takes the new value |
| ConnectionMerge.PutIfAbsent | core/src/plugin/java/com/pluginbans/core/PunishmentService.java:130-140 | an existing key is left alone; a new one is appended |
| ConnectionMerge.Merge | core/src/plugin/java/com/pluginbans/core/PunishmentService.java:116-146 | each internal id appears once in the merged list |
| ConnectionMerge.MergeKeepsPlayerList | core/src/plugin/java/com/pluginbans/core/PunishmentService.java:116-146 | a by-player list without repeated ids comes through whole and first |
| ConnectionMerge.MergeMembership | core/src/plugin/java/com/pluginbans/core/PunishmentService.java:116-146 | every by-player record is kept, and so is every by-address record whose id is new |
| Notifications.NotifyCreate | core/src/plugin/java/com/pluginbans/core/PunishmentService.java:213-218 | one creation call per listener, in registration order |
| Notifications.NotifyRemove | core/src/plugin/java/com/pluginbans/core/PunishmentService.java:220-225 | one removal call per listener, in registration order, with the reason |
| Notifications.DetectChanges | core/src/plugin/java/com/pluginbans/core/PunishmentService.java:180-193 | creation calls for exactly the records that appeared, then removal calls for exactly those that disappeared, by internal id |
| Notifications.CreatedBeforeRemoved | core/src/plugin/java/com/pluginbans/core/PunishmentService.java:180-193 | every creation call comes before every removal call |
| Notifications.SameIdsNoEvents | core/src/plugin/java/com/pluginbans/core/PunishmentService.java:180-193 | a snapshot with the same internal ids as before produces no calls |
| Engine.RegisterListener | core/src/plugin/java/com/pluginbans/core/PunishmentService.java:41-43 | the listener is added last and nothing else changes |
| Engine.Track | core/src/plugin/java/com/pluginbans/core/PunishmentService.java:45-51 | the address is remembered unless the player or the address is missing or the address is blank |
| Engine.Untrack | core/src/plugin/java/com/pluginbans/core/PunishmentService.java:53-58 | the player's address and snapshot are forgotten; nothing else changes |
| Engine.TrackThenUntrack | core/src/plugin/java/com/pluginbans/core/PunishmentService.java:45-58 | tracking then untracking a player leaves no trace of it |
| Engine.NewListenerHearsLast | core/src/plugin/java/com/pluginbans/core/PunishmentService.java:41-43 | a listener registered later is told last about every later event |
| Engine.DeactivateEffect | core/src/plugin/java/com/pluginbans/core/JdbcPunishmentRepository.java:60-100 | a store call's row changes are deactivations only |
| Engine.ExpireIfNeeded | core/src/plugin/java/com/pluginbans/core/PunishmentService.java:195-211 | the records handed back are the unexpired ones in input order; every expired record is switched off; only rows are switched off and only expiry entries are appended; with nothing expired nothing changes |
| Engine.ExpiryRows | core/src/plugin/java/com/pluginbans/core/PunishmentService.java:195-211 | with the store reachable, exactly the rows sharing an id with an expired record are switched off, and no other row changes |
| Engine.ExpiryHistory | core/src/plugin/java/com/pluginbans/core/PunishmentService.java:195-211 | a completed expiry appends exactly one EXPIRE entry by `Система` with the expiry reason per expired record, in order, and nothing else |
| Engine.FetchKeepsInForce | core/src/plugin/java/com/pluginbans/core/PunishmentService.java:82-98 | with unique ids, expiring a query's lapsed records changes no query's records in force |
| Engine.GetActiveByUuid | core/src/plugin/java/com/pluginbans/core/PunishmentService.java:82-90 | the player's records in force, in store order, which are also cached; no query's records in force change |
| Engine.GetActiveMatching | core/src/plugin/java/com/pluginbans/core/PunishmentService.java:92-98 | the records in force for an address or its hash, in store order; the cache is not touched |
| Engine.ForConnection | core/src/plugin/java/com/pluginbans/core/PunishmentService.java:116-146 | the merge of the player's records in force with the address's and its hash's: the player's come first and whole, and the internal ids are exactly those of both lists, each once |
| Engine.RefreshCache | core/src/plugin/java/com/pluginbans/core/PunishmentService.java:155-162 | the cache is unchanged or the player's entry becomes the records in force; with the store reachable and nothing expired, the latter, with the store untouched; an unreachable store changes nothing |
| Engine.UpdateCache | core/src/plugin/java/com/pluginbans/core/PunishmentService.java:164-178 | the snapshot is reloaded and, when there was one before, the changes are reported |
| Engine.Poll | core/src/plugin/java/com/pluginbans/core/PunishmentService.java:148-153 | `updateCache` runs for every tracked player; with the store reachable and nothing expired, the events are the per-player differences against the snapshots cached before, in polling order |
| Engine.PollReportsDiffs | core/src/plugin/java/com/pluginbans/core/PunishmentService.java:148-193 | polling distinct players reports, for each cached one in turn, the changes between its snapshot and its records in force, and writes nothing |
| Engine.PollCachesAll | core/src/plugin/java/com/pluginbans/core/PunishmentService.java:148-178 | with the store reachable and nothing expired, a poll caches every player and changes nothing in the store |
| Engine.Create | core/src/plugin/java/com/pluginbans/core/PunishmentService.java:60-66 | the record is stored, the player's snapshot reloaded, and every listener told; a failed write tells no one |
| Engine.CreateCaches | core/src/plugin/java/com/pluginbans/core/PunishmentService.java:60-66 | a created record in force is in the player's cached snapshot afterwards |
| Engine.Remove | core/src/plugin/java/com/pluginbans/core/PunishmentService.java:68-80 | an unknown id completes quietly; a known one is deactivated with one history entry carrying the caller's actor, reason and action (then only expiry entries), the snapshot reloaded and every listener told |
| Engine.RemoveUncaches | core/src/plugin/java/com/pluginbans/core/PunishmentService.java:68-80 | after a lift, the player's cached snapshot no longer holds the record |
| Messages.ApplyPlaceholders | bukkit/src/plugin/java/com/pluginbans/paper/MessageService.java:26-32 | with no entries the template comes back unchanged |
| Messages.ApplyAppend | bukkit/src/plugin/java/com/pluginbans/paper/MessageService.java:26-32 | applying two entry lists one after the other is applying their concatenation |
| Messages.ApplyAbsentKeys | bukkit/src/plugin/java/com/pluginbans/paper/MessageService.java:26-32 | a template mentioning none of the keys comes back unchanged |
| Messages.ReplaceShowsValue | bukkit/src/plugin/java/com/pluginbans/paper/MessageService.java:26-32 | where the target occurs, its replacement shows up in the result |
| Messages.WithIdLine | bukkit/src/plugin/java/com/pluginbans/paper/PaperPunishmentService.java:198-203 | the rendered text as it is when the template asks for `%id%`; otherwise the id line is added |
| Messages.NoticeShowsId | bukkit/src/plugin/java/com/pluginbans/paper/PunishmentListener.java:191-196 | a notice shows the punishment id whenever the template has no `%id%`, or its `%id%` survives the other placeholders |
| Messages.Format | bukkit/src/plugin/java/com/pluginbans/paper/MessageService.java:22-24 | the prefix goes in front of every message |
| PaperService.IssuedKind | bukkit/src/plugin/java/com/pluginbans/paper/PaperPunishmentService.java:56-59 | a BAN with a positive duration is stored as a TEMPBAN; every other request keeps its kind |
| PaperService.IssuePunishment | bukkit/src/plugin/java/com/pluginbans/paper/PaperPunishmentService.java:55-85 | an unknown type name fails; otherwise an active record of that player with an id of the right category and an end exactly for a positive duration |
| PaperService.TypeNameIgnoresCase | bukkit/src/plugin/java/com/pluginbans/paper/PaperPunishmentService.java:56 | exactly the spellings equal to a kind's name ignoring case are accepted |
| PaperService.IssuedIdTellsCategory | bukkit/src/plugin/java/com/pluginbans/paper/PaperPunishmentService.java:61-62 | the id tells the category: NNR for a hidden reason, NV for permanent, TM for temporary |
| PaperService.GeneratedCategory | core/src/plugin/java/com/pluginbans/core/PunishmentIdGenerator.java:12-18 | an id starts with `PBRB-NNR-` or `PBRB-NV-` exactly when that is its category |
| PaperService.IssueAndCreate | bukkit/src/plugin/java/com/pluginbans/paper/PaperPunishmentService.java:55-85 | the built record goes to the engine unchanged |
| PaperService.BroadcastUnlessSilent | bukkit/src/plugin/java/com/pluginbans/paper/PaperPunishmentService.java:138-158 | a silent record is not announced |
| PaperService.OnCreate | bukkit/src/plugin/java/com/pluginbans/paper/PaperPunishmentService.java:112-136 | nothing without a check manager; otherwise an announcement exactly for a non-silent record, a kick exactly for a login-blocking kind, a notice to the player exactly for a mute, a check session exactly for a check |
| PaperService.Audience | bukkit/src/plugin/java/com/pluginbans/paper/PaperPunishmentService.java:138-158 | only online players allowed to receive notifications |
| PaperService.SilentNeverAnnounced | bukkit/src/plugin/java/com/pluginbans/paper/PaperPunishmentService.java:138-158 | a silent record reaches nobody, and any other reaches every staff member online |
| Checks.NewSession | bukkit/src/plugin/java/com/pluginbans/paper/CheckSession.java:15-20 | a running session with the given end: no total for an untimed check, at least one second and the whole remaining time for a timed one |
| Checks.StartCheck | bukkit/src/plugin/java/com/pluginbans/paper/CheckManager.java:28-38 | an offline player gets no session; otherwise a fresh one replaces any earlier one |
| Checks.StopCheck | bukkit/src/plugin/java/com/pluginbans/paper/CheckManager.java:40-45 | the player's session is gone; the others stay |
| Checks.SetPausedFor | bukkit/src/plugin/java/com/pluginbans/paper/CheckManager.java:51-64 | only an existing session changes, and only its flag |
| Checks.PauseResume | bukkit/src/plugin/java/com/pluginbans/paper/CheckManager.java:51-64 | a pause followed by a resume gives back the session as started |
| Checks.Tick | bukkit/src/plugin/java/com/pluginbans/paper/CheckManager.java:66-78 | exactly the timed-out sessions are removed and listed, each once; the others are kept unchanged |
| Checks.TickKeeps | bukkit/src/plugin/java/com/pluginbans/paper/CheckManager.java:66-78 | a paused session or one without an end survives; a running one survives exactly while its end is in the future |
| Checks.Remaining | bukkit/src/plugin/java/com/pluginbans/paper/CheckManager.java:80-97 | the seconds left, never negative |
| Checks.RemainingWithinTotal | bukkit/src/plugin/java/com/pluginbans/paper/CheckManager.java:80-97 | the remaining time never exceeds the session's total while the clock does not go back |
| Checks.BossBarTitle | bukkit/src/plugin/java/com/pluginbans/paper/CheckManager.java:80-97 | the title shows a pause or the remaining time |
| Checks.TimeoutBanIssued | bukkit/src/plugin/java/com/pluginbans/paper/CheckManager.java:99-111 | a timed-out check always gives a ban: temporary for a positive configured duration, permanent otherwise |
| LoginGate.FirstBlocking | bukkit/src/plugin/java/com/pluginbans/paper/PunishmentListener.java:38-66 | the first record of kind BAN, TEMPBAN, IPBAN or WARN |
| LoginGate.PreLogin | bukkit/src/plugin/java/com/pluginbans/paper/PunishmentListener.java:38-66 | with unique ids, the refusal shows the first blocking record among the player's records in force followed by the address's and its hash's; a login let in has no blocking record in force for the player, the address or the hash |
| LoginGate.ConnectionListsAll | bukkit/src/plugin/java/com/pluginbans/paper/PunishmentListener.java:38-66 | every record in force for the player, the address or its hash is among the candidates |
| LoginGate.ConnectionListsExactly | bukkit/src/plugin/java/com/pluginbans/paper/PunishmentListener.java:110-128 | the records looked up for a connection are exactly the rows in force for the player, the address or its hash |
| LoginGate.JoinDecision | bukkit/src/plugin/java/com/pluginbans/paper/PunishmentListener.java:129-158 | kick exactly when some record blocks, for the first blocking one; otherwise start a check exactly when some record is a check, with the first check's end time; otherwise nothing |
| LoginGate.JoinRuleHolds | bukkit/src/plugin/java/com/pluginbans/paper/PunishmentListener.java:110-158 | on a connection's records: a kick exactly when a row in force for the player, the address or its hash blocks, showing the first blocking one of the player's, then the address's, then the hash's records; otherwise the first check's session; nothing only when no such row blocks or is a check |
| LoginGate.Join | bukkit/src/plugin/java/com/pluginbans/paper/PunishmentListener.java:110-159 | the player is tracked; with unique ids, the action is the join rule on the player's, the address's and the hash's records in force: a blocking record kicks, showing the first one, otherwise the first check starts a session ending when that record ends |
| LoginGate.JoinKicksWhomPreLoginRefuses | bukkit/src/plugin/java/com/pluginbans/paper/PunishmentListener.java:38-158 | on the same store, the join kicks exactly the player the pre-login check refuses, for the record the refusal shows |
| LoginGate.SnapshotKind | core/src/plugin/java/com/pluginbans/core/ActivePunishment.java:13-19 | a snapshot of the player's records has a kind exactly when the store has one in force |
| LoginGate.Chat | bukkit/src/plugin/java/com/pluginbans/paper/PunishmentListener.java:69-97 | a player under check never chats; an AnyDesk code pauses the check; otherwise a mute in force holds the message back |
| LoginGate.Command | bukkit/src/plugin/java/com/pluginbans/paper/PunishmentListener.java:162-176 | a command is blocked exactly when command blocking is on and a mute is in force |
| LoginGate.Quit | bukkit/src/plugin/java/com/pluginbans/paper/PunishmentListener.java:179-182 | the check ends and the player is no longer tracked or cached |
| LoginGate.JoinThenQuit | bukkit/src/plugin/java/com/pluginbans/paper/PunishmentListener.java:110-182 | joining then quitting leaves no check and no tracking, whatever the lookups found |
| CommandArgs.JoinFrom | bukkit/src/plugin/java/com/pluginbans/paper/StandardPunishCommand.java:112-121 | empty when `start` is past the end; otherwise it begins with the argument at `start` |
| CommandArgs.JoinFromRoundTrip | bukkit/src/plugin/java/com/pluginbans/paper/StandardPunishCommand.java:112-121 | splitting the joined reason on spaces gives the arguments back |
| CommandArgs.TrimmedJoin | bukkit/src/plugin/java/com/pluginbans/paper/UnpunishCommand.java:69-78 | the builder loop, trimmed, is the trimmed space-separated join |
| CommandArgs.TrimmedJoinsAgree | bukkit/src/plugin/java/com/pluginbans/paper/CustomPunishCommand.java:253-266 | after trimming, the two join loops agree |
| CommandArgs.HasFlag | bukkit/src/plugin/java/com/pluginbans/paper/CustomPunishCommand.java:244-251 | some argument equals the flag, ignoring case |
| CommandArgs.FlagsNeverInReason | bukkit/src/plugin/java/com/pluginbans/paper/CustomPunishCommand.java:253-266 | no flag reaches the reason text |
| StandardPunish.Prepare | bukkit/src/plugin/java/com/pluginbans/paper/StandardPunishCommand.java:40-76 | the checks in source order: permission, argument count, player, duration, reason |
| StandardPunish.WarnNeedsNoDuration | bukkit/src/plugin/java/com/pluginbans/paper/StandardPunishCommand.java:56-59 | a warning's second argument is reason text, not a duration |
| StandardPunish.Issue | bukkit/src/plugin/java/com/pluginbans/paper/StandardPunishCommand.java:78-98 | an existing punishment of the same type stops the command; otherwise the record is issued |
| StandardPunish.OnCommand | bukkit/src/plugin/java/com/pluginbans/paper/StandardPunishCommand.java:40-100 | a record is issued only when the permission, argument, player, duration, reason and duplicate checks all pass, with the parsed duration and trimmed reason |
| StandardPunish.KickFollowsBans | bukkit/src/plugin/java/com/pluginbans/paper/StandardPunishCommand.java:102-110 | a kick follows exactly the ban commands |
| StandardPunish.AutoIpBan | bukkit/src/plugin/java/com/pluginbans/paper/StandardPunishCommand.java:89-96 | a third active warning with a known address brings a permanent IP ban |
| StandardPunish.AutoIpBanPermanent | bukkit/src/plugin/java/com/pluginbans/paper/StandardPunishCommand.java:92 | the automatic IP ban never ends |
| Unpunish.NormalizeId | bukkit/src/plugin/java/com/pluginbans/paper/UnpunishCommand.java:21-58 | never longer than the input, and empty exactly when the input is all blanks |
| Unpunish.TypedIdFindsGenerated | bukkit/src/plugin/java/com/pluginbans/paper/UnpunishCommand.java:21-58 | every generated id is found again when typed in lower case |
| Unpunish.Reason | bukkit/src/plugin/java/com/pluginbans/paper/UnpunishCommand.java:21-58 | the joined arguments after the id, or the default reason |
| Unpunish.OnCommand | bukkit/src/plugin/java/com/pluginbans/paper/UnpunishCommand.java:21-58 | each refusal (permission, usage, store failure, unknown id, already lifted) changes nothing; otherwise the record is lifted under the sender's name and every listener told |
| Unpunish.UnpunishTwice | bukkit/src/plugin/java/com/pluginbans/paper/UnpunishCommand.java:21-58 | the same command a second time changes nothing |
| CustomPunish.RouteOf | bukkit/src/plugin/java/com/pluginbans/paper/CustomPunishCommand.java:52-71 | the dispatch on the argument count |
| CustomPunish.IssueManual | bukkit/src/plugin/java/com/pluginbans/paper/CustomPunishCommand.java:106-155 | the checks in source order, then the issue of the request |
| CustomPunish.WellFormedRequestBuilds | bukkit/src/plugin/java/com/pluginbans/paper/CustomPunishCommand.java:106-155 | a request the command accepts is one the Paper service builds |
| CustomPunish.ReadBoolean | bukkit/src/plugin/java/com/pluginbans/paper/CustomPunishCommand.java:431-439 | a boolean as it is, null as false, anything else by `parseBoolean` of its text |
| CustomPunish.ReadBooleanText | bukkit/src/plugin/java/com/pluginbans/paper/CustomPunishCommand.java:431-439 | a boolean written as text reads back as itself, in any case |
| CustomPunish.ReadStringList | bukkit/src/plugin/java/com/pluginbans/paper/CustomPunishCommand.java:418-429 | nothing for a value that is not a list; never more items than the list |
| JavaNumbers.DoubleToLong | bukkit/src/plugin/java/com/pluginbans/paper/CustomPunishCommand.java:330-331 | a floating-point number narrows to the whole number next to it toward zero, clamped to the `long` range |
| CustomPunish.LongValue | bukkit/src/plugin/java/com/pluginbans/paper/CustomPunishCommand.java:330-331 | `longValue()` of any YAML number is a `long`: a whole number keeps its value in range and its low 64 bits beyond, a floating-point one is narrowed toward zero |
| CustomPunish.ConfiguredDuration | bukkit/src/plugin/java/com/pluginbans/paper/CustomPunishCommand.java:328-346 | a numeric `duration-seconds` first, as its `longValue()` (a fraction is cut toward zero, a huge integer wraps), then the duration text (-1 when it does not parse), then the warn default |
| CustomPunish.SmallFractionReadsZero | bukkit/src/plugin/java/com/pluginbans/paper/CustomPunishCommand.java:305-309 | a `duration-seconds` fraction between -1 and 1 reads as 0 seconds, so a negative one passes the negative-duration check |
| CustomPunish.SmallFractionEntryPermanent | bukkit/src/plugin/java/com/pluginbans/paper/CustomPunishCommand.java:305-313 | a menu entry whose `duration-seconds` is a fraction between -1 and 1 is loaded, if at all, with 0 seconds and never as a TEMPBAN |
| CustomPunish.ConfiguredDurationFloor | bukkit/src/plugin/java/com/pluginbans/paper/CustomPunishCommand.java:328-346 | for an entry whose `duration-seconds` is not a number and a warn default that is not negative, the duration never goes below -1, and -1 means exactly that the `duration` text did not parse |
| CustomPunish.ParseMenuPunishment | bukkit/src/plugin/java/com/pluginbans/paper/CustomPunishCommand.java:292-326 | an entry without type or reason, or with an unknown type, is skipped; a kept entry has a non-negative duration, a positive one for a temporary ban and an allowed reason for a warning |
| CustomPunish.LoadMenuPunishments | bukkit/src/plugin/java/com/pluginbans/paper/CustomPunishCommand.java:276-290 | at most one entry per option slot: the first valid ones, in configuration order |
| CustomPunish.ValidEntriesParsed | bukkit/src/plugin/java/com/pluginbans/paper/CustomPunishCommand.java:276-326 | every loaded entry is the parse of a configured one |
| CustomPunish.Layout | bukkit/src/plugin/java/com/pluginbans/paper/CustomPunishCommand.java:176-206 | the i-th entry goes to the i-th option slot |
| CustomPunish.ClickReachesEntry | bukkit/src/plugin/java/com/pluginbans/paper/CustomPunishCommand.java:74-97 | a click on an option slot issues that slot's entry, and every entry is reachable by its slot |
| CustomPunish.IssueFromMenu | bukkit/src/plugin/java/com/pluginbans/paper/CustomPunishCommand.java:208-220 | the entry as configured, once the address and warn reason are checked again |
| CustomPunish.MenuIssueWellFormed | bukkit/src/plugin/java/com/pluginbans/paper/CustomPunishCommand.java:208-232 | a menu never issues a temporary ban without a duration, or a negative duration |
| ForumApi.ExtractSegments | bukkit/src/plugin/java/com/pluginbans/paper/ForumApiServer.java:335-358 | nothing outside the prefix; otherwise the non-blank pieces between slashes, each decoded, or a failure when one cannot be |
| ForumApi.PathRoundTrip | bukkit/src/plugin/java/com/pluginbans/paper/ForumApiServer.java:335-358 | cutting a path built from segments gives the segments back, decoded |
| ForumApi.IsAuthorized | bukkit/src/plugin/java/com/pluginbans/paper/ForumApiServer.java:360-375 | nobody without a configured token; otherwise exactly the header token or the bearer token |
| ForumApi.BearerClientAdmitted | bukkit/src/plugin/java/com/pluginbans/paper/ForumApiServer.java:360-375 | a client sending the token as a bearer token is let in |
| ForumApi.BearerSchemeCaseSensitive | bukkit/src/plugin/java/com/pluginbans/paper/ForumApiServer.java:369 | a lower-case `bearer` is refused |
| ForumApi.EmptyBearerRefused | bukkit/src/plugin/java/com/pluginbans/paper/ForumApiServer.java:369-374 | a bearer header with only spaces after the scheme never lets a client in |
| ForumApi.RouteOf | bukkit/src/plugin/java/com/pluginbans/paper/ForumApiServer.java:57-102 | preflight first, then authorisation, then the routes in order |
| ForumApi.Dispatch | bukkit/src/plugin/java/com/pluginbans/paper/ForumApiServer.java:57-102 | the path is cut only after authorisation; a segment that cannot be decoded ends in a server error |
| ForumApi.OutsidePrefixNotFound | bukkit/src/plugin/java/com/pluginbans/paper/ForumApiServer.java:66-101 | no path outside the prefix reaches a handler |
| ForumApi.RevokePathRoutes | bukkit/src/plugin/java/com/pluginbans/paper/ForumApiServer.java:85-88 | a revoke path reaches the revoke handler with the decoded id |
| ForumApi.PrefixHasNoBoundary | bukkit/src/plugin/java/com/pluginbans/paper/ForumApiServer.java:336-338 | `/api/v1health` is the health route |
| ForumApi.ResolveDurationSeconds | bukkit/src/plugin/java/com/pluginbans/paper/ForumApiServer.java:280-294 | explicit seconds first, then the duration text, then the configured warning length, else permanent |
| ForumApi.ExplicitSecondsWin | bukkit/src/plugin/java/com/pluginbans/paper/ForumApiServer.java:280-294 | once seconds are given, nothing else matters |
| ForumApi.DurationMessage | bukkit/src/plugin/java/com/pluginbans/paper/ForumApiServer.java:131-136 | `For input string: "…"` exactly when a digit group is beyond `Long.MAX_VALUE`, and the format error otherwise |
| ForumApi.OverlongDurationReported | bukkit/src/plugin/java/com/pluginbans/paper/ForumApiServer.java:131-136 | an overlong digit group is refused with the `NumberFormatException` message naming that group |
| ForumApi.InvalidWarnReasonDistinct | bukkit/src/plugin/java/com/pluginbans/paper/ForumApiServer.java:104-188 | the warning-reason refusal is told apart from the other refusals |
| ForumApi.Create | bukkit/src/plugin/java/com/pluginbans/paper/ForumApiServer.java:104-188 | the checks in source order, each with its status, then the issue |
| ForumApi.EmptyBodyRefused | bukkit/src/plugin/java/com/pluginbans/paper/ForumApiServer.java:104-188 | an empty body is refused for its missing fields |
| ForumApi.CreatedRecord | bukkit/src/plugin/java/com/pluginbans/paper/ForumApiServer.java:104-188 | what the API issues is an active record of the resolved player with the request's fields |
| ForumApi.TempBanWithoutDurationNeverEnds | bukkit/src/plugin/java/com/pluginbans/paper/ForumApiServer.java:280-294 | a temporary ban without a duration is accepted and never ends |
| ForumApi.PlainWarnReasons | bukkit/src/plugin/java/com/pluginbans/paper/ForumApiServer.java:392-402 | the allowed reasons numbered from 1, separated by a spaced vertical bar |
| ForumApi.PlainWarnReasonsShape | bukkit/src/plugin/java/com/pluginbans/paper/ForumApiServer.java:392-402 | one reason reads `1) <reason>`; each further one adds a separator and its number |
| ForumApi.LookUpPunishment | bukkit/src/plugin/java/com/pluginbans/paper/ForumApiServer.java:190-203 | the id is upper-cased before the lookup; an unknown id is 404 |
| ForumApi.GeneratedIdAnyCase | bukkit/src/plugin/java/com/pluginbans/paper/ForumApiServer.java:190-203 | a generated id is found in either case |
| ForumApi.Revoke | bukkit/src/plugin/java/com/pluginbans/paper/ForumApiServer.java:205-226 | an unknown id is 404 without any change; otherwise the record is lifted |
| ForumApi.EmptyRevokeUsesDefaults | bukkit/src/plugin/java/com/pluginbans/paper/ForumApiServer.java:205-226 | an empty body lifts under the default actor and reason |
| ForumApi.RevokeIgnoresActiveFlag | bukkit/src/plugin/java/com/pluginbans/paper/ForumApiServer.java:205-226 | a record lifted before is lifted again |
| ForumApi.PlayerActiveReply | bukkit/src/plugin/java/com/pluginbans/paper/ForumApiServer.java:228-252 | an unknown player is 404; otherwise the player's records in force |
| ForumApi.PlayerHistoryReply | bukkit/src/plugin/java/com/pluginbans/paper/ForumApiServer.java:254-278 | an unknown player is 404; otherwise the player's history, most recent first |
| ForumApi.PlayerNameDecodedTwice | bukkit/src/plugin/java/com/pluginbans/paper/ForumApiServer.java:234 | a name segment is decoded twice on its way to the lookup |
| PaperConfig.PollSeconds | bukkit/src/plugin/java/com/pluginbans/paper/PluginBansPaper.java:89 | two seconds when absent, at least one, and the service's second clamp changes nothing |
| PaperConfig.Kept | bukkit/src/plugin/java/com/pluginbans/paper/PluginBansPaper.java:202-210 | no more entries than the source, each trimmed and non-empty |
| PaperConfig.KeptMembers | bukkit/src/plugin/java/com/pluginbans/paper/PluginBansPaper.java:202-210 | a text is kept exactly when some non-null entry trims to it and it is non-empty |
| PaperConfig.KeptBlank | bukkit/src/plugin/java/com/pluginbans/paper/PluginBansPaper.java:203-208 | null and whitespace-only entries contribute nothing |
| PaperConfig.SanitizeList | bukkit/src/plugin/java/com/pluginbans/paper/PluginBansPaper.java:199-215 | the clean configured entries; the fallback when none survives |
| PaperConfig.KeptAppend | bukkit/src/plugin/java/com/pluginbans/paper/PluginBansPaper.java:202-210 | the sanitiser keeps order: it works entry by entry |
| PaperConfig.SanitizeIdempotent | bukkit/src/plugin/java/com/pluginbans/paper/PluginBansPaper.java:199-215 | sanitising a sanitised list changes nothing |
| PaperConfig.DefaultsClean | bukkit/src/plugin/java/com/pluginbans/paper/PluginBansPaper.java:90-97 | the built-in fallbacks are clean |
| PaperConfig.BlankListFallsBack | bukkit/src/plugin/java/com/pluginbans/paper/PluginBansPaper.java:211-213 | a list of blank entries falls back, as does a missing one |
| SyncPayload.Utf16RoundTrip | bukkit/src/plugin/java/com/pluginbans/paper/VelocityMessenger.java:31-41 | a string's UTF-16 units read back as the string |
| SyncPayload.WriteUtf | bukkit/src/plugin/java/com/pluginbans/paper/VelocityMessenger.java:35-37 | a two-byte length and the modified UTF-8 body; a body over 65535 bytes fails |
| SyncPayload.ReadWriteUtf | bungee/src/plugin/java/com/pluginbans/velocity/PluginBansVelocity.java:83-87 | `readUTF` gives back what `writeUTF` wrote, and the bytes after it |
| SyncPayload.BuildPayload | bukkit/src/plugin/java/com/pluginbans/paper/VelocityMessenger.java:31-41 | three `writeUTF` frames: the tag, the player's uuid, then the punishment id; it fails when one is too long |
| SyncPayload.TagFrame | bukkit/src/plugin/java/com/pluginbans/paper/VelocityMessenger.java:36 | the tag's frame is 2 + 18 bytes |
| SyncPayload.OnPluginMessage | bungee/src/plugin/java/com/pluginbans/velocity/PluginBansVelocity.java:77-95 | another channel is ignored; a bad payload fails; the tag leads to a recheck of the uuid |
| SyncPayload.PayloadRoundTrip | bungee/src/plugin/java/com/pluginbans/velocity/PluginBansVelocity.java:77-95 | a built payload leads to a recheck of exactly the record's uuid |
| SyncPayload.OtherTagIgnored | bungee/src/plugin/java/com/pluginbans/velocity/PluginBansVelocity.java:84-86 | any other tag is ignored |
| SyncPayload.SendPunishment | bukkit/src/plugin/java/com/pluginbans/paper/VelocityMessenger.java:21-29 | no players, no messages; otherwise the same payload through each player, in order |
| SyncPayload.EveryPlayerSameUuid | bukkit/src/plugin/java/com/pluginbans/paper/VelocityMessenger.java:21-29 | every message carries the record's uuid |
| ProxyGate.FilterExpired | bungee/src/plugin/java/com/pluginbans/velocity/VelocityPunishmentService.java:53-68 | exactly the live records are kept, and exactly the ids of the lapsed ones are deactivated |
| ProxyGate.GetActive | bungee/src/plugin/java/com/pluginbans/velocity/VelocityPunishmentService.java:40-51 | exactly the candidates of the player or the address that block login now |
| ProxyGate.HeadIsFirstBlocking | bungee/src/plugin/java/com/pluginbans/velocity/VelocityPunishmentService.java:25-51 | the first record of the filtered list is the first blocking candidate |
| ProxyGate.DenialEntries | bungee/src/plugin/java/com/pluginbans/velocity/VelocityPunishmentService.java:29-35 | three placeholders with the shown reason, the formatted duration and the id, in the map's order |
| ProxyGate.BuildDenial | bungee/src/plugin/java/com/pluginbans/velocity/VelocityPunishmentService.java:25-38 | a screen exactly when a record blocks, formatted for the first one |
| ProxyGate.UuidRecordsFirst | bungee/src/plugin/java/com/pluginbans/velocity/VelocityPunishmentService.java:41-44 | a blocking record of the player wins over one of the address |
| ProxyGate.LapsedAndNonBansLetIn | bungee/src/plugin/java/com/pluginbans/velocity/VelocityPunishmentService.java:45-68 | lapsed records and mutes or warnings never keep a player out |
| ProxyGate.OnPreLogin | bungee/src/plugin/java/com/pluginbans/velocity/PluginBansVelocity.java:67-75 | the login is refused exactly when some candidate blocks |
| ProxyGate.OnSyncMessage | bungee/src/plugin/java/com/pluginbans/velocity/PluginBansVelocity.java:77-95 | an online player under a blocking record is disconnected with the denial screen |
| ProxyGate.ReportedBanDisconnects | bungee/src/plugin/java/com/pluginbans/velocity/PluginBansVelocity.java:77-95 | a reported record's player is disconnected exactly when online and blocked |
| ConnectionThrottle.New | bungee/src/plugin/java/com/pluginbans/velocity/ConnectionThrottle.java:14-17 | both limits are at least 1 |
| ConnectionThrottle.Prune | bungee/src/plugin/java/com/pluginbans/velocity/ConnectionThrottle.java:23-25 | a suffix of the queue; only entries older than the window are dropped |
| ConnectionThrottle.Step | bungee/src/plugin/java/com/pluginbans/velocity/ConnectionThrottle.java:23-30 | an attempt is admitted exactly when fewer than the maximum remain; only an admitted one is recorded |
| ConnectionThrottle.TryAcquire | bungee/src/plugin/java/com/pluginbans/velocity/ConnectionThrottle.java:19-32 | other addresses are untouched, and every queue stays within the maximum |
| ConnectionThrottle.RunQueue | bungee/src/plugin/java/com/pluginbans/velocity/ConnectionThrottle.java:19-32 | over a run of attempts, the queue holds exactly the admitted attempts still inside the window |
| ConnectionThrottle.WindowNeverExceeded | bungee/src/plugin/java/com/pluginbans/velocity/ConnectionThrottle.java:19-32 | no window ever admits more than the maximum |
| ConnectionThrottle.FullWindowRefuses | bungee/src/plugin/java/com/pluginbans/velocity/ConnectionThrottle.java:26-28 | a full window refuses the next attempt |
| TomlConfig.StripQuotes | bungee/src/plugin/java/com/pluginbans/velocity/VelocityConfigLoader.java:133-142 | the trimmed text with one surrounding quote pair removed when there are two characters to remove |
| TomlConfig.StripQuotesRoundTrip | bungee/src/plugin/java/com/pluginbans/velocity/VelocityConfigLoader.java:133-142 | a quoted text reads back as itself; a lone quote is kept |
| TomlConfig.FindKey | bungee/src/plugin/java/com/pluginbans/velocity/VelocityConfigLoader.java:87-90 | the first line that sets the key, or none when no line does |
| TomlConfig.ParseString | bungee/src/plugin/java/com/pluginbans/velocity/VelocityConfigLoader.java:86-95 | the unquoted value of the first line that sets the key, or the fallback |
| TomlConfig.ParseInt | bungee/src/plugin/java/com/pluginbans/velocity/VelocityConfigLoader.java:97-107 | the value as an `int`, or the fallback for a missing key or text that is not an `int` |
| TomlConfig.StringSettingRoundTrip | bungee/src/plugin/java/com/pluginbans/velocity/VelocityConfigLoader.java:86-95 | a written `key = "value"` line reads back as the value |
| TomlConfig.IntSettingRoundTrip | bungee/src/plugin/java/com/pluginbans/velocity/VelocityConfigLoader.java:97-107 | a written `key = n` line reads back as n |
| TomlConfig.SpaceBeforeEqualsRequired | bungee/src/plugin/java/com/pluginbans/velocity/VelocityConfigLoader.java:89 | `key=value` without a space is not a setting of the key |
| TomlConfig.Items | bungee/src/plugin/java/com/pluginbans/velocity/VelocityConfigLoader.java:120-127 | exactly the non-blank items, trimmed and unquoted |
| TomlConfig.Brackets | bungee/src/plugin/java/com/pluginbans/velocity/VelocityConfigLoader.java:113-118 | the text between the first `[` and the last `]`, or nothing when they are missing or out of order |
| TomlConfig.ParseList | bungee/src/plugin/java/com/pluginbans/velocity/VelocityConfigLoader.java:109-131 | the items of the first line that sets the key; nothing for a missing key or misplaced brackets |
| TomlConfig.ListRoundTrip | bungee/src/plugin/java/com/pluginbans/velocity/VelocityConfigLoader.java:109-131 | a written list of non-blank, comma-free items reads back as the items |
| TomlConfig.LobbyServers | bungee/src/plugin/java/com/pluginbans/velocity/VelocityConfigLoader.java:49 | the configured lobbies, or `lobby` and `hub` when none are configured |
| TomlConfig.TypeName | bungee/src/plugin/java/com/pluginbans/velocity/VelocityConfigLoader.java:28 | `SQLITE` when the key is missing; otherwise the configured text, up to case |
| TomlConfig.LoadDatabase | bungee/src/plugin/java/com/pluginbans/velocity/VelocityConfigLoader.java:27-46 | every unset database key takes its default; a set type name is the configured one up to case |
| TomlConfig.LoadThrottle | bungee/src/plugin/java/com/pluginbans/velocity/VelocityConfigLoader.java:35-36 | an unset connection limit is 5 and an unset window is 10 seconds |
| TomlConfig.Load | bungee/src/plugin/java/com/pluginbans/velocity/VelocityConfigLoader.java:17-57 | the database part is the one above; the lobby list is never empty and never holds a blank name, and is the default pair when unset; unset throttle numbers are 5 and 10 |
| TomlConfig.EmptyFileLoadsDefaults | bungee/src/plugin/java/com/pluginbans/velocity/VelocityConfig.java:16-24 | a file without settings loads as the defaults |
| Gateway.ReadSetting | python-gateway/app.py:40-47 | a non-blank environment value wins, stripped; else the file's value, stripped; else the default |
| Gateway.ReadBoolSetting | python-gateway/app.py:66-68 | true exactly for `1`, `true`, `yes` or `on`, in any case |
| Gateway.BoolDefaultKept | python-gateway/app.py:66-68 | with nothing set, a flag keeps its default |
| Gateway.BlankEnvFallsThrough | python-gateway/app.py:40-47 | a blank environment value does not hide the file's value |
| Gateway.SpacedUpperCaseIsTrue | python-gateway/app.py:66-68 | ` YES ` reads as true |
| Gateway.OtherTextIsFalse | python-gateway/app.py:66-68 | `enabled` reads as false, even with a true default |
| Gateway.StripTrailingSlashes | python-gateway/app.py:71 | every trailing slash is removed, and nothing else |
| Gateway.StripSlashesStable | python-gateway/app.py:71 | stripping is idempotent, and added slashes change nothing |
| Gateway.ExtractToken | python-gateway/app.py:104-113 | a non-empty header token, stripped; else the bearer credentials, stripped; else nothing |
| Gateway.CompareDigest | python-gateway/app.py:118 | equality of two ASCII texts, and the `TypeError` exactly when either holds a character outside ASCII |
| Gateway.AuthorizedIff | python-gateway/app.py:116-119 | authorized exactly when the presented token is non-empty, equals the gateway's and is ASCII; the comparison raises exactly when a token is presented and either token is not ASCII |
| Gateway.NonAsciiTokenFails | python-gateway/app.py:116-119 | a gateway token outside ASCII makes even the right token fail with an error |
| Gateway.TokenRoundTrip | python-gateway/app.py:104-119 | a token sent either way is read back, and a bearer token is admitted |
| Gateway.BlankHeaderShadowsBearer | python-gateway/app.py:105-107 | a whitespace-only header token hides a valid bearer token |
| Gateway.LowerCaseSchemeRefused | python-gateway/app.py:110 | a lower-case `bearer` gives no token |
| Gateway.PostBody | python-gateway/app.py:151-153 | an empty body becomes `{}`; any other is kept |
| Gateway.Forward | python-gateway/app.py:116-169 | a request that is not authorized is never forwarded: 500 exactly when the comparison raises, 401 otherwise; others go to the base address plus the path, with the upstream token and the request's query parameters unchanged |
| Gateway.NoTokenNoUpstream | python-gateway/app.py:116-119 | a request without a token is refused |

## Left out

- Threads, futures and the scheduler. Asynchronous steps run in sequence, and the store is reached through explicit calls.
- JDBC, HikariCP and the schema. The store is a pair of sequences with the same keys. Each repository call fails or succeeds as a whole; the partial writes of a `deactivate` that stops between its SELECT, UPDATE and history INSERT are not modelled.
- The Bukkit, Paper and Velocity runtimes. Permissions, online players and sessions are inputs.
- File I/O: the audit log, JSON export, YAML loading, SQLite path handling, `writeDefault` and the reading of `config.toml` lines.
- HTTP plumbing: the exchange I/O, Gson, `RestServer`, and the proxying done by `httpx`.
- URL decoding. It is a partial function parameter, `None` standing for its exception.
- `UUID.fromString`. It is a parameter.
- The SHA-256 digest. It is a parameter.
- `DatabaseType.valueOf`. The database type stays the upper-cased name; DatabaseType is not part of this model.
- Case mapping. `toUpperCase`, `toLowerCase` and `equalsIgnoreCase` are modelled for ASCII and the Cyrillic block U+0400 to U+045F only.
- Python's `lower()` is modelled the same way.
- `Integer.parseInt` and `Long.parseLong` accept ASCII digits only. Java also accepts other Unicode decimal digits.
- `_read_int_setting` and `_read_float_setting` of the gateway. Python's `int()` and `float()` grammars are not modelled.
- The float request timeout of the gateway is not modelled.
- `Map.of` iteration order is a parameter `order`, a permutation of the three placeholders.
- The iteration orders of the tracked-player map and the check-session map are parameters.
- `normalizeWarnReason` and `canIssueWarnFromExternalActor` are called by the commands and the forum API but are not defined in the `PaperPunishmentService` modelled here. They are parameters.
- The proxy's hidden reason and messages. `VelocityConfig` has no field for them, so they are parameters.
- `onMove`, the boss-bar object and menu item rendering are left out. They are presentation only.
- The null branch of `stripQuotes` is left out. Both callers pass a non-null value once a key line has been found.
- Listener exceptions are not modelled. One throwing listener would stop the others in the source.
- Model.PlusSeconds: the instant is an unbounded integer, so the `ArithmeticException` that `Instant.plusSeconds` throws past its range is not modelled.
- StandardPunish.Prepare: the duration is read with the corrected parser `DurationParser.ParseToSeconds`, so a total beyond `Long.MAX_VALUE` is refused as a bad duration instead of wrapping as `DurationParser.ParseToSecondsAsWritten` does. The two agree on every other input (`DurationParser.AsWrittenAgreesWithoutOverflow`).
- StandardPunish.OnCommand: it inherits the corrected parser from `StandardPunish.Prepare`, with the same single difference.
- CustomPunish.IssueManual: the corrected parser, with the same single difference as `StandardPunish.Prepare`.
- CustomPunish.ConfiguredDuration: the corrected parser, so a menu duration whose total overflows is rejected (logged and read as -1) rather than wrapped.
- ForumApi.ResolveDurationSeconds: the corrected parser, so an overflowing total is a 400 with the format error rather than a wrapped duration. An overlong digit group is modelled as the source has it.
- ForumApi.Create: it inherits the corrected parser from `ForumApi.ResolveDurationSeconds`.
- Engine.ForConnection: the exact merged list is stated for a store whose internal ids are unique, as the table's primary key keeps them. For other stores only membership is stated.
- LoginGate.Join: the action is stated exactly for a store with unique internal ids, as for `LoginGate.PreLogin`. For other stores only the properties of the kicking record are stated.
- LoginGate.PreLogin: the exact blocking record and the converse are stated for a store with unique internal ids. For other stores only the properties of the record shown are stated.
- Engine.Poll: the events are stated exactly when the store is reachable and nothing has expired. Otherwise a reload may write expiry entries or fail, and only the listeners and the cache bounds are stated.
- Repository.FindActiveByUuid: the SELECT has no `ORDER BY`, so the database may return the rows in any order; the model fixes insertion order. The record a login refusal, a proxy denial or `Snapshot.Get` shows is the first in that order.
- Repository.FindActiveByIp: the same unordered SELECT, taken in insertion order.
- Repository.FindActiveByIpHash: the same unordered SELECT, taken in insertion order.
- CustomPunish.LongValue: NaN and the infinities, which YAML can spell `.nan` and `.inf`, are not represented; a floating-point value is its exact finite real value.
- Repository.BuildHistory: one instant stands for the two `Instant.now()` reads that build the history id and the entry's time, which can differ by a millisecond in the source.
- ProxyGate.GetActive: a database failure in either lookup throws out of `join()` and aborts the pre-login handler; the model's lookups on the proxy always answer.
- TomlConfig.LoadDatabase: the database type name is not turned into a `DatabaseType`. An unknown name would throw in the source; the model keeps the name.

## Findings

| source | as written | input that shows it | evidently intended | confidence | as-written member | corrected member |
|---|---|---|---|---|---|---|
| core/src/plugin/java/com/pluginbans/core/DurationParser.java:32-40 | `total += value * unit` wraps around in 64-bit arithmetic, and the `total < 0` guard only catches wraps that land on a negative value | `213503982334602d` is 213503982334602 × 86400 seconds, which wraps to 61184, so about 17 hours are accepted | reject any total beyond `Long.MAX_VALUE` | high (not executed) | DurationExamples.WrapAroundAccepted | DurationParser.AsWrittenAgreesWithoutOverflow |

The corrected `DurationParser.ParseToSeconds` is what the rest of the model uses. The as-written parser is `DurationParser.ParseToSecondsAsWritten`.

## Behaviour worth noting

- **Listener isolation.** Listeners are not isolated from one another's exceptions.
- **Expiry actor and reason.** Only expiry writes to the store on a reload: an expired record is deactivated by the actor `Система` with the reason `Истек срок` and the action `EXPIRE`. A record that vanished from a player's snapshot between polls is not written at all; the listeners are told of its removal with the reason `Снято системой`.
- **Fractional durations.** A floating-point `duration-seconds` in the menu configuration is cut toward zero, so `-0.5` reads as 0. An entry of any kind other than TEMPBAN then becomes permanent instead of being skipped as negative. A TEMPBAN entry is still skipped, but as a zero-length TEMPBAN rather than as a negative duration.
- **Bearer scheme.** The forum API and the gateway compare the `Bearer` scheme case-sensitively.
- **Unauthorized paths.** Unauthorized requests are refused before the path is looked at.
- **Proxy candidates.** The proxy does not de-duplicate the records found by player and by address. A lapsed record found both ways is deactivated twice.
- **Proxy expiry.** The proxy deactivates expired mutes and warnings too, although only bans keep a player out.

=== FILE: checks.dfy ===
/** `CheckSession` and `CheckManager`: the "check" a moderator puts a player
    under. A session per player, optionally with an end time; a paused
    session never times out; a timed-out session ends and the player is
    banned by the system. Which players are online is an input. */
module Checks {
  import opened Wrappers
  import opened JavaText
  import opened Model
  import opened PunishmentIdGenerator
  import opened IpHashing
  import opened DurationFormatter
  import PaperService
  import Engine

  /** `Instant.getEpochSecond`: whole seconds, rounded down (Dafny's division
      by a positive divisor rounds down as well). */
  function EpochSecond(t: Instant): int {
    t / MILLIS_PER_SECOND
  }

  datatype CheckSession = CheckSession(uuid: Uuid, endTime: Option<Instant>, totalSeconds: int, paused: bool)

  /** The `CheckSession` constructor at time `now`. */
  function NewSession(uuid: Uuid, endTime: Option<Instant>, now: Instant): (s: CheckSession)
    ensures s.uuid == uuid && s.endTime == endTime && !s.paused
    ensures endTime.None? <==> s.totalSeconds == 0
    ensures endTime.Some? ==>
      && s.totalSeconds >= 1
      && s.totalSeconds >= EpochSecond(endTime.value) - EpochSecond(now)
      && (s.totalSeconds == 1 || s.totalSeconds == EpochSecond(endTime.value) - EpochSecond(now))
  {
    var total := if endTime.None? then 0
      else if EpochSecond(endTime.value) - EpochSecond(now) < 1 then 1
      else EpochSecond(endTime.value) - EpochSecond(now);
    CheckSession(uuid, endTime, total, false)
  }

  /** Two sessions that differ at most in the paused flag. */
  predicate SameButPaused(a: CheckSession, b: CheckSession) {
    a.uuid == b.uuid && a.endTime == b.endTime && a.totalSeconds == b.totalSeconds
  }

  /** `setPaused`. */
  function SetPaused(s: CheckSession, paused: bool): (r: CheckSession)
    ensures r.paused == paused && SameButPaused(r, s)
  {
    s.(paused := paused)
  }

  /** The manager's map from player to session. */
  type Sessions = map<Uuid, CheckSession>

  /** Every session is filed under its own player. */
  predicate WellKeyed(sessions: Sessions) {
    forall u :: u in sessions ==> sessions[u].uuid == u
  }

  predicate IsInCheck(sessions: Sessions, uuid: Uuid) {
    uuid in sessions
  }

  /** `startCheck`: an offline player gets no session; otherwise a fresh one
      replaces any earlier session of that player. */
  function StartCheck(sessions: Sessions, online: set<Uuid>, uuid: Uuid, endTime: Option<Instant>,
                      now: Instant): (r: Sessions)
    ensures uuid !in online ==> r == sessions
    ensures uuid in online ==> r.Keys == sessions.Keys + {uuid} && r[uuid] == NewSession(uuid, endTime, now)
    ensures forall u :: u in sessions && u != uuid ==> u in r && r[u] == sessions[u]
    ensures WellKeyed(sessions) ==> WellKeyed(r)
  {
    if uuid !in online then sessions else sessions[uuid := NewSession(uuid, endTime, now)]
  }

  /** `stopCheck`. */
  function StopCheck(sessions: Sessions, uuid: Uuid): (r: Sessions)
    ensures !IsInCheck(r, uuid)
    ensures forall u :: u != uuid ==> (u in r <==> u in sessions)
    ensures forall u :: u in r ==> r[u] == sessions[u]
    ensures WellKeyed(sessions) ==> WellKeyed(r)
  {
    sessions - {uuid}
  }

  /** `pause` and `resume`: only an existing session, and only its flag. */
  function SetPausedFor(sessions: Sessions, uuid: Uuid, paused: bool): (r: Sessions)
    ensures r.Keys == sessions.Keys
    ensures uuid in r ==> r[uuid].paused == paused && SameButPaused(r[uuid], sessions[uuid])
    ensures forall u :: u in r && u != uuid ==> r[u] == sessions[u]
    ensures WellKeyed(sessions) ==> WellKeyed(r)
  {
    if uuid in sessions then sessions[uuid := SetPaused(sessions[uuid], paused)] else sessions
  }

  /** A pause followed by a resume gives back the session as it was started. */
  lemma PauseResume(sessions: Sessions, online: set<Uuid>, uuid: Uuid, endTime: Option<Instant>, now: Instant)
    requires uuid in online
    ensures var started := StartCheck(sessions, online, uuid, endTime, now);
      SetPausedFor(SetPausedFor(started, uuid, true), uuid, false) == started
  {
    var started := StartCheck(sessions, online, uuid, endTime, now);
    assert SetPausedFor(SetPausedFor(started, uuid, true), uuid, false)[uuid] == started[uuid];
  }

  /** `tick`'s test: a running session with an end time that is not in the
      future. */
  predicate TimesOut(s: CheckSession, now: Instant) {
    !s.paused && s.endTime.Some? && now >= s.endTime.value
  }

  /** The sessions left after a tick and the players whose time ran out, in
      the order they were handled. */
  datatype Ticked = Ticked(sessions: Sessions, timedOut: seq<Uuid>)

  /** `tick` over the players in `order`: a timed-out session is removed
      (`stopCheck`) before the next one is looked at. */
  function TickOver(sessions: Sessions, order: seq<Uuid>, now: Instant): (r: Ticked)
    ensures forall u :: u in r.sessions <==> u in sessions && !(u in order && TimesOut(sessions[u], now))
    ensures forall u :: u in r.sessions ==> r.sessions[u] == sessions[u]
    ensures forall u :: u in r.timedOut <==> u in sessions && u in order && TimesOut(sessions[u], now)
    ensures forall i, j :: 0 <= i < j < |r.timedOut| ==> r.timedOut[i] != r.timedOut[j]
    decreases |order|
  {
    if |order| == 0 then Ticked(sessions, [])
    else
      var u := order[0];
      assert forall v :: v in order <==> v == u || v in order[1..];
      if u in sessions && TimesOut(sessions[u], now) then
        var rest := TickOver(StopCheck(sessions, u), order[1..], now);
        var r := Ticked(rest.sessions, [u] + rest.timedOut);
        assert forall i :: 1 <= i < |r.timedOut| ==> r.timedOut[i] == rest.timedOut[i - 1] && r.timedOut[i] in rest.timedOut;
        r
      else
        TickOver(sessions, order[1..], now)
  }

  /** `tick`: `order` is the iteration order of the session map. */
  function Tick(sessions: Sessions, order: seq<Uuid>, now: Instant): (r: Ticked)
    requires Engine.Enumerates(order, sessions.Keys)
    ensures forall u :: u in r.sessions <==> u in sessions && !TimesOut(sessions[u], now)
    ensures forall u :: u in r.sessions ==> r.sessions[u] == sessions[u]
    ensures forall u :: u in r.timedOut <==> u in sessions && TimesOut(sessions[u], now)
    ensures forall i, j :: 0 <= i < j < |r.timedOut| ==> r.timedOut[i] != r.timedOut[j]
    ensures WellKeyed(sessions) ==> WellKeyed(r.sessions)
  {
    TickOver(sessions, order, now)
  }

  /** A paused session or one without an end time survives every tick; a
      running one survives exactly while its end time is in the future. */
  lemma TickKeeps(sessions: Sessions, order: seq<Uuid>, now: Instant, u: Uuid)
    requires Engine.Enumerates(order, sessions.Keys)
    requires u in sessions
    ensures sessions[u].paused || sessions[u].endTime.None? ==> u in Tick(sessions, order, now).sessions
    ensures !sessions[u].paused && sessions[u].endTime.Some? ==>
      (u in Tick(sessions, order, now).sessions <==> now < sessions[u].endTime.value)
  {
  }

  /** The seconds left on the boss bar, never negative. */
  function Remaining(endTime: Instant, now: Instant): (r: int)
    ensures r >= 0
    ensures r == 0 <==> EpochSecond(now) >= EpochSecond(endTime)
    ensures r > 0 ==> r == EpochSecond(endTime) - EpochSecond(now)
  {
    if EpochSecond(endTime) - EpochSecond(now) < 0 then 0 else EpochSecond(endTime) - EpochSecond(now)
  }

  /** A session's remaining time never exceeds the total it started with,
      as long as the clock does not go back. */
  lemma RemainingWithinTotal(uuid: Uuid, endTime: Instant, started: Instant, now: Instant)
    requires started <= now
    ensures Remaining(endTime, now) <= NewSession(uuid, Some(endTime), started).totalSeconds
  {
    assert EpochSecond(started) <= EpochSecond(now);
  }

  const CHECK_TITLE: string := "Проверка: "
  const UNLIMITED_TEXT: string := "без ограничений"
  const PAUSED_SUFFIX: string := " (пауза)"

  /** The boss bar title of `updateBossBar`. */
  function BossBarTitle(s: CheckSession, now: Instant): (r: string)
    ensures StartsWith(r, CHECK_TITLE)
    ensures s.paused ==> EndsWith(r, PAUSED_SUFFIX)
    ensures s.endTime.None? && !s.paused ==> r == CHECK_TITLE + UNLIMITED_TEXT
    ensures s.endTime.Some? && !s.paused ==> r == CHECK_TITLE + FormatSeconds(Remaining(s.endTime.value, now))
  {
    var base := if s.endTime.None? then CHECK_TITLE + UNLIMITED_TEXT
      else CHECK_TITLE + FormatSeconds(Remaining(s.endTime.value, now));
    assert base[..|CHECK_TITLE|] == CHECK_TITLE;
    var r := if s.paused then base + PAUSED_SUFFIX else base;
    assert r[..|CHECK_TITLE|] == CHECK_TITLE;
    r
  }

  // ---------------------------------------------------------------------------
  // Timeout

  const TIMEOUT_ACTOR: string := "Система"

  /** `handleTimeout`'s punishment request, with the configured reason and
      duration and the player's last known address. */
  function TimeoutBan(uuid: Uuid, banReason: string, banSeconds: int, ip: Option<string>,
                      now: Instant, draws: seq<int>, sha256: string -> Digest): (r: Option<Punishment>)
    requires ValidDraws(draws)
  {
    PaperService.IssuePunishment(uuid, TypeName(BAN), banReason, banSeconds, TIMEOUT_ACTOR, ip,
                                 false, false, now, draws, sha256)
  }

  /** A timed-out check always produces a punishment: a temporary ban when a
      positive duration is configured, a permanent ban otherwise, issued by
      the system, announced, with the reason shown. */
  lemma TimeoutBanIssued(uuid: Uuid, banReason: string, banSeconds: int, ip: Option<string>,
                         now: Instant, draws: seq<int>, sha256: string -> Digest)
    requires ValidDraws(draws)
    ensures var r := TimeoutBan(uuid, banReason, banSeconds, ip, now, draws, sha256);
      && r.Some?
      && r.value.kind == (if banSeconds > 0 then TEMPBAN else BAN)
      && (r.value.endTime.None? <==> banSeconds <= 0)
      && r.value.uuid == uuid && r.value.reason == banReason
      && r.value.actor == TIMEOUT_ACTOR && !r.value.silent && r.value.active
  {
    assert ToUpper(TypeName(BAN)) == TypeName(BAN);
  }
}

=== FILE: columns.dfy ===
/** How the JDBC store writes a punishment row's columns and reads them back:
    `map`, `readNullableEpochMillis` and `readRequiredEpochMillis`. */
module Columns {
  import opened Wrappers
  import opened JavaText
  import opened JavaNumbers
  import opened Model

  /** What `ResultSet.getObject` may hand back for a time column. `Num` is any
      integral `java.lang.Number`; `Other` is any other object. */
  datatype Cell = Null | Num(n: int) | Str(s: string) | Other

  /** Texts that stand for "no end time". */
  const ABSENT_WORDS: seq<string> := ["null", "perm", "permanent", "forever", "навсегда"]

  predicate IsAbsentWord(s: string) {
    exists w :: w in ABSENT_WORDS && EqualsIgnoreCase(s, w)
  }

  /** `readNullableEpochMillis`: `Success(None)` is a Java null, `Failure` the
      `SQLException`. A number is narrowed with `longValue()`. */
  function ReadNullableEpochMillis(c: Cell): (r: Result<Option<int>, string>)
    ensures c.Null? ==> r == Success(None)
    ensures c.Num? ==> r == Success(Some(Wrap64(c.n)))
    ensures c.Other? ==> r.Failure?
    ensures c.Str? ==> (r == Success(None) <==> Trim(c.s) == [] || IsAbsentWord(Trim(c.s)))
    ensures c.Str? && r.Success? && r.value.Some? ==> ParseLong(Trim(c.s)) == Some(r.value.value)
    ensures r.Success? && r.value.Some? ==> IsLong(r.value.value)
  {
    match c
    case Null => Success(None)
    case Num(n) => Success(Some(Wrap64(n)))
    case Str(s) =>
      var normalized := Trim(s);
      if normalized == [] || IsAbsentWord(normalized) then Success(None)
      else
        (match ParseLong(normalized)
         case Some(v) => Success(Some(v))
         case None => Failure("Bad value for type Long"))
    case Other => Failure("Bad value for type Long")
  }

  /** `readRequiredEpochMillis`: like the nullable reader, but an absent value
      is an error too. */
  function ReadRequiredEpochMillis(c: Cell): (r: Result<int, string>)
    ensures r.Success? <==> ReadNullableEpochMillis(c).Success? && ReadNullableEpochMillis(c).value.Some?
    ensures r.Success? ==> r.value == ReadNullableEpochMillis(c).value.value
  {
    var v :- ReadNullableEpochMillis(c);
    if v.None? then Failure("Пустое значение во временном поле") else Success(v.value)
  }

  /** `setLong` or `setNull(BIGINT)` for an optional instant. */
  function WriteEpochMillis(t: Option<Instant>): Cell {
    if t.None? then Null else Num(t.value)
  }

  /** A stored instant reads back as itself, and a missing end time stays
      missing. */
  lemma EpochMillisRoundTrip(t: Option<Instant>)
    requires t.Some? ==> IsLong(t.value)
    ensures ReadNullableEpochMillis(WriteEpochMillis(t)) == Success(t)
  {
  }

  /** A row of the punishments table as the driver returns it: text columns
      as text, the two time columns as cells. */
  datatype Row = Row(
    internalId: string,
    uuid: string,
    ip: Option<string>,
    ipHash: Option<string>,
    typeName: string,
    reason: string,
    actor: string,
    startTime: Cell,
    endTime: Cell,
    active: bool,
    silent: bool)

  /** The INSERT of `addPunishment`. */
  function EncodeRow(p: Punishment): Row {
    Row(p.internalId, p.uuid, p.ip, p.ipHash, TypeName(p.kind), p.reason, p.actor,
        WriteEpochMillis(Some(p.startTime)), WriteEpochMillis(p.endTime), p.active, p.silent)
  }

  /** `map`: an unknown type name (`valueOf`) and a bad time column fail. */
  function DecodeRow(row: Row): (r: Result<Punishment, string>)
    ensures r.Success? ==> ParseType(row.typeName) == Some(r.value.kind)
    ensures r.Success? ==> r.value.internalId == row.internalId && r.value.uuid == row.uuid
    ensures ParseType(row.typeName).None? ==> r.Failure?
    ensures ReadRequiredEpochMillis(row.startTime).Failure? ==> r.Failure?
  {
    var end :- ReadNullableEpochMillis(row.endTime);
    var kind :- match ParseType(row.typeName)
      case Some(k) => Success(k)
      case None => Failure("No enum constant");
    var start :- ReadRequiredEpochMillis(row.startTime);
    Success(Punishment(row.uuid, row.ip, row.ipHash, kind, row.reason, row.actor,
                       start, end, row.active, row.internalId, row.silent))
  }

  /** Every row the store writes reads back as the same punishment; in
      particular a permanent record (no end time) is written as NULL and read
      back without an end time. */
  lemma RowRoundTrip(p: Punishment)
    requires IsLong(p.startTime)
    requires p.endTime.Some? ==> IsLong(p.endTime.value)
    ensures DecodeRow(EncodeRow(p)) == Success(p)
    ensures p.endTime.None? ==> EncodeRow(p).endTime == Null
  {
    ParseTypeName(p.kind);
    EpochMillisRoundTrip(Some(p.startTime));
    EpochMillisRoundTrip(p.endTime);
  }

  /** The accepted spellings of "no end time", ignoring case and surrounding
      blanks. */
  lemma AbsentWordsRead(s: string, w: string)
    requires w in ABSENT_WORDS
    requires EqualsIgnoreCase(Trim(s), w)
    ensures ReadNullableEpochMillis(Str(s)) == Success(None)
  {
  }
}

=== FILE: command_args.dfy ===
/** How the Paper commands glue their arguments back into a reason. Bukkit
    hands a command the words of its input line, split on single spaces, so
    no argument contains a space (an argument may be empty where the line held
    two spaces in a row). Three flavours of `joinArgs` exist: the one of
    `StandardPunishCommand` separates every pair of arguments; the ones of
    `UnpunishCommand` and `CustomPunishCommand` add a separator only once
    something has been written, and the latter also drops the `-s`/`-nnr`
    flags. */
module CommandArgs {
  import opened JavaText

  const SPACE: string := " "
  const SILENT_FLAG: string := "-s"
  const NNR_FLAG: string := "-nnr"

  /** No argument Bukkit produces holds a space. */
  predicate Words(parts: seq<string>) {
    forall i, k :: 0 <= i < |parts| && 0 <= k < |parts[i]| ==> parts[i][k] != ' '
  }

  /** `StandardPunishCommand.joinArgs`: the arguments from `start` on, one
      space between each pair; nothing when `start` is past the end. */
  function JoinFrom(args: seq<string>, start: nat): (r: string)
    ensures start >= |args| ==> r == []
    ensures start < |args| ==> |r| >= |args[start]| && r[..|args[start]|] == args[start]
  {
    if start >= |args| then [] else Join(args[start..], SPACE)
  }

  /** One step of the builder loop: a separator only when the builder already
      holds something. */
  function AppendArg(acc: string, arg: string): (r: string)
    ensures |acc| > 0 ==> r == acc + SPACE + arg
    ensures |acc| == 0 ==> r == arg
  {
    if |acc| > 0 then acc + SPACE + arg else acc + arg
  }

  /** The builder loop of `UnpunishCommand.joinArgs` (before its final trim)
      and `CustomPunishCommand.joinArgs` (after its flag filter). */
  function BuilderJoin(acc: string, parts: seq<string>): string
    decreases |parts|
  {
    if |parts| == 0 then acc else BuilderJoin(AppendArg(acc, parts[0]), parts[1..])
  }

  /** Once the builder holds something, every later argument gets its
      separator: the loop is `String.join` with the builder in front. */
  lemma {:induction false} BuilderJoinStarted(acc: string, parts: seq<string>)
    requires |acc| > 0
    ensures BuilderJoin(acc, parts) == Join([acc] + parts, SPACE)
    decreases |parts|
  {
    if |parts| > 0 {
      var head := acc + SPACE + parts[0];
      BuilderJoinStarted(head, parts[1..]);
      JoinCons(acc, parts, SPACE);
      if |parts| > 1 {
        JoinCons(head, parts[1..], SPACE);
        JoinCons(parts[0], parts[1..], SPACE);
        assert [parts[0]] + parts[1..] == parts;
      } else {
        assert [head] + parts[1..] == [head];
      }
    }
  }

  /** Leading empty arguments are the only ones the builder loop joins
      differently from `String.join`: without them it is `String.join`. */
  lemma BuilderJoinFromEmpty(parts: seq<string>)
    requires |parts| > 0 && |parts[0]| > 0
    ensures BuilderJoin([], parts) == Join(parts, SPACE)
  {
    BuilderJoinStarted(parts[0], parts[1..]);
    assert [parts[0]] + parts[1..] == parts;
  }

  /** A leading space never survives `trim`. */
  lemma TrimLeadingSpace(s: string)
    ensures Trim(SPACE + s) == Trim(s)
  {
    var t := SPACE + s;
    assert t[1..] == s;
    assert LeadCount(t, IsTrimmable) == 1 + LeadCount(s, IsTrimmable);
    assert t[LeadCount(t, IsTrimmable)..] == s[LeadCount(s, IsTrimmable)..];
  }

  /** After trimming, the two separator policies agree: the builder loop
      only omits separators in front of the text. */
  lemma {:induction false} TrimmedJoinsAgree(parts: seq<string>)
    ensures Trim(BuilderJoin([], parts)) == Trim(Join(parts, SPACE))
    decreases |parts|
  {
    if |parts| > 0 {
      if |parts[0]| > 0 {
        BuilderJoinFromEmpty(parts);
      } else {
        assert BuilderJoin([], parts) == BuilderJoin([], parts[1..]);
        TrimmedJoinsAgree(parts[1..]);
        if |parts| > 1 {
          JoinEmptyHead(parts);
          TrimLeadingSpace(Join(parts[1..], SPACE));
        }
      }
    }
  }

  /** An empty first argument leaves only its separator behind. */
  lemma JoinEmptyHead(parts: seq<string>)
    requires |parts| > 1 && parts[0] == []
    ensures Join(parts, SPACE) == SPACE + Join(parts[1..], SPACE)
  {
    JoinCons(parts[0], parts[1..], SPACE);
    assert [parts[0]] + parts[1..] == parts;
  }

  /** Splitting a join of Bukkit words on spaces gives the words back: the
      join loses nothing. */
  lemma SplitJoinedWords(parts: seq<string>)
    requires |parts| > 0 && Words(parts)
    ensures SplitOn(Join(parts, SPACE), SPACE) == parts
  {
    assert forall i :: 0 <= i < |parts| ==> ' ' !in parts[i];
    SplitJoinedPieces(parts, ' ');
  }

  /** `StandardPunishCommand.joinArgs` loses no argument. */
  lemma JoinFromRoundTrip(args: seq<string>, start: nat)
    requires start < |args| && Words(args)
    ensures SplitOn(JoinFrom(args, start), SPACE) == args[start..]
  {
    assert Words(args[start..]) by {
      forall i, k | 0 <= i < |args[start..]| && 0 <= k < |args[start..][i]| ensures args[start..][i][k] != ' ' {
        assert args[start..][i] == args[start + i];
      }
    }
    SplitJoinedWords(args[start..]);
  }

  /** `UnpunishCommand.joinArgs`. */
  function TrimmedJoin(args: seq<string>, start: nat): (r: string)
    ensures r == Trim(JoinFrom(args, start))
  {
    if start >= |args| then []
    else
      TrimmedJoinsAgree(args[start..]);
      Trim(BuilderJoin([], args[start..]))
  }

  /** The two flags `CustomPunishCommand` reads, in any case. */
  predicate IsFlag(arg: string) {
    EqualsIgnoreCase(arg, SILENT_FLAG) || EqualsIgnoreCase(arg, NNR_FLAG)
  }

  /** The arguments that are not flags, in order. */
  function WithoutFlags(parts: seq<string>): (r: seq<string>)
    ensures |r| <= |parts|
    ensures forall x :: x in r <==> x in parts && !IsFlag(x)
    decreases |parts|
  {
    if |parts| == 0 then []
    else if IsFlag(parts[0]) then WithoutFlags(parts[1..])
    else
      assert forall x :: x in parts <==> x == parts[0] || x in parts[1..];
      [parts[0]] + WithoutFlags(parts[1..])
  }

  /** `CustomPunishCommand.joinArgs`: the non-flag arguments from `start` on,
      builder-joined; no trim. */
  function JoinWithoutFlags(args: seq<string>, start: nat): string {
    if start >= |args| then [] else BuilderJoin([], WithoutFlags(args[start..]))
  }

  /** `CustomPunishCommand.hasFlag`: some argument equals the flag, ignoring
      case. */
  function HasFlag(args: seq<string>, flag: string): (r: bool)
    ensures r <==> exists i :: 0 <= i < |args| && EqualsIgnoreCase(args[i], flag)
    decreases |args|
  {
    if |args| == 0 then false
    else if EqualsIgnoreCase(args[0], flag) then true
    else
      var rest := HasFlag(args[1..], flag);
      assert rest ==> exists i :: 0 <= i < |args| && EqualsIgnoreCase(args[i], flag) by {
        if rest {
          var i :| 0 <= i < |args[1..]| && EqualsIgnoreCase(args[1..][i], flag);
          assert args[i + 1] == args[1..][i];
        }
      }
      assert (exists i :: 0 <= i < |args| && EqualsIgnoreCase(args[i], flag)) ==> rest by {
        if exists i :: 0 <= i < |args| && EqualsIgnoreCase(args[i], flag) {
          var i :| 0 <= i < |args| && EqualsIgnoreCase(args[i], flag);
          assert i > 0 && args[1..][i - 1] == args[i];
        }
      }
      rest
  }

  /** A flag never reaches the reason text: when all remaining arguments are
      flags, the reason is empty, and otherwise every word of it is a
      non-flag argument. */
  lemma FlagsNeverInReason(args: seq<string>, start: nat)
    requires start < |args| && Words(args)
    ensures var kept := WithoutFlags(args[start..]);
      (|kept| == 0 ==> JoinWithoutFlags(args, start) == [])
      && (|kept| > 0 && |kept[0]| > 0 ==>
            forall w :: w in SplitOn(JoinWithoutFlags(args, start), SPACE) ==> !IsFlag(w))
  {
    var kept := WithoutFlags(args[start..]);
    if |kept| > 0 && |kept[0]| > 0 {
      BuilderJoinFromEmpty(kept);
      assert Words(kept) by {
        forall i, k | 0 <= i < |kept| && 0 <= k < |kept[i]| ensures kept[i][k] != ' ' {
          assert kept[i] in args[start..];
          var j :| 0 <= j < |args[start..]| && args[start..][j] == kept[i];
          assert args[start + j] == kept[i];
        }
      }
      SplitJoinedWords(kept);
    }
  }
}

=== FILE: custom_punish.dfy ===
/** `CustomPunishCommand`: `/punish <player>` opens a menu of configured
    punishments; `/punish <player> <type> <duration> <reason...> [-s] [-nnr]`
    issues one directly. The menu's inventory, items and texts are not part
    of the model; the entries it holds, where they sit and what a click on
    them issues are. Player lookups and the warn-reason normaliser of the
    Paper service are inputs. */
module CustomPunish {
  import opened Wrappers
  import opened JavaText
  import opened JavaNumbers
  import opened Model
  import opened PunishmentIdGenerator
  import opened IpHashing
  import opened CommandArgs
  import DurationParser
  import PaperService

  const PUNISH_PERMISSION: string := "bans.punish"
  const FULL_ACCESS: string := "bans.fullaccess"
  /** The menu's option slots, one per configured entry. */
  const OPTION_SLOTS: seq<int> := [10, 11, 12, 13, 14]

  // ---------------------------------------------------------------------------
  // Routing

  datatype Route = PermissionDenied | MenuOnlyForPlayers | OpenMenu(targetInput: string) | ShowUsage | Manual

  predicate Permitted(permissions: set<string>) {
    PUNISH_PERMISSION in permissions || FULL_ACCESS in permissions
  }

  /** `onCommand`'s dispatch on the argument count. */
  function RouteOf(permissions: set<string>, isPlayer: bool, args: seq<string>): (r: Route)
    ensures r == PermissionDenied <==> !Permitted(permissions)
    ensures r.OpenMenu? <==> Permitted(permissions) && |args| == 1 && isPlayer
    ensures r.OpenMenu? ==> r.targetInput == args[0]
    ensures r == MenuOnlyForPlayers <==> Permitted(permissions) && |args| == 1 && !isPlayer
    ensures r == ShowUsage <==> Permitted(permissions) && (|args| == 0 || 2 <= |args| <= 3)
    ensures r == Manual <==> Permitted(permissions) && |args| >= 4
  {
    if !Permitted(permissions) then PermissionDenied
    else if |args| == 1 then (if isPlayer then OpenMenu(args[0]) else MenuOnlyForPlayers)
    else if |args| < 4 then ShowUsage
    else Manual
  }

  // ---------------------------------------------------------------------------
  // Issuing

  /** The eight-argument `issuePunishment` call. */
  datatype IssueArgs = IssueArgs(
    target: Uuid,
    kind: PunishmentType,
    reason: string,
    durationSeconds: int,
    actor: string,
    ip: Option<string>,
    silent: bool,
    nnr: bool)

  datatype Rejection =
    | PlayerNotFound
    | UnknownType
    | BadDuration
    | TempBanNeedsDuration
    | MissingReason
    | WarnReasonNotAllowed
    | IpBanNeedsAddress

  datatype Issued = Rejected(why: Rejection) | Issue(request: IssueArgs)

  /** `issueManual`; the caller has checked there are at least four
      arguments, and the method itself reads the first three. */
  function IssueManual(args: seq<string>, resolve: string -> Option<Uuid>, resolveIp: Uuid -> Option<string>,
                       normalizeWarn: string -> Option<string>, actor: string): (r: Issued)
    requires |args| >= 3
    ensures resolve(args[0]).None? ==> r == Rejected(PlayerNotFound)
    ensures resolve(args[0]).Some? && ParseType(ToUpper(args[1])).None? ==> r == Rejected(UnknownType)
    ensures resolve(args[0]).Some? && ParseType(ToUpper(args[1])).Some? && DurationParser.ParseToSeconds(args[2]).None?
      ==> r == Rejected(BadDuration)
    ensures r == Rejected(TempBanNeedsDuration) ==>
      ParseType(ToUpper(args[1])) == Some(TEMPBAN) && DurationParser.ParseToSeconds(args[2]) == Some(0)
    ensures r == Rejected(MissingReason) ==> IsBlank(JoinWithoutFlags(args, 3))
    ensures r == Rejected(WarnReasonNotAllowed) ==>
      ParseType(ToUpper(args[1])) == Some(WARN) && normalizeWarn(JoinWithoutFlags(args, 3)).None?
    ensures r == Rejected(IpBanNeedsAddress) ==>
      ParseType(ToUpper(args[1])) == Some(IPBAN) && IsNullOrBlank(resolveIp(resolve(args[0]).value))
    ensures r.Issue? ==>
      var q := r.request;
      var raw := JoinWithoutFlags(args, 3);
      && resolve(args[0]) == Some(q.target)
      && ParseType(ToUpper(args[1])) == Some(q.kind)
      && DurationParser.ParseToSeconds(args[2]) == Some(q.durationSeconds)
      && q.durationSeconds >= 0
      && (q.kind == TEMPBAN ==> q.durationSeconds > 0)
      && !IsBlank(raw)
      && (q.kind != WARN ==> q.reason == Trim(raw))
      && (q.kind == WARN ==> normalizeWarn(raw).Some? && q.reason == Trim(normalizeWarn(raw).value))
      && q.ip == resolveIp(q.target)
      && (q.kind == IPBAN ==> !IsNullOrBlank(q.ip))
      && q.silent == HasFlag(args, SILENT_FLAG) && q.nnr == HasFlag(args, NNR_FLAG)
      && q.actor == actor
  {
    match resolve(args[0])
    case None => Rejected(PlayerNotFound)
    case Some(target) =>
      match ParseType(ToUpper(args[1]))
      case None => Rejected(UnknownType)
      case Some(kind) =>
        match DurationParser.ParseToSeconds(args[2])
        case None => Rejected(BadDuration)
        case Some(seconds) =>
          if kind == TEMPBAN && seconds == 0 then Rejected(TempBanNeedsDuration)
          else
            var raw := JoinWithoutFlags(args, 3);
            if IsBlank(raw) then Rejected(MissingReason)
            else if kind == WARN && normalizeWarn(raw).None? then Rejected(WarnReasonNotAllowed)
            else
              var reason := if kind == WARN then normalizeWarn(raw).value else raw;
              var ip := resolveIp(target);
              if kind == IPBAN && IsNullOrBlank(ip) then Rejected(IpBanNeedsAddress)
              else Issue(IssueArgs(target, kind, Trim(reason), seconds, actor, ip,
                                   HasFlag(args, SILENT_FLAG), HasFlag(args, NNR_FLAG)))
  }

  /** What the command does: the route, and for `Manual` the manual
      issue's verdict. */
  datatype Handled = Routed(route: Route) | ManualIssue(issued: Issued)

  function OnCommand(permissions: set<string>, isPlayer: bool, args: seq<string>,
                     resolve: string -> Option<Uuid>, resolveIp: Uuid -> Option<string>,
                     normalizeWarn: string -> Option<string>, actor: string): (r: Handled)
    ensures r.Routed? <==> RouteOf(permissions, isPlayer, args) != Manual
    ensures r.Routed? ==> r.route == RouteOf(permissions, isPlayer, args)
    ensures r.ManualIssue? ==> |args| >= 4 && r.issued == IssueManual(args, resolve, resolveIp, normalizeWarn, actor)
  {
    var route := RouteOf(permissions, isPlayer, args);
    if route == Manual then ManualIssue(IssueManual(args, resolve, resolveIp, normalizeWarn, actor))
    else Routed(route)
  }

  /** A request with a non-negative duration, positive for a temporary ban,
      is one the Paper service builds: a temporary ban always gets an end
      time, and only a zero duration goes without one. */
  lemma WellFormedRequestBuilds(q: IssueArgs, now: Instant, draws: seq<int>, sha256: string -> Digest)
    requires ValidDraws(draws)
    requires q.durationSeconds >= 0 && (q.kind == TEMPBAN ==> q.durationSeconds > 0)
    ensures var p := PaperService.IssuePunishment(q.target, TypeName(q.kind), q.reason, q.durationSeconds, q.actor,
                                                  q.ip, q.silent, q.nnr, now, draws, sha256);
      && p.Some?
      && (q.kind == TEMPBAN ==> p.value.kind == TEMPBAN && p.value.endTime.Some?)
      && (p.value.endTime.None? <==> q.durationSeconds == 0)
      && p.value.silent == q.silent && p.value.reason == q.reason
  {
    ParseTypeName(q.kind);
    UpperTypeName(q.kind);
  }

  lemma UpperTypeName(t: PunishmentType)
    ensures ToUpper(TypeName(t)) == TypeName(t)
  {
  }

  // ---------------------------------------------------------------------------
  // Configuration values

  /** A value read from a YAML map: null, a whole number (`Integer`, `Long`
      or `BigInteger`), a finite floating-point number with the text
      `String.valueOf` gives for it, a boolean, a string, or a list. */
  datatype ConfigValue =
    | Null
    | Num(n: int)
    | Dec(x: real, shown: string)
    | Flag(b: bool)
    | Text(s: string)
    | Items(items: seq<ConfigValue>)
  {
    /** `instanceof Number`. */
    predicate IsNumber() {
      Num? || Dec?
    }

    /** `Number.longValue()` of a number: a whole number keeps its low 64
        bits, a floating-point one is narrowed toward zero. */
    function LongValue(): (r: int)
      requires IsNumber()
      ensures IsLong(r)
      ensures Num? ==> (r - n) % TWO_64 == 0
      ensures Num? && IsLong(n) ==> r == n
      ensures Dec? ==> r == DoubleToLong(x)
    {
      if Num? then Wrap64(n) else DoubleToLong(x)
    }
  }

  /** `String.valueOf`. */
  function Display(v: ConfigValue): string
    decreases v, 1
  {
    match v
    case Null => "null"
    case Num(n) => IntToString(n)
    case Dec(_, shown) => shown
    case Flag(b) => if b then "true" else "false"
    case Text(s) => s
    case Items(items) => "[" + Join(DisplayAll(v, items), ", ") + "]"
  }

  function DisplayAll(parent: ConfigValue, items: seq<ConfigValue>): (r: seq<string>)
    requires parent.Items? && forall i :: 0 <= i < |items| ==> items[i] in parent.items
    ensures |r| == |items|
    decreases parent, 0, |items|
  {
    if |items| == 0 then [] else [Display(items[0])] + DisplayAll(parent, items[1..])
  }

  /** `readString`. */
  function ReadString(v: ConfigValue): (r: Option<string>)
    ensures r.None? <==> v.Null?
    ensures v.Text? ==> r == Some(v.s)
  {
    if v.Null? then None else Some(Display(v))
  }

  /** `readBoolean`: a boolean as it is, null as false, anything else by
      `Boolean.parseBoolean` of its text. */
  function ReadBoolean(v: ConfigValue): (r: bool)
    ensures v.Flag? ==> r == v.b
    ensures v.Null? ==> !r
    ensures v.Text? ==> (r <==> EqualsIgnoreCase(v.s, "true"))
  {
    match v
    case Flag(b) => b
    case Null => false
    case _ => EqualsIgnoreCase(Display(v), "true")
  }

  /** A boolean written out as text reads back as the same boolean, in any
      case. */
  lemma ReadBooleanText(b: bool, written: string)
    requires EqualsIgnoreCase(written, Display(Flag(b)))
    ensures ReadBoolean(Text(written)) == b
  {
  }

  /** `readStringList`: the text of each non-null element of a list; nothing
      for any other value. */
  function ReadStringList(v: ConfigValue): (r: seq<string>)
    ensures !v.Items? ==> r == []
    ensures v.Items? ==> |r| <= |v.items|
  {
    if v.Items? then NonNullTexts(v, v.items) else []
  }

  function NonNullTexts(parent: ConfigValue, items: seq<ConfigValue>): (r: seq<string>)
    requires parent.Items? && forall i :: 0 <= i < |items| ==> items[i] in parent.items
    ensures |r| <= |items|
    decreases |items|
  {
    if |items| == 0 then []
    else if items[0].Null? then NonNullTexts(parent, items[1..])
    else [Display(items[0])] + NonNullTexts(parent, items[1..])
  }

  /** One entry of `punish.menu.punishments`; `Map.get` gives null for an
      absent key. */
  type MenuEntry = map<string, ConfigValue>

  function Get(entry: MenuEntry, key: string): ConfigValue {
    if key in entry then entry[key] else Null
  }

  /** `resolveConfiguredDuration`: a numeric `duration-seconds` first, as its
      `longValue()`, then a non-blank `duration` text (-1 when it does not
      parse), then the warn default for a warning, then 0. */
  function ConfiguredDuration(entry: MenuEntry, kind: PunishmentType, warnDefault: int): (r: int)
    ensures Get(entry, "duration-seconds").IsNumber() ==> IsLong(r)
    ensures Get(entry, "duration-seconds").Num? ==>
      var n := Get(entry, "duration-seconds").n;
      (r - n) % TWO_64 == 0 && (IsLong(n) ==> r == n)
    ensures Get(entry, "duration-seconds").Dec? ==>
      var x := Get(entry, "duration-seconds").x;
      && (0.0 <= x < MAX_LONG as real ==> r as real <= x < r as real + 1.0)
      && (MIN_LONG as real < x < 0.0 ==> r as real - 1.0 < x <= r as real)
    ensures !Get(entry, "duration-seconds").IsNumber() && ReadString(Get(entry, "duration")).Some?
            && !IsBlank(ReadString(Get(entry, "duration")).value) ==>
      var text := Trim(ReadString(Get(entry, "duration")).value);
      && (DurationParser.ParseToSeconds(text).None? ==> r == -1)
      && (DurationParser.ParseToSeconds(text).Some? ==> r == DurationParser.ParseToSeconds(text).value && r >= 0)
    ensures !Get(entry, "duration-seconds").IsNumber() && IsNullOrBlank(ReadString(Get(entry, "duration"))) ==>
      r == (if kind == WARN then warnDefault else 0)
  {
    var raw := Get(entry, "duration-seconds");
    if raw.IsNumber() then raw.LongValue()
    else
      var text := ReadString(Get(entry, "duration"));
      if text.Some? && !IsBlank(text.value) then
        match DurationParser.ParseToSeconds(Trim(text.value))
        case Some(seconds) => seconds
        case None => -1
      else if kind == WARN then warnDefault
      else 0
  }

  /** The duration of an entry without `duration-seconds` never goes below
      -1 when the warn default is not negative, and -1 means exactly that
      its duration text did not parse. */
  lemma ConfiguredDurationFloor(entry: MenuEntry, kind: PunishmentType, warnDefault: int)
    requires !Get(entry, "duration-seconds").IsNumber() && warnDefault >= 0
    ensures ConfiguredDuration(entry, kind, warnDefault) >= -1
    ensures ConfiguredDuration(entry, kind, warnDefault) == -1 <==>
      && ReadString(Get(entry, "duration")).Some? && !IsBlank(ReadString(Get(entry, "duration")).value)
      && DurationParser.ParseToSeconds(Trim(ReadString(Get(entry, "duration")).value)).None?
  {
  }

  /** A fraction strictly between -1 and 1 in `duration-seconds` reads as 0
      seconds, so a negative one is not refused as negative. */
  lemma SmallFractionReadsZero(entry: MenuEntry, kind: PunishmentType, warnDefault: int)
    requires Get(entry, "duration-seconds").Dec? && -1.0 < Get(entry, "duration-seconds").x < 1.0
    ensures ConfiguredDuration(entry, kind, warnDefault) == 0
  {
  }

  /** A loaded menu entry. */
  datatype MenuPunishment = MenuPunishment(
    name: string,
    lore: seq<string>,
    kind: PunishmentType,
    durationSeconds: int,
    reason: string,
    silent: bool,
    nnr: bool)

  /** `parseMenuPunishment`: `None` for an entry that is skipped. */
  function ParseMenuPunishment(entry: MenuEntry, warnDefault: int, normalizeWarn: string -> Option<string>)
    : (r: Option<MenuPunishment>)
    ensures IsNullOrBlank(ReadString(Get(entry, "type"))) || IsNullOrBlank(ReadString(Get(entry, "reason"))) ==> r.None?
    ensures (!IsNullOrBlank(ReadString(Get(entry, "type")))
             && ParseType(ToUpper(ReadString(Get(entry, "type")).value)).None?) ==> r.None?
    ensures r.Some? ==>
      var m := r.value;
      var reason := ReadString(Get(entry, "reason")).value;
      && ReadString(Get(entry, "type")).Some?
      && ParseType(ToUpper(ReadString(Get(entry, "type")).value)) == Some(m.kind)
      && !IsBlank(reason) && m.reason == Trim(reason)
      && m.durationSeconds == ConfiguredDuration(entry, m.kind, warnDefault)
      && m.durationSeconds >= 0
      && (m.kind == TEMPBAN ==> m.durationSeconds > 0)
      && (m.kind == WARN ==> normalizeWarn(reason).Some?)
      && m.silent == ReadBoolean(Get(entry, "silent")) && m.nnr == ReadBoolean(Get(entry, "nnr"))
      && m.lore == ReadStringList(Get(entry, "lore"))
  {
    var typeRaw := ReadString(Get(entry, "type"));
    var reason := ReadString(Get(entry, "reason"));
    if IsNullOrBlank(typeRaw) || IsNullOrBlank(reason) then None
    else
      match ParseType(ToUpper(typeRaw.value))
      case None => None
      case Some(kind) =>
        var seconds := ConfiguredDuration(entry, kind, warnDefault);
        if seconds < 0 then None
        else if kind == TEMPBAN && seconds == 0 then None
        else if kind == WARN && normalizeWarn(reason.value).None? then None
        else
          var given := ReadString(Get(entry, "name"));
          var name := if IsNullOrBlank(given) then "<red>" + TypeName(kind) + "</red>" else given.value;
          Some(MenuPunishment(name, ReadStringList(Get(entry, "lore")), kind, seconds, Trim(reason.value),
                              ReadBoolean(Get(entry, "silent")), ReadBoolean(Get(entry, "nnr"))))
  }

  /** The entry parser with the configuration it reads fixed. */
  type EntryParser = MenuEntry -> Option<MenuPunishment>

  /** Every entry that parses, in configuration order. */
  function ValidEntries(entries: seq<MenuEntry>, parse: EntryParser): (r: seq<MenuPunishment>)
    ensures |r| <= |entries|
    decreases |entries|
  {
    if |entries| == 0 then []
    else
      var rest := ValidEntries(entries[1..], parse);
      if parse(entries[0]).Some? then [parse(entries[0]).value] + rest else rest
  }

  /** The loop of `loadMenuPunishments`: stop once the slots are full,
      otherwise parse the next entry and keep it when it is valid. */
  function LoadFrom(entries: seq<MenuEntry>, loaded: seq<MenuPunishment>, parse: EntryParser): seq<MenuPunishment>
    decreases |entries|
  {
    if |entries| == 0 || |loaded| >= |OPTION_SLOTS| then loaded
    else if parse(entries[0]).Some? then LoadFrom(entries[1..], loaded + [parse(entries[0]).value], parse)
    else LoadFrom(entries[1..], loaded, parse)
  }

  function Take(s: seq<MenuPunishment>, n: nat): (r: seq<MenuPunishment>)
    ensures |r| == if |s| < n then |s| else n
    ensures r == s[..|r|]
  {
    if |s| < n then s else s[..n]
  }

  lemma TakeCons(m: MenuPunishment, rest: seq<MenuPunishment>, n: nat)
    requires n > 0
    ensures Take([m] + rest, n) == [m] + Take(rest, n - 1)
  {
    if |rest| >= n - 1 {
      assert ([m] + rest)[..n] == [m] + rest[..n - 1];
    }
  }

  /** The loop continues the list it was given with the first valid entries
      that still fit. */
  lemma {:induction false} LoadFromTakes(entries: seq<MenuEntry>, loaded: seq<MenuPunishment>, parse: EntryParser)
    requires |loaded| <= |OPTION_SLOTS|
    ensures LoadFrom(entries, loaded, parse) == loaded + Take(ValidEntries(entries, parse), |OPTION_SLOTS| - |loaded|)
    decreases |entries|
  {
    var valid := ValidEntries(entries, parse);
    var n := |OPTION_SLOTS| - |loaded|;
    if |entries| == 0 || n == 0 {
      assert Take(valid, n) == [];
      assert loaded + [] == loaded;
    } else {
      var rest := ValidEntries(entries[1..], parse);
      if parse(entries[0]).Some? {
        var m := parse(entries[0]).value;
        LoadFromTakes(entries[1..], loaded + [m], parse);
        TakeCons(m, rest, n);
        assert (loaded + [m]) + Take(rest, n - 1) == loaded + ([m] + Take(rest, n - 1));
      } else {
        LoadFromTakes(entries[1..], loaded, parse);
      }
    }
  }

  /** A menu entry whose `duration-seconds` is a fraction strictly between
      -1 and 1 is loaded, if at all, with 0 seconds: never as a TEMPBAN,
      which needs a positive duration, and never skipped as negative. */
  lemma SmallFractionEntryPermanent(entry: MenuEntry, warnDefault: int, normalizeWarn: string -> Option<string>)
    requires Get(entry, "duration-seconds").Dec? && -1.0 < Get(entry, "duration-seconds").x < 1.0
    ensures var r := ParseMenuPunishment(entry, warnDefault, normalizeWarn);
            r.Some? ==> r.value.durationSeconds == 0 && r.value.kind != TEMPBAN
  {
    var r := ParseMenuPunishment(entry, warnDefault, normalizeWarn);
    if r.Some? {
      SmallFractionReadsZero(entry, r.value.kind, warnDefault);
    }
  }

  /** `loadMenuPunishments`: at most one entry per option slot, the first
      valid ones in configuration order. */
  function LoadMenuPunishments(entries: seq<MenuEntry>, warnDefault: int, normalizeWarn: string -> Option<string>)
    : (r: seq<MenuPunishment>)
    ensures r == Take(ValidEntries(entries, e => ParseMenuPunishment(e, warnDefault, normalizeWarn)), |OPTION_SLOTS|)
    ensures |r| <= |OPTION_SLOTS|
  {
    var parse: EntryParser := e => ParseMenuPunishment(e, warnDefault, normalizeWarn);
    LoadFromTakes(entries, [], parse);
    assert [] + Take(ValidEntries(entries, parse), |OPTION_SLOTS|) == Take(ValidEntries(entries, parse), |OPTION_SLOTS|);
    LoadFrom(entries, [], parse)
  }

  /** Every valid entry is the parse of some configured entry. */
  lemma {:induction false} ValidEntriesParsed(entries: seq<MenuEntry>, parse: EntryParser, m: MenuPunishment)
    requires m in ValidEntries(entries, parse)
    ensures exists i :: 0 <= i < |entries| && parse(entries[i]) == Some(m)
    decreases |entries|
  {
    if parse(entries[0]) != Some(m) {
      ValidEntriesParsed(entries[1..], parse, m);
      var i :| 0 <= i < |entries[1..]| && parse(entries[1..][i]) == Some(m);
      assert entries[i + 1] == entries[1..][i];
    }
  }

  // ---------------------------------------------------------------------------
  // Layout and clicks

  predicate IsOptionSlot(slot: int) {
    slot in OPTION_SLOTS
  }

  /** `renderLayout`'s slot assignment: the i-th entry goes to the i-th
      option slot. */
  function Layout(menu: seq<MenuPunishment>): (r: map<int, MenuPunishment>)
    ensures forall i :: 0 <= i < |menu| && i < |OPTION_SLOTS| ==> OPTION_SLOTS[i] in r && r[OPTION_SLOTS[i]] == menu[i]
    ensures forall slot :: slot in r ==> IsOptionSlot(slot)
    ensures forall i :: |menu| <= i < |OPTION_SLOTS| ==> OPTION_SLOTS[i] !in r
  {
    map i | 0 <= i < |OPTION_SLOTS| && i < |menu| :: OPTION_SLOTS[i] := menu[i]
  }

  /** What a click in the menu leads to. */
  datatype Click = Ignored | EmptySlotNotice | Chosen(choice: MenuPunishment)

  function OnClick(layout: map<int, MenuPunishment>, slot: int): (r: Click)
    ensures r.Chosen? <==> slot in layout
    ensures r.Chosen? ==> r.choice == layout[slot]
    ensures r == EmptySlotNotice <==> slot !in layout && IsOptionSlot(slot)
  {
    if slot in layout then Chosen(layout[slot])
    else if IsOptionSlot(slot) then EmptySlotNotice
    else Ignored
  }

  /** A click on an option slot with an entry issues that entry, and every
      entry of a loaded menu can be reached by exactly its slot. */
  lemma ClickReachesEntry(entries: seq<MenuEntry>, warnDefault: int, normalizeWarn: string -> Option<string>, i: int)
    requires 0 <= i < |LoadMenuPunishments(entries, warnDefault, normalizeWarn)|
    ensures var menu := LoadMenuPunishments(entries, warnDefault, normalizeWarn);
      OnClick(Layout(menu), OPTION_SLOTS[i]) == Chosen(menu[i])
  {
  }

  /** `issueFromMenu`: the entry as configured, once the address and the warn
      reason are checked again. */
  function IssueFromMenu(target: Uuid, m: MenuPunishment, ip: Option<string>,
                         normalizeWarn: string -> Option<string>, actor: string): (r: Issued)
    ensures r == Rejected(IpBanNeedsAddress) <==> m.kind == IPBAN && IsNullOrBlank(ip)
    ensures r == Rejected(WarnReasonNotAllowed) <==> m.kind == WARN && normalizeWarn(m.reason).None?
    ensures r.Issue? ==> r.request == IssueArgs(target, m.kind, m.reason, m.durationSeconds, actor, ip, m.silent, m.nnr)
  {
    if m.kind == IPBAN && IsNullOrBlank(ip) then Rejected(IpBanNeedsAddress)
    else if m.kind == WARN && normalizeWarn(m.reason).None? then Rejected(WarnReasonNotAllowed)
    else Issue(IssueArgs(target, m.kind, m.reason, m.durationSeconds, actor, ip, m.silent, m.nnr))
  }

  /** A menu issue never sends a temporary ban without a duration or a
      negative duration. */
  lemma MenuIssueWellFormed(entries: seq<MenuEntry>, warnDefault: int, normalizeWarn: string -> Option<string>,
                            i: int, target: Uuid, ip: Option<string>, actor: string)
    requires 0 <= i < |LoadMenuPunishments(entries, warnDefault, normalizeWarn)|
    ensures var m := LoadMenuPunishments(entries, warnDefault, normalizeWarn)[i];
      var r := IssueFromMenu(target, m, ip, normalizeWarn, actor);
      r.Issue? ==> r.request.durationSeconds >= 0 && (r.request.kind == TEMPBAN ==> r.request.durationSeconds > 0)
  {
    var parse: EntryParser := e => ParseMenuPunishment(e, warnDefault, normalizeWarn);
    var valid := ValidEntries(entries, parse);
    var menu := LoadMenuPunishments(entries, warnDefault, normalizeWarn);
    assert menu[i] == valid[i];
    ValidEntriesParsed(entries, parse, menu[i]);
    var k :| 0 <= k < |entries| && parse(entries[k]) == Some(menu[i]);
    assert ParseMenuPunishment(entries[k], warnDefault, normalizeWarn) == Some(menu[i]);
  }
}

=== FILE: duration_examples.dfy ===
/** Concrete inputs of `DurationParser.parseToSeconds`: the accepted and
    rejected forms, and the wrap-around input that the code as written lets
    through. */
module DurationExamples {
  import opened Wrappers
  import opened JavaText
  import opened JavaNumbers
  import opened DurationParser

  /** A zero-valued token is accepted and means the same as "perm". */
  lemma ZeroTokenIsPermanent()
    ensures ParseToSeconds("0s") == Some(0)
    ensures ParseToSeconds("perm") == ParseToSeconds("0s")
  {
    ZeroToken();
    PermIsZero();
  }

  lemma ZeroToken()
    ensures ParseToSeconds("0s") == Some(0)
  {
    var t := Token("0", 's');
    ParseLongDigits("0");
    ParseRender([t]);
    assert Render([t]) == "0s";
  }

  lemma PermIsZero()
    ensures ParseToSeconds("perm") == Some(0)
  {
    assert Normalize("perm") == "perm";
  }

  lemma HoursThenDaysText()
    ensures Render([Token("12", 'h'), Token("1", 'd')]) == "12h1d"
  {
  }

  lemma HoursThenDaysSum()
    ensures ExactSum([Token("12", 'h'), Token("1", 'd')]) == Some(129600)
  {
    ParseLongDigits("12");
    ParseLongDigits("1");
    assert ExactSum([Token("1", 'd')]) == Some(86400);
  }

  /** Tokens may come in any order. */
  lemma HoursThenDays()
    ensures ParseToSeconds("12h1d") == Some(129600)
  {
    HoursThenDaysText();
    HoursThenDaysSum();
    ParseRender([Token("12", 'h'), Token("1", 'd')]);
  }

  lemma RepeatedUnitSum()
    ensures ExactSum([Token("1", 'm'), Token("1", 'm')]) == Some(120)
  {
    ParseLongDigits("1");
    assert ExactSum([Token("1", 'm')]) == Some(60);
  }

  /** A unit may repeat; the values add up. */
  lemma RepeatedUnit()
    ensures ParseToSeconds("1m1m") == Some(120)
  {
    assert Render([Token("1", 'm'), Token("1", 'm')]) == "1m1m";
    RepeatedUnitSum();
    ParseRender([Token("1", 'm'), Token("1", 'm')]);
  }

  /** An inner space is rejected. */
  lemma InnerSpaceRejected()
    ensures ParseToSeconds("1h 30m") == None
  {
    assert Normalize("1h 30m") == "1h 30m";
    PermanentStartsWithLetter("1h 30m");
    ForeignCharRejected("1h 30m", 2);
  }

  /** An unknown unit is rejected, and so is empty text. */
  lemma UnknownUnitRejected()
    ensures ParseToSeconds("5w") == None
    ensures ParseToSeconds("") == None
  {
    UnknownUnit();
    EmptyRejected();
  }

  lemma UnknownUnit()
    ensures ParseToSeconds("5w") == None
  {
    assert Normalize("5w") == "5w";
    PermanentStartsWithLetter("5w");
    ForeignCharRejected("5w", 1);
  }

  lemma EmptyRejected()
    ensures ParseToSeconds("") == None
  {
    assert Normalize("") == "";
  }

  /** The digit group of the wrap-around example: 213503982334602, whose
      product with 86400 exceeds `Long.MAX_VALUE` by just enough to wrap to a
      small positive number. */
  const HUGE: nat := 213503982334602

  lemma HugeGroupParses()
    ensures ParseLong(NatToString(HUGE)) == Some(HUGE)
  {
    NatToStringValue(HUGE);
    ParseLongDigits(NatToString(HUGE));
  }

  lemma HugeProductWraps()
    ensures Wrap64(HUGE * 86400) == 61184
    ensures HUGE * 86400 > MAX_LONG
  {
  }

  lemma HugeTokenWraps()
    ensures SumWrapped([Token(NatToString(HUGE), 'd')], 0) == Some(61184)
  {
    HugeGroupParses();
    HugeProductWraps();
  }

  lemma HugeTokenExact()
    ensures ExactSum([Token(NatToString(HUGE), 'd')]) == Some(HUGE * 86400)
  {
    HugeGroupParses();
  }

  /** A wrapped total passes the source's `total < 0` guard: the input
      "213503982334602d" comes back as 61184 seconds instead of being
      rejected. */
  lemma WrapAroundAccepted()
    ensures ParseToSecondsAsWritten(NatToString(HUGE) + "d") == Some(61184)
    ensures ParseToSeconds(NatToString(HUGE) + "d") == None
  {
    var t := Token(NatToString(HUGE), 'd');
    var x := NatToString(HUGE) + "d";
    assert Render([t]) == t.digits + [t.unit] + Render([]);
    assert Render([t]) == x;
    RenderNormal([t]);
    RenderNotPermanent([t]);
    ScanRender([t]);
    HugeTokenWraps();
    HugeTokenExact();
    HugeProductWraps();
  }
}

=== FILE: duration_formatter.dfy ===
/** `DurationFormatter.formatSeconds`: a number of seconds as "1д 2ч 3м 4с",
    leaving out zero components, or "Навсегда" for a permanent duration. */
module DurationFormatter {
  import opened JavaText
  import opened JavaNumbers

  const PERMANENT_TEXT: string := "Навсегда"
  const SECONDS_PER_DAY: int := 86400
  const SECONDS_PER_HOUR: int := 3600
  const SECONDS_PER_MINUTE: int := 60

  /** Days, hours, minutes and seconds of a duration. */
  datatype Components = Components(days: nat, hours: nat, minutes: nat, secs: nat)

  function Split(seconds: nat): (c: Components)
    ensures c.days * SECONDS_PER_DAY + c.hours * SECONDS_PER_HOUR
      + c.minutes * SECONDS_PER_MINUTE + c.secs == seconds
    ensures c.hours < 24 && c.minutes < 60 && c.secs < 60
  {
    var days := seconds / SECONDS_PER_DAY;
    var remaining := seconds % SECONDS_PER_DAY;
    var hours := remaining / SECONDS_PER_HOUR;
    var remaining2 := remaining % SECONDS_PER_HOUR;
    Components(days, hours, remaining2 / SECONDS_PER_MINUTE, remaining2 % SECONDS_PER_MINUTE)
  }

  /** One printed component: a positive count and its Russian unit letter. */
  datatype Piece = Piece(count: nat, suffix: char)

  /** The four unit letters in printing order. */
  const SUFFIXES: string := "дчмс"

  function SuffixSeconds(c: char): int {
    if c == 'д' then SECONDS_PER_DAY
    else if c == 'ч' then SECONDS_PER_HOUR
    else if c == 'м' then SECONDS_PER_MINUTE
    else 1
  }

  function SuffixRank(c: char): int {
    if c == 'д' then 0 else if c == 'ч' then 1 else if c == 'м' then 2 else 3
  }

  /** The seconds the listed pieces stand for. */
  function PiecesValue(ps: seq<Piece>): int {
    if |ps| == 0 then 0 else ps[0].count * SuffixSeconds(ps[0].suffix) + PiecesValue(ps[1..])
  }

  /** Ranks strictly increase along the list. */
  predicate InUnitOrder(ps: seq<Piece>) {
    forall i, j :: 0 <= i < j < |ps| ==> SuffixRank(ps[i].suffix) < SuffixRank(ps[j].suffix)
  }

  /** Drops the zero components, keeping the order. */
  function NonZero(ps: seq<Piece>): (r: seq<Piece>)
    ensures forall i :: 0 <= i < |r| ==> r[i].count > 0 && r[i] in ps
    ensures forall p :: p in ps && p.count > 0 ==> p in r
    ensures |r| == 0 <==> forall i :: 0 <= i < |ps| ==> ps[i].count == 0
  {
    if |ps| == 0 then []
    else
      var rest := NonZero(ps[1..]);
      assert forall i :: 0 <= i < |rest| ==> rest[i] in ps[1..];
      if ps[0].count > 0 then [ps[0]] + rest else rest
  }

  /** Dropping zero components loses no seconds. */
  lemma {:induction false} NonZeroValue(ps: seq<Piece>)
    ensures PiecesValue(NonZero(ps)) == PiecesValue(ps)
    decreases |ps|
  {
    if |ps| > 0 {
      NonZeroValue(ps[1..]);
      if ps[0].count > 0 {
        assert ([ps[0]] + NonZero(ps[1..]))[1..] == NonZero(ps[1..]);
      }
    }
  }

  /** Dropping elements keeps the remaining ones in unit order. */
  lemma {:induction false} NonZeroOrder(ps: seq<Piece>)
    requires InUnitOrder(ps)
    ensures InUnitOrder(NonZero(ps))
    decreases |ps|
  {
    if |ps| > 0 {
      assert InUnitOrder(ps[1..]);
      NonZeroOrder(ps[1..]);
      var rest := NonZero(ps[1..]);
      if ps[0].count > 0 {
        var r := [ps[0]] + rest;
        forall i, j | 0 <= i < j < |r| ensures SuffixRank(r[i].suffix) < SuffixRank(r[j].suffix) {
          if i == 0 {
            assert r[j] in ps[1..];
            var k :| 0 <= k < |ps[1..]| && ps[1..][k] == r[j];
            assert ps[k + 1] == r[j];
          }
        }
      }
    }
  }

  /** The four components of `seconds`, zero or not, largest unit first. */
  function AllPieces(seconds: nat): (ps: seq<Piece>)
    ensures InUnitOrder(ps)
    ensures PiecesValue(ps) == seconds
    ensures forall p :: p in ps ==> p.suffix in SUFFIXES
    ensures (forall i :: 0 <= i < |ps| ==> ps[i].count == 0) <==> seconds == 0
    ensures |ps| == 4 && ps[0].suffix == 'д' && ps[1].suffix == 'ч' && ps[2].suffix == 'м' && ps[3].suffix == 'с'
    ensures ps[1].count < 24 && ps[2].count < 60 && ps[3].count < 60
  {
    var c := Split(seconds);
    var ps := [Piece(c.days, 'д'), Piece(c.hours, 'ч'), Piece(c.minutes, 'м'), Piece(c.secs, 'с')];
    assert PiecesValue(ps[3..]) == c.secs;
    assert PiecesValue(ps[2..]) == c.minutes * SECONDS_PER_MINUTE + c.secs by {
      assert ps[2..][1..] == ps[3..];
    }
    assert PiecesValue(ps[1..]) == c.hours * SECONDS_PER_HOUR + c.minutes * SECONDS_PER_MINUTE + c.secs by {
      assert ps[1..][1..] == ps[2..];
    }
    ps
  }

  /** The components are the only way to write `seconds` as days and hours
      below a day, minutes below an hour and seconds below a minute. */
  lemma AllPiecesUnique(days: nat, hours: nat, minutes: nat, secs: nat)
    requires hours < 24 && minutes < 60 && secs < 60
    ensures var seconds := days * SECONDS_PER_DAY + hours * SECONDS_PER_HOUR + minutes * SECONDS_PER_MINUTE + secs;
      AllPieces(seconds) == [Piece(days, 'д'), Piece(hours, 'ч'), Piece(minutes, 'м'), Piece(secs, 'с')]
  {
    var below := hours * SECONDS_PER_HOUR + minutes * SECONDS_PER_MINUTE + secs;
    var seconds := days * SECONDS_PER_DAY + below;
    var c := Split(seconds);
    assert 0 <= below < SECONDS_PER_DAY;
    DivModUnique(seconds, SECONDS_PER_DAY, days, below);
    DivModUnique(below, SECONDS_PER_HOUR, hours, minutes * SECONDS_PER_MINUTE + secs);
    DivModUnique(minutes * SECONDS_PER_MINUTE + secs, SECONDS_PER_MINUTE, minutes, secs);
    assert c == Components(days, hours, minutes, secs);
  }

  lemma DivModUnique(n: int, d: int, q: int, r: int)
    requires d > 0 && 0 <= r < d && n == q * d + r
    ensures n / d == q && n % d == r
  {
    var k := n / d - q;
    assert k * d == r - n % d;
    MultipleBelow(k, d);
  }

  /** The only multiple of `d` strictly between `-d` and `d` is zero. */
  lemma MultipleBelow(k: int, d: int)
    requires d > 0 && -d < k * d < d
    ensures k == 0
  {
    if k > 0 {
      MultipleGrows(k, d);
    } else if k < 0 {
      MultipleGrows(-k, d);
    }
  }

  lemma MultipleGrows(k: int, d: int)
    requires k >= 1 && d > 0
    ensures k * d >= d
  {
    assert k * d == (k - 1) * d + d;
  }

  /** The non-zero components, largest unit first. */
  function Pieces(seconds: nat): (ps: seq<Piece>)
    ensures forall i :: 0 <= i < |ps| ==> ps[i].count > 0 && ps[i].suffix in SUFFIXES
    ensures InUnitOrder(ps)
    ensures PiecesValue(ps) == seconds
    ensures |ps| == 0 <==> seconds == 0
    ensures forall p :: p in ps <==> p in AllPieces(seconds) && p.count > 0
  {
    var all := AllPieces(seconds);
    NonZeroValue(all);
    NonZeroOrder(all);
    NonZero(all)
  }

  function PieceText(p: Piece): string {
    IntToString(p.count) + [p.suffix]
  }

  function PiecesText(ps: seq<Piece>): (r: seq<string>)
    ensures |r| == |ps|
    ensures forall i :: 0 <= i < |ps| ==> r[i] == PieceText(ps[i])
  {
    seq(|ps|, i requires 0 <= i < |ps| => PieceText(ps[i]))
  }

  /** `formatSeconds`. */
  function FormatSeconds(seconds: int): (r: string)
    ensures seconds <= 0 <==> r == PERMANENT_TEXT
    ensures seconds > 0 ==> r == Join(PiecesText(Pieces(seconds)), " ") && r != []
  {
    if seconds <= 0 then PERMANENT_TEXT
    else
      var ps := Pieces(seconds);
      var r := Join(PiecesText(ps), " ");
      JoinStartsWith(PiecesText(ps), " ");
      assert IsAsciiDigit(r[0]);
      assert !IsAsciiDigit(PERMANENT_TEXT[0]);
      r
  }

  /** A join of non-empty parts starts with the first part's first character. */
  lemma JoinStartsWith(parts: seq<string>, sep: string)
    requires |parts| > 0 && |parts[0]| > 0
    ensures |Join(parts, sep)| > 0 && Join(parts, sep)[0] == parts[0][0]
  {
    if |parts| > 1 {
      JoinCons(parts[0], parts[1..], sep);
      assert parts == [parts[0]] + parts[1..];
    }
  }
}

=== FILE: duration_parser.dfy ===
/** `DurationParser.parseToSeconds`: text such as "1d12h" or "perm" to a
    number of seconds, 0 meaning permanent.

    The source finds the tokens with the regular expression `(\d+)([smhd])`
    and then requires that deleting every token leaves nothing. `Scan` below
    is that search: `\d` is an ASCII digit, `\d+` is greedy, and a shorter
    digit run can never be followed by a unit letter (it is followed by a
    digit), so a match starts at a position exactly when the whole digit run
    from there is followed by one of s, m, h, d; otherwise the search moves
    one character on and that character is left over.

    The source multiplies and adds in 64-bit `long`, which wraps silently;
    `ParseToSecondsAsWritten` keeps that, `ParseToSeconds` rejects a total
    beyond `Long.MAX_VALUE` instead, and the rest of the model uses the latter. */
module DurationParser {
  import opened Wrappers
  import opened JavaText
  import opened JavaNumbers

  const PERMANENT_VALUES: seq<string> := ["perm", "permanent", "forever", "навсегда"]

  predicate IsUnit(c: char) {
    c == 's' || c == 'm' || c == 'h' || c == 'd'
  }

  function UnitSeconds(c: char): (n: int)
    requires IsUnit(c)
    ensures n > 0
  {
    match c
    case 's' => 1
    case 'm' => 60
    case 'h' => 3600
    case 'd' => 86400
  }

  /** One regular-expression match: the digit group and the unit letter. */
  datatype Token = Token(digits: string, unit: char)

  predicate ValidToken(t: Token) {
    |t.digits| > 0 && AllDigits(t.digits) && IsUnit(t.unit)
  }

  predicate AllValid(ts: seq<Token>) {
    forall i :: 0 <= i < |ts| ==> ValidToken(ts[i])
  }

  /** The text a sequence of tokens spells. */
  function Render(ts: seq<Token>): (s: string)
    ensures AllValid(ts) && |ts| > 0 ==> |s| > 0
  {
    if |ts| == 0 then [] else ts[0].digits + [ts[0].unit] + Render(ts[1..])
  }

  /** Length of the run of ASCII digits at the front of `s`. */
  function DigitRun(s: string): (k: nat)
    ensures k <= |s|
    ensures forall i :: 0 <= i < k ==> IsAsciiDigit(s[i])
    ensures k < |s| ==> !IsAsciiDigit(s[k])
  {
    if |s| > 0 && IsAsciiDigit(s[0]) then 1 + DigitRun(s[1..]) else 0
  }

  /** Whether a match starts at the front of `s`. */
  predicate MatchesAtFront(s: string) {
    var k := DigitRun(s);
    0 < k < |s| && IsUnit(s[k])
  }

  /** The matches `Matcher.find` reports, in order, and what `replaceAll`
      leaves after deleting them. */
  datatype Scanned = Scanned(tokens: seq<Token>, leftover: string)

  function Scan(s: string): (r: Scanned)
    ensures AllValid(r.tokens)
    ensures |r.leftover| <= |s|
  {
    if |s| == 0 then Scanned([], [])
    else if MatchesAtFront(s) then
      var k := DigitRun(s);
      var rest := Scan(s[k + 1..]);
      Scanned([Token(s[..k], s[k])] + rest.tokens, rest.leftover)
    else
      var rest := Scan(s[1..]);
      Scanned(rest.tokens, [s[0]] + rest.leftover)
  }

  /** When the deletion leaves nothing, the text is exactly its tokens. */
  lemma {:induction false} ScanCovers(s: string)
    requires Scan(s).leftover == []
    ensures Render(Scan(s).tokens) == s
    decreases |s|
  {
    if |s| > 0 {
      if MatchesAtFront(s) {
        var k := DigitRun(s);
        ScanCovers(s[k + 1..]);
        var ts := Scan(s).tokens;
        assert ts[1..] == Scan(s[k + 1..]).tokens;
        assert s == s[..k] + [s[k]] + s[k + 1..];
      }
    }
  }

  lemma {:induction false} DigitRunOfToken(d: string, rest: string)
    requires AllDigits(d)
    requires |rest| > 0 && !IsAsciiDigit(rest[0])
    ensures DigitRun(d + rest) == |d|
    decreases |d|
  {
    var s := d + rest;
    if |d| > 0 {
      assert s[0] == d[0] && IsAsciiDigit(s[0]);
      assert s[1..] == d[1..] + rest;
      DigitRunOfToken(d[1..], rest);
    } else {
      assert s == rest;
    }
  }

  /** Scanning the text of well-formed tokens finds exactly those tokens and
      leaves nothing over. */
  lemma {:induction false} ScanRender(ts: seq<Token>)
    requires AllValid(ts)
    ensures Scan(Render(ts)) == Scanned(ts, [])
    decreases |ts|
  {
    if |ts| > 0 {
      var t := ts[0];
      var s := Render(ts);
      assert s == t.digits + ([t.unit] + Render(ts[1..]));
      DigitRunOfToken(t.digits, [t.unit] + Render(ts[1..]));
      assert s[|t.digits|] == t.unit;
      assert s[..|t.digits|] == t.digits;
      assert s[|t.digits| + 1..] == Render(ts[1..]);
      ScanRender(ts[1..]);
      assert ts == [Token(t.digits, t.unit)] + ts[1..];
    }
  }

  /** The trimmed, lower-cased input. */
  function Normalize(input: string): string {
    ToLower(Trim(input))
  }

  // ---------------------------------------------------------------------------
  // The code as written: 64-bit wrapping arithmetic

  /** The loop over the matches: `Long.parseLong` on each digit group (which
      fails beyond `Long.MAX_VALUE`) and `total += value * unit` in wrapping
      `long` arithmetic. */
  function SumWrapped(ts: seq<Token>, total: int): (r: Option<int>)
    requires AllValid(ts)
    requires IsLong(total)
    ensures r.Some? ==> IsLong(r.value)
    decreases |ts|
  {
    if |ts| == 0 then Some(total)
    else
      var v :- ParseLong(ts[0].digits);
      SumWrapped(ts[1..], Wrap64(total + Wrap64(v * UnitSeconds(ts[0].unit))))
  }

  /** `parseToSeconds` exactly as written; `None` is the
      `IllegalArgumentException`. */
  function ParseToSecondsAsWritten(input: string): (r: Option<int>)
    ensures r.Some? ==> 0 <= r.value <= MAX_LONG
  {
    var normalized := Normalize(input);
    if normalized in PERMANENT_VALUES then Some(0)
    else
      var scanned := Scan(normalized);
      match SumWrapped(scanned.tokens, 0)
      case None => None
      case Some(total) =>
        if |scanned.tokens| == 0 || total < 0 || scanned.leftover != [] then None
        else Some(total)
  }

  // ---------------------------------------------------------------------------
  // The corrected parser: exact arithmetic, overflow rejected

  /** The mathematical sum of value × unit, failing only where
      `Long.parseLong` fails on a digit group. */
  function ExactSum(ts: seq<Token>): (r: Option<int>)
    requires AllValid(ts)
    ensures r.Some? ==> r.value >= 0
    decreases |ts|
  {
    if |ts| == 0 then Some(0)
    else
      GroupValue(ts[0].digits);
      assert AllValid(ts[1..]) by {
        forall i | 0 <= i < |ts[1..]| ensures ValidToken(ts[1..][i]) {
          assert ts[1..][i] == ts[i + 1];
        }
      }
      var v :- ParseLong(ts[0].digits);
      var rest :- ExactSum(ts[1..]);
      Some(v * UnitSeconds(ts[0].unit) + rest)
  }

  /** `parseToSeconds` with the total checked against `Long.MAX_VALUE` rather
      than left to wrap. */
  function ParseToSeconds(input: string): (r: Option<int>)
    ensures r.Some? ==> 0 <= r.value <= MAX_LONG
    ensures r.Some? && Normalize(input) !in PERMANENT_VALUES ==>
      var ts := Scan(Normalize(input)).tokens;
      |ts| > 0 && Render(ts) == Normalize(input) && ExactSum(ts) == Some(r.value)
    ensures Normalize(input) in PERMANENT_VALUES ==> r == Some(0)
  {
    var normalized := Normalize(input);
    if normalized in PERMANENT_VALUES then Some(0)
    else
      var scanned := Scan(normalized);
      match ExactSum(scanned.tokens)
      case None => None
      case Some(total) =>
        if |scanned.tokens| == 0 || total > MAX_LONG || scanned.leftover != [] then None
        else
          ScanCovers(normalized);
          Some(total)
  }

  /** A digit group `Long.parseLong` rejects makes both sums fail. */
  lemma {:induction false} SumWrappedFailsWithExact(ts: seq<Token>, total: int)
    requires AllValid(ts)
    requires IsLong(total)
    requires ExactSum(ts).None?
    ensures SumWrapped(ts, total).None?
    decreases |ts|
  {
    if ParseLong(ts[0].digits).Some? {
      var v := ParseLong(ts[0].digits).value;
      SumWrappedFailsWithExact(ts[1..], Wrap64(total + Wrap64(v * UnitSeconds(ts[0].unit))));
    }
  }

  /** Without overflow the wrapping loop computes the exact sum. */
  lemma {:induction false} SumWrappedExact(ts: seq<Token>, total: int)
    requires AllValid(ts)
    requires 0 <= total
    requires ExactSum(ts).Some? && total + ExactSum(ts).value <= MAX_LONG
    ensures SumWrapped(ts, total) == Some(total + ExactSum(ts).value)
    decreases |ts|
  {
    if |ts| > 0 {
      var v := ParseLong(ts[0].digits).value;
      var u := UnitSeconds(ts[0].unit);
      var step := v * u;
      var rest := ExactSum(ts[1..]).value;
      assert ExactSum(ts).value == step + rest;
      assert 0 <= step by {
        assert 0 <= v && 0 < u;
      }
      assert Wrap64(step) == step;
      assert Wrap64(total + step) == total + step;
      SumWrappedExact(ts[1..], total + step);
    }
  }

  // ---------------------------------------------------------------------------
  // The exception for an overlong digit group

  /** The first digit group `Long.parseLong` rejects, in the order the loop
      meets the groups. */
  function FirstOverlong(ts: seq<Token>): (r: Option<string>)
    ensures r.Some? ==> ParseLong(r.value).None? && exists i :: 0 <= i < |ts| && ts[i].digits == r.value
    ensures r.None? <==> forall i :: 0 <= i < |ts| ==> ParseLong(ts[i].digits).Some?
    decreases |ts|
  {
    if |ts| == 0 then None
    else if ParseLong(ts[0].digits).None? then Some(ts[0].digits)
    else
      var r := FirstOverlong(ts[1..]);
      assert forall i :: 0 < i < |ts| ==> ts[i] == ts[1..][i - 1];
      r
  }

  /** The digit group whose `NumberFormatException` escapes
      `parseToSeconds`. The loop parses every group before the format is
      checked, so an overlong group is reported even in text that is
      malformed elsewhere; a permanent word has no groups. */
  function NumberFormatGroup(input: string): Option<string> {
    var normalized := Normalize(input);
    if normalized in PERMANENT_VALUES then None else FirstOverlong(Scan(normalized).tokens)
  }

  /** The exact sum fails exactly at an overlong group. */
  lemma {:induction false} ExactSumFailsIff(ts: seq<Token>)
    requires AllValid(ts)
    ensures ExactSum(ts).None? <==> FirstOverlong(ts).Some?
    decreases |ts|
  {
    if |ts| > 0 {
      ExactSumFailsIff(ts[1..]);
    }
  }

  /** So does the wrapping loop, whatever it has summed so far. */
  lemma {:induction false} SumWrappedFailsIff(ts: seq<Token>, total: int)
    requires AllValid(ts) && IsLong(total)
    ensures SumWrapped(ts, total).None? <==> FirstOverlong(ts).Some?
    decreases |ts|
  {
    if |ts| > 0 && ParseLong(ts[0].digits).Some? {
      var v := ParseLong(ts[0].digits).value;
      SumWrappedFailsIff(ts[1..], Wrap64(total + Wrap64(v * UnitSeconds(ts[0].unit))));
    }
  }

  /** Both parsers reject text holding an overlong digit group. */
  lemma OverlongRejected(input: string)
    requires NumberFormatGroup(input).Some?
    ensures ParseToSeconds(input).None? && ParseToSecondsAsWritten(input).None?
  {
    var ts := Scan(Normalize(input)).tokens;
    ExactSumFailsIff(ts);
    SumWrappedFailsIff(ts, 0);
  }

  /** The two parsers agree on every input whose exact total fits in a
      `long`; they differ only where the source's arithmetic wraps. */
  lemma AsWrittenAgreesWithoutOverflow(input: string)
    requires ParseToSeconds(input).Some?
    ensures ParseToSecondsAsWritten(input) == ParseToSeconds(input)
  {
    var normalized := Normalize(input);
    if normalized !in PERMANENT_VALUES {
      SumWrappedExact(Scan(normalized).tokens, 0);
    }
  }

  /** Writing well-formed tokens and parsing them back yields their total,
      whatever their order and however often a unit repeats. */
  lemma ParseRender(ts: seq<Token>)
    requires AllValid(ts) && |ts| > 0
    requires ExactSum(ts).Some? && ExactSum(ts).value <= MAX_LONG
    ensures ParseToSeconds(Render(ts)) == ExactSum(ts)
  {
    var s := Render(ts);
    RenderNormal(ts);
    ScanRender(ts);
    RenderNotPermanent(ts);
  }

  lemma RenderNormal(ts: seq<Token>)
    requires AllValid(ts)
    ensures Normalize(Render(ts)) == Render(ts)
  {
    var s := Render(ts);
    RenderChars(ts);
    if |s| > 0 {
      assert !IsTrimmable(s[0]) && !IsTrimmable(s[|s| - 1]);
    }
    assert Trim(s) == s;
    assert ToLower(s) == s;
  }

  lemma {:induction false} RenderChars(ts: seq<Token>)
    requires AllValid(ts)
    ensures forall i :: 0 <= i < |Render(ts)| ==> IsAsciiDigit(Render(ts)[i]) || IsUnit(Render(ts)[i])
    decreases |ts|
  {
    if |ts| > 0 {
      RenderChars(ts[1..]);
      var s := Render(ts);
      var head := ts[0].digits + [ts[0].unit];
      assert s == head + Render(ts[1..]);
      forall i | 0 <= i < |s| ensures IsAsciiDigit(s[i]) || IsUnit(s[i]) {
        if i >= |head| {
          assert s[i] == Render(ts[1..])[i - |head|];
        }
      }
    }
  }

  lemma RenderNotPermanent(ts: seq<Token>)
    requires AllValid(ts) && |ts| > 0
    ensures Render(ts) !in PERMANENT_VALUES
  {
    var s := Render(ts);
    assert s[0] == ts[0].digits[0];
    PermanentStartsWithLetter(s);
  }

  lemma PermanentStartsWithLetter(s: string)
    requires |s| > 0 && IsAsciiDigit(s[0])
    ensures s !in PERMANENT_VALUES
  {
    forall w | w in PERMANENT_VALUES ensures s != w {
      assert !IsAsciiDigit(w[0]);
    }
  }

  /** Any character that is neither a digit nor a unit letter, such as an
      inner space or an unknown unit, makes the input invalid. */
  lemma ForeignCharRejected(input: string, i: int)
    requires Normalize(input) !in PERMANENT_VALUES
    requires 0 <= i < |Normalize(input)|
    requires !IsAsciiDigit(Normalize(input)[i]) && !IsUnit(Normalize(input)[i])
    ensures ParseToSeconds(input) == None
  {
    var s := Normalize(input);
    if Scan(s).leftover == [] {
      ScanCovers(s);
      RenderChars(Scan(s).tokens);
    }
  }

  /** A digit group within range parses to its value. */
  lemma ParseLongDigits(d: string)
    requires |d| > 0 && AllDigits(d) && DigitsValue(d) <= MAX_LONG
    ensures ParseLong(d) == Some(DigitsValue(d))
  {
    assert d[0] != '-' && d[0] != '+';
  }

  /** A digit group parses, if at all, to its value, which is never
      negative. */
  lemma GroupValue(d: string)
    requires |d| > 0 && AllDigits(d)
    ensures ParseLong(d).Some? ==> ParseLong(d).value == DigitsValue(d) >= 0
  {
    assert d[0] != '-' && d[0] != '+';
  }
}

=== FILE: engine.dfy ===
/** `PunishmentService`: the lifecycle engine between the store, the
    per-player cache of active punishments, the players being tracked for
    polling, and the registered listeners.

    Each asynchronous chain of the source runs here to completion in one
    step, its store calls in program order. A failed future is a `None`
    result; the writes made before the failure stay in the store. */
module Engine {
  import opened Wrappers
  import opened JavaText
  import opened Model
  import opened Snapshot
  import opened Repository
  import opened ConnectionMerge
  import opened IpHashing
  import opened Notifications

  /** The actor, reason and action of an automatic expiry. */
  const EXPIRE_ACTOR: string := "Система"
  const EXPIRE_REASON: string := "Истек срок"
  const EXPIRE_ACTION: string := "EXPIRE"

  datatype Service = Service(
    store: Store,
    cache: map<Uuid, ActivePunishment>,
    tracked: map<Uuid, string>,
    listeners: seq<ListenerId>)

  /** The result of a service call: the state afterwards, the listener calls
      made, and the value (`None` when the returned future fails). */
  datatype Outcome<T> = Outcome(svc: Service, events: seq<Event>, value: Option<T>)

  // ---------------------------------------------------------------------------
  // Registration and tracking

  function RegisterListener(svc: Service, l: ListenerId): (r: Service)
    ensures r.listeners == svc.listeners + [l]
    ensures r.store == svc.store && r.cache == svc.cache && r.tracked == svc.tracked
  {
    svc.(listeners := svc.listeners + [l])
  }

  /** `track`: remembers the player's address, unless the player or the
      address is missing or the address is blank. */
  function Track(svc: Service, uuid: Option<Uuid>, ip: Option<string>): (r: Service)
    ensures uuid.Some? && !IsNullOrBlank(ip) ==> r.tracked == svc.tracked[uuid.value := ip.value]
    ensures uuid.None? || IsNullOrBlank(ip) ==> r == svc
    ensures r.store == svc.store && r.cache == svc.cache && r.listeners == svc.listeners
  {
    if uuid.Some? && !IsNullOrBlank(ip) then svc.(tracked := svc.tracked[uuid.value := ip.value])
    else svc
  }

  /** `untrack`: forgets the player's address and cached snapshot. */
  function Untrack(svc: Service, uuid: Option<Uuid>): (r: Service)
    ensures uuid.Some? ==> r.tracked == svc.tracked - {uuid.value} && r.cache == svc.cache - {uuid.value}
    ensures uuid.None? ==> r == svc
    ensures r.store == svc.store && r.listeners == svc.listeners
  {
    if uuid.Some? then svc.(tracked := svc.tracked - {uuid.value}, cache := svc.cache - {uuid.value})
    else svc
  }

  /** Tracking and then untracking a player leaves no trace of it, and every
      other player's entries are as untracking alone would leave them. */
  lemma TrackThenUntrack(svc: Service, uuid: Uuid, ip: Option<string>)
    ensures var r := Untrack(Track(svc, Some(uuid), ip), Some(uuid));
      && uuid !in r.tracked && uuid !in r.cache
      && r == Untrack(svc, Some(uuid))
  {
    var r := Untrack(Track(svc, Some(uuid), ip), Some(uuid));
    assert r.tracked == svc.tracked - {uuid};
  }

  /** A listener registered later is told last about every later event. */
  lemma NewListenerHearsLast(svc: Service, l: ListenerId, p: Punishment, reason: string)
    ensures var es := NotifyCreate(RegisterListener(svc, l).listeners, p);
      |es| > 0 && es[|es| - 1] == Created(l, p)
    ensures var es := NotifyRemove(RegisterListener(svc, l).listeners, p, reason);
      |es| > 0 && es[|es| - 1] == Removed(l, p, reason)
  {
  }


  // ---------------------------------------------------------------------------
  // Expiry

  /** No row with this internal id is active. */
  predicate Inactive(rows: seq<Punishment>, id: string) {
    forall q :: q in rows && q.internalId == id ==> !q.active
  }

  /** `after` is `before` with some rows switched off and nothing else
      changed. */
  predicate OnlyDeactivated(before: seq<Punishment>, after: seq<Punishment>) {
    |after| == |before| &&
    forall i :: 0 <= i < |before| ==> after[i] == before[i] || after[i] == before[i].(active := false)
  }

  lemma OnlyDeactivatedTrans(a: seq<Punishment>, b: seq<Punishment>, c: seq<Punishment>)
    requires OnlyDeactivated(a, b) && OnlyDeactivated(b, c)
    ensures OnlyDeactivated(a, c)
  {
  }

  /** Switching rows off never creates an active row. */
  lemma ActiveSurvivor(before: seq<Punishment>, after: seq<Punishment>, q: Punishment)
    requires OnlyDeactivated(before, after) && q in after && q.active
    ensures q in before
  {
    var i :| 0 <= i < |after| && after[i] == q;
  }

  lemma OnlyDeactivatedIds(before: seq<Punishment>, after: seq<Punishment>)
    requires OnlyDeactivated(before, after)
    ensures RowIds(after) == RowIds(before)
  {
    forall x | x in RowIds(before) ensures x in RowIds(after) {
      var i :| 0 <= i < |before| && before[i].internalId == x;
      assert after[i].internalId == x;
    }
    forall x | x in RowIds(after) ensures x in RowIds(before) {
      var i :| 0 <= i < |after| && after[i].internalId == x;
      assert before[i].internalId == x;
    }
  }

  /** Switching rows off keeps switched-off ids switched off, and keeps the
      internal ids where they are. */
  lemma DeactivatedStays(before: seq<Punishment>, after: seq<Punishment>, id: string)
    requires OnlyDeactivated(before, after) && Inactive(before, id)
    ensures Inactive(after, id)
  {
    forall q | q in after && q.internalId == id ensures !q.active {
      var i :| 0 <= i < |after| && after[i] == q;
      assert before[i] in before;
    }
  }

  lemma SetInactiveEffect(rows: seq<Punishment>, id: string)
    ensures OnlyDeactivated(rows, SetInactive(rows, id))
    ensures Inactive(SetInactive(rows, id), id)
  {
    var r := SetInactive(rows, id);
    forall q | q in r && q.internalId == id ensures !q.active {
      var i :| 0 <= i < |r| && r[i] == q;
    }
  }

  /** A store call's row changes are deactivations only. */
  lemma DeactivateEffect(st: Store, id: string, actor: string, reason: string, action: string, now: Instant)
    ensures var w := Deactivate(st, id, actor, reason, action, now);
      && OnlyDeactivated(st.rows, w.store.rows)
      && (st.online ==> Inactive(w.store.rows, id))
  {
    SetInactiveEffect(st.rows, id);
  }

  /** The records not expired at `now`, in their order. */
  function Live(records: seq<Punishment>, now: Instant, isExpired: (Punishment, Instant) -> bool): (r: seq<Punishment>)
    ensures forall p :: p in r <==> p in records && !isExpired(p, now)
    ensures RowIds(r) <= RowIds(records)
    ensures UniqueIds(records) ==> UniqueIds(r)
    decreases |records|
  {
    if |records| == 0 then []
    else
      var rest := Live(records[1..], now, isExpired);
      RowIdsCons(records[0], records[1..]);
      assert records == [records[0]] + records[1..];
      if isExpired(records[0], now) then
        assert UniqueIds(records) ==> UniqueIds(rest) by {
          if UniqueIds(records) {
            UniqueTail(records);
          }
        }
        rest
      else
        RowIdsCons(records[0], rest);
        assert UniqueIds(records) ==> UniqueIds([records[0]] + rest) by {
          if UniqueIds(records) {
            UniqueTail(records);
            UniqueCons(records[0], rest);
          }
        }
        [records[0]] + rest
  }

  /** The internal ids of the expired records among `records`. */
  function ExpiredIds(records: seq<Punishment>, now: Instant, isExpired: (Punishment, Instant) -> bool): set<string> {
    set p | p in records && isExpired(p, now) :: p.internalId
  }

  /** `rows` with every row whose internal id is in `ids` switched off. */
  function SwitchedOff(rows: seq<Punishment>, ids: set<string>): (r: seq<Punishment>)
    ensures |r| == |rows|
    ensures forall i :: 0 <= i < |rows| ==>
      r[i] == if rows[i].internalId in ids then rows[i].(active := false) else rows[i]
  {
    seq(|rows|, i requires 0 <= i < |rows| =>
      if rows[i].internalId in ids then rows[i].(active := false) else rows[i])
  }

  /** A history entry written by an automatic expiry. */
  predicate IsExpiryEntry(h: HistoryRecord) {
    h.actor == EXPIRE_ACTOR && h.reason == EXPIRE_REASON && h.action == EXPIRE_ACTION
  }

  /** `after` is `before` followed by expiry entries only. */
  predicate ExpiryAppended(before: seq<HistoryRecord>, after: seq<HistoryRecord>) {
    before <= after && forall i :: |before| <= i < |after| ==> IsExpiryEntry(after[i])
  }

  lemma ExpiryAppendedTrans(a: seq<HistoryRecord>, b: seq<HistoryRecord>, c: seq<HistoryRecord>)
    requires ExpiryAppended(a, b) && ExpiryAppended(b, c)
    ensures ExpiryAppended(a, c)
  {
    forall i | |a| <= i < |c| ensures IsExpiryEntry(c[i]) {
      if i < |b| {
        assert c[i] == b[i];
      }
    }
  }

  /** What `expireIfNeeded` leaves behind: the store, the records still in
      force, and whether every deactivation it issued completed. */
  datatype Expiry = Expiry(store: Store, active: seq<Punishment>, ok: bool)

  /** `expireIfNeeded`: deactivates every expired record, as the system
      ("Система", "Истек срок", EXPIRE), and keeps the others in order. The
      deactivations are issued in list order; the model runs each to
      completion before the next. */
  function ExpireIfNeeded(store: Store, records: seq<Punishment>, now: Instant,
                          isExpired: (Punishment, Instant) -> bool): (e: Expiry)
    ensures e.active == Live(records, now, isExpired)
    ensures (forall i :: 0 <= i < |records| ==> !isExpired(records[i], now)) ==> e == Expiry(store, records, true)
    ensures OnlyDeactivated(store.rows, e.store.rows)
    ensures e.store.online == store.online
    ensures !store.online ==> e.store == store
    ensures store.online ==> forall p :: p in records && isExpired(p, now) ==> Inactive(e.store.rows, p.internalId)
    ensures ExpiryAppended(store.history, e.store.history)
    ensures Valid(store) ==> Valid(e.store)
    decreases |records|
  {
    if |records| == 0 then Expiry(store, [], true)
    else
      var p := records[0];
      assert records == [p] + records[1..];
      if isExpired(p, now) then
        var w := Deactivate(store, p.internalId, EXPIRE_ACTOR, EXPIRE_REASON, EXPIRE_ACTION, now);
        DeactivateEffect(store, p.internalId, EXPIRE_ACTOR, EXPIRE_REASON, EXPIRE_ACTION, now);
        var rest := ExpireIfNeeded(w.store, records[1..], now, isExpired);
        OnlyDeactivatedTrans(store.rows, w.store.rows, rest.store.rows);
        ExpiryAppendedTrans(store.history, w.store.history, rest.store.history);
        assert store.online ==> Inactive(rest.store.rows, p.internalId) by {
          if store.online {
            DeactivatedStays(w.store.rows, rest.store.rows, p.internalId);
          }
        }
        Expiry(rest.store, rest.active, w.ok && rest.ok)
      else
        var rest := ExpireIfNeeded(store, records[1..], now, isExpired);
        Expiry(rest.store, [p] + rest.active, rest.ok)
  }

  /** Nothing but the expired records' rows is touched: with the store
      reachable, exactly the rows sharing an id with an expired record are
      switched off. */
  lemma {:induction false} ExpiryRows(store: Store, records: seq<Punishment>, now: Instant,
                                      isExpired: (Punishment, Instant) -> bool)
    ensures var e := ExpireIfNeeded(store, records, now, isExpired);
      e.store.rows == if store.online then SwitchedOff(store.rows, ExpiredIds(records, now, isExpired)) else store.rows
    decreases |records|
  {
    var ids := ExpiredIds(records, now, isExpired);
    if |records| == 0 {
      assert ids == {};
      assert SwitchedOff(store.rows, ids) == store.rows;
    } else {
      var p := records[0];
      var tail := records[1..];
      var tailIds := ExpiredIds(tail, now, isExpired);
      assert records == [p] + tail;
      if isExpired(p, now) {
        assert ids == {p.internalId} + tailIds;
        var w := Deactivate(store, p.internalId, EXPIRE_ACTOR, EXPIRE_REASON, EXPIRE_ACTION, now);
        ExpiryRows(w.store, tail, now, isExpired);
        if store.online {
          SwitchAfterSet(store.rows, p.internalId, tailIds);
        }
      } else {
        assert ids == tailIds;
        ExpiryRows(store, tail, now, isExpired);
      }
    }
  }

  lemma SwitchAfterSet(rows: seq<Punishment>, id: string, ids: set<string>)
    ensures SwitchedOff(SetInactive(rows, id), ids) == SwitchedOff(rows, {id} + ids)
  {
    var a := SwitchedOff(SetInactive(rows, id), ids);
    var b := SwitchedOff(rows, {id} + ids);
    forall i | 0 <= i < |rows| ensures a[i] == b[i] {
    }
  }

  /** The history `expireIfNeeded` writes when every deactivation goes
      through: one EXPIRE entry per expired record the store holds, in the
      order of `records`, each built from the stored row. */
  function ExpiryEntries(rows: seq<Punishment>, records: seq<Punishment>, now: Instant,
                         isExpired: (Punishment, Instant) -> bool): seq<HistoryRecord>
    decreases |records|
  {
    if |records| == 0 then []
    else
      var found := FindRow(rows, records[0].internalId);
      (if isExpired(records[0], now) && found.Some?
       then [RemovalEntry(found.value, EXPIRE_ACTOR, EXPIRE_REASON, EXPIRE_ACTION, now)]
       else [])
      + ExpiryEntries(rows, records[1..], now, isExpired)
  }

  /** When `expireIfNeeded` completes, the history gained exactly one EXPIRE
      entry per expired record, by the system with the expiry reason, and
      nothing else. */
  lemma {:induction false} ExpiryHistory(store: Store, records: seq<Punishment>, now: Instant,
                                         isExpired: (Punishment, Instant) -> bool)
    ensures var e := ExpireIfNeeded(store, records, now, isExpired);
      e.ok ==> e.store.history == store.history + ExpiryEntries(store.rows, records, now, isExpired)
    decreases |records|, 1
  {
    if |records| > 0 {
      if isExpired(records[0], now) {
        ExpiredHistoryStep(store, records, now, isExpired);
      } else {
        KeptHistoryStep(store, records, now, isExpired);
      }
    }
  }

  /** The step of `ExpiryHistory` for a first record still in force. */
  lemma {:induction false} KeptHistoryStep(store: Store, records: seq<Punishment>, now: Instant,
                                           isExpired: (Punishment, Instant) -> bool)
    requires |records| > 0 && !isExpired(records[0], now)
    ensures var e := ExpireIfNeeded(store, records, now, isExpired);
      e.ok ==> e.store.history == store.history + ExpiryEntries(store.rows, records, now, isExpired)
    decreases |records|, 0
  {
    KeptUnfold(store, records, now, isExpired);
    ExpiryHistory(store, records[1..], now, isExpired);
  }

  lemma KeptUnfold(store: Store, records: seq<Punishment>, now: Instant,
                   isExpired: (Punishment, Instant) -> bool)
    requires |records| > 0 && !isExpired(records[0], now)
    ensures var e := ExpireIfNeeded(store, records, now, isExpired);
      var rest := ExpireIfNeeded(store, records[1..], now, isExpired);
      e.store == rest.store && e.ok == rest.ok
    ensures ExpiryEntries(store.rows, records, now, isExpired) == ExpiryEntries(store.rows, records[1..], now, isExpired)
  {
  }

  /** The step of `ExpiryHistory` for an expired first record. */
  lemma {:induction false} ExpiredHistoryStep(store: Store, records: seq<Punishment>, now: Instant,
                                              isExpired: (Punishment, Instant) -> bool)
    requires |records| > 0 && isExpired(records[0], now)
    ensures var e := ExpireIfNeeded(store, records, now, isExpired);
      e.ok ==> e.store.history == store.history + ExpiryEntries(store.rows, records, now, isExpired)
    decreases |records|, 0
  {
    var p := records[0];
    var tail := records[1..];
    var w := Deactivate(store, p.internalId, EXPIRE_ACTOR, EXPIRE_REASON, EXPIRE_ACTION, now);
    var rest := ExpireIfNeeded(w.store, tail, now, isExpired);
    ExpiryHistory(w.store, tail, now, isExpired);
    if w.ok && rest.ok {
      var found := FindRow(store.rows, p.internalId);
      var head := if found.Some? then [RemovalEntry(found.value, EXPIRE_ACTOR, EXPIRE_REASON, EXPIRE_ACTION, now)] else [];
      ExpiryEntriesSwitched(store.rows, p.internalId, tail, now, isExpired);
      AppendTwice(store.history, head, ExpiryEntries(store.rows, tail, now, isExpired), w.store.history, rest.store.history);
    }
  }

  lemma AppendTwice(h: seq<HistoryRecord>, head: seq<HistoryRecord>, more: seq<HistoryRecord>,
                    mid: seq<HistoryRecord>, last: seq<HistoryRecord>)
    requires mid == h + head && last == mid + more
    ensures last == h + (head + more)
  {
  }

  /** Switching a row off does not change the entries expiry would write. */
  lemma {:induction false} ExpiryEntriesSwitched(rows: seq<Punishment>, id: string, records: seq<Punishment>,
                                                 now: Instant, isExpired: (Punishment, Instant) -> bool)
    ensures ExpiryEntries(SetInactive(rows, id), records, now, isExpired) == ExpiryEntries(rows, records, now, isExpired)
    decreases |records|
  {
    if |records| > 0 {
      FindRowSwitched(rows, id, records[0].internalId);
      ExpiryEntriesSwitched(rows, id, records[1..], now, isExpired);
    }
  }

  lemma {:induction false} FindRowSwitched(rows: seq<Punishment>, id: string, x: string)
    ensures FindRow(SetInactive(rows, id), x).Some? <==> FindRow(rows, x).Some?
    ensures FindRow(rows, x).Some? ==>
      FindRow(SetInactive(rows, id), x).value.(active := false) == FindRow(rows, x).value.(active := false)
    decreases |rows|
  {
    if |rows| > 0 {
      assert SetInactive(rows, id)[1..] == SetInactive(rows[1..], id);
      FindRowSwitched(rows[1..], id, x);
    }
  }

  /** The store's active rows for `key` that have not expired, in store
      order: what a query followed by `expireIfNeeded` hands back. */
  function InForce(rows: seq<Punishment>, key: Key, now: Instant, isExpired: (Punishment, Instant) -> bool): seq<Punishment> {
    Live(Select(rows, key), now, isExpired)
  }

  /** Every query sees the same records in force in both stores. */
  ghost predicate SameInForce(before: seq<Punishment>, after: seq<Punishment>, now: Instant,
                        isExpired: (Punishment, Instant) -> bool) {
    forall k :: InForce(after, k, now, isExpired) == InForce(before, k, now, isExpired)
  }

  /** Switching off rows that have expired changes no query's records in
      force. */
  lemma {:induction false} SwitchOffExpired(rows: seq<Punishment>, ids: set<string>, key: Key, now: Instant,
                                            isExpired: (Punishment, Instant) -> bool)
    requires forall i :: 0 <= i < |rows| && rows[i].internalId in ids ==> isExpired(rows[i], now)
    ensures InForce(SwitchedOff(rows, ids), key, now, isExpired) == InForce(rows, key, now, isExpired)
    decreases |rows|
  {
    if |rows| > 0 {
      var off := SwitchedOff(rows, ids);
      assert off[1..] == SwitchedOff(rows[1..], ids);
      SwitchOffExpired(rows[1..], ids, key, now, isExpired);
      var tail := Select(rows[1..], key);
      if rows[0].internalId in ids {
        assert !Matches(key, off[0]);
        assert Select(off, key) == Select(off[1..], key);
        if Matches(key, rows[0]) {
          assert Select(rows, key) == [rows[0]] + tail;
          assert ([rows[0]] + tail)[1..] == tail;
        }
      } else {
        assert off[0] == rows[0];
      }
    }
  }

  /** With unique ids, the rows `expireIfNeeded` switches off for a query's
      result have all expired. */
  lemma ExpiredRowsOnly(rows: seq<Punishment>, found: seq<Punishment>, now: Instant,
                        isExpired: (Punishment, Instant) -> bool)
    requires UniqueIds(rows) && forall p :: p in found ==> p in rows
    ensures forall i :: 0 <= i < |rows| && rows[i].internalId in ExpiredIds(found, now, isExpired) ==>
      isExpired(rows[i], now)
  {
    forall i | 0 <= i < |rows| && rows[i].internalId in ExpiredIds(found, now, isExpired)
      ensures isExpired(rows[i], now)
    {
      var p :| p in found && isExpired(p, now) && p.internalId == rows[i].internalId;
      var j :| 0 <= j < |rows| && rows[j] == p;
      assert i == j;
    }
  }

  // ---------------------------------------------------------------------------
  // Lookups

  /** The store query for a key. */
  function FindActive(st: Store, key: Key): (r: Result<seq<Punishment>, string>)
    ensures r.Success? <==> st.online
    ensures r.Success? ==> forall p :: p in r.value <==> p in st.rows && Matches(key, p)
    ensures r.Success? && UniqueIds(st.rows) ==> UniqueIds(r.value)
    ensures r.Success? ==> r.value == Select(st.rows, key)
  {
    match key
    case ByUuid(u) => FindActiveByUuid(st, u)
    case ByIp(ip) => FindActiveByIp(st, ip)
    case ByIpHash(h) => FindActiveByIpHash(st, h)
  }

  /** With unique ids, `expireIfNeeded` over a query's result changes no
      query's records in force: it only switches off rows that have expired. */
  lemma FetchKeepsInForce(store: Store, key: Key, now: Instant, isExpired: (Punishment, Instant) -> bool)
    requires Valid(store)
    ensures var e := ExpireIfNeeded(store, Select(store.rows, key), now, isExpired);
      SameInForce(store.rows, e.store.rows, now, isExpired)
  {
    var found := Select(store.rows, key);
    var ids := ExpiredIds(found, now, isExpired);
    ExpiryRows(store, found, now, isExpired);
    if store.online {
      ExpiredRowsOnly(store.rows, found, now, isExpired);
      forall k ensures InForce(SwitchedOff(store.rows, ids), k, now, isExpired) == InForce(store.rows, k, now, isExpired) {
        SwitchOffExpired(store.rows, ids, k, now, isExpired);
      }
    }
  }

  /** A query followed by `expireIfNeeded`. */
  datatype Fetch = Fetch(store: Store, records: Option<seq<Punishment>>)

  function FetchActive(store: Store, key: Key, now: Instant, isExpired: (Punishment, Instant) -> bool): (f: Fetch)
    ensures f.records.Some? ==> store.online
    ensures f.records.Some? ==> forall p :: p in f.records.value <==>
      p in store.rows && Matches(key, p) && !isExpired(p, now)
    ensures f.records.Some? && Valid(store) ==> UniqueIds(f.records.value)
    ensures store.online && (forall p :: p in store.rows && Matches(key, p) ==> !isExpired(p, now)) ==>
      f.records.Some? && f.store == store
    ensures f.records.Some? ==> f.records.value == InForce(store.rows, key, now, isExpired)
    ensures OnlyDeactivated(store.rows, f.store.rows)
    ensures f.store.online == store.online
    ensures Valid(store) ==> Valid(f.store) && SameInForce(store.rows, f.store.rows, now, isExpired)
    ensures ExpiryAppended(store.history, f.store.history)
  {
    var found := FindActive(store, key);
    if found.Failure? then Fetch(store, None)
    else
      var e := ExpireIfNeeded(store, found.value, now, isExpired);
      assert Valid(store) ==> SameInForce(store.rows, e.store.rows, now, isExpired) by {
        if Valid(store) {
          FetchKeepsInForce(store, key, now, isExpired);
        }
      }
      assert (forall p :: p in store.rows && Matches(key, p) ==> !isExpired(p, now)) ==>
        forall i :: 0 <= i < |found.value| ==> !isExpired(found.value[i], now) by {
        assert forall i :: 0 <= i < |found.value| ==> found.value[i] in found.value;
      }
      Fetch(e.store, if e.ok then Some(e.active) else None)
  }

  /** `getActiveByUuid`: the player's records in force, also put in the
      cache. */
  function GetActiveByUuid(svc: Service, uuid: Uuid, now: Instant, isExpired: (Punishment, Instant) -> bool): (r: Outcome<ActivePunishment>)
    ensures r.value.Some? ==> forall p :: p in r.value.value.All() <==>
      p in svc.store.rows && p.active && p.uuid == uuid && !isExpired(p, now)
    ensures r.value.Some? ==> r.svc.cache == svc.cache[uuid := r.value.value]
    ensures r.value.None? ==> r.svc.cache == svc.cache
    ensures r.value.Some? && Valid(svc.store) ==> UniqueIds(r.value.value.All())
    ensures svc.store.online && (forall p :: p in svc.store.rows && p.uuid == uuid && p.active ==> !isExpired(p, now)) ==>
      r.value.Some? && r.svc.store == svc.store
    ensures r.value.Some? ==> r.value.value.All() == InForce(svc.store.rows, ByUuid(uuid), now, isExpired)
    ensures r.events == [] && r.svc.tracked == svc.tracked && r.svc.listeners == svc.listeners
    ensures OnlyDeactivated(svc.store.rows, r.svc.store.rows) && r.svc.store.online == svc.store.online
    ensures Valid(svc.store) ==> Valid(r.svc.store) && SameInForce(svc.store.rows, r.svc.store.rows, now, isExpired)
    ensures ExpiryAppended(svc.store.history, r.svc.store.history)
  {
    var f := FetchActive(svc.store, ByUuid(uuid), now, isExpired);
    if f.records.None? then Outcome(svc.(store := f.store), [], None)
    else
      var a := ActivePunishment(f.records.value);
      Outcome(svc.(store := f.store, cache := svc.cache[uuid := a]), [], Some(a))
  }

  /** `getActiveByIp` and `getActiveByIpHash`: the records in force for an
      address or its hash; the cache is not touched. */
  function GetActiveMatching(svc: Service, key: Key, now: Instant, isExpired: (Punishment, Instant) -> bool): (r: Outcome<seq<Punishment>>)
    ensures r.value.Some? ==> forall p :: p in r.value.value <==>
      p in svc.store.rows && Matches(key, p) && !isExpired(p, now)
    ensures r.value.Some? && Valid(svc.store) ==> UniqueIds(r.value.value)
    ensures r.value.Some? ==> r.value.value == InForce(svc.store.rows, key, now, isExpired)
    ensures r.events == [] && r.svc == svc.(store := r.svc.store)
    ensures OnlyDeactivated(svc.store.rows, r.svc.store.rows) && r.svc.store.online == svc.store.online
    ensures Valid(svc.store) ==> Valid(r.svc.store) && SameInForce(svc.store.rows, r.svc.store.rows, now, isExpired)
    ensures ExpiryAppended(svc.store.history, r.svc.store.history)
  {
    var f := FetchActive(svc.store, key, now, isExpired);
    Outcome(svc.(store := f.store), [], f.records)
  }

  /** The player's records in force; none without a player. */
  function PlayerInForce(rows: seq<Punishment>, uuid: Option<Uuid>, now: Instant,
                         isExpired: (Punishment, Instant) -> bool): seq<Punishment> {
    if uuid.None? then [] else InForce(rows, ByUuid(uuid.value), now, isExpired)
  }

  /** The address's records in force followed by those of its hash; none
      for a blank address. */
  function AddressInForce(rows: seq<Punishment>, ip: Option<string>, sha256: string -> Digest, now: Instant,
                          isExpired: (Punishment, Instant) -> bool): seq<Punishment> {
    if IsNullOrBlank(ip) then []
    else InForce(rows, ByIp(ip), now, isExpired) + InForce(rows, ByIpHash(Hash(ip, sha256)), now, isExpired)
  }

  lemma AddressSameInForce(before: seq<Punishment>, after: seq<Punishment>, ip: Option<string>, sha256: string -> Digest,
                           now: Instant, isExpired: (Punishment, Instant) -> bool)
    requires SameInForce(before, after, now, isExpired)
    ensures AddressInForce(after, ip, sha256, now, isExpired) == AddressInForce(before, ip, sha256, now, isExpired)
  {
    if !IsNullOrBlank(ip) {
      assert InForce(after, ByIp(ip), now, isExpired) == InForce(before, ByIp(ip), now, isExpired);
      assert InForce(after, ByIpHash(Hash(ip, sha256)), now, isExpired) == InForce(before, ByIpHash(Hash(ip, sha256)), now, isExpired);
    }
  }

  /** The by-player half of `getActiveForConnection`. */
  function ForPlayer(svc: Service, uuid: Option<Uuid>, now: Instant, isExpired: (Punishment, Instant) -> bool): (r: Outcome<seq<Punishment>>)
    ensures r.value.Some? ==> forall q :: q in r.value.value <==>
      q in svc.store.rows && q.active && uuid.Some? && q.uuid == uuid.value && !isExpired(q, now)
    ensures r.value.Some? && Valid(svc.store) ==> UniqueIds(r.value.value)
    ensures r.value.Some? ==> r.value.value == PlayerInForce(svc.store.rows, uuid, now, isExpired)
    ensures r.events == [] && r.svc.tracked == svc.tracked && r.svc.listeners == svc.listeners
    ensures OnlyDeactivated(svc.store.rows, r.svc.store.rows)
    ensures Valid(svc.store) ==> Valid(r.svc.store) && SameInForce(svc.store.rows, r.svc.store.rows, now, isExpired)
    ensures ExpiryAppended(svc.store.history, r.svc.store.history)
  {
    if uuid.None? then Outcome(svc, [], Some([]))
    else
      var o := GetActiveByUuid(svc, uuid.value, now, isExpired);
      Outcome(o.svc, [], if o.value.Some? then Some(o.value.value.All()) else None)
  }

  /** The by-address half: matches on the address, then on its hash. */
  function ForAddress(svc: Service, ip: Option<string>, sha256: string -> Digest,
                      now: Instant, isExpired: (Punishment, Instant) -> bool): (r: Outcome<seq<Punishment>>)
    ensures r.value.Some? ==> forall q :: q in r.value.value ==>
      && q in svc.store.rows && q.active && !isExpired(q, now) && !IsNullOrBlank(ip)
      && (q.ip == ip || q.ipHash == Hash(ip, sha256))
    ensures IsNullOrBlank(ip) ==> r == Outcome(svc, [], Some([]))
    ensures r.value.Some? && Valid(svc.store) ==> r.value.value == AddressInForce(svc.store.rows, ip, sha256, now, isExpired)
    ensures r.events == [] && r.svc == svc.(store := r.svc.store)
    ensures OnlyDeactivated(svc.store.rows, r.svc.store.rows)
    ensures Valid(svc.store) ==> Valid(r.svc.store) && SameInForce(svc.store.rows, r.svc.store.rows, now, isExpired)
    ensures ExpiryAppended(svc.store.history, r.svc.store.history)
  {
    if IsNullOrBlank(ip) then Outcome(svc, [], Some([]))
    else
      var a := GetActiveMatching(svc, ByIp(ip), now, isExpired);
      var b := GetActiveMatching(a.svc, ByIpHash(Hash(ip, sha256)), now, isExpired);
      OnlyDeactivatedTrans(svc.store.rows, a.svc.store.rows, b.svc.store.rows);
      ExpiryAppendedTrans(svc.store.history, a.svc.store.history, b.svc.store.history);
      if a.value.Some? && b.value.Some? then
        var both := a.value.value + b.value.value;
        assert forall q :: q in both ==> q in svc.store.rows by {
          forall q | q in both ensures q in svc.store.rows {
            if q in b.value.value {
              ActiveSurvivor(svc.store.rows, a.svc.store.rows, q);
            }
          }
        }
        Outcome(b.svc, [], Some(both))
      else
        Outcome(b.svc, [], None)
  }

  /** `getActiveForConnection`: the records in force for the player or for
      the address (by address or by its hash), each internal id once, the
      player's own records first. A missing player or blank address
      contributes nothing. */
  function ForConnection(svc: Service, uuid: Option<Uuid>, ip: Option<string>, sha256: string -> Digest,
                         now: Instant, isExpired: (Punishment, Instant) -> bool): (r: Outcome<seq<Punishment>>)
    ensures r.value.Some? ==> UniqueIds(r.value.value)
    ensures r.value.Some? ==> forall q :: q in r.value.value ==>
      && q in svc.store.rows && q.active && !isExpired(q, now)
      && ((uuid.Some? && q.uuid == uuid.value)
          || (!IsNullOrBlank(ip) && (q.ip == ip || q.ipHash == Hash(ip, sha256))))
    ensures r.value.Some? && uuid.Some? && Valid(svc.store) ==>
      forall q :: q in svc.store.rows && q.active && q.uuid == uuid.value && !isExpired(q, now) ==> q in r.value.value
    ensures r.value.Some? && Valid(svc.store) ==>
      var own := PlayerInForce(svc.store.rows, uuid, now, isExpired);
      var addr := AddressInForce(svc.store.rows, ip, sha256, now, isExpired);
      && r.value.value == Merge(own, addr)
      && |own| <= |r.value.value| && r.value.value[..|own|] == own
      && RowIds(r.value.value) == RowIds(own) + RowIds(addr)
    ensures r.events == [] && r.svc.tracked == svc.tracked && r.svc.listeners == svc.listeners
    ensures Valid(svc.store) ==> Valid(r.svc.store) && SameInForce(svc.store.rows, r.svc.store.rows, now, isExpired)
    ensures ExpiryAppended(svc.store.history, r.svc.store.history)
  {
    var byUuid := ForPlayer(svc, uuid, now, isExpired);
    var byIp := ForAddress(byUuid.svc, ip, sha256, now, isExpired);
    ExpiryAppendedTrans(svc.store.history, byUuid.svc.store.history, byIp.svc.store.history);
    if byUuid.value.Some? && byIp.value.Some? then
      var merged := Merge(byUuid.value.value, byIp.value.value);
      assert Valid(svc.store) ==> |byUuid.value.value| <= |merged| && merged[..|byUuid.value.value|] == byUuid.value.value by {
        if Valid(svc.store) {
          MergeKeepsPlayerList(byUuid.value.value, byIp.value.value);
        }
      }
      assert Valid(svc.store) ==> byIp.value.value == AddressInForce(svc.store.rows, ip, sha256, now, isExpired) by {
        if Valid(svc.store) {
          AddressSameInForce(svc.store.rows, byUuid.svc.store.rows, ip, sha256, now, isExpired);
        }
      }
      assert forall q :: q in merged ==> q in svc.store.rows by {
        forall q | q in merged ensures q in svc.store.rows {
          if q !in byUuid.value.value {
            ActiveSurvivor(svc.store.rows, byUuid.svc.store.rows, q);
          }
        }
      }
      assert Valid(svc.store) ==> forall q :: q in byUuid.value.value ==> q in merged by {
        if Valid(svc.store) {
          forall q | q in byUuid.value.value ensures q in merged {
            MergeMembership(byUuid.value.value, byIp.value.value, q);
          }
        }
      }
      Outcome(byIp.svc, [], Some(merged))
    else
      Outcome(byIp.svc, [], None)
  }

  // ---------------------------------------------------------------------------
  // Cache maintenance

  /** `refreshCache`: reload the player's snapshot; a failed reload leaves
      the cache as it was. */
  function RefreshCache(svc: Service, uuid: Uuid, now: Instant, isExpired: (Punishment, Instant) -> bool): (r: Service)
    ensures !svc.store.online ==> r == svc
    ensures || r.cache == svc.cache
            || r.cache == svc.cache[uuid := ActivePunishment(InForce(svc.store.rows, ByUuid(uuid), now, isExpired))]
    ensures svc.store.online && (forall p :: p in svc.store.rows && p.uuid == uuid && p.active ==> !isExpired(p, now)) ==>
      && r.store == svc.store
      && r.cache == svc.cache[uuid := ActivePunishment(InForce(svc.store.rows, ByUuid(uuid), now, isExpired))]
    ensures r.tracked == svc.tracked && r.listeners == svc.listeners
    ensures OnlyDeactivated(svc.store.rows, r.store.rows) && r.store.online == svc.store.online
    ensures ExpiryAppended(svc.store.history, r.store.history)
    ensures Valid(svc.store) ==> Valid(r.store) && SameInForce(svc.store.rows, r.store.rows, now, isExpired)
  {
    GetActiveByUuid(svc, uuid, now, isExpired).svc
  }

  /** `updateCache`: reload the player's snapshot and, when there was one
      before, report what changed. */
  function UpdateCache(svc: Service, uuid: Uuid, now: Instant, isExpired: (Punishment, Instant) -> bool): (r: Outcome<ActivePunishment>)
    ensures var o := GetActiveByUuid(svc, uuid, now, isExpired); r.svc == o.svc && r.value == o.value
    ensures r.value.None? || uuid !in svc.cache ==> r.events == []
    ensures r.value.Some? && uuid in svc.cache ==>
      r.events == DetectChanges(svc.cache[uuid], r.value.value, svc.listeners)
  {
    var o := GetActiveByUuid(svc, uuid, now, isExpired);
    if o.value.Some? && uuid in svc.cache then
      Outcome(o.svc, DetectChanges(svc.cache[uuid], o.value.value, svc.listeners), o.value)
    else o
  }

  /** The events of a poll over `order`, in that order. */
  datatype Polled = Polled(svc: Service, events: seq<Event>)

  function PollOver(svc: Service, order: seq<Uuid>, now: Instant, isExpired: (Punishment, Instant) -> bool): (r: Polled)
    ensures r.svc.tracked == svc.tracked && r.svc.listeners == svc.listeners
    ensures r.svc.cache.Keys <= svc.cache.Keys + (set u | u in order)
    ensures svc.cache.Keys <= r.svc.cache.Keys
    ensures forall e :: e in r.events ==> e.listener in svc.listeners
    ensures OnlyDeactivated(svc.store.rows, r.svc.store.rows) && r.svc.store.online == svc.store.online
    ensures Valid(svc.store) ==> Valid(r.svc.store)
    decreases |order|
  {
    if |order| == 0 then Polled(svc, [])
    else
      var o := UpdateCache(svc, order[0], now, isExpired);
      var rest := PollOver(o.svc, order[1..], now, isExpired);
      OnlyDeactivatedTrans(svc.store.rows, o.svc.store.rows, rest.svc.store.rows);
      assert forall u :: u in order[1..] ==> u in order;
      Polled(rest.svc, o.events + rest.events)
  }

  /** What `updateCache` reports for one player whose reload goes through:
      the difference between the cached snapshot and the records in force,
      nothing for a player without a cached snapshot. */
  function PlayerDiff(svc: Service, u: Uuid, now: Instant, isExpired: (Punishment, Instant) -> bool): seq<Event> {
    if u in svc.cache
    then DetectChanges(svc.cache[u], ActivePunishment(InForce(svc.store.rows, ByUuid(u), now, isExpired)), svc.listeners)
    else []
  }

  /** The per-player differences over `order`, all against the state before
      the poll. */
  function PollDiff(svc: Service, order: seq<Uuid>, now: Instant, isExpired: (Punishment, Instant) -> bool): seq<Event>
    decreases |order|
  {
    if |order| == 0 then []
    else PlayerDiff(svc, order[0], now, isExpired) + PollDiff(svc, order[1..], now, isExpired)
  }

  /** The differences only read the store, the listeners and the cache
      entries of the players polled. */
  lemma {:induction false} PollDiffFrame(a: Service, b: Service, order: seq<Uuid>, now: Instant,
                                         isExpired: (Punishment, Instant) -> bool)
    requires a.store.rows == b.store.rows && a.listeners == b.listeners
    requires forall u :: u in order ==> (u in a.cache <==> u in b.cache) && (u in a.cache ==> a.cache[u] == b.cache[u])
    ensures PollDiff(a, order, now, isExpired) == PollDiff(b, order, now, isExpired)
    decreases |order|
  {
    if |order| > 0 {
      assert order[0] in order;
      assert forall u :: u in order[1..] ==> u in order;
      PollDiffFrame(a, b, order[1..], now, isExpired);
    }
  }

  /** With the store reachable and nothing expired, polling each player once
      reports exactly the per-player differences against the snapshots cached
      before the poll, in polling order, and writes nothing to the store. */
  lemma {:induction false} PollReportsDiffs(svc: Service, order: seq<Uuid>, now: Instant,
                                            isExpired: (Punishment, Instant) -> bool)
    requires svc.store.online
    requires forall p :: p in svc.store.rows ==> !isExpired(p, now)
    requires forall i, j :: 0 <= i < j < |order| ==> order[i] != order[j]
    ensures var r := PollOver(svc, order, now, isExpired);
      r.events == PollDiff(svc, order, now, isExpired) && r.svc.store == svc.store
    decreases |order|
  {
    if |order| > 0 {
      var u := order[0];
      var tail := order[1..];
      var o := UpdateCache(svc, u, now, isExpired);
      assert o.svc.store == svc.store;
      assert o.events == PlayerDiff(svc, u, now, isExpired);
      assert forall i, j :: 0 <= i < j < |tail| ==> tail[i] != tail[j] by {
        forall i, j | 0 <= i < j < |tail| ensures tail[i] != tail[j] {
          assert tail[i] == order[i + 1] && tail[j] == order[j + 1];
        }
      }
      PollReportsDiffs(o.svc, tail, now, isExpired);
      assert forall v :: v in tail ==> v != u by {
        forall v | v in tail ensures v != u {
          var k :| 0 <= k < |tail| && tail[k] == v;
          assert order[k + 1] == v;
        }
      }
      PollDiffFrame(o.svc, svc, tail, now, isExpired);
    }
  }

  /** The map's keys, each exactly once. */
  predicate Enumerates(order: seq<Uuid>, keys: set<Uuid>) {
    && (forall u :: u in order ==> u in keys)
    && (forall u :: u in keys ==> u in order)
    && (forall i, j :: 0 <= i < j < |order| ==> order[i] != order[j])
  }

  /** `poll`: `updateCache` for every tracked player; `order` is the
      iteration order of the tracked map. */
  function Poll(svc: Service, order: seq<Uuid>, now: Instant, isExpired: (Punishment, Instant) -> bool): (r: Polled)
    requires Enumerates(order, svc.tracked.Keys)
    ensures r.svc.tracked == svc.tracked && r.svc.listeners == svc.listeners
    ensures svc.cache.Keys <= r.svc.cache.Keys <= svc.cache.Keys + svc.tracked.Keys
    ensures forall e :: e in r.events ==> e.listener in svc.listeners
    ensures Valid(svc.store) ==> Valid(r.svc.store)
    ensures svc.store.online && (forall p :: p in svc.store.rows ==> !isExpired(p, now)) ==>
      r.events == PollDiff(svc, order, now, isExpired) && r.svc.store == svc.store
  {
    assert svc.store.online && (forall p :: p in svc.store.rows ==> !isExpired(p, now)) ==>
      PollOver(svc, order, now, isExpired).events == PollDiff(svc, order, now, isExpired)
      && PollOver(svc, order, now, isExpired).svc.store == svc.store by {
      if svc.store.online && (forall p :: p in svc.store.rows ==> !isExpired(p, now)) {
        PollReportsDiffs(svc, order, now, isExpired);
      }
    }
    PollOver(svc, order, now, isExpired)
  }

  /** With the store reachable and nothing expired, a poll caches every
      polled player and changes nothing in the store. */
  lemma {:induction false} PollCachesAll(svc: Service, order: seq<Uuid>, now: Instant, isExpired: (Punishment, Instant) -> bool)
    requires svc.store.online
    requires forall p :: p in svc.store.rows ==> !isExpired(p, now)
    ensures var r := PollOver(svc, order, now, isExpired);
      (forall u :: u in order ==> u in r.svc.cache) && r.svc.store == svc.store
    decreases |order|
  {
    if |order| > 0 {
      var o := UpdateCache(svc, order[0], now, isExpired);
      assert o.svc.store == svc.store && order[0] in o.svc.cache;
      PollCachesAll(o.svc, order[1..], now, isExpired);
      var r := PollOver(svc, order, now, isExpired);
      assert r == PollOver(o.svc, order[1..], now, isExpired).(events := o.events + PollOver(o.svc, order[1..], now, isExpired).events);
      forall u | u in order ensures u in r.svc.cache {
        if u != order[0] {
          var k :| 0 <= k < |order| && order[k] == u;
          assert order[1..][k - 1] == u;
        }
      }
    }
  }

  // ---------------------------------------------------------------------------
  // Issuing and lifting

  /** `createPunishment`: store the record, reload the player's snapshot and
      tell every listener. A failed store write fails the call and tells no
      one; a failed reload is not reported. */
  function Create(svc: Service, p: Punishment, now: Instant, isExpired: (Punishment, Instant) -> bool): (r: Outcome<Punishment>)
    ensures r.value.Some? <==> Add(svc.store, p, now).ok
    ensures r.value.Some? ==> r.value.value == p && r.events == NotifyCreate(svc.listeners, p)
    ensures r.value.Some? ==> p.internalId in RowIds(r.svc.store.rows)
    ensures r.value.None? ==> r.events == [] && r.svc.cache == svc.cache
    ensures r.svc.tracked == svc.tracked && r.svc.listeners == svc.listeners
    ensures Valid(svc.store) ==> Valid(r.svc.store)
  {
    var w := Add(svc.store, p, now);
    if !w.ok then Outcome(svc.(store := w.store), [], None)
    else
      var refreshed := RefreshCache(svc.(store := w.store), p.uuid, now, isExpired);
      RowIdsAppend(svc.store.rows, p);
      OnlyDeactivatedIds(w.store.rows, refreshed.store.rows);
      Outcome(refreshed, NotifyCreate(svc.listeners, p), Some(p))
  }

  /** A created record that is active and not expired is in the player's
      cached snapshot afterwards, provided none of the player's records has
      expired (so the reload writes nothing). */
  lemma CreateCaches(svc: Service, p: Punishment, now: Instant, isExpired: (Punishment, Instant) -> bool)
    requires Create(svc, p, now, isExpired).value.Some?
    requires p.active && !isExpired(p, now)
    requires forall q :: q in svc.store.rows && q.uuid == p.uuid ==> !isExpired(q, now)
    ensures var r := Create(svc, p, now, isExpired).svc;
      p.uuid in r.cache && p in r.cache[p.uuid].All()
  {
    var w := Add(svc.store, p, now);
    var s1 := svc.(store := w.store);
    assert w.store.rows == svc.store.rows + [p];
    var o := GetActiveByUuid(s1, p.uuid, now, isExpired);
    assert o.value.Some?;
  }

  /** `removePunishment`: look the record up; an unknown id completes
      quietly. Otherwise deactivate it, reload the player's snapshot and tell
      every listener about the record as it was, with the given reason.
      `Some(None)` is the quiet completion. */
  function Remove(svc: Service, id: string, actor: string, reason: string, action: string,
                  now: Instant, isExpired: (Punishment, Instant) -> bool): (r: Outcome<Option<Punishment>>)
    ensures r.value == Some(None) <==> svc.store.online && id !in RowIds(svc.store.rows)
    ensures r.value == Some(None) ==> r.svc == svc && r.events == []
    ensures r.value.Some? && r.value.value.Some? ==>
      && FindRow(svc.store.rows, id) == r.value.value
      && r.events == NotifyRemove(svc.listeners, r.value.value.value, reason)
      && Inactive(r.svc.store.rows, id)
    ensures r.value.Some? && r.value.value.Some? ==> r.svc.store.online && id in RowIds(r.svc.store.rows)
    ensures r.value.Some? && r.value.value.Some? ==>
      ExpiryAppended(svc.store.history + [RemovalEntry(r.value.value.value, actor, reason, action, now)], r.svc.store.history)
    ensures r.value.Some? && r.value.value.Some? && Valid(svc.store) ==>
      SameInForce(SetInactive(svc.store.rows, id), r.svc.store.rows, now, isExpired)
    ensures r.value.None? ==> r.events == [] && r.svc.cache == svc.cache
    ensures !svc.store.online ==> r.value.None? && r.svc == svc
    ensures r.svc.tracked == svc.tracked && r.svc.listeners == svc.listeners
    ensures Valid(svc.store) ==> Valid(r.svc.store)
  {
    var found := FindByInternalId(svc.store, id);
    if found.Failure? then Outcome(svc, [], None)
    else if found.value.None? then Outcome(svc, [], Some(None))
    else
      var p := found.value.value;
      var w := Deactivate(svc.store, id, actor, reason, action, now);
      DeactivateEffect(svc.store, id, actor, reason, action, now);
      if !w.ok then Outcome(svc.(store := w.store), [], None)
      else
        var refreshed := RefreshCache(svc.(store := w.store), p.uuid, now, isExpired);
        DeactivatedStays(w.store.rows, refreshed.store.rows, id);
        OnlyDeactivatedIds(svc.store.rows, w.store.rows);
        OnlyDeactivatedIds(w.store.rows, refreshed.store.rows);
        Outcome(refreshed, NotifyRemove(svc.listeners, p, reason), Some(Some(p)))
  }

  /** After a successful lift whose reload went through, the player's cached
      snapshot no longer holds the lifted record. The reload goes through
      when none of the player's records has expired. */
  lemma RemoveUncaches(svc: Service, id: string, actor: string, reason: string, action: string,
                       now: Instant, isExpired: (Punishment, Instant) -> bool)
    requires var r := Remove(svc, id, actor, reason, action, now, isExpired);
      r.value.Some? && r.value.value.Some?
    requires forall q :: q in svc.store.rows ==> !isExpired(q, now)
    ensures var r := Remove(svc, id, actor, reason, action, now, isExpired);
      var uuid := r.value.value.value.uuid;
      uuid in r.svc.cache && forall q :: q in r.svc.cache[uuid].All() ==> q.internalId != id
  {
    var p := FindRow(svc.store.rows, id).value;
    var w := Deactivate(svc.store, id, actor, reason, action, now);
    DeactivateEffect(svc.store, id, actor, reason, action, now);
    var s1 := svc.(store := w.store);
    forall q | q in s1.store.rows && q.uuid == p.uuid && q.active ensures !isExpired(q, now) {
      ActiveSurvivor(svc.store.rows, s1.store.rows, q);
    }
  }
}

=== FILE: forum_api.dfy ===
/** `ForumApiServer`: the HTTP interface a forum uses to issue, look up and
    lift punishments under `/api/v1`. A request is answered in three stages:
    a preflight or unauthorised request is answered at once, the path is cut
    into segments and routed, and the handler answers with a status and a
    JSON body. The JSON body is given here already parsed (`None` for a
    `null` document), percent-decoding (`URLDecoder`) is an input function,
    and so are the player lookups of `PlayerResolver`. */
module ForumApi {
  import opened Wrappers
  import opened JavaText
  import opened Model
  import opened Repository
  import opened Notifications
  import opened JavaNumbers
  import opened PunishmentIdGenerator
  import opened IpHashing
  import DurationParser
  import PaperService
  import Engine
  import Unpunish
  import CustomPunish

  const API_PREFIX: string := "/api/v1"
  const SLASH: char := '/'
  const BEARER: string := "Bearer "

  const OK: int := 200
  const CREATED: int := 201
  const NO_CONTENT: int := 204
  const BAD_REQUEST: int := 400
  const UNAUTHORIZED: int := 401
  const FORBIDDEN: int := 403
  const NOT_FOUND: int := 404
  const SERVER_ERROR: int := 500

  const DEFAULT_ACTOR: string := "ForumAPI"
  const DEFAULT_REVOKE_REASON: string := "Снято через API"
  const API_REMOVE: string := "API_REMOVE"

  const FIELDS_REQUIRED: string := "target, type and reason are required"
  const PLAYER_NOT_FOUND: string := "Player not found"
  const INVALID_TYPE: string := "Invalid punishment type"
  const NEGATIVE_SECONDS: string := "durationSeconds must be >= 0"
  /** The message `DurationParser` throws with. */
  const BAD_DURATION: string := "Неверный формат длительности."
  /** The start of the message of `NumberFormatException.forInputString`. */
  const FOR_INPUT_STRING: string := "For input string: \""
  const IPBAN_NEEDS_IP: string := "Target player must be online for IPBAN"
  const WARN_ACTOR_REFUSED: string := "WARN via API is allowed only for configured external actors"
  const REASON_SEPARATOR: string := " | "

  // ---------------------------------------------------------------------------
  // Paths

  /** The path after the prefix, without one leading slash. */
  function Suffix(path: string): string
    requires StartsWith(path, API_PREFIX)
  {
    var rest := path[|API_PREFIX|..];
    if StartsWith(rest, "/") then rest[1..] else rest
  }

  /** `URLDecoder.decode`, with `None` where it throws on a malformed
      escape. */
  type Decoder = string -> Option<string>

  /** Every piece decoded, or `None` as soon as one cannot be. */
  function DecodeAll(parts: seq<string>, decode: Decoder): (r: Option<seq<string>>)
    ensures r.Some? <==> forall i :: 0 <= i < |parts| ==> decode(parts[i]).Some?
    ensures r.Some? ==> |r.value| == |parts| && forall i :: 0 <= i < |parts| ==> r.value[i] == decode(parts[i]).value
    decreases |parts|
  {
    if |parts| == 0 then Some([])
    else
      var rest := DecodeAll(parts[1..], decode);
      assert forall i :: 1 <= i < |parts| ==> parts[i] == parts[1..][i - 1];
      match decode(parts[0])
      case None => None
      case Some(d) => if rest.None? then None else Some([d] + rest.value)
  }

  /** `extractSegments`: nothing outside the prefix; otherwise the non-blank
      pieces between slashes, each decoded. The shortcut for a blank suffix
      and Java's dropping of trailing empty pieces change nothing: the
      segments are always the decoded non-blank pieces. */
  function ExtractSegments(path: string, decode: Decoder): (r: Option<seq<string>>)
    ensures !StartsWith(path, API_PREFIX) ==> r == Some([])
    ensures StartsWith(path, API_PREFIX) ==>
      r == DecodeAll(NonBlank(SplitAll(Suffix(path), SLASH)), decode)
  {
    if !StartsWith(path, API_PREFIX) then Some([])
    else
      var suffix := Suffix(path);
      NonBlankJavaSplit(suffix, SLASH);
      if IsBlank(suffix) then
        BlankPieces(suffix, SLASH);
        NoneNonBlank(SplitAll(suffix, SLASH));
        Some([])
      else DecodeAll(NonBlank(JavaSplit(suffix, SLASH)), decode)
  }

  /** Every piece of a blank string is blank. */
  lemma {:induction false} BlankPieces(s: string, c: char)
    requires IsBlank(s)
    ensures forall i :: 0 <= i < |SplitOn(s, [c])| ==> IsBlank(SplitOn(s, [c])[i])
    decreases |s|
  {
    if |s| > 0 {
      assert forall i :: 0 <= i < |s[1..]| ==> s[1..][i] == s[i + 1];
      BlankPieces(s[1..], c);
      if !StartsWith(s, [c]) {
        var rest := SplitOn(s[1..], [c]);
        assert forall i :: 0 <= i < |[s[0]] + rest[0]| ==> ([s[0]] + rest[0])[i] == if i == 0 then s[0] else rest[0][i - 1];
      }
    }
  }

  lemma {:induction false} NoneNonBlank(parts: seq<string>)
    requires forall i :: 0 <= i < |parts| ==> IsBlank(parts[i])
    ensures NonBlank(parts) == []
    decreases |parts|
  {
    if |parts| > 0 {
      assert IsBlank(parts[0]);
      assert forall i :: 0 <= i < |parts[1..]| ==> parts[1..][i] == parts[i + 1];
      NoneNonBlank(parts[1..]);
    }
  }

  /** Pieces that are all non-blank are kept as they are. */
  lemma {:induction false} NonBlankKeepsAll(parts: seq<string>)
    requires forall i :: 0 <= i < |parts| ==> !IsBlank(parts[i])
    ensures NonBlank(parts) == parts
    decreases |parts|
  {
    if |parts| > 0 {
      assert forall i :: 0 <= i < |parts[1..]| ==> parts[1..][i] == parts[i + 1];
      NonBlankKeepsAll(parts[1..]);
      assert [parts[0]] + parts[1..] == parts;
    }
  }

  /** A segment a client may write between two slashes. */
  predicate Segment(s: string) {
    SLASH !in s && !IsBlank(s)
  }

  /** Cutting a path built from segments gives the segments back, each
      decoded. */
  lemma PathRoundTrip(segments: seq<string>, decode: Decoder)
    requires |segments| > 0
    requires forall i :: 0 <= i < |segments| ==> Segment(segments[i])
    ensures ExtractSegments(API_PREFIX + "/" + Join(segments, "/"), decode) == DecodeAll(segments, decode)
  {
    var joined := Join(segments, "/");
    SuffixAfterSlash(joined);
    assert SplitAll(joined, SLASH) == segments by {
      SplitJoinedPieces(segments, SLASH);
    }
    NonBlankKeepsAll(segments);
  }

  lemma SuffixAfterSlash(rest: string)
    ensures StartsWith(API_PREFIX + "/" + rest, API_PREFIX)
    ensures Suffix(API_PREFIX + "/" + rest) == rest
  {
    var path := API_PREFIX + "/" + rest;
    assert path[..|API_PREFIX|] == API_PREFIX;
    assert path[|API_PREFIX|..] == "/" + rest;
    assert ("/" + rest)[..1] == "/";
    assert ("/" + rest)[1..] == rest;
  }

  /** A word of lower-case ASCII letters is a segment. */
  lemma LetterSegment(w: string)
    requires |w| > 0 && forall i :: 0 <= i < |w| ==> 'a' <= w[i] <= 'z'
    ensures Segment(w)
  {
    assert !IsWhitespace(w[0]);
  }

  // ---------------------------------------------------------------------------
  // Authorization

  /** The token of an `Authorization: Bearer` header, trimmed. */
  function BearerToken(authorization: Option<string>): Option<string> {
    if authorization.Some? && StartsWith(authorization.value, BEARER) then
      Some(Trim(authorization.value[|BEARER|..]))
    else None
  }

  /** `isAuthorized`: without a configured token nobody gets in; otherwise
      the token must come in the `X-API-Token` header or as a bearer token. */
  function IsAuthorized(configured: Option<string>, apiTokenHeader: Option<string>,
                        authorization: Option<string>): (r: bool)
    ensures IsNullOrBlank(configured) ==> !r
    ensures r <==> !IsNullOrBlank(configured) && (apiTokenHeader == configured || BearerToken(authorization) == configured)
  {
    if IsNullOrBlank(configured) then false
    else if apiTokenHeader == configured then true
    else
      match BearerToken(authorization)
      case Some(bearer) => bearer == configured.value
      case None => false
  }

  /** A client presenting the configured token as `Bearer <token>` is let in,
      whatever its `X-API-Token` header says. */
  lemma BearerClientAdmitted(token: string, apiTokenHeader: Option<string>)
    requires !IsBlank(token) && token[0] > ' ' && token[|token| - 1] > ' '
    ensures IsAuthorized(Some(token), apiTokenHeader, Some(BEARER + token))
  {
    assert (BEARER + token)[..|BEARER|] == BEARER;
    assert (BEARER + token)[|BEARER|..] == token;
  }

  /** The scheme is compared with its exact spelling: a lower-case `bearer`
      is refused, although section 2.1 of RFC 7235 makes the scheme name
      case-insensitive. */
  lemma BearerSchemeCaseSensitive(token: string)
    ensures !IsAuthorized(Some(token), None, Some("bearer " + token))
  {
    assert ("bearer " + token)[0] == 'b';
    assert !StartsWith("bearer " + token, BEARER);
  }

  /** A bearer header with nothing but spaces after the scheme never lets a
      client in when a token is configured. */
  lemma EmptyBearerRefused(token: string, padding: string)
    requires !IsBlank(token)
    requires forall i :: 0 <= i < |padding| ==> padding[i] <= ' '
    ensures !IsAuthorized(Some(token), None, Some(BEARER + padding))
  {
    assert (BEARER + padding)[..|BEARER|] == BEARER;
    assert (BEARER + padding)[|BEARER|..] == padding;
    assert Trim(padding) == [];
  }

  // ---------------------------------------------------------------------------
  // Routing

  datatype Route =
    | Preflight
    | Unauthorized
    | Health
    | CreatePunishment
    | GetPunishment(id: string)
    | RevokePunishment(id: string)
    | PlayerActive(target: string)
    | PlayerHistory(target: string)
    | NoRoute
    | Broken

  /** The status of the routes answered without a handler. */
  function FixedStatus(r: Route): (s: Option<int>)
    ensures s.Some? <==> r == Preflight || r == Unauthorized || r == Health || r == NoRoute || r == Broken
  {
    match r
    case Preflight => Some(NO_CONTENT)
    case Unauthorized => Some(UNAUTHORIZED)
    case Health => Some(OK)
    case NoRoute => Some(NOT_FOUND)
    case Broken => Some(SERVER_ERROR)
    case _ => None
  }

  predicate Names(segments: seq<string>, n: nat, first: string) {
    |segments| == n && n > 0 && EqualsIgnoreCase(segments[0], first)
  }

  /** One of the six routes matches the method and segments. */
  predicate Known(verb: string, segments: seq<string>) {
    var m := ToUpper(verb);
    || (m == "GET" && Names(segments, 1, "health"))
    || (m == "POST" && Names(segments, 1, "punishments"))
    || (m == "GET" && Names(segments, 2, "punishments"))
    || (m == "POST" && Names(segments, 3, "punishments") && EqualsIgnoreCase(segments[2], "revoke"))
    || (m == "GET" && Names(segments, 3, "players") && EqualsIgnoreCase(segments[2], "active"))
    || (m == "GET" && Names(segments, 3, "players") && EqualsIgnoreCase(segments[2], "history"))
  }

  /** `handleRequest`'s dispatch: preflight first, then authorisation, then
      the routes in order. */
  function RouteOf(verb: string, authorized: bool, segments: seq<string>): (r: Route)
    ensures r != Broken
    ensures r == Preflight <==> EqualsIgnoreCase(verb, "OPTIONS")
    ensures r == Unauthorized <==> !EqualsIgnoreCase(verb, "OPTIONS") && !authorized
    ensures r == NoRoute <==> !EqualsIgnoreCase(verb, "OPTIONS") && authorized && !Known(verb, segments)
    ensures r == Health ==> ToUpper(verb) == "GET" && Names(segments, 1, "health")
    ensures r == CreatePunishment ==> ToUpper(verb) == "POST" && Names(segments, 1, "punishments")
    ensures r.GetPunishment? ==> ToUpper(verb) == "GET" && Names(segments, 2, "punishments") && r.id == segments[1]
    ensures r.RevokePunishment? ==>
      && ToUpper(verb) == "POST" && Names(segments, 3, "punishments")
      && EqualsIgnoreCase(segments[2], "revoke") && r.id == segments[1]
    ensures r.PlayerActive? ==>
      && ToUpper(verb) == "GET" && Names(segments, 3, "players")
      && EqualsIgnoreCase(segments[2], "active") && r.target == segments[1]
    ensures r.PlayerHistory? ==>
      && ToUpper(verb) == "GET" && Names(segments, 3, "players")
      && EqualsIgnoreCase(segments[2], "history") && r.target == segments[1]
  {
    var m := ToUpper(verb);
    if EqualsIgnoreCase(verb, "OPTIONS") then Preflight
    else if !authorized then Unauthorized
    else if m == "GET" && Names(segments, 1, "health") then Health
    else if m == "POST" && Names(segments, 1, "punishments") then CreatePunishment
    else if m == "GET" && Names(segments, 2, "punishments") then GetPunishment(segments[1])
    else if m == "POST" && Names(segments, 3, "punishments") && EqualsIgnoreCase(segments[2], "revoke") then
      RevokePunishment(segments[1])
    else if m == "GET" && Names(segments, 3, "players") && EqualsIgnoreCase(segments[2], "active") then
      PlayerActive(segments[1])
    else if m == "GET" && Names(segments, 3, "players") && EqualsIgnoreCase(segments[2], "history") then
      PlayerHistory(segments[1])
    else NoRoute
  }

  /** `handleRequest` from the raw method and path: the path is cut only
      after the authorisation check, and a segment that cannot be decoded
      ends in the catch-all 500. */
  function Dispatch(verb: string, authorized: bool, path: string, decode: Decoder): (r: Route)
    ensures EqualsIgnoreCase(verb, "OPTIONS") ==> r == Preflight
    ensures !EqualsIgnoreCase(verb, "OPTIONS") && !authorized ==> r == Unauthorized
    ensures !EqualsIgnoreCase(verb, "OPTIONS") && authorized ==>
      (r == Broken <==> ExtractSegments(path, decode).None?) &&
      (ExtractSegments(path, decode).Some? ==> r == RouteOf(verb, true, ExtractSegments(path, decode).value))
  {
    if EqualsIgnoreCase(verb, "OPTIONS") || !authorized then RouteOf(verb, authorized, [])
    else
      match ExtractSegments(path, decode)
      case None => Broken
      case Some(segments) => RouteOf(verb, true, segments)
  }

  /** No path outside the prefix reaches a handler. */
  lemma OutsidePrefixNotFound(verb: string, path: string, decode: Decoder)
    requires !EqualsIgnoreCase(verb, "OPTIONS") && !StartsWith(path, API_PREFIX)
    ensures Dispatch(verb, true, path, decode) == NoRoute
  {
  }

  /** A path of three segments whose outer two decode to themselves. */
  lemma ThreeSegmentPath(first: string, middle: string, last: string, decode: Decoder)
    requires Segment(first) && Segment(middle) && Segment(last)
    requires decode(first) == Some(first) && decode(last) == Some(last) && decode(middle).Some?
    ensures ExtractSegments(API_PREFIX + "/" + first + "/" + middle + "/" + last, decode)
         == Some([first, decode(middle).value, last])
  {
    var segments := [first, middle, last];
    JoinThree(first, middle, last);
    PathRoundTrip(segments, decode);
    DecodeThree(segments, decode);
  }

  lemma DecodeThree(segments: seq<string>, decode: Decoder)
    requires |segments| == 3
    requires decode(segments[0]) == Some(segments[0]) && decode(segments[2]) == Some(segments[2])
    requires decode(segments[1]).Some?
    ensures DecodeAll(segments, decode) == Some([segments[0], decode(segments[1]).value, segments[2]])
  {
    var r := DecodeAll(segments, decode);
    var want := [segments[0], decode(segments[1]).value, segments[2]];
    assert decode(segments[0]).Some?;
    assert r.Some? && |r.value| == 3;
    assert r.value[0] == want[0] && r.value[1] == want[1] && r.value[2] == want[2];
    assert r.value == want;
  }

  lemma JoinThree(first: string, middle: string, last: string)
    ensures API_PREFIX + "/" + Join([first, middle, last], "/") == API_PREFIX + "/" + first + "/" + middle + "/" + last
  {
    JoinCons(middle, [last], "/");
    JoinCons(first, [middle, last], "/");
    assert [first] + [middle, last] == [first, middle, last];
  }

  /** Upper-casing leaves upper-case ASCII letters alone. */
  lemma AsciiUpper(v: string)
    requires forall i :: 0 <= i < |v| ==> 'A' <= v[i] <= 'Z'
    ensures ToUpper(v) == v
  {
  }

  lemma RevokeRoute(id: string)
    ensures !EqualsIgnoreCase("POST", "OPTIONS")
    ensures RouteOf("POST", true, ["punishments", id, "revoke"]) == RevokePunishment(id)
  {
    AsciiUpper("POST");
  }

  lemma HistoryRoute(name: string)
    ensures RouteOf("GET", true, ["players", name, "history"]) == PlayerHistory(name)
  {
    AsciiUpper("GET");
  }

  /** A revoke path written by a client reaches the revoke handler with the
      decoded id, provided decoding leaves the fixed words alone. */
  lemma RevokePathRoutes(id: string, decode: Decoder)
    requires Segment(id) && decode(id).Some?
    requires decode("punishments") == Some("punishments") && decode("revoke") == Some("revoke")
    ensures Dispatch("POST", true, API_PREFIX + "/punishments/" + id + "/revoke", decode)
         == RevokePunishment(decode(id).value)
  {
    RevokeWords();
    RevokePath(id);
    ThreeSegmentPath("punishments", id, "revoke", decode);
    RevokeRoute(decode(id).value);
  }

  lemma RevokeWords()
    ensures Segment("punishments") && Segment("revoke")
  {
    LetterSegment("punishments");
    LetterSegment("revoke");
  }

  lemma RevokePath(id: string)
    ensures API_PREFIX + "/punishments/" + id + "/revoke" == API_PREFIX + "/" + "punishments" + "/" + id + "/" + "revoke"
  {
  }

  /** The prefix is matched without a boundary: `/api/v1health` is the
      health route. */
  lemma PrefixHasNoBoundary(decode: Decoder)
    requires decode("health") == Some("health")
    ensures Dispatch("GET", true, "/api/v1health", decode) == Health
  {
    HealthSegments(decode);
    HealthRoute();
  }

  lemma HealthRoute()
    ensures !EqualsIgnoreCase("GET", "OPTIONS") && RouteOf("GET", true, ["health"]) == Health
  {
    AsciiUpper("GET");
  }

  lemma HealthSegments(decode: Decoder)
    requires decode("health") == Some("health")
    ensures ExtractSegments("/api/v1health", decode) == Some(["health"])
  {
    HealthSuffix();
    LetterSegment("health");
    SplitPiece("health", SLASH);
    NonBlankKeepsAll(["health"]);
    assert DecodeAll(["health"], decode).value == ["health"];
  }

  lemma HealthSuffix()
    ensures StartsWith("/api/v1health", API_PREFIX) && Suffix("/api/v1health") == "health"
  {
    var path := "/api/v1health";
    assert path[..|API_PREFIX|] == API_PREFIX;
    assert path[|API_PREFIX|..] == "health";
    assert "health"[..1][0] == 'h';
  }

  // ---------------------------------------------------------------------------
  // Creating a punishment

  /** The JSON body of a create request; absent fields are `None`. */
  datatype CreateRequest = CreateRequest(
    target: Option<string>,
    typeName: Option<string>,
    duration: Option<string>,
    durationSeconds: Option<int>,
    reason: Option<string>,
    actor: Option<string>,
    silent: Option<bool>,
    nnr: Option<bool>)

  /** What Gson makes of `{}`, the text `readBody` hands on for an empty body. */
  const EMPTY_CREATE: CreateRequest := CreateRequest(None, None, None, None, None, None, None, None)

  /** `resolveDurationSeconds`: explicit seconds first, then the duration
      text, then the configured warning length, else permanent. */
  function ResolveDurationSeconds(q: CreateRequest, kind: PunishmentType, warnDurationSeconds: int): (r: Result<int, string>)
    ensures q.durationSeconds.Some? ==>
      (r.Success? <==> q.durationSeconds.value >= 0) &&
      (r.Success? ==> r.value == q.durationSeconds.value) &&
      (r.Failure? ==> r.error == NEGATIVE_SECONDS)
    ensures q.durationSeconds.None? && !IsNullOrBlank(q.duration) ==>
      (r.Success? <==> DurationParser.ParseToSeconds(q.duration.value).Some?) &&
      (r.Success? ==> r.value == DurationParser.ParseToSeconds(q.duration.value).value) &&
      (r.Failure? ==> r.error == DurationMessage(q.duration.value))
    ensures q.durationSeconds.None? && IsNullOrBlank(q.duration) ==>
      r == Success(if kind == WARN then warnDurationSeconds else 0)
    ensures r.Success? && (kind == WARN ==> warnDurationSeconds >= 0) ==> r.value >= 0
  {
    if q.durationSeconds.Some? then
      if q.durationSeconds.value < 0 then Failure(NEGATIVE_SECONDS) else Success(q.durationSeconds.value)
    else if !IsNullOrBlank(q.duration) then
      TrimTwice(q.duration.value);
      match DurationParser.ParseToSeconds(Trim(q.duration.value))
      case None => Failure(DurationMessage(Trim(q.duration.value)))
      case Some(seconds) => Success(seconds)
    else if kind == WARN then Success(warnDurationSeconds)
    else Success(0)
  }

  /** The message of a rejected duration text: `Long.parseLong`'s
      `NumberFormatException` for the first overlong digit group, else the
      parser's own format error. */
  function DurationMessage(text: string): (m: string)
    ensures StartsWith(m, FOR_INPUT_STRING) <==> DurationParser.NumberFormatGroup(text).Some?
    ensures m == BAD_DURATION <==> DurationParser.NumberFormatGroup(text).None?
  {
    match DurationParser.NumberFormatGroup(text)
    case Some(digits) =>
      var m := FOR_INPUT_STRING + digits + "\"";
      assert m[..|FOR_INPUT_STRING|] == FOR_INPUT_STRING;
      assert m[0] != BAD_DURATION[0];
      m
    case None =>
      assert BAD_DURATION[0] != FOR_INPUT_STRING[0];
      BAD_DURATION
  }

  /** An overlong digit group is reported by name, with status 400, and is
      never accepted. */
  lemma OverlongDurationReported(q: CreateRequest, kind: PunishmentType, warnDurationSeconds: int)
    requires q.durationSeconds.None? && !IsNullOrBlank(q.duration)
    requires DurationParser.NumberFormatGroup(q.duration.value).Some?
    ensures ResolveDurationSeconds(q, kind, warnDurationSeconds)
         == Failure(FOR_INPUT_STRING + DurationParser.NumberFormatGroup(q.duration.value).value + "\"")
  {
    DurationParser.OverlongRejected(q.duration.value);
  }

  /** The extra trim in front of the parser changes nothing. */
  lemma TrimTwice(s: string)
    ensures DurationParser.ParseToSeconds(Trim(s)) == DurationParser.ParseToSeconds(s)
    ensures DurationParser.NumberFormatGroup(Trim(s)) == DurationParser.NumberFormatGroup(s)
  {
    StripByIdempotent(s, IsTrimmable);
    assert DurationParser.Normalize(Trim(s)) == DurationParser.Normalize(s);
  }

  /** Explicit seconds win: once they are given, neither the duration text
      nor the type nor the configured warning length matters. */
  lemma ExplicitSecondsWin(q: CreateRequest, duration: Option<string>, kind: PunishmentType, other: PunishmentType,
                           warnDurationSeconds: int, otherWarn: int)
    requires q.durationSeconds.Some?
    ensures ResolveDurationSeconds(q.(duration := duration), other, otherWarn)
         == ResolveDurationSeconds(q, kind, warnDurationSeconds)
  {
  }

  /** The reply to a create request: a refusal, or the punishment to issue. */
  datatype Reply = Refused(status: int, error: string) | Issue(request: CustomPunish.IssueArgs)

  predicate HasRequiredFields(body: Option<CreateRequest>) {
    body.Some? && !IsNullOrBlank(body.value.target) && !IsNullOrBlank(body.value.typeName)
    && !IsNullOrBlank(body.value.reason)
  }

  /** The actor written into the record. */
  function Actor(q: CreateRequest): string {
    if IsNullOrBlank(q.actor) then DEFAULT_ACTOR else Trim(q.actor.value)
  }

  function InvalidWarnReason(allowedReasons: seq<string>): string {
    "Invalid WARN reason. Allowed: " + PlainWarnReasons(allowedReasons)
  }

  /** The warning-reason refusal is told apart from the other 400s. */
  lemma InvalidWarnReasonDistinct(allowedReasons: seq<string>)
    ensures InvalidWarnReason(allowedReasons) != FIELDS_REQUIRED
    ensures InvalidWarnReason(allowedReasons) != INVALID_TYPE
    ensures InvalidWarnReason(allowedReasons) != IPBAN_NEEDS_IP
    ensures InvalidWarnReason(allowedReasons) != NEGATIVE_SECONDS
    ensures InvalidWarnReason(allowedReasons) != BAD_DURATION
    ensures !StartsWith(InvalidWarnReason(allowedReasons), FOR_INPUT_STRING)
    ensures !StartsWith(FIELDS_REQUIRED, FOR_INPUT_STRING) && !StartsWith(INVALID_TYPE, FOR_INPUT_STRING)
    ensures !StartsWith(IPBAN_NEEDS_IP, FOR_INPUT_STRING)
  {
    assert FOR_INPUT_STRING[0] == 'F';
    var m := InvalidWarnReason(allowedReasons);
    assert m[0] == 'I' && m[8] == 'W';
    assert FIELDS_REQUIRED[0] == 't' && INVALID_TYPE[8] == 'p' && IPBAN_NEEDS_IP[0] == 'T';
    assert NEGATIVE_SECONDS[0] == 'd' && BAD_DURATION[0] == 'Н';
  }

  /** `handleCreatePunishment`, checks in source order. `resolve` and
      `resolveIp` are the player lookups, `normalizeWarn` the service's
      reading of a warning reason against `allowedReasons`, and
      `externalWarnActor` the service's list of actors allowed to warn. */
  function Create(body: Option<CreateRequest>, resolve: string -> Option<Uuid>, resolveIp: Uuid -> Option<string>,
                  normalizeWarn: string -> Option<string>, externalWarnActor: string -> bool,
                  warnDurationSeconds: int, allowedReasons: seq<string>): (r: Reply)
    ensures r == Refused(BAD_REQUEST, FIELDS_REQUIRED) <==> !HasRequiredFields(body)
    ensures r == Refused(NOT_FOUND, PLAYER_NOT_FOUND) <==>
      HasRequiredFields(body) && resolve(body.value.target.value).None?
    ensures r == Refused(BAD_REQUEST, INVALID_TYPE) <==>
      && HasRequiredFields(body) && resolve(body.value.target.value).Some?
      && ParseType(ToUpper(body.value.typeName.value)).None?
    ensures r.Refused? && (r.error == NEGATIVE_SECONDS || r.error == BAD_DURATION) ==>
      && HasRequiredFields(body) && ParseType(ToUpper(body.value.typeName.value)).Some?
      && ResolveDurationSeconds(body.value, ParseType(ToUpper(body.value.typeName.value)).value,
                                warnDurationSeconds) == Failure(r.error)
    ensures r.Refused? && r.status == BAD_REQUEST && StartsWith(r.error, FOR_INPUT_STRING) ==>
      && HasRequiredFields(body) && ParseType(ToUpper(body.value.typeName.value)).Some?
      && ResolveDurationSeconds(body.value, ParseType(ToUpper(body.value.typeName.value)).value,
                                warnDurationSeconds) == Failure(r.error)
    ensures r == Refused(BAD_REQUEST, IPBAN_NEEDS_IP) ==>
      && HasRequiredFields(body) && ParseType(ToUpper(body.value.typeName.value)) == Some(IPBAN)
      && IsNullOrBlank(resolveIp(resolve(body.value.target.value).value))
    ensures r == Refused(BAD_REQUEST, InvalidWarnReason(allowedReasons)) ==>
      && HasRequiredFields(body) && ParseType(ToUpper(body.value.typeName.value)) == Some(WARN)
      && normalizeWarn(Trim(body.value.reason.value)).None?
    ensures r.Refused? && r.status == FORBIDDEN <==>
      && HasRequiredFields(body) && resolve(body.value.target.value).Some?
      && ParseType(ToUpper(body.value.typeName.value)) == Some(WARN)
      && ResolveDurationSeconds(body.value, WARN, warnDurationSeconds).Success?
      && normalizeWarn(Trim(body.value.reason.value)).Some?
      && !externalWarnActor(Actor(body.value))
    ensures r.Refused? ==> r.status == BAD_REQUEST || r.status == FORBIDDEN || r.status == NOT_FOUND
    ensures r.Issue? ==>
      var q := r.request;
      var b := body.value;
      && HasRequiredFields(body)
      && resolve(b.target.value) == Some(q.target)
      && ParseType(ToUpper(b.typeName.value)) == Some(q.kind)
      && ResolveDurationSeconds(b, q.kind, warnDurationSeconds) == Success(q.durationSeconds)
      && q.ip == resolveIp(q.target) && (q.kind == IPBAN ==> !IsNullOrBlank(q.ip))
      && q.actor == Actor(b)
      && q.silent == (b.silent == Some(true)) && q.nnr == (b.nnr == Some(true))
      && (q.kind != WARN ==> q.reason == Trim(b.reason.value))
      && (q.kind == WARN ==> normalizeWarn(Trim(b.reason.value)) == Some(q.reason) && externalWarnActor(q.actor))
  {
    InvalidWarnReasonDistinct(allowedReasons);
    if !HasRequiredFields(body) then Refused(BAD_REQUEST, FIELDS_REQUIRED)
    else
      var q := body.value;
      match resolve(q.target.value)
      case None => Refused(NOT_FOUND, PLAYER_NOT_FOUND)
      case Some(uuid) =>
        match ParseType(ToUpper(q.typeName.value))
        case None => Refused(BAD_REQUEST, INVALID_TYPE)
        case Some(kind) =>
          match ResolveDurationSeconds(q, kind, warnDurationSeconds)
          case Failure(message) => Refused(BAD_REQUEST, message)
          case Success(seconds) =>
            var ip := resolveIp(uuid);
            if kind == IPBAN && IsNullOrBlank(ip) then Refused(BAD_REQUEST, IPBAN_NEEDS_IP)
            else
              var actor := Actor(q);
              var silent := q.silent == Some(true);
              var nnr := q.nnr == Some(true);
              var reason := Trim(q.reason.value);
              if kind == WARN then
                match normalizeWarn(reason)
                case None => Refused(BAD_REQUEST, InvalidWarnReason(allowedReasons))
                case Some(normalized) =>
                  if !externalWarnActor(actor) then Refused(FORBIDDEN, WARN_ACTOR_REFUSED)
                  else Issue(CustomPunish.IssueArgs(uuid, WARN, normalized, seconds, actor, ip, silent, nnr))
              else Issue(CustomPunish.IssueArgs(uuid, kind, reason, seconds, actor, ip, silent, nnr))
  }

  /** An empty body reads as `{}` and is refused for its missing fields. */
  lemma EmptyBodyRefused(resolve: string -> Option<Uuid>, resolveIp: Uuid -> Option<string>,
                         normalizeWarn: string -> Option<string>, externalWarnActor: string -> bool,
                         warnDurationSeconds: int, allowedReasons: seq<string>)
    ensures Create(Some(EMPTY_CREATE), resolve, resolveIp, normalizeWarn, externalWarnActor,
                   warnDurationSeconds, allowedReasons) == Refused(BAD_REQUEST, FIELDS_REQUIRED)
  {
  }

  /** What the API issues is what the Paper service stores: an active record
      of the resolved player, with the request's reason, actor, address and
      silence, a requested ban with a duration stored as a temporary ban, and
      an end time exactly when the duration is positive. */
  lemma CreatedRecord(body: Option<CreateRequest>, resolve: string -> Option<Uuid>, resolveIp: Uuid -> Option<string>,
                      normalizeWarn: string -> Option<string>, externalWarnActor: string -> bool,
                      warnDurationSeconds: int, allowedReasons: seq<string>,
                      now: Instant, draws: seq<int>, sha256: string -> Digest)
    requires ValidDraws(draws) && warnDurationSeconds >= 0
    requires Create(body, resolve, resolveIp, normalizeWarn, externalWarnActor, warnDurationSeconds, allowedReasons).Issue?
    ensures var q := Create(body, resolve, resolveIp, normalizeWarn, externalWarnActor, warnDurationSeconds,
                            allowedReasons).request;
      var p := PaperService.IssuePunishment(q.target, TypeName(q.kind), q.reason, q.durationSeconds, q.actor,
                                            q.ip, q.silent, q.nnr, now, draws, sha256);
      && p.Some? && p.value.active && resolve(body.value.target.value) == Some(p.value.uuid)
      && p.value.reason == q.reason && p.value.actor == q.actor && p.value.ip == q.ip && p.value.silent == q.silent
      && p.value.kind == PaperService.IssuedKind(q.kind, q.durationSeconds)
      && (p.value.endTime.None? <==> q.durationSeconds == 0)
  {
    var q := Create(body, resolve, resolveIp, normalizeWarn, externalWarnActor, warnDurationSeconds,
                    allowedReasons).request;
    CustomPunish.UpperTypeName(q.kind);
    ParseTypeName(q.kind);
  }

  /** Unlike the punish command, the API accepts a temporary ban without a
      duration: it is stored as a temporary ban that never ends. */
  lemma TempBanWithoutDurationNeverEnds(body: Option<CreateRequest>, resolve: string -> Option<Uuid>,
                                        resolveIp: Uuid -> Option<string>, normalizeWarn: string -> Option<string>,
                                        externalWarnActor: string -> bool, warnDurationSeconds: int,
                                        allowedReasons: seq<string>, now: Instant, draws: seq<int>,
                                        sha256: string -> Digest)
    requires ValidDraws(draws)
    requires HasRequiredFields(body) && resolve(body.value.target.value).Some?
    requires ParseType(ToUpper(body.value.typeName.value)) == Some(TEMPBAN)
    requires body.value.durationSeconds == Some(0)
    ensures var r := Create(body, resolve, resolveIp, normalizeWarn, externalWarnActor, warnDurationSeconds,
                            allowedReasons);
      && r.Issue? && r.request.kind == TEMPBAN && r.request.durationSeconds == 0
      && var p := PaperService.IssuePunishment(r.request.target, TypeName(TEMPBAN), r.request.reason, 0,
                                               r.request.actor, r.request.ip, r.request.silent, r.request.nnr,
                                               now, draws, sha256);
         p.Some? && p.value.kind == TEMPBAN && p.value.endTime.None?
  {
    CustomPunish.UpperTypeName(TEMPBAN);
    ParseTypeName(TEMPBAN);
  }

  // ---------------------------------------------------------------------------
  // The allowed warning reasons

  function NumberedReason(i: nat, reason: string): string {
    IntToString(i + 1) + ") " + reason
  }

  /** The numbered reasons, one entry each. */
  function Numbered(reasons: seq<string>): (r: seq<string>)
    ensures |r| == |reasons|
  {
    seq(|reasons|, i requires 0 <= i < |reasons| => NumberedReason(i, reasons[i]))
  }

  /** The builder loop of `plainWarnReasons` from index `i` on. */
  function BuildReasons(reasons: seq<string>, i: nat, acc: string): string
    requires i <= |reasons|
    decreases |reasons| - i
  {
    if i == |reasons| then acc
    else
      var sep := if i > 0 then REASON_SEPARATOR else "";
      BuildReasons(reasons, i + 1, acc + sep + NumberedReason(i, reasons[i]))
  }

  /** `plainWarnReasons`: the allowed reasons numbered from 1, separated by
      ` | `. */
  function PlainWarnReasons(reasons: seq<string>): (r: string)
    ensures r == Join(Numbered(reasons), REASON_SEPARATOR)
  {
    BuildReasonsJoins(reasons, 0, "");
    BuildReasons(reasons, 0, "")
  }

  lemma JoinSnoc(parts: seq<string>, x: string, sep: string)
    requires |parts| > 0
    ensures Join(parts + [x], sep) == Join(parts, sep) + sep + x
    decreases |parts|
  {
    if |parts| == 1 {
      assert (parts + [x])[1..] == [x];
    } else {
      assert (parts + [x])[1..] == parts[1..] + [x];
      JoinSnoc(parts[1..], x, sep);
    }
  }

  /** The loop keeps the join of the reasons numbered so far. */
  lemma {:induction false} BuildReasonsJoins(reasons: seq<string>, i: nat, acc: string)
    requires i <= |reasons|
    requires acc == Join(Numbered(reasons[..i]), REASON_SEPARATOR)
    ensures BuildReasons(reasons, i, acc) == Join(Numbered(reasons), REASON_SEPARATOR)
    decreases |reasons| - i
  {
    if i == |reasons| {
      assert reasons[..i] == reasons;
    } else {
      var item := NumberedReason(i, reasons[i]);
      var sep := if i > 0 then REASON_SEPARATOR else "";
      assert Numbered(reasons[..i + 1]) == Numbered(reasons[..i]) + [item];
      if i > 0 {
        JoinSnoc(Numbered(reasons[..i]), item, REASON_SEPARATOR);
      } else {
        assert Numbered(reasons[..1]) == [item];
      }
      BuildReasonsJoins(reasons, i + 1, acc + sep + item);
    }
  }

  /** With one allowed reason the list reads `1) <reason>`; each further
      reason adds ` | ` and its number. */
  lemma PlainWarnReasonsShape(reasons: seq<string>, x: string)
    ensures PlainWarnReasons([x]) == "1) " + x
    ensures |reasons| > 0 ==>
      PlainWarnReasons(reasons + [x]) == PlainWarnReasons(reasons) + REASON_SEPARATOR + NumberedReason(|reasons|, x)
  {
    assert Numbered([x]) == ["1) " + x] by {
      assert Numbered([x])[0] == IntToString(1) + ") " + x;
      assert IntToString(1) == [DigitChar(1)];
      assert DigitChar(1) == '1';
      assert "1" + ") " == "1) ";
    }
    if |reasons| > 0 {
      assert Numbered(reasons + [x]) == Numbered(reasons) + [NumberedReason(|reasons|, x)];
      JoinSnoc(Numbered(reasons), NumberedReason(|reasons|, x), REASON_SEPARATOR);
    }
  }

  // ---------------------------------------------------------------------------
  // Looking up and lifting

  /** A status, and the record to show with it. */
  datatype Lookup = Lookup(status: int, record: Option<Punishment>)

  /** `handleGetPunishment`: the id is upper-cased before the lookup. */
  function LookUpPunishment(st: Store, rawId: string): (r: Lookup)
    ensures r.status == SERVER_ERROR <==> !st.online
    ensures r.status == NOT_FOUND <==> st.online && ToUpper(rawId) !in RowIds(st.rows)
    ensures r.status == OK <==> st.online && ToUpper(rawId) in RowIds(st.rows)
    ensures r.status == OK ==> r.record.Some? && r.record.value in st.rows && r.record.value.internalId == ToUpper(rawId)
  {
    match FindByInternalId(st, ToUpper(rawId))
    case Failure(_) => Lookup(SERVER_ERROR, None)
    case Success(None) => Lookup(NOT_FOUND, None)
    case Success(Some(p)) => Lookup(OK, Some(p))
  }

  /** A generated id is found whichever case the forum writes it in. */
  lemma GeneratedIdAnyCase(st: Store, c: string, draws: seq<int>)
    requires ValidDraws(draws)
    requires c == "NNR" || c == "NV" || c == "TM"
    ensures LookUpPunishment(st, ToLower(Generate(c, draws))) == LookUpPunishment(st, Generate(c, draws))
  {
    var id := Generate(c, draws);
    Unpunish.GeneratedIdChars(c, draws);
    var low := ToLower(id);
    forall i | 0 <= i < |id| ensures UpperChar(id[i]) == id[i] && UpperChar(low[i]) == id[i] {
      Unpunish.IdCharCase(id[i]);
    }
    assert ToUpper(id) == id;
    assert ToUpper(low) == id;
  }

  /** The body of a revoke request. */
  datatype RevokeRequest = RevokeRequest(actor: Option<string>, reason: Option<string>)

  function RevokeActor(body: Option<RevokeRequest>): string {
    if body.None? || IsNullOrBlank(body.value.actor) then DEFAULT_ACTOR else Trim(body.value.actor.value)
  }

  function RevokeReason(body: Option<RevokeRequest>): string {
    if body.None? || IsNullOrBlank(body.value.reason) then DEFAULT_REVOKE_REASON else Trim(body.value.reason.value)
  }

  /** The service afterwards, the listener calls, and the reply. */
  datatype Revoked = Revoked(svc: Engine.Service, events: seq<Event>, reply: Lookup)

  /** `handleRevokePunishment`: the id is upper-cased; an unknown id is
      answered 404 without any change; otherwise the service lifts it under
      `API_REMOVE` and the record is read back. The record's `active` flag is
      not consulted. */
  function Revoke(svc: Engine.Service, rawId: string, body: Option<RevokeRequest>,
                  now: Instant, isExpired: (Punishment, Instant) -> bool): (r: Revoked)
    ensures !svc.store.online ==> r.reply.status == SERVER_ERROR && r.svc == svc && r.events == []
    ensures r.reply.status == NOT_FOUND <==> svc.store.online && ToUpper(rawId) !in RowIds(svc.store.rows)
    ensures r.reply.status == NOT_FOUND ==> r.svc == svc && r.events == []
    ensures r.reply.status == OK ==>
      && var id := ToUpper(rawId);
         var removed := Engine.Remove(svc, id, RevokeActor(body), RevokeReason(body), API_REMOVE, now, isExpired);
      && FindRow(svc.store.rows, id).Some?
      && r.svc == removed.svc
      && Engine.Inactive(r.svc.store.rows, id)
      && r.events == NotifyRemove(svc.listeners, FindRow(svc.store.rows, id).value, RevokeReason(body))
      && (r.reply.record.Some? ==> !r.reply.record.value.active && r.reply.record.value.internalId == id)
    ensures r.reply.status == OK || r.reply.status == NOT_FOUND || r.reply.status == SERVER_ERROR
    ensures Valid(svc.store) ==> Valid(r.svc.store)
  {
    var id := ToUpper(rawId);
    match FindByInternalId(svc.store, id)
    case Failure(_) => Revoked(svc, [], Lookup(SERVER_ERROR, None))
    case Success(None) => Revoked(svc, [], Lookup(NOT_FOUND, None))
    case Success(Some(_)) =>
      var removed := Engine.Remove(svc, id, RevokeActor(body), RevokeReason(body), API_REMOVE, now, isExpired);
      if removed.value.None? then Revoked(removed.svc, removed.events, Lookup(SERVER_ERROR, None))
      else
        var updated := FindByInternalId(removed.svc.store, id);
        if updated.Failure? then Revoked(removed.svc, removed.events, Lookup(SERVER_ERROR, None))
        else Revoked(removed.svc, removed.events, Lookup(OK, updated.value))
  }

  /** An empty body lifts under the defaults. */
  lemma EmptyRevokeUsesDefaults()
    ensures RevokeActor(None) == DEFAULT_ACTOR && RevokeReason(None) == DEFAULT_REVOKE_REASON
    ensures RevokeActor(Some(RevokeRequest(None, None))) == DEFAULT_ACTOR
    ensures RevokeReason(Some(RevokeRequest(None, None))) == DEFAULT_REVOKE_REASON
  {
  }

  /** Revoking through the API does not look at the `active` flag: a record
      lifted before is lifted again, with a new history entry and a new round
      of listener calls, where `/unpunish` answers that it is already lifted.
      The only obstacle is a history entry with the same key, that is, a
      second action on the record in the same millisecond. */
  lemma RevokeIgnoresActiveFlag(svc: Engine.Service, rawId: string, body: Option<RevokeRequest>,
                                now: Instant, isExpired: (Punishment, Instant) -> bool)
    requires svc.store.online
    requires FindRow(svc.store.rows, ToUpper(rawId)).Some?
    requires HistoryId(ToUpper(rawId), now) !in HistoryIds(svc.store.history)
    ensures var r := Revoke(svc, rawId, body, now, isExpired);
      var p := FindRow(svc.store.rows, ToUpper(rawId)).value;
      && r.reply.status == OK
      && r.events == NotifyRemove(svc.listeners, p, RevokeReason(body))
  {
    var id := ToUpper(rawId);
    assert id in RowIds(svc.store.rows);
    assert Deactivate(svc.store, id, RevokeActor(body), RevokeReason(body), API_REMOVE, now).ok;
  }

  // ---------------------------------------------------------------------------
  // Player endpoints

  /** The service afterwards, the status, and the player's active records. */
  datatype ActiveReply = ActiveReply(svc: Engine.Service, status: int, active: seq<Punishment>)

  /** `handlePlayerActive`. The target segment, already decoded once by
      `extractSegments`, is decoded again before the lookup. */
  function PlayerActiveReply(svc: Engine.Service, target: string, decode: Decoder,
                             resolve: string -> Option<Uuid>, now: Instant,
                             isExpired: (Punishment, Instant) -> bool): (r: ActiveReply)
    ensures decode(target).None? ==> r == ActiveReply(svc, SERVER_ERROR, [])
    ensures decode(target).Some? && resolve(decode(target).value).None? ==> r == ActiveReply(svc, NOT_FOUND, [])
    ensures r.status == OK ==>
      && decode(target).Some? && resolve(decode(target).value).Some?
      && forall p :: p in r.active <==>
           p in svc.store.rows && p.active && p.uuid == resolve(decode(target).value).value && !isExpired(p, now)
    ensures r.status == OK && Valid(svc.store) ==> UniqueIds(r.active)
    ensures r.status == OK || r.status == NOT_FOUND || r.status == SERVER_ERROR
  {
    if decode(target).None? then ActiveReply(svc, SERVER_ERROR, [])
    else
    match resolve(decode(target).value)
    case None => ActiveReply(svc, NOT_FOUND, [])
    case Some(uuid) =>
      var o := Engine.GetActiveByUuid(svc, uuid, now, isExpired);
      if o.value.None? then ActiveReply(o.svc, SERVER_ERROR, [])
      else ActiveReply(o.svc, OK, o.value.value.All())
  }

  datatype HistoryReply = HistoryReply(status: int, history: seq<HistoryRecord>)

  /** `handlePlayerHistory`: the player's history, most recent first. */
  function PlayerHistoryReply(st: Store, target: string, decode: Decoder,
                              resolve: string -> Option<Uuid>): (r: HistoryReply)
    ensures decode(target).Some? && resolve(decode(target).value).None? ==> r == HistoryReply(NOT_FOUND, [])
    ensures r.status == SERVER_ERROR <==>
      decode(target).None? || (resolve(decode(target).value).Some? && !st.online)
    ensures r.status == OK ==>
      && decode(target).Some? && resolve(decode(target).value).Some? && SortedByTimeDesc(r.history)
      && forall h :: h in r.history <==> h in st.history && h.uuid == resolve(decode(target).value).value
    ensures r.status == OK || r.status == NOT_FOUND || r.status == SERVER_ERROR
  {
    if decode(target).None? then HistoryReply(SERVER_ERROR, [])
    else
    match resolve(decode(target).value)
    case None => HistoryReply(NOT_FOUND, [])
    case Some(uuid) =>
      match FindHistory(st, uuid)
      case Failure(_) => HistoryReply(SERVER_ERROR, [])
      case Success(history) => HistoryReply(OK, history)
  }

  /** A player path's name segment is decoded twice on its way to the
      lookup: once when the path is cut, and once more in the handler, whose
      contract looks the player up under `decode(target)`. */
  lemma PlayerNameDecodedTwice(name: string, decode: Decoder)
    requires Segment(name) && decode(name).Some?
    requires decode("players") == Some("players") && decode("history") == Some("history")
    ensures Dispatch("GET", true, API_PREFIX + "/players/" + name + "/history", decode)
         == PlayerHistory(decode(name).value)
  {
    LetterSegment("players");
    LetterSegment("history");
    assert API_PREFIX + "/players/" + name + "/history" == API_PREFIX + "/" + "players" + "/" + name + "/" + "history";
    ThreeSegmentPath("players", name, "history", decode);
    HistoryRoute(decode(name).value);
  }
}

=== FILE: gateway.dfy ===
/** The Python gateway in front of the forum API: its settings, its client
    authentication and the request it forwards upstream. The process
    environment, the JSON settings file and the HTTP client are inputs. */
module Gateway {
  import opened Wrappers
  import opened JavaText

  const BEARER: string := "Bearer "
  const UNAUTHORIZED: int := 401
  const INTERNAL_ERROR: int := 500
  const EMPTY_OBJECT: string := "{}"

  // ---------------------------------------------------------------------------
  // Settings

  /** `_read_setting`: an environment value that is not blank wins, stripped;
      otherwise the settings file's value, already turned into text by
      `str`, stripped; otherwise `default` as given. */
  function ReadSetting(env: Option<string>, config: Option<string>, default: string): (r: string)
    ensures env.Some? && PyStrip(env.value) != [] ==> r == PyStrip(env.value)
    ensures (env.None? || PyStrip(env.value) == []) && config.Some? ==> r == PyStrip(config.value)
    ensures (env.None? || PyStrip(env.value) == []) && config.None? ==> r == default
  {
    if env.Some? && PyStrip(env.value) != [] then PyStrip(env.value)
    else if config.None? then default
    else PyStrip(config.value)
  }

  /** The texts `_read_bool_setting` reads as true, after lower-casing. */
  predicate IsTrueText(s: string) {
    s in {"1", "true", "yes", "on"}
  }

  /** `_read_bool_setting`: true exactly for the four true texts, in any
      case; the default is written as `true` or `false` first. */
  function ReadBoolSetting(env: Option<string>, config: Option<string>, default: bool): (r: bool)
    ensures r <==> IsTrueText(ToLower(ReadSetting(env, config, if default then "true" else "false")))
  {
    var value := ToLower(ReadSetting(env, config, if default then "true" else "false"));
    value in {"1", "true", "yes", "on"}
  }

  /** With nothing set, a flag keeps its default. */
  lemma BoolDefaultKept(default: bool)
    ensures ReadBoolSetting(None, None, default) == default
  {
    var t := ToLower("true");
    var f := ToLower("false");
    assert t == "true";
    assert f == "false";
  }

  /** A blank environment value does not hide the settings file. */
  lemma BlankEnvFallsThrough()
    ensures ReadBoolSetting(Some("  "), Some("True"), false)
  {
    assert PyStrip("  ") == [];
    PyStripTrimmed("True");
    assert ToLower("True") == "true";
  }

  /** The flag texts are read in any case and with surrounding spaces. */
  lemma SpacedUpperCaseIsTrue()
    ensures ReadBoolSetting(Some(" YES "), None, false)
  {
    var text := " YES ";
    assert text == " " + "YES" + " ";
    PySpaced("YES");
    var v := ReadSetting(Some(text), None, "false");
    assert v == "YES";
    LowerYes();
  }

  lemma LowerYes()
    ensures ToLower("YES") == "yes"
  {
    var lower := ToLower("YES");
    assert lower[0] == 'y' && lower[1] == 'e' && lower[2] == 's';
  }

  /** Any other text is false, whatever the default. */
  lemma OtherTextIsFalse()
    ensures !ReadBoolSetting(Some("enabled"), None, true)
  {
    PyStripTrimmed("enabled");
    var lower := ToLower("enabled");
    assert lower[0] == 'e';
  }

  /** One space on each side is stripped. */
  lemma PySpaced(v: string)
    requires v != [] && !IsPySpace(v[0]) && !IsPySpace(v[|v| - 1])
    ensures PyStrip(" " + v + " ") == v
  {
    var s := " " + v + " ";
    assert s[1..] == v + " ";
    assert LeadCount(s, IsPySpace) == 1 by {
      assert LeadCount(v + " ", IsPySpace) == 0;
    }
    var rest := s[1..];
    assert rest[..|rest| - 1] == v;
    assert TrailCount(rest, IsPySpace) == 1 by {
      assert TrailCount(v, IsPySpace) == 0;
    }
  }

  /** `UPSTREAM_BASE_URL`'s `rstrip("/")`: every trailing slash removed. */
  function StripTrailingSlashes(url: string): (r: string)
    ensures |r| <= |url| && r == url[..|r|]
    ensures r == [] || r[|r| - 1] != '/'
    ensures forall i :: |r| <= i < |url| ==> url[i] == '/'
    decreases |url|
  {
    if |url| > 0 && url[|url| - 1] == '/' then StripTrailingSlashes(url[..|url| - 1]) else url
  }

  /** Stripping is idempotent, and the slashes it removed can be put back
      without changing the result. */
  lemma {:induction false} StripSlashesStable(url: string, n: nat)
    ensures StripTrailingSlashes(StripTrailingSlashes(url)) == StripTrailingSlashes(url)
    ensures StripTrailingSlashes(url + Slashes(n)) == StripTrailingSlashes(url)
    decreases n
  {
    if n > 0 {
      assert (url + Slashes(n))[..|url + Slashes(n)| - 1] == url + Slashes(n - 1);
      StripSlashesStable(url, n - 1);
    } else {
      assert url + Slashes(0) == url;
    }
  }

  function Slashes(n: nat): (r: string)
    ensures |r| == n && forall i :: 0 <= i < n ==> r[i] == '/'
  {
    seq(n, _ => '/')
  }

  // ---------------------------------------------------------------------------
  // Client authentication

  /** The two request headers the gateway reads; an absent header is
      `None`. */
  datatype Headers = Headers(apiToken: Option<string>, authorization: Option<string>)

  /** `_extract_token`: a non-empty `X-API-Token` header, stripped; else the
      credentials of a `Bearer` authorization (RFC 6750 section 2.1, with
      the scheme matched case-sensitively), stripped; else nothing. */
  function ExtractToken(h: Headers): (r: string)
    ensures h.apiToken.Some? && h.apiToken.value != [] ==> r == PyStrip(h.apiToken.value)
    ensures (h.apiToken.None? || h.apiToken.value == []) ==>
      var auth := h.authorization.GetOr([]);
      (StartsWith(auth, BEARER) ==> r == PyStrip(auth[|BEARER|..]))
      && (!StartsWith(auth, BEARER) ==> r == [])
  {
    if h.apiToken.Some? && h.apiToken.value != [] then PyStrip(h.apiToken.value)
    else
      var auth := h.authorization.GetOr([]);
      if StartsWith(auth, BEARER) then PyStrip(auth[|BEARER|..]) else []
  }

  predicate IsAscii(s: string) {
    forall i :: 0 <= i < |s| ==> s[i] as int < 128
  }

  /** `secrets.compare_digest` on two texts: equality (in constant time,
      which the model does not see), or `None` for the `TypeError` it raises
      when either text holds a character outside ASCII. */
  function CompareDigest(a: string, b: string): (r: Option<bool>)
    ensures r.None? <==> !IsAscii(a) || !IsAscii(b)
    ensures r.Some? ==> (r.value <==> a == b)
  {
    if !IsAscii(a) || !IsAscii(b) then None else Some(a == b)
  }

  /** `_ensure_authorized`: `Some(true)` lets the request through,
      `Some(false)` is the 401, and `None` the `TypeError` of the comparison,
      which escapes the handler. An empty token is refused before any
      comparison. */
  function AuthCheck(h: Headers, gatewayToken: string): (r: Option<bool>)
    ensures ExtractToken(h) == [] ==> r == Some(false)
  {
    var token := ExtractToken(h);
    if token == [] then Some(false) else CompareDigest(token, gatewayToken)
  }

  predicate Authorized(h: Headers, gatewayToken: string) {
    AuthCheck(h, gatewayToken) == Some(true)
  }

  /** The comparison fails with an error exactly when a token is presented
      and it or the gateway's token holds a character outside ASCII. */
  predicate CheckFails(h: Headers, gatewayToken: string) {
    ExtractToken(h) != [] && (!IsAscii(ExtractToken(h)) || !IsAscii(gatewayToken))
  }

  /** Without a configured gateway token nothing is authorized; a request is
      authorized exactly when the token it presents is the gateway's and
      that token is plain ASCII; the comparison fails only as
      `CheckFails` says. */
  lemma AuthorizedIff(h: Headers, gatewayToken: string)
    ensures gatewayToken == [] ==> !Authorized(h, gatewayToken)
    ensures Authorized(h, gatewayToken) <==>
      ExtractToken(h) != [] && ExtractToken(h) == gatewayToken && IsAscii(gatewayToken)
    ensures AuthCheck(h, gatewayToken).None? <==> CheckFails(h, gatewayToken)
    ensures h.apiToken == None && h.authorization == None ==> AuthCheck(h, gatewayToken) == Some(false)
  {
  }

  /** A token outside ASCII is never compared: even the gateway's own
      token, presented as it is configured, fails the check. */
  lemma NonAsciiTokenFails(gatewayToken: string)
    requires gatewayToken != [] && !IsAscii(gatewayToken)
    requires !IsPySpace(gatewayToken[0]) && !IsPySpace(gatewayToken[|gatewayToken| - 1])
    ensures AuthCheck(Headers(Some(gatewayToken), None), gatewayToken).None?
  {
    PyStripTrimmed(gatewayToken);
  }

  /** A token sent either way gets through when it is the gateway's and
      carries no surrounding space; the header form wins over the
      authorization form. */
  lemma TokenRoundTrip(token: string, other: Option<string>)
    requires token != [] && !IsPySpace(token[0]) && !IsPySpace(token[|token| - 1]) && IsAscii(token)
    ensures ExtractToken(Headers(Some(token), other)) == token
    ensures ExtractToken(Headers(None, Some(BEARER + token))) == token
    ensures Authorized(Headers(None, Some(BEARER + token)), token)
  {
    PyStripTrimmed(token);
    assert (BEARER + token)[..|BEARER|] == BEARER;
    assert (BEARER + token)[|BEARER|..] == token;
  }

  lemma PyStripTrimmed(s: string)
    requires s != [] && !IsPySpace(s[0]) && !IsPySpace(s[|s| - 1])
    ensures PyStrip(s) == s
  {
    assert LeadCount(s, IsPySpace) == 0;
    assert TrailCount(s, IsPySpace) == 0;
    assert s[0..][..|s| - 0] == s;
  }

  /** A whitespace-only `X-API-Token` header still takes precedence: it hides
      a valid authorization header and the request is refused. */
  lemma BlankHeaderShadowsBearer(gatewayToken: string)
    requires gatewayToken != []
    ensures !Authorized(Headers(Some(" "), Some(BEARER + gatewayToken)), gatewayToken)
  {
    assert PyStrip(" ") == [];
  }

  /** The scheme is matched as written: `bearer` in lower case is no
      credential at all. */
  lemma LowerCaseSchemeRefused(token: string)
    ensures ExtractToken(Headers(None, Some("bearer " + token))) == []
  {
    assert ("bearer " + token)[0] == 'b';
  }

  // ---------------------------------------------------------------------------
  // Forwarding

  /** A request's query string as its name/value pairs, in order. */
  type QueryParams = seq<(string, string)>

  /** What the gateway does with a request: refuse it, or send it upstream
      with the upstream token, the query parameters and a body. */
  datatype Forwarded =
    | Refused(status: int)
    | Upstream(url: string, token: string, params: QueryParams, body: string)

  /** `_proxy_post`'s body: an empty body goes upstream as `{}`. */
  function PostBody(body: string): (r: string)
    ensures r != []
    ensures body != [] ==> r == body
    ensures body == [] ==> r == EMPTY_OBJECT
  {
    if body == [] then EMPTY_OBJECT else body
  }

  /** A defaulted body is left alone the second time. */
  lemma PostBodyIdempotent(body: string)
    ensures PostBody(PostBody(body)) == PostBody(body)
  {
  }

  /** `_proxy_get` and `_proxy_post` before the upstream call: an
      unauthorized request is refused with 401, or with 500 when the token
      comparison raises, and never reaches the upstream; the others go to
      the base address followed by the path, with the upstream token and the
      request's own query parameters, GET with no body and POST with a
      non-empty one. */
  function Forward(h: Headers, isPost: bool, body: string, path: string, query: QueryParams,
                   gatewayToken: string, upstreamBase: string, upstreamToken: string): (r: Forwarded)
    ensures r.Refused? <==> !Authorized(h, gatewayToken)
    ensures r.Refused? ==> (r.status == INTERNAL_ERROR <==> CheckFails(h, gatewayToken))
    ensures r.Refused? ==> r.status == UNAUTHORIZED || r.status == INTERNAL_ERROR
    ensures r.Upstream? ==> r.url == StripTrailingSlashes(upstreamBase) + path && r.token == upstreamToken
    ensures r.Upstream? ==> r.params == query
    ensures r.Upstream? && isPost ==> r.body == PostBody(body) && r.body != []
    ensures r.Upstream? && !isPost ==> r.body == []
  {
    match AuthCheck(h, gatewayToken)
    case None => Refused(INTERNAL_ERROR)
    case Some(false) => Refused(UNAUTHORIZED)
    case Some(true) => Upstream(StripTrailingSlashes(upstreamBase) + path, upstreamToken, query,
                                if isPost then PostBody(body) else [])
  }

  /** Whatever the gateway's configuration, a request that presents no
      token is refused before anything is sent. */
  lemma NoTokenNoUpstream(isPost: bool, body: string, path: string, query: QueryParams,
                          gatewayToken: string, upstreamBase: string, upstreamToken: string)
    ensures Forward(Headers(None, None), isPost, body, path, query, gatewayToken, upstreamBase, upstreamToken)
      == Refused(UNAUTHORIZED)
  {
  }
}

=== FILE: id_generator.dfy ===
/** `PunishmentIdGenerator.generate`: "PBRB-" + category + "-" + five
    characters drawn from A-Z0-9. The random draws are an input. */
module PunishmentIdGenerator {
  const PREFIX: string := "PBRB-"
  const ALPHANUM: string := "ABCDEFGHIJKLMNOPQRSTUVWXYZ0123456789"
  const SUFFIX_LENGTH: nat := 5

  /** Five results of `SecureRandom.nextInt(36)`. */
  predicate ValidDraws(draws: seq<int>) {
    |draws| == SUFFIX_LENGTH && forall i :: 0 <= i < |draws| ==> 0 <= draws[i] < |ALPHANUM|
  }

  function Suffix(draws: seq<int>): (r: string)
    requires ValidDraws(draws)
    ensures |r| == SUFFIX_LENGTH
    ensures forall i :: 0 <= i < |r| ==> r[i] in ALPHANUM
  {
    seq(SUFFIX_LENGTH, i requires 0 <= i < SUFFIX_LENGTH => ALPHANUM[draws[i]])
  }

  function Generate(typeCode: string, draws: seq<int>): (r: string)
    requires ValidDraws(draws)
    ensures |r| == 11 + |typeCode|
    ensures r[..|PREFIX| + |typeCode| + 1] == PREFIX + typeCode + "-"
    ensures forall i :: |r| - SUFFIX_LENGTH <= i < |r| ==> r[i] in ALPHANUM
  {
    PREFIX + typeCode + "-" + Suffix(draws)
  }

  /** The alphabet letter by position: A-Z, then 0-9. */
  lemma AlphabetLayout(i: int)
    requires 0 <= i < |ALPHANUM|
    ensures ALPHANUM[i] == if i < 26 then ('A' as int + i) as char else ('0' as int + i - 26) as char
  {
  }

  /** Different categories or different draws never give the same id: the id
      determines both. */
  lemma GenerateInjective(t1: string, d1: seq<int>, t2: string, d2: seq<int>)
    requires ValidDraws(d1) && ValidDraws(d2)
    requires Generate(t1, d1) == Generate(t2, d2)
    ensures t1 == t2 && d1 == d2
  {
    var r1 := Generate(t1, d1);
    var r2 := Generate(t2, d2);
    assert |t1| == |t2|;
    IdPieces(t1, d1);
    IdPieces(t2, d2);
    SuffixInjective(d1, d2);
  }

  /** Where the category and the suffix sit inside an id. */
  lemma IdPieces(t: string, d: seq<int>)
    requires ValidDraws(d)
    ensures var r := Generate(t, d);
      r[|PREFIX|..|PREFIX| + |t|] == t && r[|r| - SUFFIX_LENGTH..] == Suffix(d)
  {
    var r := PREFIX + t + "-" + Suffix(d);
    assert r[|PREFIX|..|PREFIX| + |t|] == t;
    assert r[|r| - SUFFIX_LENGTH..] == Suffix(d);
  }

  /** The suffix determines the draws. */
  lemma SuffixInjective(d1: seq<int>, d2: seq<int>)
    requires ValidDraws(d1) && ValidDraws(d2)
    requires Suffix(d1) == Suffix(d2)
    ensures d1 == d2
  {
    forall i | 0 <= i < SUFFIX_LENGTH ensures d1[i] == d2[i] {
      assert Suffix(d1)[i] == ALPHANUM[d1[i]];
      assert Suffix(d2)[i] == ALPHANUM[d2[i]];
      AlphabetLayout(d1[i]);
      AlphabetLayout(d2[i]);
    }
  }
}

=== FILE: ip_hashing.dfy ===
/** `IpHashing.hash`: the SHA-256 digest of an address's UTF-8 bytes, as 64
    lowercase hexadecimal characters. The digest itself (FIPS 180-4) is a
    parameter, an arbitrary function to 32 bytes. */
module IpHashing {
  import opened Wrappers
  import opened JavaText

  type Byte = b: int | 0 <= b < 256
  const DIGEST_LENGTH: nat := 32
  type Digest = d: seq<Byte> | |d| == DIGEST_LENGTH witness seq(32, _ => 0)

  predicate IsLowerHex(c: char) {
    ('0' <= c <= '9') || ('a' <= c <= 'f')
  }

  function HexDigit(n: int): (c: char)
    requires 0 <= n < 16
    ensures IsLowerHex(c)
  {
    if n < 10 then ('0' as int + n) as char else ('a' as int + n - 10) as char
  }

  function HexValue(c: char): (n: int)
    requires IsLowerHex(c)
    ensures 0 <= n < 16 && HexDigit(n) == c
  {
    if c <= '9' then c as int - '0' as int else c as int - 'a' as int + 10
  }

  /** `String.format("%02x", b)` for each byte, concatenated: the unsigned value
      of the byte as two lowercase hexadecimal digits, high digit first. */
  function Hex(bytes: seq<Byte>): (r: string)
    ensures |r| == 2 * |bytes|
    ensures forall i :: 0 <= i < |r| ==> IsLowerHex(r[i])
  {
    seq(2 * |bytes|, i requires 0 <= i < 2 * |bytes| =>
      if i % 2 == 0 then HexDigit(bytes[i / 2] / 16) else HexDigit(bytes[i / 2] % 16))
  }

  /** Reads pairs of hexadecimal digits back into bytes. */
  function Unhex(s: string): (r: seq<Byte>)
    requires |s| % 2 == 0
    requires forall i :: 0 <= i < |s| ==> IsLowerHex(s[i])
    ensures |r| * 2 == |s|
  {
    seq(|s| / 2, i requires 0 <= i < |s| / 2 => HexValue(s[2 * i]) * 16 + HexValue(s[2 * i + 1]))
  }

  /** Decoding the hex text gives back the bytes, so the encoding is
      injective. */
  lemma UnhexHex(bytes: seq<Byte>)
    ensures Unhex(Hex(bytes)) == bytes
  {
    var h := Hex(bytes);
    forall i | 0 <= i < |bytes| ensures Unhex(h)[i] == bytes[i] {
      HexAt(bytes, i);
      DigitValue(bytes[i] / 16);
      DigitValue(bytes[i] % 16);
      assert Unhex(h)[i] == HexValue(h[2 * i]) * 16 + HexValue(h[2 * i + 1]);
    }
  }

  /** The two digits of byte `i`. */
  lemma HexAt(bytes: seq<Byte>, i: int)
    requires 0 <= i < |bytes|
    ensures Hex(bytes)[2 * i] == HexDigit(bytes[i] / 16)
    ensures Hex(bytes)[2 * i + 1] == HexDigit(bytes[i] % 16)
  {
    assert (2 * i) / 2 == i && (2 * i) % 2 == 0;
    assert (2 * i + 1) / 2 == i && (2 * i + 1) % 2 == 1;
  }

  lemma DigitValue(n: int)
    requires 0 <= n < 16
    ensures HexValue(HexDigit(n)) == n
  {
  }

  lemma HexInjective(a: seq<Byte>, b: seq<Byte>)
    requires Hex(a) == Hex(b)
    ensures a == b
  {
    UnhexHex(a);
    UnhexHex(b);
  }

  /** `IpHashing.hash`: null for a null or blank address, otherwise the hex of
      the digest. */
  function Hash(ip: Option<string>, sha256: string -> Digest): (r: Option<string>)
    ensures r.None? <==> IsNullOrBlank(ip)
    ensures r.Some? ==> |r.value| == 64 && forall i :: 0 <= i < 64 ==> IsLowerHex(r.value[i])
    ensures r.Some? ==> Unhex(r.value) == sha256(ip.value)
  {
    if IsNullOrBlank(ip) then None
    else
      UnhexHex(sha256(ip.value));
      Some(Hex(sha256(ip.value)))
  }

  /** Two addresses hash to the same text exactly when their digests agree. */
  lemma HashDigestIff(a: string, b: string, sha256: string -> Digest)
    requires !IsBlank(a) && !IsBlank(b)
    ensures Hash(Some(a), sha256) == Hash(Some(b), sha256) <==> sha256(a) == sha256(b)
  {
    if Hash(Some(a), sha256) == Hash(Some(b), sha256) {
      HexInjective(sha256(a), sha256(b));
    }
  }
}

=== FILE: java_numbers.dfy ===
/** Java's 64-bit and 32-bit integers as the plugin uses them: two's-complement
    wrap-around of `long` arithmetic, `Long.toString`, and `Long.parseLong` /
    `Integer.parseInt` on ASCII decimal text. */
module JavaNumbers {
  import opened Wrappers
  import opened JavaText

  const MAX_LONG: int := 0x7FFF_FFFF_FFFF_FFFF
  const MIN_LONG: int := -0x8000_0000_0000_0000
  const MAX_INT: int := 0x7FFF_FFFF
  const MIN_INT: int := -0x8000_0000
  const TWO_64: int := 0x1_0000_0000_0000_0000

  predicate IsLong(x: int) {
    MIN_LONG <= x <= MAX_LONG
  }

  /** The `long` that Java's wrapping arithmetic produces for the exact
      mathematical value `x`. */
  function Wrap64(x: int): (r: int)
    ensures IsLong(r)
    ensures (r - x) % TWO_64 == 0
    ensures IsLong(x) ==> r == x
  {
    (x - MIN_LONG) % TWO_64 + MIN_LONG
  }

  /** The `long` that a finite `double` (or `float`) of exact value `x`
      narrows to, as `Number.longValue()` does (section 5.1.3 of the Java
      Language Specification): rounded toward zero, then clamped to the
      `long` range. */
  function DoubleToLong(x: real): (r: int)
    ensures IsLong(r)
    ensures 0.0 <= x < MAX_LONG as real ==> r as real <= x < r as real + 1.0
    ensures MIN_LONG as real < x < 0.0 ==> r as real - 1.0 < x <= r as real
    ensures x >= MAX_LONG as real ==> r == MAX_LONG
    ensures x <= MIN_LONG as real ==> r == MIN_LONG
  {
    if x >= MAX_LONG as real then MAX_LONG
    else if x <= MIN_LONG as real then MIN_LONG
    else if x >= 0.0 then x.Floor
    else -((-x).Floor)
  }

  // ---------------------------------------------------------------------------
  // Decimal text

  function DigitChar(d: nat): (c: char)
    requires d < 10
    ensures IsAsciiDigit(c)
  {
    ('0' as int + d) as char
  }

  function DigitValue(c: char): (d: nat)
    requires IsAsciiDigit(c)
    ensures d < 10
  {
    c as int - '0' as int
  }

  predicate AllDigits(s: string) {
    forall i :: 0 <= i < |s| ==> IsAsciiDigit(s[i])
  }

  /** The value of a run of ASCII digits, most significant first. */
  function DigitsValue(s: string): nat
    requires AllDigits(s)
  {
    if |s| == 0 then 0 else DigitsValue(s[..|s| - 1]) * 10 + DigitValue(s[|s| - 1])
  }

  /** Decimal digits of a natural number, without leading zeros. */
  function NatToString(n: nat): (s: string)
    ensures |s| > 0 && AllDigits(s)
    ensures s[0] == '0' ==> n == 0
  {
    if n < 10 then [DigitChar(n)] else NatToString(n / 10) + [DigitChar(n % 10)]
  }

  /** `Long.toString` (and string concatenation of a `long`). */
  function IntToString(n: int): (r: string)
    ensures |r| > 0 && (r[0] == '-' <==> n < 0)
    ensures n >= 0 ==> AllDigits(r)
  {
    if n < 0 then "-" + NatToString(-n) else NatToString(n)
  }

  lemma {:induction false} NatToStringValue(n: nat)
    ensures DigitsValue(NatToString(n)) == n
    decreases n
  {
    if n >= 10 {
      NatToStringValue(n / 10);
      var s := NatToString(n);
      assert s[..|s| - 1] == NatToString(n / 10);
    }
  }

  /** Different numbers print differently. */
  lemma IntToStringInjective(a: int, b: int)
    requires IntToString(a) == IntToString(b)
    ensures a == b
  {
    var s := IntToString(a);
    if a < 0 {
      assert s[1..] == NatToString(-a);
      assert s[1..] == NatToString(-b);
      NatToStringValue(-a);
      NatToStringValue(-b);
    } else {
      NatToStringValue(a);
      NatToStringValue(b);
    }
  }

  /** An optional sign followed by at least one ASCII digit: the only text
      `Long.parseLong` and `Integer.parseInt` accept (ASCII digits only). */
  predicate WellFormedDecimal(s: string) {
    if |s| > 0 && (s[0] == '-' || s[0] == '+') then |s| > 1 && AllDigits(s[1..])
    else |s| > 0 && AllDigits(s)
  }

  function DecimalValue(s: string): int
    requires WellFormedDecimal(s)
  {
    if s[0] == '-' then 0 - DigitsValue(s[1..]) as int
    else if s[0] == '+' then DigitsValue(s[1..])
    else DigitsValue(s)
  }

  /** `Long.parseLong` (with `lo`/`hi` the `long` bounds) or
      `Integer.parseInt` (the `int` bounds); `None` is the
      `NumberFormatException`. */
  function ParseDecimal(s: string, lo: int, hi: int): (r: Option<int>)
    ensures r.Some? <==> WellFormedDecimal(s) && lo <= DecimalValue(s) <= hi
    ensures r.Some? ==> r.value == DecimalValue(s)
  {
    if WellFormedDecimal(s) && lo <= DecimalValue(s) <= hi then Some(DecimalValue(s)) else None
  }

  function ParseLong(s: string): (r: Option<int>)
    ensures r.Some? ==> IsLong(r.value)
  {
    ParseDecimal(s, MIN_LONG, MAX_LONG)
  }

  function ParseInt(s: string): (r: Option<int>)
    ensures r.Some? ==> MIN_INT <= r.value <= MAX_INT
  {
    ParseDecimal(s, MIN_INT, MAX_INT)
  }

  /** Printing a number and parsing it back gives the number, whenever it is
      within the parser's range. */
  lemma ParseDecimalRoundTrip(n: int, lo: int, hi: int)
    requires lo <= n <= hi
    ensures ParseDecimal(IntToString(n), lo, hi) == Some(n)
  {
    var s := IntToString(n);
    if n < 0 {
      NatToStringValue(-n);
      assert s[1..] == NatToString(-n);
    } else {
      NatToStringValue(n);
    }
  }
}

=== FILE: java_text.dfy ===
/** The `java.lang.String` operations the plugin relies on, with their Java
    meaning: `trim`, `isBlank`, `toLowerCase(Locale.ROOT)`, `equalsIgnoreCase`,
    `startsWith`, `contains`, `replace`, `split` on one literal character and
    `String.join`. Python's `str.strip` shares the trimming skeleton. */
module JavaText {
  import opened Wrappers

  // ---------------------------------------------------------------------------
  // Character classes

  /** `Character.isWhitespace`: the space separators except the no-break ones,
      the line and paragraph separators, and the ASCII controls 9-13 and 28-31. */
  predicate IsWhitespace(c: char) {
    || c == ' '
    || ('\t' <= c <= '\r')
    || ('\U{001C}' <= c <= '\U{001F}')
    || c == '\U{1680}'
    || ('\U{2000}' <= c <= '\U{2006}')
    || ('\U{2008}' <= c <= '\U{200A}')
    || c == '\U{2028}' || c == '\U{2029}'
    || c == '\U{205F}' || c == '\U{3000}'
  }

  /** What `String.trim` removes: every character up to and including U+0020. */
  predicate IsTrimmable(c: char) {
    c <= ' '
  }

  /** Python's `str.isspace` for one character. */
  predicate IsPySpace(c: char) {
    || ('\t' <= c <= '\r')
    || ('\U{001C}' <= c <= ' ')
    || c == '\U{0085}' || c == '\U{00A0}' || c == '\U{1680}'
    || ('\U{2000}' <= c <= '\U{200A}')
    || c == '\U{2028}' || c == '\U{2029}' || c == '\U{202F}'
    || c == '\U{205F}' || c == '\U{3000}'
  }

  predicate IsAsciiDigit(c: char) {
    '0' <= c <= '9'
  }

  /** `String.isBlank`: empty or only `Character.isWhitespace` characters. */
  predicate IsBlank(s: string) {
    forall i :: 0 <= i < |s| ==> IsWhitespace(s[i])
  }

  /** A Java `String` reference that may be null, as the source checks it with its
      recurring `value == null || value.isBlank()`. */
  predicate IsNullOrBlank(s: Option<string>) {
    s.None? || IsBlank(s.value)
  }

  // ---------------------------------------------------------------------------
  // Trimming

  /** Number of leading characters satisfying `drop`. */
  function LeadCount(s: string, drop: char -> bool): (k: nat)
    ensures k <= |s|
    ensures forall i :: 0 <= i < k ==> drop(s[i])
    ensures k < |s| ==> !drop(s[k])
  {
    if |s| == 0 || !drop(s[0]) then 0 else 1 + LeadCount(s[1..], drop)
  }

  /** Number of trailing characters satisfying `drop`. */
  function TrailCount(s: string, drop: char -> bool): (k: nat)
    ensures k <= |s|
    ensures forall i :: |s| - k <= i < |s| ==> drop(s[i])
    ensures k < |s| ==> !drop(s[|s| - k - 1])
  {
    if |s| == 0 || !drop(s[|s| - 1]) then 0 else 1 + TrailCount(s[..|s| - 1], drop)
  }

  /** Removes the longest prefix and suffix made of `drop` characters. */
  function StripBy(s: string, drop: char -> bool): (r: string)
    ensures |r| <= |s|
    ensures r == [] || (!drop(r[0]) && !drop(r[|r| - 1]))
    ensures (forall i :: 0 <= i < |s| ==> drop(s[i])) <==> r == []
    ensures (|s| > 0 && !drop(s[0]) && !drop(s[|s| - 1])) ==> r == s
  {
    var a := LeadCount(s, drop);
    var rest := s[a..];
    var b := TrailCount(rest, drop);
    var r := rest[..|rest| - b];
    assert r == [] ==> a == |s| by {
      if r == [] && a < |s| {
        assert false;
      }
    }
    assert r != [] ==> r[0] == s[a];
    r
  }

  /** Whitespace-only text in `trim`'s sense: nothing above U+0020. */
  predicate IsTrimmedAway(s: string) {
    forall i :: 0 <= i < |s| ==> s[i] <= ' '
  }

  /** `String.trim`. */
  function Trim(s: string): (r: string)
    ensures r == [] || (r[0] > ' ' && r[|r| - 1] > ' ')
    ensures IsTrimmedAway(s) <==> r == []
    ensures |s| > 0 && s[0] > ' ' && s[|s| - 1] > ' ' ==> r == s
  {
    StripBy(s, IsTrimmable)
  }

  /** Python's `str.strip()` with no argument. */
  function PyStrip(s: string): (r: string)
    ensures r == [] || (!IsPySpace(r[0]) && !IsPySpace(r[|r| - 1]))
    ensures (forall i :: 0 <= i < |s| ==> IsPySpace(s[i])) <==> r == []
  {
    StripBy(s, IsPySpace)
  }

  /** Stripping twice removes nothing more. */
  lemma StripByIdempotent(s: string, drop: char -> bool)
    ensures StripBy(StripBy(s, drop), drop) == StripBy(s, drop)
  {
  }

  // ---------------------------------------------------------------------------
  // Case mapping (ASCII and the Cyrillic block U+0400-U+045F)

  function LowerChar(c: char): char {
    if 'A' <= c <= 'Z' then (c as int + 32) as char
    else if '\U{0410}' <= c <= '\U{042F}' then (c as int + 32) as char
    else if '\U{0400}' <= c <= '\U{040F}' then (c as int + 80) as char
    else c
  }

  function UpperChar(c: char): char {
    if 'a' <= c <= 'z' then (c as int - 32) as char
    else if '\U{0430}' <= c <= '\U{044F}' then (c as int - 32) as char
    else if '\U{0450}' <= c <= '\U{045F}' then (c as int - 80) as char
    else c
  }

  /** `toLowerCase(Locale.ROOT)`. */
  function ToLower(s: string): (r: string)
    ensures |r| == |s|
    ensures forall i :: 0 <= i < |s| ==> r[i] == LowerChar(s[i])
  {
    seq(|s|, i requires 0 <= i < |s| => LowerChar(s[i]))
  }

  /** `toUpperCase(Locale.ROOT)`. */
  function ToUpper(s: string): (r: string)
    ensures |r| == |s|
    ensures forall i :: 0 <= i < |s| ==> r[i] == UpperChar(s[i])
  {
    seq(|s|, i requires 0 <= i < |s| => UpperChar(s[i]))
  }

  /** The per-character test of `String.regionMatches(true, ...)`. */
  predicate CharEqualsIgnoreCase(a: char, b: char) {
    a == b || UpperChar(a) == UpperChar(b) || LowerChar(UpperChar(a)) == LowerChar(UpperChar(b))
  }

  /** `String.equalsIgnoreCase` on two non-null strings. */
  predicate EqualsIgnoreCase(a: string, b: string) {
    |a| == |b| && forall i :: 0 <= i < |a| ==> CharEqualsIgnoreCase(a[i], b[i])
  }

  /** Upper-casing a string makes it equal to itself ignoring case, so a
      value compared after `toUpperCase` and one compared with
      `equalsIgnoreCase` agree. */
  lemma UpperEqualsIgnoreCase(s: string)
    ensures EqualsIgnoreCase(ToUpper(s), s)
  {
    forall i | 0 <= i < |s| ensures CharEqualsIgnoreCase(ToUpper(s)[i], s[i]) {
      var c := s[i];
      assert UpperChar(UpperChar(c)) == UpperChar(c);
    }
  }

  // ---------------------------------------------------------------------------
  // Searching

  predicate StartsWith(s: string, prefix: string) {
    |prefix| <= |s| && s[..|prefix|] == prefix
  }

  predicate EndsWith(s: string, suffix: string) {
    |suffix| <= |s| && s[|s| - |suffix|..] == suffix
  }

  /** `t` occurs in `s` starting at index `i`. */
  predicate OccursAt(s: string, t: string, i: nat) {
    i + |t| <= |s| && s[i..i + |t|] == t
  }

  /** `s.indexOf(t, from)`: the first occurrence at or after `from`. */
  function IndexOfFrom(s: string, t: string, from: nat): (r: Option<nat>)
    decreases |s| - from
    ensures r.Some? ==> from <= r.value && OccursAt(s, t, r.value)
    ensures r.Some? ==> forall j :: from <= j < r.value ==> !OccursAt(s, t, j)
    ensures r.None? ==> forall j :: from <= j ==> !OccursAt(s, t, j)
  {
    if from + |t| > |s| then None
    else if s[from..from + |t|] == t then Some(from)
    else IndexOfFrom(s, t, from + 1)
  }

  /** `String.contains`. */
  predicate Contains(s: string, t: string) {
    IndexOfFrom(s, t, 0).Some?
  }

  lemma ContainsIff(s: string, t: string)
    ensures Contains(s, t) <==> exists i: nat :: OccursAt(s, t, i)
  {
    var r := IndexOfFrom(s, t, 0);
    if r.Some? {
      assert OccursAt(s, t, r.value);
    }
  }

  /** `s.indexOf(c)` for one character. */
  function IndexOfChar(s: string, c: char): (r: Option<nat>)
    ensures r.Some? ==> r.value < |s| && s[r.value] == c
    ensures r.Some? ==> forall j :: 0 <= j < r.value ==> s[j] != c
    ensures r.None? ==> forall j :: 0 <= j < |s| ==> s[j] != c
  {
    if |s| == 0 then None
    else if s[0] == c then Some(0)
    else match IndexOfChar(s[1..], c)
      case None => None
      case Some(k) => Some(k + 1)
  }

  /** `s.lastIndexOf(c)` for one character. */
  function LastIndexOfChar(s: string, c: char): (r: Option<nat>)
    ensures r.Some? ==> r.value < |s| && s[r.value] == c
    ensures r.Some? ==> forall j :: r.value < j < |s| ==> s[j] != c
    ensures r.None? ==> forall j :: 0 <= j < |s| ==> s[j] != c
  {
    if |s| == 0 then None
    else if s[|s| - 1] == c then Some(|s| - 1)
    else LastIndexOfChar(s[..|s| - 1], c)
  }

  // ---------------------------------------------------------------------------
  // replace, split, join

  /** `String.replace(target, replacement)`: every non-overlapping occurrence,
      scanning left to right; an empty target inserts the replacement before
      every character and at the end. */
  function Replace(s: string, target: string, rep: string): string
    decreases |s|
  {
    if |target| == 0 then
      if |s| == 0 then rep else rep + [s[0]] + Replace(s[1..], target, rep)
    else if |s| == 0 then []
    else if StartsWith(s, target) then rep + Replace(s[|target|..], target, rep)
    else [s[0]] + Replace(s[1..], target, rep)
  }

  /** The pieces between the non-overlapping occurrences of a non-empty
      `target`, found left to right. */
  function SplitOn(s: string, target: string): (r: seq<string>)
    requires |target| > 0
    ensures |r| > 0
    decreases |s|
  {
    if |s| == 0 then [[]]
    else if StartsWith(s, target) then [[]] + SplitOn(s[|target|..], target)
    else
      var rest := SplitOn(s[1..], target);
      [[s[0]] + rest[0]] + rest[1..]
  }

  /** `String.join(sep, parts)`. */
  function Join(parts: seq<string>, sep: string): string
  {
    if |parts| == 0 then []
    else if |parts| == 1 then parts[0]
    else parts[0] + sep + Join(parts[1..], sep)
  }

  lemma JoinCons(head: string, tail: seq<string>, sep: string)
    requires |tail| > 0
    ensures Join([head] + tail, sep) == head + sep + Join(tail, sep)
  {
    assert ([head] + tail)[1..] == tail;
  }

  lemma JoinPrependChar(c: char, parts: seq<string>, sep: string)
    requires |parts| > 0
    ensures Join([[c] + parts[0]] + parts[1..], sep) == [c] + Join(parts, sep)
  {
    if |parts| == 1 {
    } else {
      var p := [[c] + parts[0]] + parts[1..];
      assert p[1..] == parts[1..];
    }
  }

  /** Replacing equals splitting on the target and joining with the
      replacement. */
  lemma {:induction false} ReplaceIsJoinOfSplit(s: string, target: string, rep: string)
    requires |target| > 0
    ensures Replace(s, target, rep) == Join(SplitOn(s, target), rep)
    decreases |s|
  {
    if |s| == 0 {
    } else if StartsWith(s, target) {
      ReplaceIsJoinOfSplit(s[|target|..], target, rep);
      JoinCons([], SplitOn(s[|target|..], target), rep);
    } else {
      ReplaceIsJoinOfSplit(s[1..], target, rep);
      JoinPrependChar(s[0], SplitOn(s[1..], target), rep);
    }
  }

  /** Joining the pieces back with the target restores the string. */
  lemma {:induction false} JoinSplitRoundTrip(s: string, target: string)
    requires |target| > 0
    ensures Join(SplitOn(s, target), target) == s
    decreases |s|
  {
    if |s| == 0 {
    } else if StartsWith(s, target) {
      var tail := s[|target|..];
      var rest := SplitOn(tail, target);
      assert SplitOn(s, target) == [[]] + rest;
      JoinSplitRoundTrip(tail, target);
      JoinCons([], rest, target);
      assert s == target + tail;
    } else {
      var rest := SplitOn(s[1..], target);
      assert SplitOn(s, target) == [[s[0]] + rest[0]] + rest[1..];
      JoinSplitRoundTrip(s[1..], target);
      JoinPrependChar(s[0], rest, target);
      assert s == [s[0]] + s[1..];
    }
  }

  /** A piece free of the separator, then the separator: the piece comes
      out first. */
  lemma {:induction false} SplitPieceThenSep(w: string, c: char, rest: string)
    requires c !in w
    ensures SplitOn(w + [c] + rest, [c]) == [w] + SplitOn(rest, [c])
    decreases |w|
  {
    if |w| == 0 {
      assert w + [c] + rest == [c] + rest;
      assert StartsWith([c] + rest, [c]);
      assert ([c] + rest)[1..] == rest;
    } else {
      var s := w + [c] + rest;
      assert s[0] == w[0] && w[0] != c;
      assert s[..1][0] == s[0];
      assert !StartsWith(s, [c]);
      assert s[1..] == w[1..] + [c] + rest;
      assert c !in w[1..];
      SplitPieceThenSep(w[1..], c, rest);
      assert [w[0]] + w[1..] == w;
    }
  }

  /** A piece free of the separator splits to itself. */
  lemma {:induction false} SplitPiece(w: string, c: char)
    requires c !in w
    ensures SplitOn(w, [c]) == [w]
    decreases |w|
  {
    if |w| > 0 {
      assert w[..1][0] == w[0];
      assert !StartsWith(w, [c]);
      assert c !in w[1..];
      SplitPiece(w[1..], c);
      assert [w[0]] + w[1..] == w;
    }
  }

  /** Splitting a join of separator-free pieces gives the pieces back. */
  lemma {:induction false} SplitJoinedPieces(parts: seq<string>, c: char)
    requires |parts| > 0
    requires forall i :: 0 <= i < |parts| ==> c !in parts[i]
    ensures SplitOn(Join(parts, [c]), [c]) == parts
    decreases |parts|
  {
    if |parts| == 1 {
      SplitPiece(parts[0], c);
    } else {
      JoinCons(parts[0], parts[1..], [c]);
      assert [parts[0]] + parts[1..] == parts;
      SplitPieceThenSep(parts[0], c, Join(parts[1..], [c]));
      assert forall i :: 0 <= i < |parts[1..]| ==> parts[1..][i] == parts[i + 1];
      SplitJoinedPieces(parts[1..], c);
    }
  }

  /** Replacing a target by itself changes nothing. */
  lemma ReplaceBySelf(s: string, target: string)
    requires |target| > 0
    ensures Replace(s, target, target) == s
  {
    ReplaceIsJoinOfSplit(s, target, target);
    JoinSplitRoundTrip(s, target);
  }

  /** A target that does not occur leaves the string unchanged. */
  lemma {:induction false} ReplaceAbsent(s: string, target: string, rep: string)
    requires |target| > 0
    requires forall i: nat :: !OccursAt(s, target, i)
    ensures Replace(s, target, rep) == s
    decreases |s|
  {
    if |s| == 0 {
    } else {
      assert !OccursAt(s, target, 0);
      assert !StartsWith(s, target);
      forall i: nat ensures !OccursAt(s[1..], target, i) {
        assert !OccursAt(s, target, i + 1);
        if i + |target| <= |s| - 1 {
          assert s[1..][i..i + |target|] == s[i + 1..i + 1 + |target|];
        }
      }
      ReplaceAbsent(s[1..], target, rep);
      assert s == [s[0]] + s[1..];
    }
  }

  /** Splitting on one character: every piece, including empty ones. */
  function SplitAll(s: string, sep: char): seq<string>
    ensures |SplitAll(s, sep)| > 0
  {
    SplitOn(s, [sep])
  }

  function DropTrailingEmpty(parts: seq<string>): (r: seq<string>)
    ensures |r| <= |parts| && r == parts[..|r|]
    ensures |r| > 0 ==> r[|r| - 1] != []
    ensures forall i :: |r| <= i < |parts| ==> parts[i] == []
  {
    if |parts| == 0 then []
    else if parts[|parts| - 1] == [] then DropTrailingEmpty(parts[..|parts| - 1])
    else parts
  }

  /** `s.split(sep)` for a separator that is not a regular-expression
      metacharacter: trailing empty pieces are removed, and a string without
      any match (the empty string included) yields itself alone. */
  function JavaSplit(s: string, sep: char): seq<string>
  {
    if |s| == 0 then [s] else DropTrailingEmpty(SplitAll(s, sep))
  }

  /** The pieces that are not blank, in order — what every caller of
      `JavaSplit` keeps. */
  function NonBlank(parts: seq<string>): (r: seq<string>)
    ensures forall i :: 0 <= i < |r| ==> !IsBlank(r[i])
    ensures forall p :: p in r <==> p in parts && !IsBlank(p)
  {
    if |parts| == 0 then []
    else if IsBlank(parts[0]) then NonBlank(parts[1..])
    else [parts[0]] + NonBlank(parts[1..])
  }

  /** Java's removal of trailing empty pieces is invisible once blank pieces
      are dropped. */
  lemma NonBlankJavaSplit(s: string, sep: char)
    ensures NonBlank(JavaSplit(s, sep)) == NonBlank(SplitAll(s, sep))
  {
    if |s| == 0 {
    } else {
      NonBlankDropTrailing(SplitAll(s, sep));
    }
  }

  lemma {:induction false} NonBlankDropTrailing(parts: seq<string>)
    ensures NonBlank(DropTrailingEmpty(parts)) == NonBlank(parts)
    decreases |parts|
  {
    if |parts| == 0 {
    } else if parts[|parts| - 1] == [] {
      NonBlankDropTrailing(parts[..|parts| - 1]);
      NonBlankAppendBlank(parts[..|parts| - 1], []);
      assert parts == parts[..|parts| - 1] + [[]];
    }
  }

  lemma {:induction false} NonBlankAppendBlank(parts: seq<string>, b: string)
    requires IsBlank(b)
    ensures NonBlank(parts + [b]) == NonBlank(parts)
    decreases |parts|
  {
    if |parts| == 0 {
    } else {
      assert (parts + [b])[1..] == parts[1..] + [b];
      NonBlankAppendBlank(parts[1..], b);
    }
  }
}

=== FILE: login_gate.dfy ===
/** The Paper `PunishmentListener`: who may log in, what happens on join,
    and how chat and commands are gated by checks and mutes. Each handler
    runs its engine lookups in order; a lookup whose future fails aborts the
    handler (a `None` result). */
module LoginGate {
  import opened Wrappers
  import opened JavaText
  import opened Model
  import opened PunishmentRules
  import opened IpHashing
  import opened Snapshot
  import opened Repository
  import opened Engine
  import opened Checks

  // ---------------------------------------------------------------------------
  // The blocking record

  /** `cs[i]` is the earliest record that keeps the player out. */
  predicate IsFirstBlocking(cs: seq<Punishment>, i: int) {
    0 <= i < |cs| && BlocksLogin(cs[i].kind) && forall j :: 0 <= j < i ==> !BlocksLogin(cs[j].kind)
  }

  /** The stream filter on BAN, TEMPBAN, IPBAN and WARN, then `findFirst`. */
  function FirstBlocking(cs: seq<Punishment>): (r: Option<Punishment>)
    ensures r.Some? ==> exists i :: IsFirstBlocking(cs, i) && cs[i] == r.value
    ensures r.None? <==> forall q :: q in cs ==> !BlocksLogin(q.kind)
  {
    if |cs| == 0 then None
    else if cs[0].kind == BAN || cs[0].kind == TEMPBAN || cs[0].kind == IPBAN || cs[0].kind == WARN then
      assert IsFirstBlocking(cs, 0);
      Some(cs[0])
    else
      var r := FirstBlocking(cs[1..]);
      assert forall q :: q in cs <==> q == cs[0] || q in cs[1..];
      if r.Some? then
        var i :| IsFirstBlocking(cs[1..], i) && cs[1..][i] == r.value;
        assert IsFirstBlocking(cs, i + 1);
        r
      else r
  }

  /** The search runs through the first list before the second. */
  lemma {:induction false} FirstBlockingAppend(a: seq<Punishment>, b: seq<Punishment>)
    ensures FirstBlocking(a + b) == if FirstBlocking(a).Some? then FirstBlocking(a) else FirstBlocking(b)
    decreases |a|
  {
    if |a| == 0 {
      assert a + b == b;
    } else {
      assert (a + b)[0] == a[0] && (a + b)[1..] == a[1..] + b;
      FirstBlockingAppend(a[1..], b);
    }
  }

  // ---------------------------------------------------------------------------
  // Pre-login

  /** The records in force for a connection, as the pre-login lookups list
      them: the player's own, then the address's, then its hash's. */
  function ConnectionInForce(rows: seq<Punishment>, uuid: Uuid, ip: Option<string>, sha256: string -> Digest,
                             now: Instant, isExpired: (Punishment, Instant) -> bool): seq<Punishment> {
    InForce(rows, ByUuid(uuid), now, isExpired) + AddressInForce(rows, ip, sha256, now, isExpired)
  }

  /** A row keeps the connection out when it is in force and matches the
      player, the address or its hash. */
  predicate Concerns(q: Punishment, uuid: Uuid, ip: Option<string>, sha256: string -> Digest) {
    || Matches(ByUuid(uuid), q)
    || (!IsNullOrBlank(ip) && (Matches(ByIp(ip), q) || Matches(ByIpHash(Hash(ip, sha256)), q)))
  }

  /** Every row in force that concerns the connection is listed. */
  lemma ConnectionListsAll(rows: seq<Punishment>, uuid: Uuid, ip: Option<string>, sha256: string -> Digest,
                           now: Instant, isExpired: (Punishment, Instant) -> bool, q: Punishment)
    requires q in rows && !isExpired(q, now) && Concerns(q, uuid, ip, sha256)
    ensures q in ConnectionInForce(rows, uuid, ip, sha256, now, isExpired)
  {
    if !Matches(ByUuid(uuid), q) {
      if Matches(ByIp(ip), q) {
        assert q in InForce(rows, ByIp(ip), now, isExpired);
      } else {
        assert q in InForce(rows, ByIpHash(Hash(ip, sha256)), now, isExpired);
      }
    }
  }

  /** Every row in force that concerns the connection is in `cs`, and every
      member of `cs` is such a row. */
  ghost predicate ConcernedListed(rows: seq<Punishment>, uuid: Uuid, ip: Option<string>, sha256: string -> Digest,
                                  now: Instant, isExpired: (Punishment, Instant) -> bool, cs: seq<Punishment>) {
    forall q :: q in rows && !isExpired(q, now) && Concerns(q, uuid, ip, sha256) <==> q in cs
  }

  /** The listed records are exactly the rows in force that concern the
      connection. */
  lemma ConnectionListsExactly(rows: seq<Punishment>, uuid: Uuid, ip: Option<string>, sha256: string -> Digest,
                               now: Instant, isExpired: (Punishment, Instant) -> bool)
    ensures ConcernedListed(rows, uuid, ip, sha256, now, isExpired, ConnectionInForce(rows, uuid, ip, sha256, now, isExpired))
  {
    forall q | q in rows && !isExpired(q, now) && Concerns(q, uuid, ip, sha256)
      ensures q in ConnectionInForce(rows, uuid, ip, sha256, now, isExpired)
    {
      ConnectionListsAll(rows, uuid, ip, sha256, now, isExpired, q);
    }
  }

  /** `onJoin`'s rule read on the rows themselves: kick exactly when a row in
      force concerning the connection blocks, showing the first blocking one
      of the player's, the address's and the hash's records; otherwise start
      the check of the first CHECK record; do nothing only when no concerned
      row blocks or is a check. */
  ghost predicate JoinRule(rows: seq<Punishment>, uuid: Uuid, ip: Option<string>, sha256: string -> Digest,
                           now: Instant, isExpired: (Punishment, Instant) -> bool, a: JoinAction) {
    var cs := ConnectionInForce(rows, uuid, ip, sha256, now, isExpired);
    && (a.KickFor? <==> exists q :: q in rows && !isExpired(q, now) && Concerns(q, uuid, ip, sha256) && BlocksLogin(q.kind))
    && (a.KickFor? ==> Some(a.record) == FirstBlocking(cs))
    && (a.BeginCheck? ==> exists i :: IsFirstOfKind(cs, CHECK, i) && cs[i].endTime == a.endTime)
    && (a.NoAction? <==> forall q :: q in rows && !isExpired(q, now) && Concerns(q, uuid, ip, sha256) ==>
          !BlocksLogin(q.kind) && q.kind != CHECK)
  }

  /** The join decision on the connection's records follows `JoinRule`. */
  lemma JoinRuleHolds(rows: seq<Punishment>, uuid: Uuid, ip: Option<string>, sha256: string -> Digest,
                      now: Instant, isExpired: (Punishment, Instant) -> bool)
    ensures JoinRule(rows, uuid, ip, sha256, now, isExpired, JoinDecision(ConnectionInForce(rows, uuid, ip, sha256, now, isExpired)))
  {
    ConnectionListsExactly(rows, uuid, ip, sha256, now, isExpired);
  }

  /** The player's own records in force, then those of the address and of its
      hash (the address lookups only for a non-blank address). */
  datatype Lookup = Lookup(svc: Service, candidates: Option<seq<Punishment>>, ownCount: nat)

  function LookupConnection(svc: Service, uuid: Uuid, ip: Option<string>, sha256: string -> Digest,
                            now: Instant, isExpired: (Punishment, Instant) -> bool): (r: Lookup)
    ensures IsNullOrBlank(ip) ==> r.svc == GetActiveByUuid(svc, uuid, now, isExpired).svc
    ensures r.candidates.Some? ==> forall q :: q in r.candidates.value ==>
      && q in svc.store.rows && q.active && !isExpired(q, now)
      && (q.uuid == uuid || (!IsNullOrBlank(ip) && (q.ip == ip || q.ipHash == Hash(ip, sha256))))
    ensures r.candidates.Some? ==> r.ownCount <= |r.candidates.value|
    ensures r.candidates.Some? ==> forall q :: q in r.candidates.value[..r.ownCount] <==>
      q in svc.store.rows && q.active && q.uuid == uuid && !isExpired(q, now)
    ensures r.candidates.Some? && Valid(svc.store) ==>
      r.candidates.value == ConnectionInForce(svc.store.rows, uuid, ip, sha256, now, isExpired)
    ensures r.svc.tracked == svc.tracked && r.svc.listeners == svc.listeners
    ensures Valid(svc.store) ==> Valid(r.svc.store)
  {
    var own := GetActiveByUuid(svc, uuid, now, isExpired);
    if own.value.None? then Lookup(own.svc, None, 0)
    else
      var addr := ForAddress(own.svc, ip, sha256, now, isExpired);
      if addr.value.None? then Lookup(addr.svc, None, 0)
      else
        var a := own.value.value.All();
        var cs := a + addr.value.value;
        assert forall q :: q in cs ==> q in svc.store.rows by {
          forall q | q in cs ensures q in svc.store.rows {
            if q !in a {
              ActiveSurvivor(svc.store.rows, own.svc.store.rows, q);
            }
          }
        }
        assert cs[..|a|] == a;
        assert Valid(svc.store) ==> addr.value.value == AddressInForce(svc.store.rows, ip, sha256, now, isExpired) by {
          if Valid(svc.store) {
            AddressSameInForce(svc.store.rows, own.svc.store.rows, ip, sha256, now, isExpired);
          }
        }
        Lookup(addr.svc, Some(cs), |a|)
  }

  /** `onPreLogin`: `Some(Some(p))` refuses the login showing `p`,
      `Some(None)` lets the player in. */
  function PreLogin(svc: Service, uuid: Uuid, ip: Option<string>, sha256: string -> Digest,
                    now: Instant, isExpired: (Punishment, Instant) -> bool): (r: Outcome<Option<Punishment>>)
    ensures IsNullOrBlank(ip) ==> r.svc == GetActiveByUuid(svc, uuid, now, isExpired).svc
    ensures r.value.Some? && r.value.value.Some? ==> var p := r.value.value.value;
      && BlocksLogin(p.kind) && p in svc.store.rows && p.active && !isExpired(p, now)
      && (p.uuid == uuid || (!IsNullOrBlank(ip) && (p.ip == ip || p.ipHash == Hash(ip, sha256))))
    ensures r.value == Some(None) ==>
      forall q :: q in svc.store.rows && q.active && q.uuid == uuid && !isExpired(q, now) ==> !BlocksLogin(q.kind)
    ensures r.value.Some? && r.value.value.Some? ==>
      (exists q :: q in svc.store.rows && q.active && q.uuid == uuid && !isExpired(q, now) && BlocksLogin(q.kind)) ==>
        r.value.value.value.uuid == uuid
    ensures r.value.Some? && Valid(svc.store) ==>
      r.value.value == FirstBlocking(ConnectionInForce(svc.store.rows, uuid, ip, sha256, now, isExpired))
    ensures r.value == Some(None) && Valid(svc.store) ==>
      forall q :: q in svc.store.rows && !isExpired(q, now) && Concerns(q, uuid, ip, sha256) ==> !BlocksLogin(q.kind)
    ensures r.events == [] && r.svc.tracked == svc.tracked && r.svc.listeners == svc.listeners
  {
    var l := LookupConnection(svc, uuid, ip, sha256, now, isExpired);
    if l.candidates.None? then Outcome(l.svc, [], None)
    else
      var cs := l.candidates.value;
      assert FirstBlocking(cs).None? && Valid(svc.store) ==>
        forall q :: q in svc.store.rows && !isExpired(q, now) && Concerns(q, uuid, ip, sha256) ==> !BlocksLogin(q.kind) by {
        if FirstBlocking(cs).None? && Valid(svc.store) {
          forall q | q in svc.store.rows && !isExpired(q, now) && Concerns(q, uuid, ip, sha256) ensures !BlocksLogin(q.kind) {
            ConnectionListsAll(svc.store.rows, uuid, ip, sha256, now, isExpired, q);
          }
        }
      }
      assert cs == cs[..l.ownCount] + cs[l.ownCount..];
      FirstBlockingAppend(cs[..l.ownCount], cs[l.ownCount..]);
      Outcome(l.svc, [], Some(FirstBlocking(cs)))
  }

  // ---------------------------------------------------------------------------
  // Join

  /** What `onJoin` does once the lookups are in: kick for the first blocking
      record, otherwise start a check for the first CHECK record. */
  datatype JoinAction = KickFor(record: Punishment) | BeginCheck(endTime: Option<Instant>) | NoAction

  function JoinDecision(cs: seq<Punishment>): (r: JoinAction)
    ensures r.KickFor? <==> exists q :: q in cs && BlocksLogin(q.kind)
    ensures r.KickFor? ==> Some(r.record) == FirstBlocking(cs)
    ensures r.BeginCheck? ==> exists q :: q in cs && q.kind == CHECK && q.endTime == r.endTime
    ensures r.BeginCheck? <==> (forall q :: q in cs ==> !BlocksLogin(q.kind)) && exists q :: q in cs && q.kind == CHECK
    ensures r.BeginCheck? ==> exists i :: IsFirstOfKind(cs, CHECK, i) && cs[i].endTime == r.endTime
    ensures r.NoAction? <==> forall q :: q in cs ==> !BlocksLogin(q.kind) && q.kind != CHECK
  {
    match FirstBlocking(cs)
    case Some(p) => KickFor(p)
    case None =>
      match FirstOfKind(cs, CHECK)
      case Some(c) => BeginCheck(c.endTime)
      case None => NoAction
  }

  datatype Joined = Joined(svc: Service, sessions: Sessions, action: Option<JoinAction>)

  /** `onJoin`: track the player, look up the same records as at pre-login,
      then kick or start a check. */
  function Join(svc: Service, sessions: Sessions, online: set<Uuid>, uuid: Uuid, ip: Option<string>,
                sha256: string -> Digest, now: Instant, isExpired: (Punishment, Instant) -> bool): (r: Joined)
    ensures r.svc.tracked == Track(svc, Some(uuid), ip).tracked && r.svc.listeners == svc.listeners
    ensures r.action.Some? && r.action.value.BeginCheck? ==>
      r.sessions == StartCheck(sessions, online, uuid, r.action.value.endTime, now)
    ensures r.action.None? || !r.action.value.BeginCheck? ==> r.sessions == sessions
    ensures r.action.Some? && r.action.value.BeginCheck? ==>
      forall q :: q in svc.store.rows && q.active && q.uuid == uuid && !isExpired(q, now) ==> !BlocksLogin(q.kind)
    ensures r.action.Some? && r.action.value.KickFor? ==> var p := r.action.value.record;
      && BlocksLogin(p.kind) && p in svc.store.rows && p.active && !isExpired(p, now)
    ensures r.action.Some? && Valid(svc.store) ==>
      && r.action.value == JoinDecision(ConnectionInForce(svc.store.rows, uuid, ip, sha256, now, isExpired))
      && JoinRule(svc.store.rows, uuid, ip, sha256, now, isExpired, r.action.value)
  {
    var tracked := Track(svc, Some(uuid), ip);
    var l := LookupConnection(tracked, uuid, ip, sha256, now, isExpired);
    if l.candidates.None? then Joined(l.svc, sessions, None)
    else
      var cs := l.candidates.value;
      var action := JoinDecision(cs);
      assert forall q :: q in cs[..l.ownCount] ==> q in cs;
      assert Valid(svc.store) ==> JoinRule(svc.store.rows, uuid, ip, sha256, now, isExpired, action) by {
        if Valid(svc.store) {
          JoinRuleHolds(svc.store.rows, uuid, ip, sha256, now, isExpired);
        }
      }
      match action
      case BeginCheck(end) => Joined(l.svc, StartCheck(sessions, online, uuid, end, now), Some(action))
      case _ => Joined(l.svc, sessions, Some(action))
  }

  /** On the same store, the join kicks exactly the player the pre-login
      check would have refused, for the same record. */
  lemma JoinKicksWhomPreLoginRefuses(svc: Service, sessions: Sessions, online: set<Uuid>, uuid: Uuid, ip: Option<string>,
                                     sha256: string -> Digest, now: Instant, isExpired: (Punishment, Instant) -> bool)
    requires Valid(svc.store)
    ensures var pre := PreLogin(svc, uuid, ip, sha256, now, isExpired);
            var j := Join(svc, sessions, online, uuid, ip, sha256, now, isExpired);
            pre.value.Some? && j.action.Some? ==>
              && (j.action.value.KickFor? <==> pre.value.value.Some?)
              && (j.action.value.KickFor? ==> pre.value.value == Some(j.action.value.record))
  {
  }

  // ---------------------------------------------------------------------------
  // Chat, commands, quit

  /** `^\d{6,19}$` with Java's default `\d`, the ASCII digits. */
  predicate IsAnyDeskCode(s: string) {
    6 <= |s| <= 19 && forall i :: 0 <= i < |s| ==> IsAsciiDigit(s[i])
  }

  /** A snapshot has a record of kind `t` exactly when `get(t)` finds one. */
  lemma GetFindsKind(a: ActivePunishment, t: PunishmentType)
    ensures a.Get(t).Some? <==> exists q :: q in a.All() && q.kind == t
  {
    if exists q :: q in a.All() && q.kind == t {
      var q :| q in a.All() && q.kind == t;
      var i :| 0 <= i < |a.records| && a.records[i] == q;
    }
  }

  /** A snapshot holding exactly the player's records in force has a record
      of kind `t` exactly when the store has one in force. */
  lemma SnapshotKind(svc: Service, uuid: Uuid, now: Instant, isExpired: (Punishment, Instant) -> bool,
                     a: ActivePunishment, t: PunishmentType)
    requires forall p :: p in a.All() <==> p in svc.store.rows && p.active && p.uuid == uuid && !isExpired(p, now)
    ensures (exists q :: q in a.All() && q.kind == t) <==>
      exists q :: q in svc.store.rows && q.active && q.uuid == uuid && !isExpired(q, now) && q.kind == t
  {
  }

  /** The mute test shared by chat and commands: the player's snapshot, then
      its first MUTE. */
  function MuteInForce(svc: Service, uuid: Uuid, now: Instant, isExpired: (Punishment, Instant) -> bool): (r: Outcome<bool>)
    ensures r.value.Some? ==>
      (r.value.value <==> exists q :: q in svc.store.rows && q.active && q.uuid == uuid && !isExpired(q, now) && q.kind == MUTE)
    ensures svc.store.online && (forall p :: p in svc.store.rows && p.uuid == uuid && p.active ==> !isExpired(p, now)) ==>
      r.value.Some?
    ensures r.events == [] && r.svc.tracked == svc.tracked && r.svc.listeners == svc.listeners
  {
    var o := GetActiveByUuid(svc, uuid, now, isExpired);
    if o.value.None? then Outcome(o.svc, [], None)
    else
      var a := o.value.value;
      GetFindsKind(a, MUTE);
      SnapshotKind(svc, uuid, now, isExpired, a, MUTE);
      Outcome(o.svc, [], Some(a.Get(MUTE).Some?))
  }

  /** `cancelled` is `None` when the lookup failed and the handler aborted
      before deciding. */
  datatype Chatted = Chatted(svc: Service, sessions: Sessions, cancelled: Option<bool>, anyDesk: Option<string>)

  /** `onChat`: a player under check never chats; a trimmed AnyDesk code
      pauses the check and is passed to the staff. Otherwise the message is
      held back exactly when the player has a mute in force. */
  function Chat(svc: Service, sessions: Sessions, uuid: Uuid, text: string,
                now: Instant, isExpired: (Punishment, Instant) -> bool): (r: Chatted)
    ensures IsInCheck(sessions, uuid) ==> r.cancelled == Some(true) && r.svc == svc
    ensures IsInCheck(sessions, uuid) && IsAnyDeskCode(Trim(text)) ==>
      r.sessions == SetPausedFor(sessions, uuid, true) && r.anyDesk == Some(Trim(text))
    ensures IsInCheck(sessions, uuid) && !IsAnyDeskCode(Trim(text)) ==> r.sessions == sessions && r.anyDesk.None?
    ensures !IsInCheck(sessions, uuid) ==> r.sessions == sessions && r.anyDesk.None?
    ensures !IsInCheck(sessions, uuid) && r.cancelled.Some? ==>
      (r.cancelled.value <==> exists q :: q in svc.store.rows && q.active && q.uuid == uuid && !isExpired(q, now) && q.kind == MUTE)
    ensures !IsInCheck(sessions, uuid) ==> r.cancelled == MuteInForce(svc, uuid, now, isExpired).value
    ensures r.svc.tracked == svc.tracked && r.svc.listeners == svc.listeners
  {
    if IsInCheck(sessions, uuid) then
      var code := Trim(text);
      if IsAnyDeskCode(code) then Chatted(svc, SetPausedFor(sessions, uuid, true), Some(true), Some(code))
      else Chatted(svc, sessions, Some(true), None)
    else
      var m := MuteInForce(svc, uuid, now, isExpired);
      Chatted(m.svc, sessions, m.value, None)
  }

  /** `onCommand`: without `muteBlockCommands` nothing is looked up or
      blocked; with it, a command is blocked exactly when a mute is in
      force. */
  function Command(svc: Service, uuid: Uuid, muteBlockCommands: bool,
                   now: Instant, isExpired: (Punishment, Instant) -> bool): (r: Outcome<bool>)
    ensures !muteBlockCommands ==> r == Outcome(svc, [], Some(false))
    ensures muteBlockCommands ==> r == MuteInForce(svc, uuid, now, isExpired)
  {
    if !muteBlockCommands then Outcome(svc, [], Some(false)) else MuteInForce(svc, uuid, now, isExpired)
  }

  /** `onQuit`: the check ends and the player is no longer tracked or
      cached; the store and the listeners are untouched. */
  function Quit(svc: Service, sessions: Sessions, uuid: Uuid): (r: (Service, Sessions))
    ensures !IsInCheck(r.1, uuid)
    ensures uuid !in r.0.tracked && uuid !in r.0.cache
    ensures r.0.store == svc.store && r.0.listeners == svc.listeners
    ensures forall u :: u != uuid ==> (u in r.1 <==> u in sessions) && (u in r.0.tracked <==> u in svc.tracked)
  {
    (Untrack(svc, Some(uuid)), StopCheck(sessions, uuid))
  }

  /** Joining and then quitting leaves no check running for the player and
      stops tracking it, whatever the lookups found. */
  lemma JoinThenQuit(svc: Service, sessions: Sessions, online: set<Uuid>, uuid: Uuid, ip: Option<string>,
                     sha256: string -> Digest, now: Instant, isExpired: (Punishment, Instant) -> bool)
    ensures var j := Join(svc, sessions, online, uuid, ip, sha256, now, isExpired);
      var q := Quit(j.svc, j.sessions, uuid);
      !IsInCheck(q.1, uuid) && uuid !in q.0.tracked
      && (forall u :: u != uuid ==> (u in q.0.tracked <==> u in svc.tracked))
  {
  }
}

=== FILE: merge.dfy ===
/** The de-duplication at the end of `getActiveForConnection`: a
    `LinkedHashMap` keyed by internal id, filled with `put` from the
    by-player list and then with `putIfAbsent` from the by-address list.
    A linked map is a sequence of entries with distinct keys, in first
    insertion order. */
module ConnectionMerge {
  import opened Model
  import opened Repository

  /** Where the entry with key `id` sits. */
  function IndexOfId(m: seq<Punishment>, id: string): (k: nat)
    requires id in RowIds(m)
    ensures k < |m| && m[k].internalId == id
    ensures forall j :: 0 <= j < k ==> m[j].internalId != id
  {
    if m[0].internalId == id then 0
    else
      RowIdsCons(m[0], m[1..]);
      assert m == [m[0]] + m[1..];
      var k := IndexOfId(m[1..], id);
      assert forall j :: 1 <= j <= k ==> m[j] == m[1..][j - 1];
      k + 1
  }

  /** `LinkedHashMap.put`: a new key goes to the end; an existing key keeps
      its place and takes the new value. */
  function Put(m: seq<Punishment>, p: Punishment): (r: seq<Punishment>)
    ensures RowIds(r) == RowIds(m) + {p.internalId}
    ensures UniqueIds(m) ==> UniqueIds(r)
    ensures p in r
    ensures forall q :: q in r ==> q in m || q == p
    ensures p.internalId !in RowIds(m) ==> r == m + [p]
    ensures |r| == if p.internalId in RowIds(m) then |m| else |m| + 1
    ensures forall k :: 0 <= k < |m| && m[k].internalId != p.internalId ==> r[k] == m[k]
  {
    if p.internalId !in RowIds(m) then
      RowIdsAppend(m, p);
      FreshAppendUnique(m, p);
      m + [p]
    else
      var k := IndexOfId(m, p.internalId);
      ReplaceSameId(m, k, p);
      assert m[k := p][k] == p;
      m[k := p]
  }

  lemma FreshAppendUnique(m: seq<Punishment>, p: Punishment)
    requires p.internalId !in RowIds(m)
    ensures UniqueIds(m) ==> UniqueIds(m + [p])
  {
    forall k | 0 <= k < |m| ensures m[k].internalId != p.internalId {
      assert m[k].internalId in RowIds(m);
    }
  }

  /** Replacing an entry by one with the same key keeps the key set. */
  lemma ReplaceSameId(m: seq<Punishment>, k: nat, p: Punishment)
    requires k < |m| && m[k].internalId == p.internalId
    ensures RowIds(m[k := p]) == RowIds(m)
    ensures UniqueIds(m) ==> UniqueIds(m[k := p])
    ensures forall q :: q in m[k := p] ==> q in m || q == p
  {
    var r := m[k := p];
    forall x | x in RowIds(r) ensures x in RowIds(m) {
      var i :| 0 <= i < |r| && r[i].internalId == x;
      assert m[i].internalId == x;
    }
    forall x | x in RowIds(m) ensures x in RowIds(r) {
      var i :| 0 <= i < |m| && m[i].internalId == x;
      assert r[i].internalId == x;
    }
  }

  /** `LinkedHashMap.putIfAbsent`: an existing key is left alone. */
  function PutIfAbsent(m: seq<Punishment>, p: Punishment): (r: seq<Punishment>)
    ensures RowIds(r) == RowIds(m) + {p.internalId}
    ensures UniqueIds(m) ==> UniqueIds(r)
    ensures r == if p.internalId in RowIds(m) then m else m + [p]
  {
    if p.internalId in RowIds(m) then m
    else
      RowIdsAppend(m, p);
      FreshAppendUnique(m, p);
      m + [p]
  }

  /** `put` for every element, in order. */
  function PutAll(m: seq<Punishment>, ps: seq<Punishment>): (r: seq<Punishment>)
    ensures RowIds(r) == RowIds(m) + RowIds(ps)
    ensures UniqueIds(m) ==> UniqueIds(r)
    ensures forall q :: q in r ==> q in m || q in ps
    decreases |ps|
  {
    if |ps| == 0 then m
    else
      RowIdsCons(ps[0], ps[1..]);
      assert ps == [ps[0]] + ps[1..];
      PutAll(Put(m, ps[0]), ps[1..])
  }

  /** `putIfAbsent` for every element, in order. */
  function PutIfAbsentAll(m: seq<Punishment>, ps: seq<Punishment>): (r: seq<Punishment>)
    ensures RowIds(r) == RowIds(m) + RowIds(ps)
    ensures UniqueIds(m) ==> UniqueIds(r)
    ensures |m| <= |r| && r[..|m|] == m
    ensures forall k :: |m| <= k < |r| ==> r[k] in ps && r[k].internalId !in RowIds(m)
    decreases |ps|
  {
    if |ps| == 0 then m
    else
      RowIdsCons(ps[0], ps[1..]);
      assert ps == [ps[0]] + ps[1..];
      var m1 := PutIfAbsent(m, ps[0]);
      var r := PutIfAbsentAll(m1, ps[1..]);
      PutIfAbsentExtends(m, ps[0], ps[1..], r);
      r
  }

  /** What one `putIfAbsent` step adds, followed by what the later steps
      add, is still an extension of the original map by new keys. */
  lemma PutIfAbsentExtends(m: seq<Punishment>, p: Punishment, rest: seq<Punishment>, r: seq<Punishment>)
    requires var m1 := PutIfAbsent(m, p);
      && |m1| <= |r| && r[..|m1|] == m1
      && forall k :: |m1| <= k < |r| ==> r[k] in rest && r[k].internalId !in RowIds(m1)
    ensures |m| <= |r| && r[..|m|] == m
    ensures forall k :: |m| <= k < |r| ==> r[k] in [p] + rest && r[k].internalId !in RowIds(m)
  {
    var m1 := PutIfAbsent(m, p);
    assert r[..|m|] == m by {
      assert r[..|m1|][..|m|] == m1[..|m|];
    }
    forall k | |m| <= k < |r| ensures r[k] in [p] + rest && r[k].internalId !in RowIds(m) {
      if k < |m1| {
        assert m1 == m + [p] && r[k] == m1[k];
      } else {
        assert r[k] in rest;
      }
    }
  }

  /** The merged list of `getActiveForConnection`. */
  function Merge(byUuid: seq<Punishment>, byIp: seq<Punishment>): (r: seq<Punishment>)
    ensures UniqueIds(r)
    ensures RowIds(r) == RowIds(byUuid) + RowIds(byIp)
    ensures forall q :: q in r ==> q in byUuid || (q in byIp && q.internalId !in RowIds(byUuid))
  {
    var m := PutAll([], byUuid);
    assert RowIds([]) == {};
    var r := PutIfAbsentAll(m, byIp);
    PrefixThenFresh(m, byUuid, byIp, r);
    r
  }

  /** Whatever lies in the prefix came from `byUuid`, the rest from `byIp`
      under a fresh id. */
  lemma PrefixThenFresh(m: seq<Punishment>, byUuid: seq<Punishment>, byIp: seq<Punishment>, r: seq<Punishment>)
    requires forall q :: q in m ==> q in byUuid
    requires RowIds(m) == RowIds(byUuid)
    requires |m| <= |r| && r[..|m|] == m
    requires forall k :: |m| <= k < |r| ==> r[k] in byIp && r[k].internalId !in RowIds(m)
    ensures forall q :: q in r ==> q in byUuid || (q in byIp && q.internalId !in RowIds(byUuid))
  {
    forall q | q in r ensures q in byUuid || (q in byIp && q.internalId !in RowIds(byUuid)) {
      var k :| 0 <= k < |r| && r[k] == q;
      if k < |m| {
        assert r[..|m|][k] == m[k];
      }
    }
  }

  /** When the by-player list has no repeated ids (as the store guarantees),
      it comes through whole and first; the address matches follow. */
  lemma MergeKeepsPlayerList(byUuid: seq<Punishment>, byIp: seq<Punishment>)
    requires UniqueIds(byUuid)
    ensures |byUuid| <= |Merge(byUuid, byIp)| && Merge(byUuid, byIp)[..|byUuid|] == byUuid
  {
    PutAllFresh([], byUuid);
    assert [] + byUuid == byUuid;
  }

  /** `put` into a map that does not hold any of the keys appends. */
  lemma {:induction false} PutAllFresh(m: seq<Punishment>, ps: seq<Punishment>)
    requires UniqueIds(m + ps)
    ensures PutAll(m, ps) == m + ps
    decreases |ps|
  {
    if |ps| > 0 {
      FreshHead(m, ps);
      assert m + ps == (m + [ps[0]]) + ps[1..];
      PutAllFresh(m + [ps[0]], ps[1..]);
    }
  }

  lemma FreshHead(m: seq<Punishment>, ps: seq<Punishment>)
    requires UniqueIds(m + ps) && |ps| > 0
    ensures ps[0].internalId !in RowIds(m)
  {
    forall k | 0 <= k < |m| ensures m[k].internalId != ps[0].internalId {
      assert (m + ps)[k] == m[k] && (m + ps)[|m|] == ps[0];
    }
  }

  /** Every by-player record is in the merged list; so is every by-address
      record whose id no by-player record has, when the by-address list has
      no repeated ids. */
  lemma MergeMembership(byUuid: seq<Punishment>, byIp: seq<Punishment>, q: Punishment)
    requires UniqueIds(byUuid)
    ensures q in byUuid ==> q in Merge(byUuid, byIp)
    ensures UniqueIds(byIp) && q in byIp && q.internalId !in RowIds(byUuid) ==> q in Merge(byUuid, byIp)
  {
    if q in byUuid {
      PlayerRecordMerged(byUuid, byIp, q);
    }
    if UniqueIds(byIp) && q in byIp && q.internalId !in RowIds(byUuid) {
      AddressRecordMerged(byUuid, byIp, q);
    }
  }

  lemma PlayerRecordMerged(byUuid: seq<Punishment>, byIp: seq<Punishment>, q: Punishment)
    requires UniqueIds(byUuid) && q in byUuid
    ensures q in Merge(byUuid, byIp)
  {
    var r := Merge(byUuid, byIp);
    MergeKeepsPlayerList(byUuid, byIp);
    var k :| 0 <= k < |byUuid| && byUuid[k] == q;
    assert r[..|byUuid|][k] == q;
  }

  lemma AddressRecordMerged(byUuid: seq<Punishment>, byIp: seq<Punishment>, q: Punishment)
    requires UniqueIds(byUuid) && UniqueIds(byIp)
    requires q in byIp && q.internalId !in RowIds(byUuid)
    ensures q in Merge(byUuid, byIp)
  {
    var r := Merge(byUuid, byIp);
    MergeKeepsPlayerList(byUuid, byIp);
    assert q.internalId in RowIds(r) by {
      var k :| 0 <= k < |byIp| && byIp[k] == q;
    }
    var k :| 0 <= k < |r| && r[k].internalId == q.internalId;
    assert r[k] in byIp;
    var j :| 0 <= j < |byIp| && byIp[j] == r[k];
    var i :| 0 <= i < |byIp| && byIp[i] == q;
    assert i == j;
  }
}

=== FILE: messages.dfy ===
/** `MessageService` and the "ID line" both Paper classes append to
    notices: placeholders are replaced one entry after the other, and a
    notice whose template has no `%id%` gets the punishment id on a line of
    its own. */
module Messages {
  import opened Wrappers
  import opened JavaText

  /** One map entry handed to `applyPlaceholders`. The source builds the map
      with `Map.of`, whose iteration order Java leaves unspecified, so the
      order is an input here. */
  datatype Placeholder = Placeholder(key: string, value: string)

  /** The Paper message templates, one per notice. */
  datatype MessagesConfig = MessagesConfig(
    prefix: string,
    banMessage: string,
    muteMessage: string,
    warnMessage: string,
    checkMessage: string,
    kickMessage: string,
    checkBlockMessage: string,
    mutedChatMessage: string,
    permissionDenied: string)

  const ID_PLACEHOLDER: string := "%id%"
  const ID_LINE_OPEN: string := "\n<gray>ID наказания:</gray> <white>"
  const ID_LINE_CLOSE: string := "</white>"

  /** `applyPlaceholders`: each entry's `String.replace`, in entry order, each
      one working on the previous one's output. */
  function ApplyPlaceholders(template: string, entries: seq<Placeholder>): (r: string)
    ensures |entries| == 0 ==> r == template
    decreases |entries|
  {
    if |entries| == 0 then template
    else ApplyPlaceholders(Replace(template, entries[0].key, entries[0].value), entries[1..])
  }

  /** Applying two lists of entries one after the other is applying their
      concatenation: the entries act strictly in sequence. */
  lemma {:induction false} ApplyAppend(template: string, a: seq<Placeholder>, b: seq<Placeholder>)
    ensures ApplyPlaceholders(template, a + b) == ApplyPlaceholders(ApplyPlaceholders(template, a), b)
    decreases |a|
  {
    if |a| > 0 {
      assert (a + b)[1..] == a[1..] + b;
      ApplyAppend(Replace(template, a[0].key, a[0].value), a[1..], b);
    } else {
      assert a + b == b;
    }
  }

  /** A template that mentions none of the (non-empty) keys comes back
      unchanged, whatever the values. */
  lemma {:induction false} ApplyAbsentKeys(template: string, entries: seq<Placeholder>)
    requires forall i :: 0 <= i < |entries| ==> |entries[i].key| > 0
    requires forall i, k: nat :: 0 <= i < |entries| ==> !OccursAt(template, entries[i].key, k)
    ensures ApplyPlaceholders(template, entries) == template
    decreases |entries|
  {
    if |entries| > 0 {
      ReplaceAbsent(template, entries[0].key, entries[0].value);
      ApplyAbsentKeys(template, entries[1..]);
    }
  }

  /** Where the target occurs, its replacement shows up in the result. */
  lemma {:induction false} ReplaceShowsValue(s: string, target: string, rep: string, i: nat)
    requires |target| > 0 && OccursAt(s, target, i)
    ensures exists j: nat :: OccursAt(Replace(s, target, rep), rep, j)
    decreases |s|
  {
    if StartsWith(s, target) {
      assert OccursAt(Replace(s, target, rep), rep, 0);
    } else {
      assert i > 0;
      assert s[1..][i - 1..i - 1 + |target|] == s[i..i + |target|];
      ReplaceShowsValue(s[1..], target, rep, i - 1);
      var j: nat :| OccursAt(Replace(s[1..], target, rep), rep, j);
      assert Replace(s, target, rep) == [s[0]] + Replace(s[1..], target, rep);
      assert Replace(s, target, rep)[j + 1..j + 1 + |rep|] == Replace(s[1..], target, rep)[j..j + |rep|];
      assert OccursAt(Replace(s, target, rep), rep, j + 1);
    }
  }

  /** `ensureIdInMessage` / `withIdIfMissing`: the rendered text as is when the
      template (possibly null) asks for `%id%` itself, otherwise the rendered
      text followed by the id line. */
  function WithIdLine(template: Option<string>, rendered: string, id: string): (r: string)
    ensures template.Some? && Contains(template.value, ID_PLACEHOLDER) ==> r == rendered
    ensures template.None? || !Contains(template.value, ID_PLACEHOLDER) ==>
      |rendered| <= |r| && r[..|rendered|] == rendered && Contains(r, id)
  {
    if template.Some? && Contains(template.value, ID_PLACEHOLDER) then rendered
    else
      var r := rendered + ID_LINE_OPEN + id + ID_LINE_CLOSE;
      assert OccursAt(r, id, |rendered| + |ID_LINE_OPEN|);
      ContainsIff(r, id);
      r
  }

  /** A notice always shows the punishment id when `%id%` is replaced last and
      the template still held `%id%` at that point; otherwise the id line does
      it. */
  lemma NoticeShowsId(template: string, others: seq<Placeholder>, id: string)
    ensures var rendered := ApplyPlaceholders(template, others + [Placeholder(ID_PLACEHOLDER, id)]);
      Contains(ApplyPlaceholders(template, others), ID_PLACEHOLDER) || !Contains(template, ID_PLACEHOLDER) ==>
      Contains(WithIdLine(Some(template), rendered, id), id)
  {
    var before := ApplyPlaceholders(template, others);
    var rendered := ApplyPlaceholders(template, others + [Placeholder(ID_PLACEHOLDER, id)]);
    ApplyAppend(template, others, [Placeholder(ID_PLACEHOLDER, id)]);
    assert rendered == Replace(before, ID_PLACEHOLDER, id);
    if Contains(before, ID_PLACEHOLDER) {
      ContainsIff(before, ID_PLACEHOLDER);
      var i: nat :| OccursAt(before, ID_PLACEHOLDER, i);
      ReplaceShowsValue(before, ID_PLACEHOLDER, id, i);
      ContainsIff(rendered, id);
    }
  }

  /** `format`: the configured prefix goes in front of every message before
      it is deserialised. */
  function Format(prefix: string, message: string): (r: string)
    ensures |r| == |prefix| + |message|
    ensures StartsWith(r, prefix) && r[|prefix|..] == message
  {
    prefix + message
  }
}

=== FILE: model.dfy ===
/** The records of the punishment system: the punishment kinds, the current
    11-field punishment row used by the engine and the JDBC store, the
    history row, and the older 10-field record still used by the proxy side
    and the classic commands. */
module Model {
  import opened Wrappers

  /** Epoch milliseconds (`java.time.Instant` at millisecond precision). */
  type Instant = int
  /** A player identity, as the canonical text of its `java.util.UUID`. */
  type Uuid = string

  const MILLIS_PER_SECOND: int := 1000

  /** `Instant.plusSeconds`. */
  function PlusSeconds(t: Instant, seconds: int): (r: Instant)
    ensures seconds > 0 ==> r > t
    ensures seconds == 0 ==> r == t
  {
    t + seconds * MILLIS_PER_SECOND
  }

  datatype PunishmentType = BAN | TEMPBAN | IPBAN | MUTE | WARN | CHECK

  /** `PunishmentType.name()`. */
  function TypeName(t: PunishmentType): string {
    match t
    case BAN => "BAN"
    case TEMPBAN => "TEMPBAN"
    case IPBAN => "IPBAN"
    case MUTE => "MUTE"
    case WARN => "WARN"
    case CHECK => "CHECK"
  }

  /** `PunishmentType.valueOf`: exact, case-sensitive; `None` is the
      `IllegalArgumentException` for an unknown name. */
  function ParseType(s: string): (r: Option<PunishmentType>)
    ensures r.Some? ==> TypeName(r.value) == s
  {
    if s == "BAN" then Some(BAN)
    else if s == "TEMPBAN" then Some(TEMPBAN)
    else if s == "IPBAN" then Some(IPBAN)
    else if s == "MUTE" then Some(MUTE)
    else if s == "WARN" then Some(WARN)
    else if s == "CHECK" then Some(CHECK)
    else None
  }

  /** Every kind survives being written by name and read back with `valueOf`. */
  lemma ParseTypeName(t: PunishmentType)
    ensures ParseType(TypeName(t)) == Some(t)
  {
  }

  /** The current punishment row, field for field as the store reads it back;
      `kind` is the Java `type` component. A Java null is `None`. */
  datatype Punishment = Punishment(
    uuid: Uuid,
    ip: Option<string>,
    ipHash: Option<string>,
    kind: PunishmentType,
    reason: string,
    actor: string,
    startTime: Instant,
    endTime: Option<Instant>,
    active: bool,
    internalId: string,
    silent: bool)

  /** A row of the append-only history table. */
  datatype HistoryRecord = HistoryRecord(
    id: string,
    uuid: Uuid,
    ip: Option<string>,
    ipHash: Option<string>,
    kind: PunishmentType,
    reason: string,
    actor: string,
    startTime: Instant,
    endTime: Option<Instant>,
    internalId: string,
    action: string,
    actionTime: Instant)

  /** The older record: a duration in seconds instead of an end time, the type
      as free text, and a "no-reason-shown" flag. */
  datatype LegacyRecord = LegacyRecord(
    id: string,
    uuid: Uuid,
    typeName: string,
    reason: string,
    durationSeconds: int,
    issuedBy: string,
    issuedAt: Instant,
    ip: Option<string>,
    active: bool,
    nnr: bool)
  {
    predicate IsPermanent() {
      durationSeconds <= 0
    }

    /** The moment the record lapses; absent for a permanent record. */
    function ExpiresAt(): (r: Option<Instant>)
      ensures r.None? <==> IsPermanent()
      ensures r.Some? ==> r.value > issuedAt
    {
      if IsPermanent() then None else Some(PlusSeconds(issuedAt, durationSeconds))
    }
  }

  /** A non-permanent record lapses exactly its duration after it was issued. */
  lemma ExpiresAfterDuration(r: LegacyRecord)
    ensures r.IsPermanent() <==> r.durationSeconds <= 0
    ensures !r.IsPermanent() ==>
      r.ExpiresAt() == Some(r.issuedAt + r.durationSeconds * MILLIS_PER_SECOND)
  {
  }
}

=== FILE: notifications.dfy ===
/** The listener side of `PunishmentService`: who is told what, in which
    order, and what the poller reports when a player's active records change
    behind the cache. Listener calls are recorded as events instead of being
    made. */
module Notifications {
  import opened Model
  import opened Snapshot
  import opened Repository

  /** A registered listener, identified by its registration. */
  type ListenerId = nat

  /** One listener call: `onCreate` or `onRemove` with the event's record
      and reason. */
  datatype Event =
    | Created(listener: ListenerId, record: Punishment)
    | Removed(listener: ListenerId, record: Punishment, reason: string)

  /** The reason given to listeners when polling sees a record disappear. */
  const EXTERNAL_REMOVAL_REASON: string := "Снято системой"

  /** `notifyCreate`: one call per listener, in registration order. */
  function NotifyCreate(listeners: seq<ListenerId>, p: Punishment): (es: seq<Event>)
    ensures |es| == |listeners|
    ensures forall i :: 0 <= i < |listeners| ==> es[i] == Created(listeners[i], p)
  {
    seq(|listeners|, i requires 0 <= i < |listeners| => Created(listeners[i], p))
  }

  /** `notifyRemove`: one call per listener, in registration order. */
  function NotifyRemove(listeners: seq<ListenerId>, p: Punishment, reason: string): (es: seq<Event>)
    ensures |es| == |listeners|
    ensures forall i :: 0 <= i < |listeners| ==> es[i] == Removed(listeners[i], p, reason)
  {
    seq(|listeners|, i requires 0 <= i < |listeners| => Removed(listeners[i], p, reason))
  }

  /** `notifyCreate` for each record in turn. */
  function NotifyCreateAll(listeners: seq<ListenerId>, ps: seq<Punishment>): (es: seq<Event>)
    ensures forall l, p :: Created(l, p) in es <==> l in listeners && p in ps
    ensures forall e :: e in es ==> e.Created?
  {
    if |ps| == 0 then []
    else
      var head := NotifyCreate(listeners, ps[0]);
      var rest := NotifyCreateAll(listeners, ps[1..]);
      assert ps == [ps[0]] + ps[1..];
      forall l, p ensures Created(l, p) in head <==> l in listeners && p == ps[0] {
        if l in listeners && p == ps[0] {
          var i :| 0 <= i < |listeners| && listeners[i] == l;
          assert head[i] == Created(l, p);
        }
      }
      head + rest
  }

  /** `notifyRemove` for each record in turn, all with one reason. */
  function NotifyRemoveAll(listeners: seq<ListenerId>, ps: seq<Punishment>, reason: string): (es: seq<Event>)
    ensures forall l, p, why :: Removed(l, p, why) in es <==> l in listeners && p in ps && why == reason
    ensures forall e :: e in es ==> e.Removed?
  {
    if |ps| == 0 then []
    else
      var head := NotifyRemove(listeners, ps[0], reason);
      var rest := NotifyRemoveAll(listeners, ps[1..], reason);
      assert ps == [ps[0]] + ps[1..];
      forall l, p, why ensures Removed(l, p, why) in head <==> l in listeners && p == ps[0] && why == reason {
        if l in listeners && p == ps[0] && why == reason {
          var i :| 0 <= i < |listeners| && listeners[i] == l;
          assert head[i] == Removed(l, p, why);
        }
      }
      head + rest
  }

  // ---------------------------------------------------------------------------
  // Change detection

  /** The records whose internal id is not in `ids`, in order. */
  function WithoutIds(ps: seq<Punishment>, ids: set<string>): (r: seq<Punishment>)
    ensures forall p :: p in r <==> p in ps && p.internalId !in ids
    ensures (forall i :: 0 <= i < |ps| ==> ps[i].internalId in ids) ==> r == []
  {
    if |ps| == 0 then []
    else if ps[0].internalId in ids then WithoutIds(ps[1..], ids)
    else [ps[0]] + WithoutIds(ps[1..], ids)
  }

  /** `detectChanges`: creation calls for the records that appeared, then
      removal calls for the records that disappeared, compared by internal
      id. */
  function DetectChanges(previous: ActivePunishment, current: ActivePunishment, listeners: seq<ListenerId>): (es: seq<Event>)
    ensures forall l, p :: Created(l, p) in es <==>
      l in listeners && p in current.All() && p.internalId !in RowIds(previous.All())
    ensures forall l, p, why :: Removed(l, p, why) in es <==>
      l in listeners && p in previous.All() && p.internalId !in RowIds(current.All())
      && why == EXTERNAL_REMOVAL_REASON
    ensures forall i, j :: 0 <= i < j < |es| && es[j].Created? ==> es[i].Created?
  {
    var appeared := WithoutIds(current.All(), RowIds(previous.All()));
    var vanished := WithoutIds(previous.All(), RowIds(current.All()));
    var created := NotifyCreateAll(listeners, appeared);
    var removed := NotifyRemoveAll(listeners, vanished, EXTERNAL_REMOVAL_REASON);
    CreatedBeforeRemoved(created, removed);
    created + removed
  }

  /** Appending removal calls after creation calls keeps every creation call
      ahead of every removal call. */
  lemma CreatedBeforeRemoved(a: seq<Event>, b: seq<Event>)
    requires forall e :: e in a ==> e.Created?
    requires forall e :: e in b ==> e.Removed?
    ensures forall i, j :: 0 <= i < j < |a + b| && (a + b)[j].Created? ==> (a + b)[i].Created?
  {
    assert forall i :: 0 <= i < |a| ==> (a + b)[i] == a[i] && a[i] in a;
    assert forall i :: |a| <= i < |a + b| ==> (a + b)[i] == b[i - |a|] && b[i - |a|] in b;
  }

  /** A snapshot with the same internal ids as before produces no calls. */
  lemma SameIdsNoEvents(previous: ActivePunishment, current: ActivePunishment, listeners: seq<ListenerId>)
    requires RowIds(previous.All()) == RowIds(current.All())
    ensures DetectChanges(previous, current, listeners) == []
  {
    assert forall i :: 0 <= i < |current.All()| ==> current.All()[i].internalId in RowIds(current.All());
    assert forall i :: 0 <= i < |previous.All()| ==> previous.All()[i].internalId in RowIds(previous.All());
  }
}

=== FILE: paper_config.dfy ===
/** The pieces of `PluginBansPaper.loadPluginConfig` that shape values rather
    than read them: the clamped poll period and the list sanitiser behind
    the allowed warn reasons and the external warn actors. The YAML lookups
    themselves are inputs: a key that is absent arrives as `None`, a list
    entry that is not a string as a `None` entry. */
module PaperConfig {
  import opened Wrappers
  import opened JavaText

  const DEFAULT_POLL_SECONDS: int := 2
  const DEFAULT_WARN_REASONS: seq<string> := ["Отказ от проверки", "Нарушение правил проверки"]
  const DEFAULT_EXTERNAL_ACTORS: seq<string> := ["CheckPlugin"]

  /** `Math.max(1L, seconds)`. */
  function ClampPoll(seconds: int): (r: int)
    ensures r >= 1 && r >= seconds
    ensures r == seconds || r == 1
  {
    if seconds < 1 then 1 else seconds
  }

  /** `sync.poll-seconds`, two when absent, at least one second. The
      service clamps the value once more when it is constructed; that second
      clamp never changes it. */
  function PollSeconds(configured: Option<int>): (r: int)
    ensures r >= 1
    ensures configured.None? ==> r == DEFAULT_POLL_SECONDS
    ensures configured.Some? && configured.value >= 1 ==> r == configured.value
    ensures configured.Some? && configured.value < 1 ==> r == 1
    ensures ClampPoll(r) == r
  {
    ClampPoll(configured.GetOr(DEFAULT_POLL_SECONDS))
  }

  /** A list entry as the sanitiser leaves it: trimmed and not empty. */
  predicate Clean(s: string) {
    s != [] && Trim(s) == s
  }

  /** `entry` contributes `x` to the sanitised list. */
  predicate Keeps(entry: Option<string>, x: string) {
    entry.Some? && Trim(entry.value) == x && x != []
  }

  /** The loop of `sanitizeList`: null entries skipped, the others trimmed,
      empty results dropped, order kept. */
  function Kept(source: seq<Option<string>>): (r: seq<string>)
    ensures |r| <= |source|
    ensures forall i :: 0 <= i < |r| ==> Clean(r[i])
    decreases |source|
  {
    if |source| == 0 then []
    else
      var rest := Kept(source[1..]);
      var head := source[0];
      if head.Some? && Trim(head.value) != [] then
        StripByIdempotent(head.value, IsTrimmable);
        [Trim(head.value)] + rest
      else rest
  }

  /** The sanitised entries are exactly what some entry keeps. */
  lemma {:induction false} KeptMembers(source: seq<Option<string>>)
    ensures forall x :: x in Kept(source) <==> exists e :: e in source && Keeps(e, x)
    decreases |source|
  {
    if |source| > 0 {
      KeptMembers(source[1..]);
      assert forall e :: e in source <==> e == source[0] || e in source[1..];
      var head := source[0];
      if head.Some? && Trim(head.value) != [] {
        assert Keeps(head, Trim(head.value));
      }
    }
  }

  /** Null and whitespace-only entries contribute nothing. */
  lemma {:induction false} KeptBlank(source: seq<Option<string>>)
    requires forall i :: 0 <= i < |source| ==> source[i].None? || IsTrimmedAway(source[i].value)
    ensures Kept(source) == []
    decreases |source|
  {
    if |source| > 0 {
      KeptBlank(source[1..]);
    }
  }

  /** A plain list as Java holds it: no entry is null. */
  function Lift(values: seq<string>): (r: seq<Option<string>>)
    ensures |r| == |values| && forall i :: 0 <= i < |r| ==> r[i] == Some(values[i])
  {
    seq(|values|, i requires 0 <= i < |values| => Some(values[i]))
  }

  /** The list `sanitizeList` reads: the configured one, or the fallback
      when the configuration has none or an empty one. */
  function Source(values: Option<seq<Option<string>>>, fallback: seq<string>): seq<Option<string>> {
    if values.None? || |values.value| == 0 then Lift(fallback) else values.value
  }

  /** `sanitizeList`: the clean entries of the configured list; when none
      survives, the fallback exactly as given. */
  function SanitizeList(values: Option<seq<Option<string>>>, fallback: seq<string>): (r: seq<string>)
    ensures |fallback| > 0 ==> |r| > 0
    ensures r == fallback || (|r| > 0 && forall i :: 0 <= i < |r| ==> Clean(r[i]))
    ensures r != fallback ==> forall x :: x in r <==> exists e :: e in Source(values, fallback) && Keeps(e, x)
    ensures values.Some? && (exists e :: e in values.value && exists x :: Keeps(e, x)) ==>
      forall x :: x in r <==> exists e :: e in values.value && Keeps(e, x)
  {
    var kept := Kept(Source(values, fallback));
    KeptMembers(Source(values, fallback));
    assert values.Some? && (exists e :: e in values.value && exists x :: Keeps(e, x)) ==> |kept| > 0 by {
      if values.Some? && (exists e :: e in values.value && exists x :: Keeps(e, x)) {
        var e :| e in values.value && exists x :: Keeps(e, x);
        var x :| Keeps(e, x);
        assert x in kept;
      }
    }
    if |kept| == 0 then fallback else kept
  }

  /** The sanitiser keeps order: it works entry by entry. */
  lemma {:induction false} KeptAppend(a: seq<Option<string>>, b: seq<Option<string>>)
    ensures Kept(a + b) == Kept(a) + Kept(b)
    decreases |a|
  {
    if |a| > 0 {
      assert (a + b)[1..] == a[1..] + b;
      KeptAppend(a[1..], b);
    } else {
      assert a + b == b;
    }
  }

  /** A list of clean entries comes through unchanged. */
  lemma {:induction false} KeptClean(values: seq<string>)
    requires forall i :: 0 <= i < |values| ==> Clean(values[i])
    ensures Kept(Lift(values)) == values
    decreases |values|
  {
    if |values| > 0 {
      assert Lift(values)[1..] == Lift(values[1..]);
      KeptClean(values[1..]);
      assert [values[0]] + values[1..] == values;
    }
  }

  /** Sanitising a sanitised list changes nothing, whenever the fallback is
      clean itself (as the built-in fallbacks are). */
  lemma SanitizeIdempotent(values: Option<seq<Option<string>>>, fallback: seq<string>)
    requires forall i :: 0 <= i < |fallback| ==> Clean(fallback[i])
    ensures var once := SanitizeList(values, fallback);
      SanitizeList(Some(Lift(once)), fallback) == once
  {
    var once := SanitizeList(values, fallback);
    KeptClean(once);
  }

  /** The built-in fallbacks are clean. */
  lemma DefaultsClean()
    ensures forall i :: 0 <= i < |DEFAULT_WARN_REASONS| ==> Clean(DEFAULT_WARN_REASONS[i])
    ensures forall i :: 0 <= i < |DEFAULT_EXTERNAL_ACTORS| ==> Clean(DEFAULT_EXTERNAL_ACTORS[i])
  {
    var a := DEFAULT_WARN_REASONS[0];
    var b := DEFAULT_WARN_REASONS[1];
    var c := DEFAULT_EXTERNAL_ACTORS[0];
    assert a[0] > ' ' && a[|a| - 1] > ' ';
    assert b[0] > ' ' && b[|b| - 1] > ' ';
    assert c[0] > ' ' && c[|c| - 1] > ' ';
  }

  /** A configuration whose entries are all blank falls back to the
      defaults, as does a missing one. */
  lemma BlankListFallsBack(values: seq<Option<string>>, fallback: seq<string>)
    requires |values| > 0
    requires forall i :: 0 <= i < |values| ==> values[i].None? || IsTrimmedAway(values[i].value)
    ensures SanitizeList(Some(values), fallback) == fallback
    ensures SanitizeList(None, fallback) == SanitizeList(Some([]), fallback)
  {
    KeptBlank(values);
  }
}

=== FILE: paper_service.dfy ===
/** `PaperPunishmentService`: how the Paper plugin turns a request into a
    stored punishment, and what it does when the engine announces a new
    one. The clock, the random id draws and the digest are inputs. */
module PaperService {
  import opened Wrappers
  import opened JavaText
  import opened Model
  import opened PunishmentRules
  import opened PunishmentIdGenerator
  import opened IpHashing
  import opened Messages
  import opened Repository
  import opened Notifications
  import Engine

  /** The id categories: reason hidden, permanent, temporary. */
  const NNR_CATEGORY: string := "NNR"
  const PERMANENT_CATEGORY: string := "NV"
  const TEMPORARY_CATEGORY: string := "TM"

  /** The kind a request is stored as: a BAN with a positive duration becomes
      a TEMPBAN, every other request keeps its kind. */
  function IssuedKind(requested: PunishmentType, durationSeconds: int): (k: PunishmentType)
    ensures k != requested <==> requested == BAN && durationSeconds > 0
    ensures k != requested ==> k == TEMPBAN
    ensures IsBanLike(k) <==> IsBanLike(requested)
    ensures BlocksLogin(k) <==> BlocksLogin(requested)
  {
    if requested == BAN && durationSeconds > 0 then TEMPBAN else requested
  }

  /** The category written into the id. */
  function IdCategory(nnr: bool, endTime: Option<Instant>): (c: string)
    ensures c == NNR_CATEGORY || c == PERMANENT_CATEGORY || c == TEMPORARY_CATEGORY
    ensures nnr <==> c == NNR_CATEGORY
    ensures !nnr ==> (c == PERMANENT_CATEGORY <==> endTime.None?)
  {
    if nnr then NNR_CATEGORY else if endTime.None? then PERMANENT_CATEGORY else TEMPORARY_CATEGORY
  }

  /** `issuePunishment` up to the hand-over to the engine: `None` is the
      `IllegalArgumentException` of `valueOf` for an unknown type name. */
  function IssuePunishment(uuid: Uuid, typeName: string, reason: string, durationSeconds: int,
                           actor: string, ip: Option<string>, silent: bool, nnr: bool,
                           now: Instant, draws: seq<int>, sha256: string -> Digest): (r: Option<Punishment>)
    requires ValidDraws(draws)
    ensures r.None? <==> ParseType(ToUpper(typeName)).None?
    ensures r.Some? ==> r.value.kind == IssuedKind(ParseType(ToUpper(typeName)).value, durationSeconds)
    ensures r.Some? ==> r.value.startTime == now
    ensures r.Some? ==> (r.value.endTime.None? <==> durationSeconds <= 0)
    ensures r.Some? && durationSeconds > 0 ==>
      r.value.endTime == Some(now + durationSeconds * MILLIS_PER_SECOND) && r.value.endTime.value > now
    ensures r.Some? ==> r.value.internalId == Generate(IdCategory(nnr, r.value.endTime), draws)
    ensures r.Some? ==> r.value.active && r.value.uuid == uuid && r.value.ip == ip
    ensures r.Some? ==> r.value.ipHash == Hash(ip, sha256)
    ensures r.Some? ==> r.value.reason == reason && r.value.actor == actor && r.value.silent == silent
  {
    var requested :- ParseType(ToUpper(typeName));
    var kind := IssuedKind(requested, durationSeconds);
    var end := if durationSeconds > 0 then Some(PlusSeconds(now, durationSeconds)) else None;
    Some(Punishment(uuid, ip, Hash(ip, sha256), kind, reason, actor, now, end, true,
                    Generate(IdCategory(nnr, end), draws), silent))
  }

  /** The type name is read ignoring case: exactly the spellings that equal a
      kind's name ignoring case are accepted, and they give that kind. */
  lemma TypeNameIgnoresCase(typeName: string, t: PunishmentType)
    ensures ParseType(ToUpper(typeName)) == Some(t) <==> EqualsIgnoreCase(typeName, TypeName(t))
  {
    if ParseType(ToUpper(typeName)) == Some(t) {
      AcceptedNameMatches(typeName, t);
    }
    if EqualsIgnoreCase(typeName, TypeName(t)) {
      MatchingNameAccepted(typeName, t);
    }
  }

  lemma AcceptedNameMatches(typeName: string, t: PunishmentType)
    requires ParseType(ToUpper(typeName)) == Some(t)
    ensures EqualsIgnoreCase(typeName, TypeName(t))
  {
    UpperEqualsIgnoreCase(typeName);
    assert ToUpper(typeName) == TypeName(t);
  }

  lemma MatchingNameAccepted(typeName: string, t: PunishmentType)
    requires EqualsIgnoreCase(typeName, TypeName(t))
    ensures ParseType(ToUpper(typeName)) == Some(t)
  {
    var name := TypeName(t);
    assert forall i :: 0 <= i < |name| ==> 'A' <= name[i] <= 'Z';
    forall i | 0 <= i < |name| ensures ToUpper(typeName)[i] == name[i] {
      UpperOfLetterMatch(typeName[i], name[i]);
    }
    assert ToUpper(typeName) == name;
    ParseTypeName(t);
  }

  /** A character equal ignoring case to an upper-case ASCII letter
      upper-cases to that letter. */
  lemma UpperOfLetterMatch(c: char, letter: char)
    requires 'A' <= letter <= 'Z'
    requires CharEqualsIgnoreCase(c, letter)
    ensures UpperChar(c) == letter
  {
  }

  /** The id tells the category: with the reason shown, an "NV" id marks a
      permanent punishment and any other a temporary one; "NNR" marks exactly
      the hidden-reason requests. */
  lemma IssuedIdTellsCategory(uuid: Uuid, typeName: string, reason: string, durationSeconds: int,
                              actor: string, ip: Option<string>, silent: bool, nnr: bool,
                              now: Instant, draws: seq<int>, sha256: string -> Digest)
    requires ValidDraws(draws)
    ensures var r := IssuePunishment(uuid, typeName, reason, durationSeconds, actor, ip, silent, nnr, now, draws, sha256);
      r.Some? ==>
        && (StartsWith(r.value.internalId, PREFIX + NNR_CATEGORY + "-") <==> nnr)
        && (!nnr ==> (StartsWith(r.value.internalId, PREFIX + PERMANENT_CATEGORY + "-") <==> r.value.endTime.None?))
  {
    var r := IssuePunishment(uuid, typeName, reason, durationSeconds, actor, ip, silent, nnr, now, draws, sha256);
    if r.Some? {
      GeneratedCategory(IdCategory(nnr, r.value.endTime), draws);
    }
  }

  /** An id of one of the three categories starts with "PBRB-NNR-" or
      "PBRB-NV-" exactly when that is its category. */
  lemma GeneratedCategory(c: string, draws: seq<int>)
    requires ValidDraws(draws)
    requires c == NNR_CATEGORY || c == PERMANENT_CATEGORY || c == TEMPORARY_CATEGORY
    ensures StartsWith(Generate(c, draws), PREFIX + NNR_CATEGORY + "-") <==> c == NNR_CATEGORY
    ensures StartsWith(Generate(c, draws), PREFIX + PERMANENT_CATEGORY + "-") <==> c == PERMANENT_CATEGORY
  {
    var id := Generate(c, draws);
    var nnr := PREFIX + NNR_CATEGORY + "-";
    var nv := PREFIX + PERMANENT_CATEGORY + "-";
    assert StartsWith(id, PREFIX + c + "-");
    if c == NNR_CATEGORY {
      Differs(id, nv, 7);
    } else if c == PERMANENT_CATEGORY {
      Differs(id, nnr, 6);
    } else {
      Differs(id, nnr, 5);
      Differs(id, nv, 5);
    }
  }

  /** One differing character rules a prefix out. */
  lemma Differs(s: string, prefix: string, i: nat)
    requires i < |prefix| && i < |s| && s[i] != prefix[i]
    ensures !StartsWith(s, prefix)
  {
  }

  /** `issuePunishment` followed by `createPunishment`: the built record goes
      to the engine unchanged. */
  function IssueAndCreate(svc: Engine.Service, uuid: Uuid, typeName: string, reason: string,
                          durationSeconds: int, actor: string, ip: Option<string>, silent: bool,
                          nnr: bool, now: Instant, draws: seq<int>, sha256: string -> Digest,
                          isExpired: (Punishment, Instant) -> bool): (r: Engine.Outcome<Punishment>)
    requires ValidDraws(draws)
    ensures var p := IssuePunishment(uuid, typeName, reason, durationSeconds, actor, ip, silent, nnr, now, draws, sha256);
      && (p.None? ==> r == Engine.Outcome(svc, [], None))
      && (r.value.Some? ==> p == r.value && r.events == NotifyCreate(svc.listeners, r.value.value))
      && (p.Some? ==> (r.value.Some? <==> Add(svc.store, p.value, now).ok))
  {
    match IssuePunishment(uuid, typeName, reason, durationSeconds, actor, ip, silent, nnr, now, draws, sha256)
    case None => Engine.Outcome(svc, [], None)
    case Some(p) => Engine.Create(svc, p, now, isExpired)
  }

  // ---------------------------------------------------------------------------
  // Reacting to a new punishment

  /** What `onCreate` sets in motion, each with the template it renders. */
  datatype Notice =
    | StartCheck(uuid: Uuid, endTime: Option<Instant>)
    | TellPlayer(template: string)
    | KickIfOnline(template: string)
    | Broadcast(template: string)

  /** The announcement template for each kind. */
  function AnnouncementTemplate(msgs: MessagesConfig, kind: PunishmentType): string {
    match kind
    case CHECK => msgs.checkMessage
    case MUTE => msgs.muteMessage
    case WARN => msgs.warnMessage
    case BAN | TEMPBAN | IPBAN => msgs.banMessage
  }

  /** `broadcast`: a silent record is not announced. */
  function BroadcastUnlessSilent(p: Punishment, template: string): (r: seq<Notice>)
    ensures p.silent <==> r == []
  {
    if p.silent then [] else [Broadcast(template)]
  }

  /** The first thing `onCreate` does for each kind. */
  function LeadNotice(msgs: MessagesConfig, p: Punishment): Notice {
    match p.kind
    case CHECK => StartCheck(p.uuid, p.endTime)
    case MUTE => TellPlayer(msgs.muteMessage)
    case WARN | BAN | TEMPBAN | IPBAN => KickIfOnline(msgs.kickMessage)
  }

  /** `onCreate`: nothing without a check manager; otherwise a check starts
      the session, a mute tells the player, a warning or a ban kicks, and the
      staff are told unless the record is silent. The source's final
      `isBanLike` test covers every remaining kind. */
  function OnCreate(hasCheckManager: bool, msgs: MessagesConfig, p: Punishment): (r: seq<Notice>)
    ensures !hasCheckManager ==> r == []
    ensures (exists n :: n in r && n.Broadcast?) <==> hasCheckManager && !p.silent
    ensures forall n :: n in r && n.Broadcast? ==> n.template == AnnouncementTemplate(msgs, p.kind)
    ensures (exists n :: n in r && n.KickIfOnline?) <==> hasCheckManager && BlocksLogin(p.kind)
    ensures forall n :: n in r && n.KickIfOnline? ==> n.template == msgs.kickMessage
    ensures (exists n :: n in r && n.TellPlayer?) <==> hasCheckManager && p.kind == MUTE
    ensures (exists n :: n in r && n.StartCheck?) <==> hasCheckManager && p.kind == CHECK
    ensures forall n :: n in r && n.StartCheck? ==> n == StartCheck(p.uuid, p.endTime)
    ensures |r| <= 2 && (|r| == 2 ==> r[1].Broadcast?)
  {
    if !hasCheckManager then []
    else
      var lead := LeadNotice(msgs, p);
      var tail := BroadcastUnlessSilent(p, AnnouncementTemplate(msgs, p.kind));
      var r := [lead] + tail;
      assert forall n :: n in r <==> n == lead || n in tail;
      assert r[0] == lead;
      assert !p.silent ==> r[1] == Broadcast(AnnouncementTemplate(msgs, p.kind));
      r
  }

  /** The permissions that let a player see punishment announcements. */
  const NOTIFY_PERMISSIONS: set<string> :=
    {"bans.fullaccess", "bans.ban", "bans.tempban", "bans.ipban", "bans.warn", "bans.check", "bans.punish"}

  datatype OnlinePlayer = OnlinePlayer(uuid: Uuid, permissions: set<string>)

  predicate CanReceiveNotifications(player: OnlinePlayer) {
    exists perm :: perm in NOTIFY_PERMISSIONS && perm in player.permissions
  }

  /** The online players an announcement reaches, in server order. */
  function Recipients(players: seq<OnlinePlayer>): (r: seq<OnlinePlayer>)
    ensures forall q :: q in r <==> q in players && CanReceiveNotifications(q)
    ensures |r| <= |players|
  {
    if |players| == 0 then []
    else if CanReceiveNotifications(players[0]) then [players[0]] + Recipients(players[1..])
    else Recipients(players[1..])
  }

  /** Who hears about a new punishment: the staff online, unless the record
      is silent or there is no check manager. */
  function Audience(hasCheckManager: bool, msgs: MessagesConfig, p: Punishment,
                    players: seq<OnlinePlayer>): (r: seq<OnlinePlayer>)
    ensures forall q :: q in r ==> q in players && CanReceiveNotifications(q)
  {
    if exists n :: n in OnCreate(hasCheckManager, msgs, p) && n.Broadcast? then Recipients(players) else []
  }

  /** A silent punishment reaches nobody, and a non-silent one reaches every
      online staff member. */
  lemma SilentNeverAnnounced(msgs: MessagesConfig, p: Punishment, players: seq<OnlinePlayer>)
    ensures p.silent ==> Audience(true, msgs, p, players) == []
    ensures !p.silent ==> forall q :: q in players && CanReceiveNotifications(q) ==> q in Audience(true, msgs, p, players)
  {
    if !p.silent {
      assert OnCreate(true, msgs, p)[1].Broadcast?;
    }
  }
}

=== FILE: proxy_gate.dfy ===
/** The proxy's login gate (`VelocityPunishmentService.buildDenial`) and the
    two places `PluginBansVelocity` calls it: before login, and when the
    Paper server reports a new punishment over the sync channel. The proxy
    works against the older repository: its two lookups are inputs, and the
    `deactivate` calls it makes for lapsed records are returned as a list of
    ids. */
module ProxyGate {
  import opened Wrappers
  import opened Model
  import opened JavaText
  import opened Messages
  import opened IpHashing
  import DurationFormatter
  import SyncPayload

  const REASON_KEY: string := "%reason%"
  const TIME_KEY: string := "%time%"
  const ID_KEY: string := "%id%"

  /** `findActiveByUuid` and `findActiveByIp` of the older repository. */
  datatype Lookups = Lookups(byUuid: Uuid -> seq<LegacyRecord>, byIp: string -> seq<LegacyRecord>)

  /** The proxy's message templates. */
  datatype ProxyMessages = ProxyMessages(prefix: string, banScreen: string)

  /** Records to look at: those of the uuid, then those of the address,
      with nothing removed that occurs in both. */
  function Candidates(uuid: Uuid, ip: string, look: Lookups): seq<LegacyRecord> {
    look.byUuid(uuid) + look.byIp(ip)
  }

  /** Still in force at `now`: permanent, or lapsing strictly later. */
  predicate Live(r: LegacyRecord, now: Instant) {
    r.IsPermanent() || r.ExpiresAt().value > now
  }

  /** The types the proxy refuses a connection for; the comparison is exact. */
  predicate Gates(r: LegacyRecord) {
    r.typeName == "BAN" || r.typeName == "IPBAN" || r.typeName == "IDBAN"
  }

  predicate Blocks(r: LegacyRecord, now: Instant) {
    Live(r, now) && Gates(r)
  }

  /** What `filterExpired` keeps, and the ids it deactivates. */
  datatype Filtered = Filtered(kept: seq<LegacyRecord>, deactivated: seq<string>)

  /** `filterExpired`: live records kept in order; each lapsed one is
      deactivated by its id, once per occurrence. */
  function FilterExpired(records: seq<LegacyRecord>, now: Instant): (f: Filtered)
    ensures |f.kept| + |f.deactivated| == |records|
    ensures forall x :: x in f.kept <==> x in records && Live(x, now)
    ensures forall id :: id in f.deactivated <==> exists x :: x in records && !Live(x, now) && x.id == id
    decreases |records|
  {
    if |records| == 0 then Filtered([], [])
    else
      var rest := FilterExpired(records[1..], now);
      assert forall x :: x in records <==> x == records[0] || x in records[1..];
      if Live(records[0], now) then Filtered([records[0]] + rest.kept, rest.deactivated)
      else Filtered(rest.kept, [records[0].id] + rest.deactivated)
  }

  /** The type filter of `getActive`, order kept. */
  function KeepGating(records: seq<LegacyRecord>): (r: seq<LegacyRecord>)
    ensures |r| <= |records|
    ensures forall x :: x in r <==> x in records && Gates(x)
    decreases |records|
  {
    if |records| == 0 then []
    else
      assert forall x :: x in records <==> x == records[0] || x in records[1..];
      if Gates(records[0]) then [records[0]] + KeepGating(records[1..]) else KeepGating(records[1..])
  }

  /** `getActive`: the live gating candidates, and the deactivations the
      expiry filter made on the way, including those of lapsed mutes and
      warnings. */
  function GetActive(uuid: Uuid, ip: string, look: Lookups, now: Instant): (r: Filtered)
    ensures forall x :: x in r.kept <==> x in Candidates(uuid, ip, look) && Blocks(x, now)
    ensures forall id :: id in r.deactivated <==>
      exists x :: x in Candidates(uuid, ip, look) && !Live(x, now) && x.id == id
  {
    var f := FilterExpired(Candidates(uuid, ip, look), now);
    Filtered(KeepGating(f.kept), f.deactivated)
  }

  /** An independent search: the position of the first blocking candidate. */
  function FirstBlocking(cands: seq<LegacyRecord>, now: Instant): (r: Option<nat>)
    ensures r.Some? ==> r.value < |cands| && Blocks(cands[r.value], now)
    ensures r.Some? ==> forall j :: 0 <= j < r.value ==> !Blocks(cands[j], now)
    ensures r.None? <==> forall j :: 0 <= j < |cands| ==> !Blocks(cands[j], now)
    decreases |cands|
  {
    if |cands| == 0 then None
    else if Blocks(cands[0], now) then Some(0)
    else
      var rest := FirstBlocking(cands[1..], now);
      assert forall j :: 1 <= j < |cands| ==> cands[j] == cands[1..][j - 1];
      match rest
      case None => None
      case Some(k) => Some(k + 1)
  }

  /** The record `buildDenial` takes (the head of `getActive`'s list) is the
      first blocking candidate. */
  lemma {:induction false} HeadIsFirstBlocking(cands: seq<LegacyRecord>, now: Instant)
    ensures var kept := KeepGating(FilterExpired(cands, now).kept);
      && (|kept| > 0 <==> FirstBlocking(cands, now).Some?)
      && (|kept| > 0 ==> kept[0] == cands[FirstBlocking(cands, now).value])
    decreases |cands|
  {
    if |cands| > 0 {
      var tail := cands[1..];
      HeadIsFirstBlocking(tail, now);
      FirstBlockingStep(cands, now);
      if Live(cands[0], now) {
        FilterLive(cands, now);
        KeepGatingCons(cands[0], FilterExpired(tail, now).kept);
      } else {
        FilterLapsed(cands, now);
      }
    }
  }

  lemma FilterLive(records: seq<LegacyRecord>, now: Instant)
    requires |records| > 0 && Live(records[0], now)
    ensures FilterExpired(records, now).kept == [records[0]] + FilterExpired(records[1..], now).kept
  {
  }

  lemma FilterLapsed(records: seq<LegacyRecord>, now: Instant)
    requires |records| > 0 && !Live(records[0], now)
    ensures FilterExpired(records, now).kept == FilterExpired(records[1..], now).kept
  {
  }

  lemma KeepGatingCons(c: LegacyRecord, rest: seq<LegacyRecord>)
    ensures Gates(c) ==> KeepGating([c] + rest) == [c] + KeepGating(rest)
    ensures !Gates(c) ==> KeepGating([c] + rest) == KeepGating(rest)
  {
    assert ([c] + rest)[1..] == rest;
  }

  lemma FirstBlockingStep(cands: seq<LegacyRecord>, now: Instant)
    requires |cands| > 0
    ensures Blocks(cands[0], now) ==> FirstBlocking(cands, now) == Some(0)
    ensures !Blocks(cands[0], now) ==>
      && (FirstBlocking(cands, now).Some? <==> FirstBlocking(cands[1..], now).Some?)
      && (FirstBlocking(cands, now).Some? ==>
            FirstBlocking(cands, now).value == FirstBlocking(cands[1..], now).value + 1
            && cands[FirstBlocking(cands, now).value] == cands[1..][FirstBlocking(cands[1..], now).value])
  {
  }

  /** The text shown for the reason: the configured hidden reason for a
      "no reason shown" record. */
  function ShownReason(p: LegacyRecord, hiddenReason: string): (r: string)
    ensures p.nnr ==> r == hiddenReason
    ensures !p.nnr ==> r == p.reason
  {
    if p.nnr then hiddenReason else p.reason
  }

  /** The order `Map.of` hands its three entries out in, which Java leaves
      unspecified: a permutation of the positions 0, 1, 2. */
  predicate IsOrder(order: seq<nat>) {
    |order| == 3 && (forall i :: 0 <= i < 3 ==> order[i] < 3)
    && order[0] != order[1] && order[0] != order[2] && order[1] != order[2]
  }

  /** The three placeholders of the ban screen, in map order. */
  function DenialEntries(p: LegacyRecord, hiddenReason: string, order: seq<nat>): (r: seq<Placeholder>)
    requires IsOrder(order)
    ensures |r| == 3
    ensures forall e :: e in r <==>
      e == Placeholder(REASON_KEY, ShownReason(p, hiddenReason))
      || e == Placeholder(TIME_KEY, DurationFormatter.FormatSeconds(p.durationSeconds))
      || e == Placeholder(ID_KEY, p.id)
  {
    var table := [Placeholder(REASON_KEY, ShownReason(p, hiddenReason)),
                  Placeholder(TIME_KEY, DurationFormatter.FormatSeconds(p.durationSeconds)),
                  Placeholder(ID_KEY, p.id)];
    var r := [table[order[0]], table[order[1]], table[order[2]]];
    assert forall k :: 0 <= k < 3 ==> table[k] in r by {
      forall k | 0 <= k < 3 ensures table[k] in r {
        if order[0] == k {
          assert r[0] == table[k];
        } else if order[1] == k {
          assert r[1] == table[k];
        } else {
          assert r[2] == table[k];
        }
      }
    }
    assert table[0] in r && table[1] in r && table[2] in r;
    r
  }

  /** The verdict on a connection: the screen to show, if any, and the
      deactivations made while reaching it. */
  datatype Gate = Gate(screen: Option<string>, deactivated: seq<string>)

  /** `buildDenial`: no screen when nothing blocks; otherwise the prefixed
      ban screen of the first blocking candidate. */
  function BuildDenial(uuid: Uuid, ip: string, look: Lookups, now: Instant, messages: ProxyMessages,
                       hiddenReason: string, order: seq<nat>): (r: Gate)
    requires IsOrder(order)
    ensures r.deactivated == GetActive(uuid, ip, look, now).deactivated
    ensures r.screen.None? <==> FirstBlocking(Candidates(uuid, ip, look), now).None?
    ensures r.screen.Some? ==>
      var p := Candidates(uuid, ip, look)[FirstBlocking(Candidates(uuid, ip, look), now).value];
      && r.screen.value == Format(messages.prefix, ApplyPlaceholders(messages.banScreen, DenialEntries(p, hiddenReason, order)))
      && StartsWith(r.screen.value, messages.prefix)
  {
    HeadIsFirstBlocking(Candidates(uuid, ip, look), now);
    var active := GetActive(uuid, ip, look, now);
    if |active.kept| == 0 then Gate(None, active.deactivated)
    else
      var p := active.kept[0];
      var message := ApplyPlaceholders(messages.banScreen, DenialEntries(p, hiddenReason, order));
      Gate(Some(Format(messages.prefix, message)), active.deactivated)
  }

  /** A live ban on the uuid decides the screen before any record of the
      address. */
  lemma UuidRecordsFirst(uuid: Uuid, ip: string, look: Lookups, now: Instant, k: int)
    requires 0 <= k < |look.byUuid(uuid)| && Blocks(look.byUuid(uuid)[k], now)
    ensures FirstBlocking(Candidates(uuid, ip, look), now).Some?
    ensures FirstBlocking(Candidates(uuid, ip, look), now).value <= k
    ensures Candidates(uuid, ip, look)[FirstBlocking(Candidates(uuid, ip, look), now).value] in look.byUuid(uuid)
  {
    var cands := Candidates(uuid, ip, look);
    assert cands[k] == look.byUuid(uuid)[k];
    var f := FirstBlocking(cands, now).value;
    assert cands[f] == look.byUuid(uuid)[f];
  }

  /** A lapsed temporary ban lets the player in and is deactivated; a mute
      or a warning never keeps anyone out. */
  lemma LapsedAndNonBansLetIn(uuid: Uuid, ip: string, look: Lookups, now: Instant, messages: ProxyMessages,
                              hiddenReason: string, order: seq<nat>)
    requires IsOrder(order)
    requires forall x :: x in Candidates(uuid, ip, look) ==> !Live(x, now) || x.typeName == "MUTE" || x.typeName == "WARN"
    ensures BuildDenial(uuid, ip, look, now, messages, hiddenReason, order).screen.None?
    ensures forall x :: x in Candidates(uuid, ip, look) && !Live(x, now) ==>
      x.id in BuildDenial(uuid, ip, look, now, messages, hiddenReason, order).deactivated
  {
  }

  /** `onPreLogin`: the connection is refused with the screen, if any. */
  function OnPreLogin(uuid: Uuid, ip: string, look: Lookups, now: Instant, messages: ProxyMessages,
                      hiddenReason: string, order: seq<nat>): (r: Gate)
    requires IsOrder(order)
    ensures r.screen.Some? <==> exists x :: x in Candidates(uuid, ip, look) && Blocks(x, now)
  {
    SomethingBlocks(Candidates(uuid, ip, look), now);
    BuildDenial(uuid, ip, look, now, messages, hiddenReason, order)
  }

  /** The search finds a blocking record exactly when there is one. */
  lemma SomethingBlocks(cands: seq<LegacyRecord>, now: Instant)
    ensures FirstBlocking(cands, now).Some? <==> exists x :: x in cands && Blocks(x, now)
  {
    if exists x :: x in cands && Blocks(x, now) {
      var x :| x in cands && Blocks(x, now);
      var j :| 0 <= j < |cands| && cands[j] == x;
    }
  }

  /** What a sync message leads to at the proxy. */
  datatype SyncOutcome =
      /** The handler throws (`IllegalStateException` for unreadable bytes,
          `IllegalArgumentException` from `UUID.fromString`). */
    | Thrown
    | Done(deactivated: seq<string>, disconnect: Option<(Uuid, string)>)

  /** `onPluginMessage`: decode, find the player, re-run the gate with the
      player's current address, and disconnect on a screen. `parseUuid` is
      `UUID.fromString`; `addressOf` gives an online player's address. */
  function OnSyncMessage(channel: string, data: seq<Byte>, parseUuid: seq<SyncPayload.Unit> -> Option<Uuid>,
                         addressOf: Uuid -> Option<string>, look: Lookups, now: Instant,
                         messages: ProxyMessages, hiddenReason: string, order: seq<nat>): (r: SyncOutcome)
    requires IsOrder(order)
    ensures channel != SyncPayload.CHANNEL ==> r == Done([], None)
    ensures r.Done? && r.disconnect.Some? ==>
      && addressOf(r.disconnect.value.0).Some?
      && var gate := BuildDenial(r.disconnect.value.0, addressOf(r.disconnect.value.0).value, look, now,
                                 messages, hiddenReason, order);
         gate.screen == Some(r.disconnect.value.1)
  {
    match SyncPayload.OnPluginMessage(channel, data)
    case Ignored => Done([], None)
    case Failed => Thrown
    case Recheck(units) =>
      match parseUuid(units)
      case None => Thrown
      case Some(uuid) =>
        match addressOf(uuid)
        case None => Done([], None)
        case Some(ip) =>
          var gate := BuildDenial(uuid, ip, look, now, messages, hiddenReason, order);
          Done(gate.deactivated, if gate.screen.Some? then Some((uuid, gate.screen.value)) else None)
  }

  /** End to end: a punishment the Paper server reports for a player who is
      online at the proxy, and whom the proxy's records bar, ends in that
      player's disconnect; a player not online is left alone. */
  lemma ReportedBanDisconnects(record: LegacyRecord, parseUuid: seq<SyncPayload.Unit> -> Option<Uuid>,
                               addressOf: Uuid -> Option<string>, look: Lookups, now: Instant,
                               messages: ProxyMessages, hiddenReason: string, order: seq<nat>)
    requires IsOrder(order)
    requires SyncPayload.BuildPayload(record).Some?
    requires parseUuid(SyncPayload.Utf16(record.uuid)) == Some(record.uuid)
    ensures var r := OnSyncMessage(SyncPayload.CHANNEL, SyncPayload.BuildPayload(record).value, parseUuid,
                                   addressOf, look, now, messages, hiddenReason, order);
      && r.Done?
      && (addressOf(record.uuid).None? ==> r == Done([], None))
      && (addressOf(record.uuid).Some? ==>
            (r.disconnect.Some? <==>
               exists x :: x in Candidates(record.uuid, addressOf(record.uuid).value, look) && Blocks(x, now)))
      && (r.disconnect.Some? ==> r.disconnect.value.0 == record.uuid)
  {
    SyncPayload.PayloadRoundTrip(record);
    if addressOf(record.uuid).Some? {
      SomethingBlocks(Candidates(record.uuid, addressOf(record.uuid).value, look), now);
    }
  }
}

=== FILE: repository.dfy ===
/** `JdbcPunishmentRepository` as an in-memory store: the punishments table
    (primary key `internal_id`), the append-only history table (primary key
    `id`), and whether the database can be reached at all. Rows are kept in
    insertion order, which is the order the queries without ORDER BY are
    modelled to return. */
module Repository {
  import opened Wrappers
  import opened JavaNumbers
  import opened Model

  datatype Store = Store(rows: seq<Punishment>, history: seq<HistoryRecord>, online: bool)

  function RowIds(rows: seq<Punishment>): set<string> {
    set i | 0 <= i < |rows| :: rows[i].internalId
  }

  function HistoryIds(history: seq<HistoryRecord>): set<string> {
    set i | 0 <= i < |history| :: history[i].id
  }

  lemma RowIdsAppend(rows: seq<Punishment>, p: Punishment)
    ensures RowIds(rows + [p]) == RowIds(rows) + {p.internalId}
  {
    var all := rows + [p];
    forall x | x in RowIds(all) ensures x in RowIds(rows) + {p.internalId} {
      var i :| 0 <= i < |all| && all[i].internalId == x;
      if i < |rows| {
        assert rows[i] == all[i];
      }
    }
    forall x | x in RowIds(rows) ensures x in RowIds(all) {
      var i :| 0 <= i < |rows| && rows[i].internalId == x;
      assert all[i] == rows[i];
    }
    assert all[|rows|] == p;
  }

  lemma RowIdsCons(p: Punishment, rows: seq<Punishment>)
    ensures RowIds([p] + rows) == {p.internalId} + RowIds(rows)
  {
    var all := [p] + rows;
    forall x | x in RowIds(all) ensures x in {p.internalId} + RowIds(rows) {
      var i :| 0 <= i < |all| && all[i].internalId == x;
      if i > 0 {
        assert rows[i - 1] == all[i];
      }
    }
    forall x | x in RowIds(rows) ensures x in RowIds(all) {
      var i :| 0 <= i < |rows| && rows[i].internalId == x;
      assert all[i + 1] == rows[i];
    }
    assert all[0] == p;
  }

  lemma UniqueCons(p: Punishment, rows: seq<Punishment>)
    requires UniqueIds(rows) && p.internalId !in RowIds(rows)
    ensures UniqueIds([p] + rows)
  {
    var all := [p] + rows;
    forall i, j | 0 <= i < j < |all| ensures all[i].internalId != all[j].internalId {
      assert all[j] == rows[j - 1];
      if i > 0 {
        assert all[i] == rows[i - 1];
      } else {
        assert rows[j - 1].internalId in RowIds(rows);
      }
    }
  }

  lemma UniqueTail(rows: seq<Punishment>)
    requires UniqueIds(rows) && |rows| > 0
    ensures UniqueIds(rows[1..]) && rows[0].internalId !in RowIds(rows[1..])
  {
    assert forall i :: 0 <= i < |rows[1..]| ==> rows[1..][i] == rows[i + 1];
  }

  lemma HistoryIdsAppend(history: seq<HistoryRecord>, h: HistoryRecord)
    ensures HistoryIds(history + [h]) == HistoryIds(history) + {h.id}
  {
    var all := history + [h];
    forall x | x in HistoryIds(all) ensures x in HistoryIds(history) + {h.id} {
      var i :| 0 <= i < |all| && all[i].id == x;
      if i < |history| {
        assert history[i] == all[i];
      }
    }
    forall x | x in HistoryIds(history) ensures x in HistoryIds(all) {
      var i :| 0 <= i < |history| && history[i].id == x;
      assert all[i] == history[i];
    }
    assert all[|history|] == h;
  }

  /** No internal id occurs twice. */
  predicate UniqueIds(rows: seq<Punishment>) {
    forall i, j :: 0 <= i < j < |rows| ==> rows[i].internalId != rows[j].internalId
  }

  /** The two primary keys hold. */
  predicate Valid(st: Store) {
    && UniqueIds(st.rows)
    && (forall i, j :: 0 <= i < j < |st.history| ==> st.history[i].id != st.history[j].id)
  }

  /** The outcome of a write: the store afterwards, and whether the call
      completed normally (`false` is the `IllegalStateException`). A failed
      call may still have written something. */
  datatype Write = Write(store: Store, ok: bool)

  // ---------------------------------------------------------------------------
  // History

  /** The history key: the internal id, a dash and the epoch milliseconds. */
  function HistoryId(internalId: string, now: Instant): string {
    internalId + "-" + IntToString(now)
  }

  /** For times after the epoch, the history key determines both the
      punishment and the millisecond: the last dash separates them, since the
      time part is all digits. Two actions on one punishment in the same
      millisecond therefore collide. */
  lemma HistoryIdUnique(a: string, b: string, n: Instant, m: Instant)
    requires n >= 0 && m >= 0
    ensures HistoryId(a, n) == HistoryId(b, m) <==> a == b && n == m
  {
    var s := HistoryId(a, n);
    if s == HistoryId(b, m) {
      var ta, tb := IntToString(n), IntToString(m);
      assert s == a + "-" + ta && s == b + "-" + tb;
      if |a| <= |b| {
        OnlyDashAfterDigits(a, ta, |b|);
      } else {
        OnlyDashAfterDigits(b, tb, |a|);
      }
      assert a == s[..|a|] && b == s[..|b|];
      assert ta == s[|a| + 1..] && tb == s[|b| + 1..];
      IntToStringInjective(n, m);
    }
  }

  /** In a key whose time part is all digits, the only dash at or after the
      end of the internal id is the separator. */
  lemma OnlyDashAfterDigits(a: string, t: string, k: int)
    requires AllDigits(t) && |a| <= k < |a| + 1 + |t|
    requires (a + "-" + t)[k] == '-'
    ensures k == |a|
  {
  }

  /** `buildHistory`: the record's fields, the action and the time. The
      source reads the clock twice; one `now` stands for both readings. */
  function BuildHistory(p: Punishment, action: string, now: Instant): (h: HistoryRecord)
    ensures h.id == HistoryId(p.internalId, now) && h.internalId == p.internalId
    ensures h.action == action && h.actionTime == now
    ensures h.uuid == p.uuid && h.kind == p.kind && h.reason == p.reason && h.actor == p.actor
  {
    HistoryRecord(HistoryId(p.internalId, now), p.uuid, p.ip, p.ipHash, p.kind, p.reason, p.actor,
                  p.startTime, p.endTime, p.internalId, action, now)
  }

  /** `insertHistory`: a duplicate key is rejected and nothing is appended. */
  function InsertHistory(st: Store, h: HistoryRecord): (w: Write)
    ensures w.ok <==> h.id !in HistoryIds(st.history)
    ensures w.store.rows == st.rows && w.store.online == st.online
    ensures w.store.history == if w.ok then st.history + [h] else st.history
    ensures Valid(st) ==> Valid(w.store)
  {
    if h.id in HistoryIds(st.history) then Write(st, false)
    else
      var w := Write(st.(history := st.history + [h]), true);
      assert Valid(st) ==> Valid(w.store) by {
        if Valid(st) {
          forall i | 0 <= i < |st.history| ensures st.history[i].id != h.id {
            assert st.history[i].id in HistoryIds(st.history);
          }
        }
      }
      w
  }

  // ---------------------------------------------------------------------------
  // Writes

  /** `addPunishment`: insert the row, then one CREATE history entry. */
  function Add(st: Store, p: Punishment, now: Instant): (w: Write)
    ensures !st.online || p.internalId in RowIds(st.rows) ==> w == Write(st, false)
    ensures st.online && p.internalId !in RowIds(st.rows) ==> w.store.rows == st.rows + [p]
    ensures w.store.history == if w.ok then st.history + [BuildHistory(p, "CREATE", now)] else st.history
    ensures w.store.online == st.online
    ensures Valid(st) ==> Valid(w.store)
  {
    if !st.online || p.internalId in RowIds(st.rows) then Write(st, false)
    else
      var st1 := st.(rows := st.rows + [p]);
      assert Valid(st) ==> Valid(st1) by {
        if Valid(st) {
          forall i | 0 <= i < |st.rows| ensures st.rows[i].internalId != p.internalId {
            assert st.rows[i].internalId in RowIds(st.rows);
          }
        }
      }
      InsertHistory(st1, BuildHistory(p, "CREATE", now))
  }

  /** `UPDATE ... SET active = 0 WHERE internal_id = ?`. */
  function SetInactive(rows: seq<Punishment>, id: string): (r: seq<Punishment>)
    ensures |r| == |rows|
    ensures forall i :: 0 <= i < |rows| ==>
      r[i] == if rows[i].internalId == id then rows[i].(active := false) else rows[i]
  {
    seq(|rows|, i requires 0 <= i < |rows| =>
      if rows[i].internalId == id then rows[i].(active := false) else rows[i])
  }

  /** The history entry `deactivate` writes for the stored row `e`: the row
      with the caller's reason and actor, inactive, under the given action. */
  function RemovalEntry(e: Punishment, actor: string, reason: string, action: string, now: Instant): (h: HistoryRecord)
    ensures h.internalId == e.internalId && h.uuid == e.uuid && h.kind == e.kind
    ensures h.reason == reason && h.actor == actor && h.action == action && h.actionTime == now
  {
    BuildHistory(e.(reason := reason, actor := actor, active := false), action, now)
  }

  /** `deactivate`: look the row up, mark it inactive, and if it existed
      append one history entry carrying the new actor and reason, inactive,
      under the given action. */
  function Deactivate(st: Store, id: string, actor: string, reason: string, action: string, now: Instant): (w: Write)
    ensures !st.online ==> w == Write(st, false)
    ensures w.ok <==> st.online && (id in RowIds(st.rows) ==> HistoryId(id, now) !in HistoryIds(st.history))
    ensures st.online ==> w.store.rows == SetInactive(st.rows, id)
    ensures st.online && id !in RowIds(st.rows) ==> w.ok && w.store.history == st.history
    ensures w.ok && id in RowIds(st.rows) ==>
      var e := FindRow(st.rows, id).value;
      w.store.history == st.history + [RemovalEntry(e, actor, reason, action, now)]
    ensures !w.ok ==> w.store.history == st.history
    ensures w.store.online == st.online
    ensures Valid(st) ==> Valid(w.store)
  {
    if !st.online then Write(st, false)
    else
      var existing := FindRow(st.rows, id);
      var st1 := st.(rows := SetInactive(st.rows, id));
      if existing.None? then Write(st1, true)
      else
        InsertHistory(st1, RemovalEntry(existing.value, actor, reason, action, now))
  }

  // ---------------------------------------------------------------------------
  // Queries

  /** The WHERE clause of the three list queries. Comparing with SQL NULL
      is never true, so a null address or hash matches no row. */
  datatype Key = ByUuid(uuid: Uuid) | ByIp(ip: Option<string>) | ByIpHash(ipHash: Option<string>)

  predicate Matches(key: Key, p: Punishment) {
    p.active &&
    match key
    case ByUuid(u) => p.uuid == u
    case ByIp(ip) => ip.Some? && p.ip == ip
    case ByIpHash(h) => h.Some? && p.ipHash == h
  }

  /** The active rows matching `key`, in store order. */
  function Select(rows: seq<Punishment>, key: Key): (r: seq<Punishment>)
    ensures |r| <= |rows|
    ensures forall p :: p in r <==> p in rows && Matches(key, p)
    ensures RowIds(r) <= RowIds(rows)
    ensures UniqueIds(rows) ==> UniqueIds(r)
  {
    if |rows| == 0 then []
    else
      var rest := Select(rows[1..], key);
      RowIdsCons(rows[0], rows[1..]);
      assert rows == [rows[0]] + rows[1..];
      if Matches(key, rows[0]) then
        RowIdsCons(rows[0], rest);
        assert UniqueIds(rows) ==> UniqueIds([rows[0]] + rest) by {
          if UniqueIds(rows) {
            UniqueTail(rows);
            UniqueCons(rows[0], rest);
          }
        }
        [rows[0]] + rest
      else
        assert UniqueIds(rows) ==> UniqueIds(rest) by {
          if UniqueIds(rows) {
            UniqueTail(rows);
          }
        }
        rest
  }

  /** The first row with the given internal id. */
  function FindRow(rows: seq<Punishment>, id: string): (r: Option<Punishment>)
    ensures r.Some? ==> r.value in rows && r.value.internalId == id
    ensures r.None? <==> id !in RowIds(rows)
  {
    if |rows| == 0 then None
    else if rows[0].internalId == id then Some(rows[0])
    else
      RowIdsCons(rows[0], rows[1..]);
      assert rows == [rows[0]] + rows[1..];
      FindRow(rows[1..], id)
  }

  /** `findActiveByUuid`. */
  function FindActiveByUuid(st: Store, uuid: Uuid): (r: Result<seq<Punishment>, string>)
    ensures r.Success? <==> st.online
    ensures r.Success? ==> forall p :: p in r.value <==> p in st.rows && p.active && p.uuid == uuid
  {
    if !st.online then Failure("Не удалось загрузить список наказаний.")
    else Success(Select(st.rows, ByUuid(uuid)))
  }

  /** `findActiveByIp`: SQL `ip = NULL` matches nothing, so a null address
      finds nothing. */
  function FindActiveByIp(st: Store, ip: Option<string>): (r: Result<seq<Punishment>, string>)
    ensures r.Success? <==> st.online
    ensures r.Success? ==> forall p :: p in r.value <==> p in st.rows && p.active && ip.Some? && p.ip == ip
  {
    if !st.online then Failure("Не удалось загрузить список наказаний.")
    else Success(Select(st.rows, ByIp(ip)))
  }

  /** `findActiveByIpHash`, with the same NULL rule. */
  function FindActiveByIpHash(st: Store, ipHash: Option<string>): (r: Result<seq<Punishment>, string>)
    ensures r.Success? <==> st.online
    ensures r.Success? ==> forall p :: p in r.value <==> p in st.rows && p.active && ipHash.Some? && p.ipHash == ipHash
  {
    if !st.online then Failure("Не удалось загрузить список наказаний.")
    else Success(Select(st.rows, ByIpHash(ipHash)))
  }

  /** `findByInternalId`: empty for an unknown id. */
  function FindByInternalId(st: Store, id: string): (r: Result<Option<Punishment>, string>)
    ensures r.Success? <==> st.online
    ensures r.Success? ==> (r.value.None? <==> id !in RowIds(st.rows))
    ensures r.Success? && r.value.Some? ==> r.value.value in st.rows && r.value.value.internalId == id
  {
    if !st.online then Failure("Не удалось загрузить наказание.") else Success(FindRow(st.rows, id))
  }

  // ---------------------------------------------------------------------------
  // History query: ORDER BY action_time DESC

  predicate SortedByTimeDesc(hs: seq<HistoryRecord>) {
    forall i, j :: 0 <= i < j < |hs| ==> hs[i].actionTime >= hs[j].actionTime
  }

  /** Puts `h` after every entry at least as recent, so equal times keep
      insertion order. */
  function InsertByTime(sorted: seq<HistoryRecord>, h: HistoryRecord): (r: seq<HistoryRecord>)
    requires SortedByTimeDesc(sorted)
    ensures SortedByTimeDesc(r)
    ensures multiset(r) == multiset(sorted) + multiset{h}
    decreases |sorted|
  {
    if |sorted| == 0 then [h]
    else
      var last := sorted[|sorted| - 1];
      if h.actionTime > last.actionTime then
        var init := sorted[..|sorted| - 1];
        var front := InsertByTime(init, h);
        assert sorted == init + [last];
        InsertAfterOlder(init, h, last, front);
        front + [last]
      else
        sorted + [h]
  }

  /** Appending an entry no more recent than everything before it keeps the
      order. */
  lemma InsertAfterOlder(init: seq<HistoryRecord>, h: HistoryRecord, last: HistoryRecord, front: seq<HistoryRecord>)
    requires SortedByTimeDesc(init + [last]) && SortedByTimeDesc(front)
    requires multiset(front) == multiset(init) + multiset{h}
    requires h.actionTime > last.actionTime
    ensures SortedByTimeDesc(front + [last])
  {
    forall k | 0 <= k < |front| ensures front[k].actionTime >= last.actionTime {
      assert front[k] in multiset(front);
      if front[k] != h {
        assert front[k] in multiset(init);
        var m :| 0 <= m < |init| && init[m] == front[k];
        assert (init + [last])[m] == init[m] && (init + [last])[|init|] == last;
      }
    }
  }

  function SortByTimeDesc(hs: seq<HistoryRecord>): (r: seq<HistoryRecord>)
    ensures SortedByTimeDesc(r)
    ensures multiset(r) == multiset(hs)
    decreases |hs|
  {
    if |hs| == 0 then []
    else
      assert hs == hs[..|hs| - 1] + [hs[|hs| - 1]];
      InsertByTime(SortByTimeDesc(hs[..|hs| - 1]), hs[|hs| - 1])
  }

  function HistoryOf(history: seq<HistoryRecord>, uuid: Uuid): (r: seq<HistoryRecord>)
    ensures forall h :: h in r <==> h in history && h.uuid == uuid
    ensures multiset(r) <= multiset(history)
  {
    if |history| == 0 then []
    else
      var rest := HistoryOf(history[1..], uuid);
      assert history == [history[0]] + history[1..];
      if history[0].uuid == uuid then [history[0]] + rest else rest
  }

  /** A history in which every entry belongs to the player is its own
      selection. */
  lemma {:induction false} HistoryOfOwn(history: seq<HistoryRecord>, uuid: Uuid)
    requires forall i :: 0 <= i < |history| ==> history[i].uuid == uuid
    ensures HistoryOf(history, uuid) == history
    decreases |history|
  {
    if |history| > 0 {
      var tail := history[1..];
      forall i | 0 <= i < |tail| ensures tail[i].uuid == uuid {
        assert tail[i] == history[i + 1];
      }
      HistoryOfOwn(tail, uuid);
      assert history == [history[0]] + tail;
    }
  }

  /** `findHistory`: the player's history entries, most recent first. */
  function FindHistory(st: Store, uuid: Uuid): (r: Result<seq<HistoryRecord>, string>)
    ensures r.Success? <==> st.online
    ensures r.Success? ==> SortedByTimeDesc(r.value)
    ensures r.Success? ==> multiset(r.value) == multiset(HistoryOf(st.history, uuid))
    ensures r.Success? ==> |r.value| == |HistoryOf(st.history, uuid)|
    ensures r.Success? ==> forall h :: h in r.value <==> h in st.history && h.uuid == uuid
  {
    if !st.online then Failure("Не удалось загрузить историю наказаний.")
    else
      var r := SortByTimeDesc(HistoryOf(st.history, uuid));
      assert forall h :: h in r <==> h in multiset(r);
      Success(r)
  }

  // ---------------------------------------------------------------------------
  // What the writes do to the queries

  /** After a deactivation, a player's active list is the old one without
      the deactivated punishment; every other record is untouched. */
  lemma DeactivateDropsOnlyThatId(st: Store, id: string, actor: string, reason: string, action: string, now: Instant, uuid: Uuid)
    requires st.online
    ensures var after := Deactivate(st, id, actor, reason, action, now).store;
      forall q :: q in FindActiveByUuid(after, uuid).value <==>
        q in FindActiveByUuid(st, uuid).value && q.internalId != id
  {
    var after := Deactivate(st, id, actor, reason, action, now).store;
    var rows := SetInactive(st.rows, id);
    assert after.rows == rows;
    forall q | q in rows && q.active && q.uuid == uuid
      ensures q in st.rows && q.internalId != id
    {
      var i :| 0 <= i < |rows| && rows[i] == q;
    }
    forall q | q in st.rows && q.active && q.uuid == uuid && q.internalId != id
      ensures q in rows
    {
      var i :| 0 <= i < |st.rows| && st.rows[i] == q;
      assert rows[i] == q;
    }
  }

  /** A deactivated punishment reads back as inactive. */
  lemma DeactivatedReadsInactive(st: Store, id: string, actor: string, reason: string, action: string, now: Instant)
    requires st.online
    ensures var r := FindByInternalId(Deactivate(st, id, actor, reason, action, now).store, id);
      r.Success? && (r.value.Some? ==> !r.value.value.active)
  {
    var rows := SetInactive(st.rows, id);
    var found := FindRow(rows, id);
    if found.Some? {
      var i :| 0 <= i < |rows| && rows[i] == found.value;
    }
  }

  /** A successful add makes an active punishment visible under its player
      and leaves the other active records as they were. */
  lemma AddShowsActive(st: Store, p: Punishment, now: Instant, uuid: Uuid)
    requires st.online && p.internalId !in RowIds(st.rows)
    ensures var after := Add(st, p, now).store;
      forall q :: q in FindActiveByUuid(after, uuid).value <==>
        q in FindActiveByUuid(st, uuid).value || (q == p && p.active && p.uuid == uuid)
  {
  }
}

=== FILE: repository_scenario.dfy ===
/** The life of one player's records in the store, as
    `JdbcPunishmentRepositoryTest` walks through it: a ban and a mute are
    issued, then the mute is lifted. */
module RepositoryScenario {
  import opened Wrappers
  import opened Model
  import opened Repository

  const EMPTY: Store := Store([], [], true)

  /** A ban and a mute of the same player, both active, with different ids. */
  predicate BanAndMute(ban: Punishment, mute: Punishment) {
    && ban.kind == BAN && mute.kind == MUTE
    && ban.uuid == mute.uuid
    && ban.active && mute.active
    && ban.internalId != mute.internalId
  }

  /** Both adds succeed and each writes one CREATE entry. */
  lemma BothAddsSucceed(ban: Punishment, mute: Punishment, t1: Instant, t2: Instant)
    requires BanAndMute(ban, mute) && 0 <= t1 && 0 <= t2
    ensures Add(EMPTY, ban, t1).ok
    ensures Add(Add(EMPTY, ban, t1).store, mute, t2).ok
    ensures Add(Add(EMPTY, ban, t1).store, mute, t2).store == Issued(ban, mute, t1, t2)
  {
    var s1 := Add(EMPTY, ban, t1).store;
    RowIdsAppend([], ban);
    HistoryIdsAppend([], BuildHistory(ban, "CREATE", t1));
    assert s1.rows == [] + [ban] && s1.history == [] + [BuildHistory(ban, "CREATE", t1)];
    HistoryIdUnique(mute.internalId, ban.internalId, t2, t1);
  }

  /** The store after both adds. */
  function Issued(ban: Punishment, mute: Punishment, t1: Instant, t2: Instant): Store {
    Store([ban, mute], [BuildHistory(ban, "CREATE", t1), BuildHistory(mute, "CREATE", t2)], true)
  }

  lemma IssuedActive(ban: Punishment, mute: Punishment, t1: Instant, t2: Instant)
    requires BanAndMute(ban, mute)
    ensures FindActiveByUuid(Issued(ban, mute, t1, t2), ban.uuid).value == [ban, mute]
  {
    var rows := Issued(ban, mute, t1, t2).rows;
    assert rows[1..] == [mute] && rows[1..][1..] == [];
    assert Select(rows[1..], ByUuid(ban.uuid)) == [mute];
  }

  lemma IssuedMuteFound(ban: Punishment, mute: Punishment, t1: Instant, t2: Instant)
    requires BanAndMute(ban, mute)
    ensures FindByInternalId(Issued(ban, mute, t1, t2), mute.internalId).value == Some(mute)
  {
    var rows := Issued(ban, mute, t1, t2).rows;
    assert rows[1..] == [mute];
    assert FindRow(rows[1..], mute.internalId) == Some(mute);
  }

  lemma IssuedHistory(ban: Punishment, mute: Punishment, t1: Instant, t2: Instant)
    requires BanAndMute(ban, mute)
    ensures |FindHistory(Issued(ban, mute, t1, t2), ban.uuid).value| == 2
    ensures forall h :: h in FindHistory(Issued(ban, mute, t1, t2), ban.uuid).value ==> h.action == "CREATE"
  {
    HistoryOfOwn(Issued(ban, mute, t1, t2).history, ban.uuid);
  }

  /** Both records are found active, the mute by its id, and the history
      holds two CREATE entries. */
  lemma IssuedRecordsPersist(ban: Punishment, mute: Punishment, t1: Instant, t2: Instant)
    requires BanAndMute(ban, mute) && 0 <= t1 && 0 <= t2
    ensures var s2 := Add(Add(EMPTY, ban, t1).store, mute, t2).store;
      && FindActiveByUuid(s2, ban.uuid).value == [ban, mute]
      && FindByInternalId(s2, mute.internalId).value == Some(mute)
      && |FindHistory(s2, ban.uuid).value| == 2
      && forall h :: h in FindHistory(s2, ban.uuid).value ==> h.action == "CREATE"
  {
    BothAddsSucceed(ban, mute, t1, t2);
    IssuedActive(ban, mute, t1, t2);
    IssuedMuteFound(ban, mute, t1, t2);
    IssuedHistory(ban, mute, t1, t2);
  }

  /** The store after the mute is lifted at `t3`. */
  function Lifted(ban: Punishment, mute: Punishment, t1: Instant, t2: Instant, t3: Instant,
                  actor: string, reason: string, action: string): Store {
    var lifted := mute.(reason := reason, actor := actor, active := false);
    var s2 := Issued(ban, mute, t1, t2);
    Store([ban, mute.(active := false)], s2.history + [BuildHistory(lifted, action, t3)], true)
  }

  lemma LiftSucceeds(ban: Punishment, mute: Punishment, t1: Instant, t2: Instant, t3: Instant,
                     actor: string, reason: string, action: string)
    requires BanAndMute(ban, mute) && 0 <= t1 && 0 <= t2 && t2 < t3
    ensures Deactivate(Issued(ban, mute, t1, t2), mute.internalId, actor, reason, action, t3)
         == Write(Lifted(ban, mute, t1, t2, t3, actor, reason, action), true)
  {
    var s2 := Issued(ban, mute, t1, t2);
    assert s2.rows[1..] == [mute];
    assert FindRow(s2.rows, mute.internalId) == Some(mute);
    HistoryIdUnique(mute.internalId, ban.internalId, t3, t1);
    HistoryIdUnique(mute.internalId, mute.internalId, t3, t2);
    HistoryIdsAppend([], s2.history[0]);
    HistoryIdsAppend([s2.history[0]], s2.history[1]);
    assert s2.history == [] + [s2.history[0]] + [s2.history[1]];
    assert SetInactive(s2.rows, mute.internalId) == [ban, mute.(active := false)];
  }

  lemma LiftedActive(ban: Punishment, mute: Punishment, t1: Instant, t2: Instant, t3: Instant,
                     actor: string, reason: string, action: string)
    requires BanAndMute(ban, mute)
    ensures FindActiveByUuid(Lifted(ban, mute, t1, t2, t3, actor, reason, action), ban.uuid).value == [ban]
  {
    var rows := Lifted(ban, mute, t1, t2, t3, actor, reason, action).rows;
    assert rows[1..] == [mute.(active := false)] && rows[1..][1..] == [];
    assert Select(rows[1..], ByUuid(ban.uuid)) == [];
  }

  lemma LiftedMuteInactive(ban: Punishment, mute: Punishment, t1: Instant, t2: Instant, t3: Instant,
                           actor: string, reason: string, action: string)
    requires BanAndMute(ban, mute)
    ensures FindByInternalId(Lifted(ban, mute, t1, t2, t3, actor, reason, action), mute.internalId).value
         == Some(mute.(active := false))
  {
    var rows := Lifted(ban, mute, t1, t2, t3, actor, reason, action).rows;
    assert rows[1..] == [mute.(active := false)];
    assert FindRow(rows[1..], mute.internalId) == Some(mute.(active := false));
  }

  lemma LiftedHistory(ban: Punishment, mute: Punishment, t1: Instant, t2: Instant, t3: Instant,
                      actor: string, reason: string, action: string)
    requires BanAndMute(ban, mute)
    ensures var r := FindHistory(Lifted(ban, mute, t1, t2, t3, actor, reason, action), ban.uuid).value;
      && |r| == 3
      && exists h :: h in r && h.action == action && h.internalId == mute.internalId && h.reason == reason
  {
    var hs := Lifted(ban, mute, t1, t2, t3, actor, reason, action).history;
    HistoryOfOwn(hs, ban.uuid);
    assert hs[2] in FindHistory(Lifted(ban, mute, t1, t2, t3, actor, reason, action), ban.uuid).value;
  }

  /** Lifting the mute later leaves only the ban active, stores the mute as
      inactive, and adds a third history entry with the lifting action and
      reason. */
  lemma LiftingMuteKeepsBan(ban: Punishment, mute: Punishment, t1: Instant, t2: Instant, t3: Instant,
                            actor: string, reason: string, action: string)
    requires BanAndMute(ban, mute) && 0 <= t1 && 0 <= t2 && t2 < t3
    ensures var s2 := Add(Add(EMPTY, ban, t1).store, mute, t2).store;
      var w := Deactivate(s2, mute.internalId, actor, reason, action, t3);
      && w.ok
      && FindActiveByUuid(w.store, ban.uuid).value == [ban]
      && FindByInternalId(w.store, mute.internalId).value.Some?
      && !FindByInternalId(w.store, mute.internalId).value.value.active
      && |FindHistory(w.store, ban.uuid).value| == 3
      && exists h :: h in FindHistory(w.store, ban.uuid).value
           && h.action == action && h.internalId == mute.internalId && h.reason == reason
  {
    BothAddsSucceed(ban, mute, t1, t2);
    LiftSucceeds(ban, mute, t1, t2, t3, actor, reason, action);
    LiftedActive(ban, mute, t1, t2, t3, actor, reason, action);
    LiftedMuteInactive(ban, mute, t1, t2, t3, actor, reason, action);
    LiftedHistory(ban, mute, t1, t2, t3, actor, reason, action);
  }
}

=== FILE: rules.dfy ===
/** Which punishment kinds keep a player out. */
module PunishmentRules {
  import opened Model

  predicate IsBanLike(t: PunishmentType) {
    t == BAN || t == TEMPBAN || t == IPBAN
  }

  predicate BlocksLogin(t: PunishmentType) {
    IsBanLike(t) || t == WARN
  }

  /** The kinds split into three classes: bans (which block login), warnings
      (which block login without being bans) and the rest (which block
      nothing). */
  lemma RuleClasses(t: PunishmentType)
    ensures IsBanLike(t) <==> t in {BAN, TEMPBAN, IPBAN}
    ensures IsBanLike(t) ==> BlocksLogin(t)
    ensures BlocksLogin(t) <==> t in {BAN, TEMPBAN, IPBAN, WARN}
    ensures t == MUTE || t == CHECK <==> !BlocksLogin(t)
  {
  }
}

=== FILE: snapshot.dfy ===
/** `ActivePunishment`: an immutable snapshot of one player's active records,
    kept in the order the store returned them. */
module Snapshot {
  import opened Wrappers
  import opened Model

  datatype ActivePunishment = ActivePunishment(records: seq<Punishment>) {

    function All(): seq<Punishment> {
      records
    }

    /** The first record of kind `t`. */
    function Get(t: PunishmentType): (r: Option<Punishment>)
      ensures r.Some? ==> exists i :: IsFirstOfKind(records, t, i) && records[i] == r.value
      ensures r.Some? ==> r.value.kind == t
      ensures r.None? <==> forall i :: 0 <= i < |records| ==> records[i].kind != t
    {
      FirstOfKind(records, t)
    }

    predicate Has(t: PunishmentType) {
      exists i :: 0 <= i < |records| && records[i].kind == t
    }
  }

  /** `rs[i]` is the earliest element of kind `t`. */
  predicate IsFirstOfKind(rs: seq<Punishment>, t: PunishmentType, i: int) {
    0 <= i < |rs| && rs[i].kind == t && forall j :: 0 <= j < i ==> rs[j].kind != t
  }

  /** The first element of `rs` of kind `t`, searching from the front. */
  function FirstOfKind(rs: seq<Punishment>, t: PunishmentType): (r: Option<Punishment>)
    ensures r.Some? ==> r.value.kind == t
    ensures r.Some? ==> exists i :: IsFirstOfKind(rs, t, i) && rs[i] == r.value
    ensures r.None? <==> forall i :: 0 <= i < |rs| ==> rs[i].kind != t
  {
    if |rs| == 0 then None
    else if rs[0].kind == t then
      assert IsFirstOfKind(rs, t, 0);
      Some(rs[0])
    else
      var r := FirstOfKind(rs[1..], t);
      if r.Some? then
        var i :| IsFirstOfKind(rs[1..], t, i) && rs[1..][i] == r.value;
        assert IsFirstOfKind(rs, t, i + 1);
        r
      else r
  }

  /** `has` and `get` agree: a kind is present exactly when `get` finds a
      record. */
  lemma HasIffGet(a: ActivePunishment, t: PunishmentType)
    ensures a.Has(t) <==> a.Get(t).Some?
  {
  }

  /** The snapshot keeps the list it was built from, element for element. */
  lemma AllIsConstructorList(rs: seq<Punishment>)
    ensures ActivePunishment(rs).All() == rs
    ensures forall t :: ActivePunishment(rs).Has(t) <==> exists p :: p in rs && p.kind == t
  {
    forall t ensures ActivePunishment(rs).Has(t) <==> exists p :: p in rs && p.kind == t {
      if exists p :: p in rs && p.kind == t {
        var p :| p in rs && p.kind == t;
        var i :| 0 <= i < |rs| && rs[i] == p;
      }
    }
  }
}

=== FILE: standard_punish.dfy ===
/** `StandardPunishCommand`: `/ban`, `/ipban`, `/mute`, `/warn` and `/idban`.
    The command checks its arguments, refuses a second punishment of the same
    type, issues the request, and after a warning may add an automatic IP ban.
    The command works against the older service interface: the active list
    it reads holds `LegacyRecord`s, and the issue request is the six-argument
    `issuePunishment`. Player lookups (`PlayerResolver`) are inputs. */
module StandardPunish {
  import opened Wrappers
  import opened JavaText
  import opened Model
  import opened PunishmentRules
  import opened PunishmentIdGenerator
  import opened IpHashing
  import opened CommandArgs
  import DurationParser
  import PaperService

  datatype CommandType = BanCommand | IpBanCommand | MuteCommand | WarnCommand | IdBanCommand

  /** The `typeName` each command issues under. */
  function CommandTypeName(t: CommandType): string {
    match t
    case BanCommand => "BAN"
    case IpBanCommand => "IPBAN"
    case MuteCommand => "MUTE"
    case WarnCommand => "WARN"
    case IdBanCommand => "IDBAN"
  }

  function Permission(t: CommandType): string {
    match t
    case BanCommand => "ban.ban"
    case IpBanCommand => "ban.ipban"
    case MuteCommand => "ban.mute"
    case WarnCommand => "ban.warn"
    case IdBanCommand => "ban.idban"
  }

  const FULL_ACCESS: string := "ban.fullaccess"
  const AUTO_ACTOR: string := "Автоматически"
  const AUTO_TYPE_NAME: string := "IPBAN"
  /** Active warnings from which the automatic IP ban follows. */
  const AUTO_IPBAN_WARNS: int := 3

  /** Where the reason starts: a warning has no duration argument. */
  function ReasonStart(t: CommandType): (start: nat)
    ensures t == WarnCommand <==> start == 1
    ensures t != WarnCommand <==> start == 2
  {
    if t == WarnCommand then 1 else 2
  }

  /** The messages the command can stop with before anything is issued. */
  datatype Rejection = PermissionDenied | Usage | PlayerNotFound | BadDuration | MissingReason

  /** The argument checks' verdict: a rejection, or the target, duration and
      trimmed reason of the request. */
  datatype Prepared = Rejected(why: Rejection) | Ready(target: Uuid, durationSeconds: int, reason: string)

  predicate Permitted(t: CommandType, permissions: set<string>) {
    Permission(t) in permissions || FULL_ACCESS in permissions
  }

  /** The synchronous part of `onCommand`, checks in source order. */
  function Prepare(t: CommandType, permissions: set<string>, args: seq<string>,
                   resolve: string -> Option<Uuid>, warnDurationSeconds: int): (r: Prepared)
    ensures r == Rejected(PermissionDenied) <==> !Permitted(t, permissions)
    ensures Permitted(t, permissions) && |args| < 2 ==> r == Rejected(Usage)
    ensures Permitted(t, permissions) && |args| >= 2 && resolve(args[0]).None? ==> r == Rejected(PlayerNotFound)
    ensures r == Rejected(Usage) ==> |args| < 2 || (t != WarnCommand && |args| == 2)
    ensures r == Rejected(BadDuration) <==>
      && Permitted(t, permissions) && t != WarnCommand && |args| >= 3 && resolve(args[0]).Some?
      && DurationParser.ParseToSeconds(args[1]).None?
    ensures r == Rejected(MissingReason) ==> Trim(JoinFrom(args, ReasonStart(t))) == []
    ensures r.Ready? ==>
      && Permitted(t, permissions) && |args| >= 2
      && resolve(args[0]) == Some(r.target)
      && r.reason == Trim(JoinFrom(args, ReasonStart(t))) && r.reason != []
    ensures r.Ready? && t == WarnCommand ==> r.durationSeconds == warnDurationSeconds
    ensures r.Ready? && t != WarnCommand ==>
      |args| >= 3 && DurationParser.ParseToSeconds(args[1]) == Some(r.durationSeconds)
    ensures
      && Permitted(t, permissions) && |args| >= 2 && resolve(args[0]).Some?
      && (t == WarnCommand || (|args| >= 3 && DurationParser.ParseToSeconds(args[1]).Some?))
      && Trim(JoinFrom(args, ReasonStart(t))) != []
      ==> r.Ready?
  {
    if !Permitted(t, permissions) then Rejected(PermissionDenied)
    else if |args| < 2 then Rejected(Usage)
    else
      match resolve(args[0])
      case None => Rejected(PlayerNotFound)
      case Some(target) =>
        var duration: Option<int> :=
          if t == WarnCommand then Some(warnDurationSeconds)
          else if |args| < 3 then None
          else DurationParser.ParseToSeconds(args[1]);
        if t != WarnCommand && |args| < 3 then Rejected(Usage)
        else if duration.None? then Rejected(BadDuration)
        else
          var reason := Trim(JoinFrom(args, ReasonStart(t)));
          if reason == [] then Rejected(MissingReason)
          else Ready(target, duration.value, reason)
  }

  /** A warning is rejected only for its target or its reason: its duration
      comes from the configuration, so the second argument is reason text. */
  lemma WarnNeedsNoDuration(permissions: set<string>, args: seq<string>,
                            resolve: string -> Option<Uuid>, warnDurationSeconds: int)
    requires Permitted(WarnCommand, permissions) && |args| >= 2
    ensures var r := Prepare(WarnCommand, permissions, args, resolve, warnDurationSeconds);
      && r != Rejected(Usage) && r != Rejected(BadDuration)
      && (r.Ready? ==> r.durationSeconds == warnDurationSeconds && |r.reason| > 0)
  {
  }

  /** The same type is already in force: some active record's type name
      equals the command's, ignoring case. */
  predicate AlreadyPunished(active: seq<LegacyRecord>, t: CommandType) {
    exists i :: 0 <= i < |active| && EqualsIgnoreCase(active[i].typeName, CommandTypeName(t))
  }

  /** The six-argument `issuePunishment` call of the older interface. */
  datatype IssueRequest = IssueRequest(
    target: Uuid,
    typeName: string,
    reason: string,
    durationSeconds: int,
    issuedBy: string,
    ip: Option<string>)

  /** The asynchronous part: `active` is the target's active list and `ip`
      their last known address. */
  function Issue(t: CommandType, ready: Prepared, active: seq<LegacyRecord>, issuedBy: string,
                 ip: Option<string>): (r: Option<IssueRequest>)
    requires ready.Ready?
    ensures r.None? <==> AlreadyPunished(active, t)
    ensures r.Some? ==>
      && r.value.target == ready.target && r.value.typeName == CommandTypeName(t)
      && r.value.reason == ready.reason && r.value.durationSeconds == ready.durationSeconds
      && r.value.issuedBy == issuedBy && r.value.ip == ip
  {
    if AlreadyPunished(active, t) then None
    else Some(IssueRequest(ready.target, CommandTypeName(t), ready.reason, ready.durationSeconds, issuedBy, ip))
  }

  /** The whole command: `None` when it stops before issuing anything. */
  function OnCommand(t: CommandType, permissions: set<string>, args: seq<string>,
                     resolve: string -> Option<Uuid>, warnDurationSeconds: int,
                     active: seq<LegacyRecord>, issuedBy: string, ip: Option<string>): (r: Option<IssueRequest>)
    ensures r.Some? ==>
      && Permitted(t, permissions) && |args| >= 2 && resolve(args[0]) == Some(r.value.target)
      && !AlreadyPunished(active, t) && r.value.typeName == CommandTypeName(t)
      && r.value.reason != [] && r.value.reason == Trim(JoinFrom(args, ReasonStart(t)))
    ensures r.Some? && t == WarnCommand ==> r.value.durationSeconds == warnDurationSeconds
    ensures r.Some? && t != WarnCommand ==> DurationParser.ParseToSeconds(args[1]) == Some(r.value.durationSeconds)
    ensures Permitted(t, permissions) && |args| < 2 ==> r.None?
    ensures AlreadyPunished(active, t) ==> r.None?
  {
    var ready := Prepare(t, permissions, args, resolve, warnDurationSeconds);
    if ready.Rejected? then None else Issue(t, ready, active, issuedBy, ip)
  }

  /** What `handlePostIssue` tells the target. */
  datatype FollowUp = KickIfOnline | SendMuteMessage | SendWarnMessage

  function PostIssue(t: CommandType): (f: FollowUp)
    ensures f == SendMuteMessage <==> t == MuteCommand
    ensures f == SendWarnMessage <==> t == WarnCommand
  {
    match t
    case BanCommand => KickIfOnline
    case IpBanCommand => KickIfOnline
    case IdBanCommand => KickIfOnline
    case MuteCommand => SendMuteMessage
    case WarnCommand => SendWarnMessage
  }

  /** A kick follows exactly the commands whose type is a ban: those the
      punishment rules call ban-like, and the ID ban, which the newer type
      list does not know. */
  lemma KickFollowsBans(t: CommandType)
    ensures PostIssue(t) == KickIfOnline <==>
      t == IdBanCommand || (ParseType(CommandTypeName(t)).Some? && IsBanLike(ParseType(CommandTypeName(t)).value))
    ensures ParseType(CommandTypeName(IdBanCommand)).None?
  {
  }

  /** The automatic IP ban after a warning: `activeWarns` is the count
      `countActiveWarns` reports once the warning is stored. */
  function AutoIpBan(t: CommandType, target: Uuid, activeWarns: int, ip: Option<string>,
                     autoReason: string): (r: Option<IssueRequest>)
    ensures r.Some? <==> t == WarnCommand && activeWarns >= AUTO_IPBAN_WARNS && ip.Some?
    ensures r.Some? ==>
      && r.value.target == target && r.value.typeName == AUTO_TYPE_NAME && r.value.durationSeconds == 0
      && r.value.issuedBy == AUTO_ACTOR && r.value.reason == autoReason && r.value.ip == ip
  {
    if t == WarnCommand && activeWarns >= AUTO_IPBAN_WARNS && ip.Some? then
      Some(IssueRequest(target, AUTO_TYPE_NAME, autoReason, 0, AUTO_ACTOR, ip))
    else None
  }

  /** The automatic IP ban is permanent: under the older record it has no
      expiry, and built as the newer record it is an IP ban without an end
      time, filed in the permanent id category. */
  lemma AutoIpBanPermanent(target: Uuid, activeWarns: int, ip: Option<string>, autoReason: string,
                           id: string, issuedAt: Instant, now: Instant, draws: seq<int>,
                           sha256: string -> Digest)
    requires ValidDraws(draws)
    requires AutoIpBan(WarnCommand, target, activeWarns, ip, autoReason).Some?
    ensures var q := AutoIpBan(WarnCommand, target, activeWarns, ip, autoReason).value;
      var legacy := LegacyRecord(id, q.target, q.typeName, q.reason, q.durationSeconds, q.issuedBy,
                                 issuedAt, q.ip, true, false);
      && legacy.IsPermanent() && legacy.ExpiresAt().None?
      && var p := PaperService.IssuePunishment(q.target, q.typeName, q.reason, q.durationSeconds,
                                               q.issuedBy, q.ip, false, false, now, draws, sha256);
         p.Some? && p.value.kind == IPBAN && IsBanLike(p.value.kind) && p.value.endTime.None?
         && p.value.internalId == Generate(PaperService.PERMANENT_CATEGORY, draws)
  {
    var q := AutoIpBan(WarnCommand, target, activeWarns, ip, autoReason).value;
    assert ToUpper(q.typeName) == "IPBAN";
  }
}

=== FILE: sync_payload.dfy ===
/** The plugin message the Paper server sends the proxy after a punishment
    (`VelocityMessenger`) and the proxy's reading of it
    (`PluginBansVelocity.onPluginMessage`). The payload is three strings,
    each framed by `DataOutput.writeUTF`: a two-byte big-endian length, then
    the string's UTF-16 code units in the "modified UTF-8" of the
    `java.io.DataInput` documentation (U+0000 takes two bytes, every unit at
    most three, surrogates encoded one by one). */
module SyncPayload {
  import opened Wrappers
  import opened Model
  import opened IpHashing

  /** Both sides name the channel with this one constant. */
  const CHANNEL: string := "pluginbans:sync"
  /** The action tag, the first string of every payload. */
  const TAG: string := "НАКАЗАНИЕ"
  /** The largest body `writeUTF` accepts. */
  const MAX_UTF_LENGTH: int := 65535

  /** A Java `char`: one UTF-16 code unit. */
  type Unit = x: int | 0 <= x < 0x1_0000

  // ---------------------------------------------------------------------------
  // UTF-16

  /** A Java string's code units: one per character of the Basic
      Multilingual Plane, a surrogate pair for the others. */
  function CharUnits(c: char): (r: seq<Unit>)
    ensures 1 <= |r| <= 2
    ensures |r| == 1 <==> (c as int) < 0x1_0000
    ensures |r| == 1 ==> r[0] == c as int && !(0xD800 <= r[0] < 0xE000)
    ensures |r| == 2 ==> 0xD800 <= r[0] < 0xDC00 && 0xDC00 <= r[1] < 0xE000
  {
    var v := c as int;
    if v < 0x1_0000 then [v]
    else [0xD800 + (v - 0x1_0000) / 0x400, 0xDC00 + (v - 0x1_0000) % 0x400]
  }

  function Utf16(s: string): (r: seq<Unit>)
    ensures |r| >= |s|
    decreases |s|
  {
    if |s| == 0 then [] else CharUnits(s[0]) + Utf16(s[1..])
  }

  /** The characters back from well-formed code units; `None` for a lone
      surrogate. */
  function FromUtf16(us: seq<Unit>): (r: Option<string>)
    decreases |us|
  {
    if |us| == 0 then Some([])
    else if us[0] < 0xD800 || 0xE000 <= us[0] then
      match FromUtf16(us[1..])
      case None => None
      case Some(rest) => Some([us[0] as char] + rest)
    else if us[0] < 0xDC00 && |us| >= 2 && 0xDC00 <= us[1] < 0xE000 then
      var v := 0x1_0000 + (us[0] as int - 0xD800) * 0x400 + (us[1] as int - 0xDC00);
      match FromUtf16(us[2..])
      case None => None
      case Some(rest) => Some([v as char] + rest)
    else None
  }

  /** One character's units decode back to it. */
  lemma CharRoundTrip(c: char, rest: seq<Unit>)
    ensures FromUtf16(CharUnits(c) + rest) ==
      (match FromUtf16(rest) case None => None case Some(t) => Some([c] + t))
  {
    var us := CharUnits(c) + rest;
    var v := c as int;
    if v < 0x1_0000 {
      assert us[1..] == rest;
    } else {
      var hi := (v - 0x1_0000) / 0x400;
      var lo := (v - 0x1_0000) % 0x400;
      assert v == 0x1_0000 + hi * 0x400 + lo;
      assert us[2..] == rest;
      assert (0x1_0000 + (us[0] as int - 0xD800) * 0x400 + (us[1] as int - 0xDC00)) as char == c;
    }
  }

  /** UTF-16 loses nothing: the characters come back. */
  lemma {:induction false} Utf16RoundTrip(s: string)
    ensures FromUtf16(Utf16(s)) == Some(s)
    decreases |s|
  {
    if |s| > 0 {
      Utf16RoundTrip(s[1..]);
      CharRoundTrip(s[0], Utf16(s[1..]));
      assert [s[0]] + s[1..] == s;
    }
  }

  /** Hence two strings with the same code units are the same string. */
  lemma Utf16Injective(s: string, t: string)
    ensures Utf16(s) == Utf16(t) <==> s == t
  {
    if Utf16(s) == Utf16(t) {
      Utf16RoundTrip(s);
      Utf16RoundTrip(t);
    }
  }

  // ---------------------------------------------------------------------------
  // Modified UTF-8

  /** The bytes `writeUTF` writes for one code unit. */
  function EncodeUnit(u: Unit): (r: seq<Byte>)
    ensures 1 <= |r| <= 3
    ensures |r| == 1 <==> 0x01 <= u <= 0x7F
    ensures |r| == 2 <==> u == 0 || 0x80 <= u <= 0x7FF
  {
    if 0x01 <= u <= 0x7F then [u]
    else if u <= 0x7FF then [0xC0 + u / 64, 0x80 + u % 64]
    else [0xE0 + u / 4096, 0x80 + (u / 64) % 64, 0x80 + u % 64]
  }

  function EncodeUnits(us: seq<Unit>): (r: seq<Byte>)
    ensures |r| >= |us|
    decreases |us|
  {
    if |us| == 0 then [] else EncodeUnit(us[0]) + EncodeUnits(us[1..])
  }

  /** `writeUTF`: the body's length in two big-endian bytes, then the body;
      `None` where Java throws `UTFDataFormatException` for a body longer
      than 65535 bytes. */
  function WriteUtf(us: seq<Unit>): (r: Option<seq<Byte>>)
    ensures r.Some? <==> |EncodeUnits(us)| <= MAX_UTF_LENGTH
    ensures r.Some? ==> |r.value| == 2 + |EncodeUnits(us)| && r.value[2..] == EncodeUnits(us)
    ensures r.Some? ==> r.value[0] as int * 256 + r.value[1] as int == |EncodeUnits(us)|
  {
    var body := EncodeUnits(us);
    if |body| > MAX_UTF_LENGTH then None
    else Some([|body| / 256, |body| % 256] + body)
  }

  function Prepend(u: Unit, r: Option<seq<Unit>>): Option<seq<Unit>> {
    match r
    case None => None
    case Some(rest) => Some([u] + rest)
  }

  /** The decoding loop of `readUTF`: a byte whose top nibble is 0-7 is a
      unit by itself, 12 or 13 opens a two-byte unit and 14 a three-byte one,
      each continuation byte must be `10xxxxxx`; anything else is malformed
      (`None`). Overlong forms are accepted, as Java accepts them. */
  function DecodeUnits(b: seq<Byte>): (r: Option<seq<Unit>>)
    ensures r.Some? ==> |r.value| <= |b|
    decreases |b|
  {
    if |b| == 0 then Some([])
    else
      var c := b[0];
      if c / 16 <= 7 then Prepend(c, DecodeUnits(b[1..]))
      else if c / 16 == 12 || c / 16 == 13 then
        if |b| < 2 || b[1] / 64 != 2 then None
        else Prepend((c as int % 32) * 64 + b[1] as int % 64, DecodeUnits(b[2..]))
      else if c / 16 == 14 then
        if |b| < 3 || b[1] / 64 != 2 || b[2] / 64 != 2 then None
        else Prepend((c as int % 16) * 4096 + (b[1] as int % 64) * 64 + b[2] as int % 64, DecodeUnits(b[3..]))
      else None
  }

  lemma TwoByteUnit(u: Unit, rest: seq<Byte>)
    requires u == 0 || 0x80 <= u <= 0x7FF
    ensures DecodeUnits(EncodeUnit(u) + rest) == Prepend(u, DecodeUnits(rest))
  {
    var b := EncodeUnit(u) + rest;
    var q := u / 64;
    var r := u % 64;
    assert u == 64 * q + r && 0 <= q < 32;
    assert b[0] == 192 + q && b[1] == 128 + r;
    assert b[0] / 16 == 12 || b[0] / 16 == 13;
    assert b[0] % 32 == q;
    assert b[2..] == rest;
  }

  lemma ThreeByteUnit(u: Unit, rest: seq<Byte>)
    requires 0x800 <= u
    ensures DecodeUnits(EncodeUnit(u) + rest) == Prepend(u, DecodeUnits(rest))
  {
    var b := EncodeUnit(u) + rest;
    var q := u / 64;
    var r := u % 64;
    var hi := q / 64;
    var mid := q % 64;
    assert u == 64 * q + r;
    assert q == 64 * hi + mid;
    assert u == 4096 * hi + 64 * mid + r;
    assert u / 4096 == hi;
    assert 0 <= hi < 16;
    assert b[0] == 224 + hi && b[1] == 128 + mid && b[2] == 128 + r;
    assert b[0] / 16 == 14 && b[0] % 16 == hi;
    assert b[3..] == rest;
  }

  /** One unit's bytes decode back to it, whatever follows. */
  lemma UnitRoundTrip(u: Unit, rest: seq<Byte>)
    ensures DecodeUnits(EncodeUnit(u) + rest) == Prepend(u, DecodeUnits(rest))
  {
    if 0x01 <= u <= 0x7F {
      assert (EncodeUnit(u) + rest)[1..] == rest;
    } else if u <= 0x7FF {
      TwoByteUnit(u, rest);
    } else {
      ThreeByteUnit(u, rest);
    }
  }

  /** Modified UTF-8 loses nothing. */
  lemma {:induction false} DecodeEncodeUnits(us: seq<Unit>)
    ensures DecodeUnits(EncodeUnits(us)) == Some(us)
    decreases |us|
  {
    if |us| > 0 {
      DecodeEncodeUnits(us[1..]);
      UnitRoundTrip(us[0], EncodeUnits(us[1..]));
      assert [us[0]] + us[1..] == us;
    }
  }

  /** `readUTF`: the string and the bytes after it; `None` where Java throws
      (`EOFException` for a short input, `UTFDataFormatException` for
      malformed bytes). */
  function ReadUtf(b: seq<Byte>): (r: Option<(seq<Unit>, seq<Byte>)>)
    ensures |b| < 2 ==> r.None?
    ensures r.Some? ==> |r.value.1| <= |b| - 2
    ensures r.Some? ==> b == b[..|b| - |r.value.1|] + r.value.1
  {
    if |b| < 2 then None
    else
      var len := b[0] as int * 256 + b[1] as int;
      if |b| < 2 + len then None
      else
        match DecodeUnits(b[2..2 + len])
        case None => None
        case Some(us) => Some((us, b[2 + len..]))
  }

  /** What `writeUTF` framed, `readUTF` reads back, leaving what follows. */
  lemma ReadWriteUtf(us: seq<Unit>, rest: seq<Byte>)
    requires WriteUtf(us).Some?
    ensures ReadUtf(WriteUtf(us).value + rest) == Some((us, rest))
  {
    var frame := WriteUtf(us).value;
    var b := frame + rest;
    var len := |EncodeUnits(us)|;
    assert b[0] as int * 256 + b[1] as int == len;
    assert b[2..2 + len] == EncodeUnits(us);
    assert b[2 + len..] == rest;
    DecodeEncodeUnits(us);
  }

  // ---------------------------------------------------------------------------
  // The payload

  /** `buildPayload`: tag, uuid and id, each framed; `None` where Java
      throws `IllegalStateException` (an id too long to frame). */
  function BuildPayload(record: LegacyRecord): (r: Option<seq<Byte>>)
    ensures r.Some? <==>
      WriteUtf(Utf16(TAG)).Some? && WriteUtf(Utf16(record.uuid)).Some? && WriteUtf(Utf16(record.id)).Some?
    ensures r.Some? ==>
      r.value == WriteUtf(Utf16(TAG)).value + WriteUtf(Utf16(record.uuid)).value + WriteUtf(Utf16(record.id)).value
  {
    var tag :- WriteUtf(Utf16(TAG));
    var uuid :- WriteUtf(Utf16(record.uuid));
    var id :- WriteUtf(Utf16(record.id));
    Some(tag + uuid + id)
  }

  /** The frame of the tag: nine Cyrillic units of two bytes each, so a
      length of 18 in two bytes and 18 bytes of body. */
  lemma TagFrame()
    ensures WriteUtf(Utf16(TAG)).Some?
    ensures |WriteUtf(Utf16(TAG)).value| == 20
    ensures WriteUtf(Utf16(TAG)).value[..2] == [0, 18]
  {
    TagUnits();
    TwoByteFrame(Utf16(TAG));
  }

  /** Nine two-byte units frame as a length of 18 and 18 bytes of body. */
  lemma TwoByteFrame(us: seq<Unit>)
    requires |us| == 9 && forall i :: 0 <= i < |us| ==> 0x80 <= us[i] <= 0x7FF
    ensures WriteUtf(us).Some? && |WriteUtf(us).value| == 20 && WriteUtf(us).value[..2] == [0, 18]
  {
    TwoByteUnits(us);
    ShortFrame(us);
  }

  /** A body shorter than 256 bytes: a zero byte, then its length. */
  lemma ShortFrame(us: seq<Unit>)
    requires |EncodeUnits(us)| < 256
    ensures WriteUtf(us) == Some([0, |EncodeUnits(us)|] + EncodeUnits(us))
  {
  }

  lemma TagUnits()
    ensures Utf16(TAG) == [0x41D, 0x410, 0x41A, 0x410, 0x417, 0x410, 0x41D, 0x418, 0x415]
  {
    BmpUnits(TAG);
  }

  /** A string of the Basic Multilingual Plane is one unit per character. */
  lemma {:induction false} BmpUnits(s: string)
    requires forall i :: 0 <= i < |s| ==> (s[i] as int) < 0x1_0000
    ensures |Utf16(s)| == |s| && forall i :: 0 <= i < |s| ==> Utf16(s)[i] == s[i] as int
    decreases |s|
  {
    if |s| > 0 {
      BmpUnits(s[1..]);
    }
  }

  /** Units from U+0080 to U+07FF take two bytes each. */
  lemma {:induction false} TwoByteUnits(us: seq<Unit>)
    requires forall i :: 0 <= i < |us| ==> 0x80 <= us[i] <= 0x7FF
    ensures |EncodeUnits(us)| == 2 * |us|
    decreases |us|
  {
    if |us| > 0 {
      TwoByteUnits(us[1..]);
    }
  }

  /** What the proxy makes of a plugin message. */
  datatype SyncAction =
    | Ignored
      /** `readUTF` threw; the handler rethrows as `IllegalStateException`. */
    | Failed
      /** Look the player up by this uuid text and re-check their login. */
    | Recheck(uuidUnits: seq<Unit>)

  /** `onPluginMessage`, up to `UUID.fromString`: other channels and other
      tags are ignored, and only the first two strings are read. */
  function OnPluginMessage(channel: string, data: seq<Byte>): (r: SyncAction)
    ensures channel != CHANNEL ==> r == Ignored
    ensures r.Recheck? ==>
      && channel == CHANNEL && ReadUtf(data).Some? && ReadUtf(data).value.0 == Utf16(TAG)
      && ReadUtf(ReadUtf(data).value.1).Some?
      && r.uuidUnits == ReadUtf(ReadUtf(data).value.1).value.0
    ensures channel == CHANNEL && ReadUtf(data).None? ==> r == Failed
  {
    if channel != CHANNEL then Ignored
    else
      match ReadUtf(data)
      case None => Failed
      case Some((action, rest)) =>
        if action != Utf16(TAG) then Ignored
        else
          match ReadUtf(rest)
          case None => Failed
          case Some((uuid, _)) => Recheck(uuid)
  }

  /** The round trip: whatever the proxy decodes from a payload the Paper
      server built is the record's uuid; the id that follows is never read. */
  lemma PayloadRoundTrip(record: LegacyRecord)
    requires BuildPayload(record).Some?
    ensures OnPluginMessage(CHANNEL, BuildPayload(record).value) == Recheck(Utf16(record.uuid))
    ensures FromUtf16(Utf16(record.uuid)) == Some(record.uuid)
  {
    ReadFrames(Utf16(TAG), Utf16(record.uuid), Utf16(record.id));
    Utf16RoundTrip(record.uuid);
  }

  /** Three frames in a row: the first read gives the first string and the
      two frames after it, the second read the second string. */
  lemma ReadFrames(a: seq<Unit>, b: seq<Unit>, c: seq<Unit>)
    requires WriteUtf(a).Some? && WriteUtf(b).Some? && WriteUtf(c).Some?
    ensures ReadUtf(WriteUtf(a).value + WriteUtf(b).value + WriteUtf(c).value)
         == Some((a, WriteUtf(b).value + WriteUtf(c).value))
    ensures ReadUtf(WriteUtf(b).value + WriteUtf(c).value) == Some((b, WriteUtf(c).value))
  {
    var fa, fb, fc := WriteUtf(a).value, WriteUtf(b).value, WriteUtf(c).value;
    assert fa + fb + fc == fa + (fb + fc);
    ReadWriteUtf(a, fb + fc);
    ReadWriteUtf(b, fc);
  }

  /** A message that opens with another tag is ignored, whatever follows. */
  lemma OtherTagIgnored(tag: string, rest: seq<Byte>)
    requires tag != TAG && WriteUtf(Utf16(tag)).Some?
    ensures OnPluginMessage(CHANNEL, WriteUtf(Utf16(tag)).value + rest) == Ignored
  {
    ReadWriteUtf(Utf16(tag), rest);
    Utf16Injective(tag, TAG);
  }

  /** One plugin message, as `Player.sendPluginMessage` sends it. */
  datatype Message = Message(player: Uuid, channel: string, payload: seq<Byte>)

  /** `sendPunishment`: `None` where building the payload throws. */
  function SendPunishment(online: seq<Uuid>, record: LegacyRecord): (r: Option<seq<Message>>)
    ensures |online| == 0 ==> r == Some([])
    ensures |online| > 0 ==> (r.Some? <==> BuildPayload(record).Some?)
    ensures r.Some? ==> |r.value| == |online|
    ensures r.Some? ==> forall i :: 0 <= i < |r.value| ==>
      r.value[i] == Message(online[i], CHANNEL, BuildPayload(record).value)
  {
    if |online| == 0 then Some([])
    else
      match BuildPayload(record)
      case None => None
      case Some(payload) => Some(seq(|online|, i requires 0 <= i < |online| => Message(online[i], CHANNEL, payload)))
  }

  /** With nobody online nothing is built, so even a record whose payload
      cannot be framed sends nothing and fails nothing; otherwise every
      player gets the same bytes, and the proxy reads the uuid from them. */
  lemma EveryPlayerSameUuid(online: seq<Uuid>, record: LegacyRecord, i: int, j: int)
    requires SendPunishment(online, record).Some?
    requires 0 <= i < |online| && 0 <= j < |online|
    ensures var sent := SendPunishment(online, record).value;
      && sent[i].payload == sent[j].payload
      && OnPluginMessage(sent[i].channel, sent[i].payload) == Recheck(Utf16(record.uuid))
  {
    PayloadRoundTrip(record);
  }
}

=== FILE: throttle.dfy ===
/** `ConnectionThrottle`: the proxy admits at most `maxConnections`
    connection attempts per address within a sliding window of
    `windowSeconds`. Each address has a queue of the epoch seconds of its
    admitted attempts; an attempt first drops from the front the entries
    older than the window, then is admitted only while the queue is short
    enough. The clock reading is an input. */
module ConnectionThrottle {
  import opened Wrappers

  /** The throttle: its two clamped limits and one queue per address seen. */
  datatype Throttle = Throttle(maxConnections: int, windowSeconds: int, attempts: map<string, seq<int>>)

  /** The constructor: both limits are at least one. */
  function New(maxConnections: int, windowSeconds: int): (t: Throttle)
    ensures t.maxConnections >= 1 && t.windowSeconds >= 1 && t.attempts == map[]
    ensures maxConnections >= 1 ==> t.maxConnections == maxConnections
    ensures windowSeconds >= 1 ==> t.windowSeconds == windowSeconds
    ensures maxConnections < 1 ==> t.maxConnections == 1
    ensures windowSeconds < 1 ==> t.windowSeconds == 1
  {
    Throttle(if maxConnections < 1 then 1 else maxConnections,
             if windowSeconds < 1 then 1 else windowSeconds,
             map[])
  }

  /** Limits as the constructor leaves them, and no queue longer than the
      limit. */
  predicate Valid(t: Throttle) {
    && t.maxConnections >= 1 && t.windowSeconds >= 1
    && forall ip :: ip in t.attempts ==> |t.attempts[ip]| <= t.maxConnections
  }

  /** The `while` loop: entries leave from the front while they are more
      than `window` seconds old. */
  function Prune(q: seq<int>, now: int, window: int): (r: seq<int>)
    ensures |r| <= |q| && r == q[|q| - |r|..]
    ensures forall i :: 0 <= i < |q| - |r| ==> now - q[i] > window
    ensures |r| > 0 ==> now - r[0] <= window
    decreases |q|
  {
    if |q| > 0 && now - q[0] > window then
      var r := Prune(q[1..], now, window);
      assert forall i :: 1 <= i < |q| ==> q[i] == q[1..][i - 1];
      r
    else q
  }

  /** One attempt against one address's queue: the verdict and the queue
      afterwards. A refused attempt still leaves the queue pruned. */
  function Step(q: seq<int>, now: int, maxConnections: int, window: int): (r: (bool, seq<int>))
    ensures r.0 <==> |Prune(q, now, window)| < maxConnections
    ensures r.0 ==> r.1 == Prune(q, now, window) + [now]
    ensures !r.0 ==> r.1 == Prune(q, now, window)
    ensures |q| <= maxConnections ==> |r.1| <= maxConnections
  {
    var pruned := Prune(q, now, window);
    if |pruned| >= maxConnections then (false, pruned) else (true, pruned + [now])
  }

  /** `tryAcquire`: the verdict, with the throttle afterwards. */
  function TryAcquire(t: Throttle, ip: string, now: int): (r: (Throttle, bool))
    ensures r.0.maxConnections == t.maxConnections && r.0.windowSeconds == t.windowSeconds
    ensures ip in r.0.attempts
    ensures var q := if ip in t.attempts then t.attempts[ip] else [];
      r.1 <==> |Prune(q, now, t.windowSeconds)| < t.maxConnections
    ensures forall other :: other != ip ==>
      (other in r.0.attempts <==> other in t.attempts)
      && (other in t.attempts ==> r.0.attempts[other] == t.attempts[other])
    ensures Valid(t) ==> Valid(r.0)
  {
    var q := if ip in t.attempts then t.attempts[ip] else [];
    var step := Step(q, now, t.maxConnections, t.windowSeconds);
    (t.(attempts := t.attempts[ip := step.1]), step.0)
  }

  // ---------------------------------------------------------------------------
  // The sliding-window guarantee

  /** The entries of `ts` within `window` seconds before `now`. */
  function Recent(ts: seq<int>, now: int, window: int): (r: seq<int>)
    ensures |r| <= |ts|
    decreases |ts|
  {
    if |ts| == 0 then []
    else if now - ts[0] <= window then [ts[0]] + Recent(ts[1..], now, window)
    else Recent(ts[1..], now, window)
  }

  predicate Sorted(ts: seq<int>) {
    forall i, j :: 0 <= i < j < |ts| ==> ts[i] <= ts[j]
  }

  /** A queue none of whose entries is too old is its own recent part. */
  lemma {:induction false} RecentAll(ts: seq<int>, now: int, window: int)
    requires forall i :: 0 <= i < |ts| ==> now - ts[i] <= window
    ensures Recent(ts, now, window) == ts
    decreases |ts|
  {
    if |ts| > 0 {
      RecentAll(ts[1..], now, window);
    }
  }

  /** On a sorted queue, pruning from the front is filtering by age. */
  lemma {:induction false} PruneIsRecent(q: seq<int>, now: int, window: int)
    requires Sorted(q)
    ensures Prune(q, now, window) == Recent(q, now, window)
    decreases |q|
  {
    if |q| > 0 {
      if now - q[0] > window {
        PruneIsRecent(q[1..], now, window);
      } else {
        RecentAll(q, now, window);
      }
    }
  }

  lemma {:induction false} RecentSnoc(ts: seq<int>, x: int, now: int, window: int)
    ensures Recent(ts + [x], now, window) == Recent(ts, now, window) + (if now - x <= window then [x] else [])
    decreases |ts|
  {
    if |ts| == 0 {
      assert ts + [x] == [x];
    } else {
      assert (ts + [x])[1..] == ts[1..] + [x];
      RecentSnoc(ts[1..], x, now, window);
    }
  }

  /** Filtering by a later clock after an earlier one is filtering by the
      later one. */
  lemma {:induction false} RecentLater(ts: seq<int>, earlier: int, now: int, window: int)
    requires earlier <= now
    ensures Recent(Recent(ts, earlier, window), now, window) == Recent(ts, now, window)
    decreases |ts|
  {
    if |ts| > 0 {
      RecentLater(ts[1..], earlier, now, window);
    }
  }

  lemma {:induction false} RecentSorted(ts: seq<int>, now: int, window: int)
    requires Sorted(ts)
    ensures Sorted(Recent(ts, now, window))
    ensures forall y :: y in Recent(ts, now, window) ==> y in ts
    decreases |ts|
  {
    if |ts| > 0 {
      RecentSorted(ts[1..], now, window);
      var rest := Recent(ts[1..], now, window);
      assert forall y :: y in rest ==> y in ts[1..];
      assert forall y :: y in ts[1..] ==> ts[0] <= y;
      if now - ts[0] <= window {
        var r := [ts[0]] + rest;
        forall i, j | 0 <= i < j < |r| ensures r[i] <= r[j] {
          assert r[j] == rest[j - 1] && r[j] in rest;
          if i > 0 {
            assert r[i] == rest[i - 1];
          }
        }
      }
    }
  }

  predicate NonDecreasing(times: seq<int>) {
    forall i, j :: 0 <= i < j < |times| ==> times[i] <= times[j]
  }

  /** The times of the admitted attempts. */
  function Admitted(times: seq<int>, verdicts: seq<bool>): (r: seq<int>)
    requires |verdicts| == |times|
    ensures |r| <= |times|
    ensures forall y :: y in r ==> y in times
    decreases |times|
  {
    if |times| == 0 then []
    else
      var init := Admitted(times[..|times| - 1], verdicts[..|verdicts| - 1]);
      assert forall y :: y in init ==> y in times;
      if verdicts[|verdicts| - 1] then init + [times[|times| - 1]] else init
  }

  /** Successive attempts from one address, at the given times, against a
      queue that starts empty: the verdicts and the final queue. */
  function Run(times: seq<int>, maxConnections: int, window: int): (r: (seq<bool>, seq<int>))
    ensures |r.0| == |times|
    decreases |times|
  {
    if |times| == 0 then ([], [])
    else
      var before := Run(times[..|times| - 1], maxConnections, window);
      var step := Step(before.1, times[|times| - 1], maxConnections, window);
      (before.0 + [step.0], step.1)
  }

  /** One more attempt at the end of a run. */
  lemma RunSnoc(times: seq<int>, maxConnections: int, window: int)
    requires |times| > 0
    ensures var n := |times|;
      var before := Run(times[..n - 1], maxConnections, window);
      var step := Step(before.1, times[n - 1], maxConnections, window);
      var r := Run(times, maxConnections, window);
      && r.1 == step.1 && r.0[n - 1] == step.0
      && Admitted(times, r.0) ==
           (var earlier := Admitted(times[..n - 1], before.0);
            if step.0 then earlier + [times[n - 1]] else earlier)
  {
    var n := |times|;
    var before := Run(times[..n - 1], maxConnections, window);
    var r := Run(times, maxConnections, window);
    assert r.0[..n - 1] == before.0;
  }

  lemma SortedSnoc(a: seq<int>, x: int)
    requires Sorted(a) && forall y :: y in a ==> y <= x
    ensures Sorted(a + [x])
  {
    var b := a + [x];
    forall i, j | 0 <= i < j < |b| ensures b[i] <= b[j] {
      assert b[i] == a[i] && b[i] in a;
      if j < |a| {
        assert b[j] == a[j];
      }
    }
  }

  /** With a clock that never goes back, every earlier admission is no
      later than the current attempt. */
  lemma EarlierNotLater(times: seq<int>, verdicts: seq<bool>, now: int)
    requires |verdicts| == |times|
    requires forall k :: 0 <= k < |times| ==> times[k] <= now
    ensures forall y :: y in Admitted(times, verdicts) ==> y <= now
  {
  }

  /** What the queue holds after a run with a clock that never goes back:
      exactly the admitted attempts that are recent at the last attempt. */
  lemma {:induction false} RunQueue(times: seq<int>, maxConnections: int, window: int)
    requires window >= 0
    requires NonDecreasing(times) && |times| > 0
    ensures QueueIsRecent(times, maxConnections, window)
    decreases |times|
  {
    var init := times[..|times| - 1];
    if |times| > 1 {
      NonDecreasingInit(times);
      RunQueue(init, maxConnections, window);
    }
    RunQueueStep(times, maxConnections, window);
  }

  /** After a run, the admitted times are sorted and the queue holds those
      of them that are recent at the last attempt. */
  predicate QueueIsRecent(times: seq<int>, maxConnections: int, window: int)
    requires |times| > 0
  {
    var r := Run(times, maxConnections, window);
    var admitted := Admitted(times, r.0);
    Sorted(admitted) && r.1 == Recent(admitted, times[|times| - 1], window)
  }

  /** One more attempt at the end of a run keeps the queue equal to the
      recent admitted attempts. */
  lemma RunQueueStep(times: seq<int>, maxConnections: int, window: int)
    requires window >= 0
    requires NonDecreasing(times) && |times| > 0
    requires |times| > 1 ==> QueueIsRecent(times[..|times| - 1], maxConnections, window)
    ensures QueueIsRecent(times, maxConnections, window)
  {
    var n := |times|;
    var now := times[n - 1];
    var init := times[..n - 1];
    var before := Run(init, maxConnections, window);
    var earlier := Admitted(init, before.0);
    RunSnoc(times, maxConnections, window);
    NonDecreasingInit(times);
    EarlierNotLater(init, before.0, now);
    var last := if n == 1 then now else init[n - 2];
    if n == 1 {
      assert before.1 == [] && earlier == [];
    }
    QueueStep(earlier, before.1, last, now, maxConnections, window);
  }

  /** A clock that never goes back: the earlier attempts form such a run
      too, and none is later than the last. */
  lemma NonDecreasingInit(times: seq<int>)
    requires NonDecreasing(times) && |times| > 0
    ensures NonDecreasing(times[..|times| - 1])
    ensures forall k :: 0 <= k < |times| - 1 ==> times[k] <= times[|times| - 1]
  {
  }

  /** One attempt keeps the queue equal to the recent admitted attempts. */
  lemma QueueStep(earlier: seq<int>, q: seq<int>, last: int, now: int, maxConnections: int, window: int)
    requires window >= 0 && last <= now
    requires Sorted(earlier) && q == Recent(earlier, last, window)
    requires forall y :: y in earlier ==> y <= now
    ensures var step := Step(q, now, maxConnections, window);
      var admitted := if step.0 then earlier + [now] else earlier;
      Sorted(admitted) && step.1 == Recent(admitted, now, window)
  {
    RecentSorted(earlier, last, window);
    PruneIsRecent(q, now, window);
    RecentLater(earlier, last, now, window);
    if Step(q, now, maxConnections, window).0 {
      RecentSnoc(earlier, now, now, window);
      SortedSnoc(earlier, now);
    }
  }

  /** The throttle's promise: whenever an attempt is made, at most
      `maxConnections` admitted attempts of that address lie within the
      window before it, this one included. Every prefix of a run is a run,
      so this holds at every attempt. */
  lemma WindowNeverExceeded(times: seq<int>, maxConnections: int, window: int)
    requires maxConnections >= 1 && window >= 1
    requires NonDecreasing(times) && |times| > 0
    ensures var r := Run(times, maxConnections, window);
      |Recent(Admitted(times, r.0), times[|times| - 1], window)| <= maxConnections
  {
    RunQueue(times, maxConnections, window);
    RunBound(times, maxConnections, window);
  }

  /** No run leaves a queue longer than the limit. */
  lemma {:induction false} RunBound(times: seq<int>, maxConnections: int, window: int)
    requires maxConnections >= 0
    ensures |Run(times, maxConnections, window).1| <= maxConnections
    decreases |times|
  {
    if |times| > 0 {
      RunBound(times[..|times| - 1], maxConnections, window);
    }
  }

  /** A refused attempt is not recorded: the next one sees only what was
      admitted. And with the window full, an attempt within the window of
      all of them is refused. */
  lemma FullWindowRefuses(q: seq<int>, now: int, maxConnections: int, window: int)
    requires |q| >= maxConnections
    requires forall i :: 0 <= i < |q| ==> now - q[i] <= window
    ensures !Step(q, now, maxConnections, window).0
    ensures Step(q, now, maxConnections, window).1 == q
  {
    if |q| > 0 {
      assert now - q[0] <= window;
    }
  }
}

=== FILE: toml_config.dfy ===
/** `VelocityConfigLoader`: the proxy reads `config.toml` line by line, with
    no TOML parser. A key is set by the first line, in any section, that
    starts (after trimming) with the key, one space and `=`. The file's
    lines are an input. */
module TomlConfig {
  import opened Wrappers
  import opened JavaText
  import opened JavaNumbers

  const QUOTE: char := '"'
  const DEFAULT_LOBBIES: seq<string> := ["lobby", "hub"]
  const LOBBY_KEY: string := "lobby-servers"

  /** `stripQuotes` on a string (its null branch is unreachable from both
      callers): trimmed, then one surrounding pair of double quotes removed,
      when there are two characters to remove. */
  function StripQuotes(value: string): (r: string)
    ensures var t := Trim(value);
      |t| >= 2 && t[0] == QUOTE && t[|t| - 1] == QUOTE ==> r == t[1..|t| - 1]
    ensures var t := Trim(value);
      !(|t| >= 2 && t[0] == QUOTE && t[|t| - 1] == QUOTE) ==> r == t
  {
    var t := Trim(value);
    if |t| >= 2 && t[0] == QUOTE && t[|t| - 1] == QUOTE then t[1..|t| - 1] else t
  }

  function Quoted(v: string): (r: string)
    ensures |r| == |v| + 2 && r[0] == QUOTE && r[|r| - 1] == QUOTE
  {
    [QUOTE] + v + [QUOTE]
  }

  /** Quoting round-trips: whatever is written between quotes, spaces
      included, is read back exactly. A lone quote is kept as it is. */
  lemma StripQuotesRoundTrip(v: string)
    ensures StripQuotes(Quoted(v)) == v
    ensures StripQuotes([QUOTE]) == [QUOTE]
  {
    var q := Quoted(v);
    assert Trim(q) == q;
    assert q[1..|q| - 1] == v;
  }

  /** The line sets `key`. */
  predicate KeyLine(line: string, key: string) {
    StartsWith(Trim(line), key + " =")
  }

  /** The first line that sets `key`. */
  function FindKey(lines: seq<string>, key: string): (r: Option<nat>)
    ensures r.Some? ==> r.value < |lines| && KeyLine(lines[r.value], key)
    ensures r.Some? ==> forall j :: 0 <= j < r.value ==> !KeyLine(lines[j], key)
    ensures r.None? <==> forall j :: 0 <= j < |lines| ==> !KeyLine(lines[j], key)
  {
    FirstFrom(lines, line => KeyLine(line, key), 0)
  }

  /** The first line from `i` on that `sets` accepts. */
  function FirstFrom(lines: seq<string>, sets: string -> bool, i: nat): (r: Option<nat>)
    requires i <= |lines|
    ensures r.Some? ==> i <= r.value < |lines| && sets(lines[r.value])
    ensures r.Some? ==> forall j :: i <= j < r.value ==> !sets(lines[j])
    ensures r.None? <==> forall j :: i <= j < |lines| ==> !sets(lines[j])
    decreases |lines| - i
  {
    if i == |lines| then None
    else if sets(lines[i]) then Some(i)
    else FirstFrom(lines, sets, i + 1)
  }

  /** The text after the first `=` of a key line, trimmed. */
  function ValueText(line: string, key: string): (r: string)
    requires KeyLine(line, key)
  {
    var t := Trim(line);
    assert t[|key| + 1] == '=';
    var eq := IndexOfChar(t, '=').value;
    Trim(t[eq + 1..])
  }

  /** `parseString`: the unquoted value of the first line that sets `key`,
      or `fallback` (which `parseInt` passes as null). */
  function ParseString(lines: seq<string>, key: string, fallback: Option<string>): (r: Option<string>)
    ensures FindKey(lines, key).None? ==> r == fallback
    ensures FindKey(lines, key).Some? ==>
      r == Some(StripQuotes(ValueText(lines[FindKey(lines, key).value], key)))
  {
    match FindKey(lines, key)
    case None => fallback
    case Some(i) => Some(StripQuotes(ValueText(lines[i], key)))
  }

  /** `parseInt`: the value as a 32-bit `Integer.parseInt` reads it, or
      `fallback` for a missing key and for text that is not an `int`. */
  function ParseInt(lines: seq<string>, key: string, fallback: int): (r: int)
    ensures ParseString(lines, key, None).None? ==> r == fallback
    ensures ParseString(lines, key, None).Some? ==>
      var parsed := JavaNumbers.ParseInt(ParseString(lines, key, None).value);
      (parsed.Some? ==> r == parsed.value) && (parsed.None? ==> r == fallback)
  {
    match ParseString(lines, key, None)
    case None => fallback
    case Some(text) => JavaNumbers.ParseInt(text).GetOr(fallback)
  }

  /** A key whose text has no `=`, and which trimming leaves alone. */
  predicate PlainKey(key: string) {
    |key| > 0 && key[0] > ' ' && '=' !in key
  }

  /** The line `key = value` as the default file writes it. */
  function Setting(key: string, value: string): string {
    key + " = " + value
  }

  /** A space before a value that is already trimmed goes with the trim. */
  lemma TrimSpaceBefore(v: string)
    requires |v| > 0 && v[0] > ' ' && v[|v| - 1] > ' '
    ensures Trim(" " + v) == v
  {
    var s := " " + v;
    assert s[1..] == v;
    assert LeadCount(s, IsTrimmable) == 1;
    assert TrailCount(v, IsTrimmable) == 0;
  }

  /** The value of a written setting whose value needs no trimming. */
  lemma SettingValue(key: string, value: string)
    requires PlainKey(key) && |value| > 0 && value[0] > ' ' && value[|value| - 1] > ' '
    ensures KeyLine(Setting(key, value), key)
    ensures ValueText(Setting(key, value), key) == value
  {
    var line := Setting(key, value);
    SettingShape(key, value);
    var eq := IndexOfChar(line, '=').value;
    assert line[eq + 1..] == " " + value;
    TrimSpaceBefore(value);
  }

  /** A written setting is already trimmed, starts with `key =`, and its
      first `=` is the one after the key. */
  lemma SettingShape(key: string, value: string)
    requires PlainKey(key) && |value| > 0 && value[0] > ' ' && value[|value| - 1] > ' '
    ensures var line := Setting(key, value);
      && Trim(line) == line && KeyLine(line, key)
      && IndexOfChar(line, '=') == Some(|key| + 1)
  {
    var line := Setting(key, value);
    assert line[0] == key[0];
    assert line[|line| - 1] == value[|value| - 1];
    assert Trim(line) == line;
    assert line[..|key| + 2] == key + " =";
    FirstEquals(key, value);
  }

  lemma FirstEquals(key: string, value: string)
    requires '=' !in key
    ensures IndexOfChar(Setting(key, value), '=') == Some(|key| + 1)
  {
    var line := Setting(key, value);
    assert line[|key| + 1] == '=';
    forall j | 0 <= j < |key| ensures line[j] != '=' {
      assert line[j] == key[j];
    }
    assert line[|key|] == ' ';
  }

  /** A setting appended after lines that do not set the key is the one
      found. */
  lemma FindAppended(lines: seq<string>, line: string, key: string)
    requires KeyLine(line, key)
    requires forall j :: 0 <= j < |lines| ==> !KeyLine(lines[j], key)
    ensures FindKey(lines + [line], key) == Some(|lines|)
  {
    FirstAppended(lines, line, l => KeyLine(l, key));
  }

  lemma FirstAppended(lines: seq<string>, line: string, sets: string -> bool)
    requires sets(line)
    requires forall j :: 0 <= j < |lines| ==> !sets(lines[j])
    ensures FirstFrom(lines + [line], sets, 0) == Some(|lines|)
  {
    var all := lines + [line];
    var r := FirstFrom(all, sets, 0);
    assert sets(all[|lines|]);
    assert r.Some? && r.value <= |lines|;
    assert forall j :: 0 <= j < |lines| ==> all[j] == lines[j];
  }

  /** A quoted setting reads back as the text between the quotes, when no
      earlier line sets the same key. */
  lemma StringSettingRoundTrip(lines: seq<string>, key: string, value: string, fallback: Option<string>)
    requires PlainKey(key)
    requires forall j :: 0 <= j < |lines| ==> !KeyLine(lines[j], key)
    ensures ParseString(lines + [Setting(key, Quoted(value))], key, fallback) == Some(value)
  {
    var all := lines + [Setting(key, Quoted(value))];
    SettingValue(key, Quoted(value));
    FindAppended(lines, Setting(key, Quoted(value)), key);
    assert all[|lines|] == Setting(key, Quoted(value));
    StripQuotesRoundTrip(value);
  }

  /** The last character of a number's decimal text is a digit. */
  lemma IntTextEnds(n: int)
    ensures var text := IntToString(n); text[0] > ' ' && text[|text| - 1] > ' '
  {
    var text := IntToString(n);
    if n < 0 {
      assert text[1..] == NatToString(-n);
      assert text[|text| - 1] == NatToString(-n)[|NatToString(-n)| - 1];
    }
    assert IsAsciiDigit(text[|text| - 1]);
    assert text[0] == '-' || IsAsciiDigit(text[0]);
  }

  /** An `int` written bare reads back as itself. */
  lemma IntSettingRoundTrip(lines: seq<string>, key: string, n: int, fallback: int)
    requires PlainKey(key) && MIN_INT <= n <= MAX_INT
    requires forall j :: 0 <= j < |lines| ==> !KeyLine(lines[j], key)
    ensures ParseInt(lines + [Setting(key, IntToString(n))], key, fallback) == n
  {
    var all := lines + [Setting(key, IntToString(n))];
    var text := IntToString(n);
    IntTextEnds(n);
    SettingValue(key, text);
    FindAppended(lines, Setting(key, text), key);
    assert all[|lines|] == Setting(key, text);
    assert Trim(text) == text;
    assert StripQuotes(text) == text by {
      if |text| >= 2 && text[0] == QUOTE {
        assert text[0] == '-' || IsAsciiDigit(text[0]);
      }
    }
    assert ParseString(all, key, None) == Some(text);
    ParseDecimalRoundTrip(n, MIN_INT, MAX_INT);
  }

  /** `key=value` without the space before `=` is not a setting of `key`. */
  lemma SpaceBeforeEqualsRequired(key: string, value: string)
    requires PlainKey(key)
    ensures !KeyLine(key + "=" + value, key)
  {
    var line := key + "=" + value;
    assert line[0] == key[0];
    assert line[|key|] == '=';
  }

  // ---------------------------------------------------------------------------
  // Lists

  /** One list item as read: trimmed, then unquoted. */
  function Item(piece: string): string {
    StripQuotes(Trim(piece))
  }

  function ItemsAll(pieces: seq<string>): (r: seq<string>)
    ensures |r| == |pieces| && forall i :: 0 <= i < |r| ==> r[i] == Item(pieces[i])
  {
    seq(|pieces|, i requires 0 <= i < |pieces| => Item(pieces[i]))
  }

  /** The loop of `parseList`: every piece read as an item, blank items
      dropped, order kept. */
  function Items(pieces: seq<string>): (r: seq<string>)
    ensures forall i :: 0 <= i < |r| ==> !IsBlank(r[i])
    ensures forall x :: x in r <==> (exists i :: 0 <= i < |pieces| && Item(pieces[i]) == x) && !IsBlank(x)
  {
    var all := ItemsAll(pieces);
    assert forall x :: x in all <==> exists i :: 0 <= i < |pieces| && Item(pieces[i]) == x by {
      forall x ensures x in all <==> exists i :: 0 <= i < |pieces| && Item(pieces[i]) == x {
        if x in all {
          var i :| 0 <= i < |all| && all[i] == x;
          assert Item(pieces[i]) == x;
        }
      }
    }
    NonBlank(all)
  }

  /** The text between the first `[` and the last `]`, when they come in
      that order. */
  function Brackets(t: string): (r: Option<string>)
    ensures r.Some? ==>
      && IndexOfChar(t, '[').Some? && LastIndexOfChar(t, ']').Some?
      && IndexOfChar(t, '[').value < LastIndexOfChar(t, ']').value
      && r.value == t[IndexOfChar(t, '[').value + 1..LastIndexOfChar(t, ']').value]
    ensures r.None? <==>
      || IndexOfChar(t, '[').None? || LastIndexOfChar(t, ']').None?
      || LastIndexOfChar(t, ']').value <= IndexOfChar(t, '[').value
  {
    match (IndexOfChar(t, '['), LastIndexOfChar(t, ']'))
    case (Some(start), Some(end)) => if end <= start then None else Some(t[start + 1..end])
    case _ => None
  }

  /** `parseList`: the items of the first line that sets `key`; nothing for
      a missing key or misplaced brackets. */
  function ParseList(lines: seq<string>, key: string): (r: seq<string>)
    ensures FindKey(lines, key).None? ==> r == []
    ensures FindKey(lines, key).Some? && Brackets(Trim(lines[FindKey(lines, key).value])).None? ==> r == []
    ensures FindKey(lines, key).Some? && Brackets(Trim(lines[FindKey(lines, key).value])).Some? ==>
      r == Items(JavaSplit(Brackets(Trim(lines[FindKey(lines, key).value])).value, ','))
    ensures forall i :: 0 <= i < |r| ==> !IsBlank(r[i])
  {
    match FindKey(lines, key)
    case None => []
    case Some(i) =>
      match Brackets(Trim(lines[i]))
      case None => []
      case Some(content) => Items(JavaSplit(content, ','))
  }

  /** The list line `key = ["a","b"]`. */
  function ListSetting(key: string, items: seq<string>): string {
    key + " = [" + Join(QuoteAll(items), ",") + "]"
  }

  function QuoteAll(items: seq<string>): (r: seq<string>)
    ensures |r| == |items| && forall i :: 0 <= i < |r| ==> r[i] == Quoted(items[i])
  {
    seq(|items|, i requires 0 <= i < |items| => Quoted(items[i]))
  }

  /** Dropping blank pieces from pieces none of which is blank changes
      nothing. */
  lemma {:induction false} NonBlankKeepsAll(parts: seq<string>)
    requires forall i :: 0 <= i < |parts| ==> !IsBlank(parts[i])
    ensures NonBlank(parts) == parts
    decreases |parts|
  {
    if |parts| > 0 {
      NonBlankKeepsAll(parts[1..]);
      assert [parts[0]] + parts[1..] == parts;
    }
  }

  /** Items that are not blank come back from their quoted forms in order. */
  lemma ItemsOfQuoted(items: seq<string>)
    requires forall i :: 0 <= i < |items| ==> !IsBlank(items[i])
    ensures Items(QuoteAll(items)) == items
  {
    var q := QuoteAll(items);
    forall i | 0 <= i < |items| ensures Item(q[i]) == items[i] {
      assert Trim(q[i]) == q[i];
      StripQuotesRoundTrip(items[i]);
    }
    assert ItemsAll(q) == items;
    NonBlankKeepsAll(items);
  }

  /** The items of a written list's bracket contents. */
  lemma JoinedItems(items: seq<string>)
    requires forall i :: 0 <= i < |items| ==> !IsBlank(items[i]) && ',' !in items[i]
    ensures Items(JavaSplit(Join(QuoteAll(items), ","), ',')) == items
  {
    var q := QuoteAll(items);
    var content := Join(q, ",");
    if |items| == 0 {
      assert content == [];
      assert JavaSplit(content, ',') == [[]];
      assert Item([]) == [];
      assert ItemsAll([[]]) == [[]];
    } else {
      forall i | 0 <= i < |q| ensures ',' !in q[i] {
        assert q[i] == [QUOTE] + items[i] + [QUOTE];
      }
      SplitJoinedPieces(q, ',');
      QuotedJoinNonEmpty(q);
      ItemsOfQuoted(items);
    }
  }

  /** A written list reads back as its items, when they are not blank and
      hold no comma, and no earlier line sets the key. */
  lemma ListRoundTrip(lines: seq<string>, key: string, items: seq<string>)
    requires PlainKey(key) && '[' !in key
    requires forall i :: 0 <= i < |items| ==> !IsBlank(items[i]) && ',' !in items[i]
    requires forall j :: 0 <= j < |lines| ==> !KeyLine(lines[j], key)
    ensures ParseList(lines + [ListSetting(key, items)], key) == items
  {
    var line := ListSetting(key, items);
    ListLineShape(key, Join(QuoteAll(items), ","));
    FindAppended(lines, line, key);
    assert (lines + [line])[|lines|] == line;
    JoinedItems(items);
  }

  lemma QuotedJoinNonEmpty(q: seq<string>)
    requires |q| > 0 && |q[|q| - 1]| > 0
    ensures |Join(q, ",")| > 0
    ensures DropTrailingEmpty(q) == q
  {
    if |q| > 1 {
      JoinCons(q[0], q[1..], ",");
      assert [q[0]] + q[1..] == q;
    }
  }

  /** The written list line trims to itself, and its brackets enclose the
      joined items. */
  lemma ListLineShape(key: string, content: string)
    requires PlainKey(key) && '[' !in key
    ensures var line := key + " = [" + content + "]";
      && KeyLine(line, key)
      && Brackets(Trim(line)) == Some(content)
  {
    var line := key + " = [" + content + "]";
    assert line[0] == key[0];
    assert Trim(line) == line;
    assert line[..|key| + 2] == key + " =";
    assert line[|key| + 3] == '[' && line[|key|..|key| + 3] == " = ";
    assert forall j :: 0 <= j < |key| ==> line[j] == key[j];
    var start := IndexOfChar(line, '[').value;
    assert start == |key| + 3;
    assert LastIndexOfChar(line, ']') == Some(|line| - 1);
    assert line[start + 1..|line| - 1] == content;
  }

  /** The lobby list the proxy ends up with: the configured one, or the
      defaults when it is empty. */
  function LobbyServers(lines: seq<string>): (r: seq<string>)
    ensures |r| > 0
    ensures |ParseList(lines, LOBBY_KEY)| > 0 ==> r == ParseList(lines, LOBBY_KEY)
    ensures |ParseList(lines, LOBBY_KEY)| == 0 ==> r == DEFAULT_LOBBIES
    ensures FindKey(lines, LOBBY_KEY).None? ==> r == DEFAULT_LOBBIES
    ensures forall i :: 0 <= i < |r| ==> !IsBlank(r[i])
  {
    var configured := ParseList(lines, LOBBY_KEY);
    DefaultLobbiesNonBlank();
    if |configured| == 0 then DEFAULT_LOBBIES else configured
  }

  lemma DefaultLobbiesNonBlank()
    ensures forall i :: 0 <= i < |DEFAULT_LOBBIES| ==> !IsBlank(DEFAULT_LOBBIES[i])
  {
    assert !IsWhitespace(DEFAULT_LOBBIES[0][0]) && !IsWhitespace(DEFAULT_LOBBIES[1][0]);
  }

  // ---------------------------------------------------------------------------
  // The loaded configuration

  /** The database settings as read; the type stays the upper-cased name
      that `DatabaseType.valueOf` is given. */
  datatype DatabaseSettings = DatabaseSettings(
    typeName: string, host: string, port: int, database: string,
    user: string, password: string, sqliteFile: string, poolSize: int)

  datatype ProxySettings = ProxySettings(
    database: DatabaseSettings, lobbyServers: seq<string>,
    throttleMaxConnections: int, throttleWindowSeconds: int)

  /** `VelocityConfig.defaultConfig`, with the data directory's database
      path as a parameter. */
  function Defaults(sqlitePath: string): ProxySettings {
    ProxySettings(
      DatabaseSettings("SQLITE", "localhost", 3306, "pluginbans", "root", "", sqlitePath, 10),
      DEFAULT_LOBBIES, 5, 10)
  }

  /** `parseString` with a fallback that is never null. */
  function StringOr(lines: seq<string>, key: string, fallback: string): (r: string)
    ensures FindKey(lines, key).None? ==> r == fallback
    ensures FindKey(lines, key).Some? ==> Some(r) == ParseString(lines, key, None)
  {
    ParseString(lines, key, Some(fallback)).value
  }

  /** The database type name `load` hands to `DatabaseType.valueOf`:
      the configured text, upper-cased, or `SQLITE`. */
  function TypeName(lines: seq<string>): (r: string)
    ensures FindKey(lines, "type").None? ==> r == "SQLITE"
    ensures FindKey(lines, "type").Some? ==>
      EqualsIgnoreCase(r, ParseString(lines, "type", None).value)
  {
    var name := StringOr(lines, "type", "SQLITE");
    UpperEqualsIgnoreCase(name);
    if FindKey(lines, "type").None? then
      UpperSqlite();
      ToUpper(name)
    else ToUpper(name)
  }

  lemma UpperSqlite()
    ensures ToUpper("SQLITE") == "SQLITE"
  {
    var s := "SQLITE";
    forall i | 0 <= i < |s| ensures UpperChar(s[i]) == s[i] {
      assert 'A' <= s[i] <= 'Z';
    }
  }

  /** The `[database]` part of `load`: each unset key takes its default,
      and the type name is the configured one up to case. */
  function LoadDatabase(lines: seq<string>, sqlitePath: string): (r: DatabaseSettings)
    ensures FindKey(lines, "type").None? ==> r.typeName == "SQLITE"
    ensures FindKey(lines, "type").Some? ==>
      EqualsIgnoreCase(r.typeName, ParseString(lines, "type", None).value)
    ensures FindKey(lines, "host").None? ==> r.host == "localhost"
    ensures FindKey(lines, "port").None? ==> r.port == 3306
    ensures FindKey(lines, "database").None? ==> r.database == "pluginbans"
    ensures FindKey(lines, "user").None? ==> r.user == "root"
    ensures FindKey(lines, "password").None? ==> r.password == ""
    ensures FindKey(lines, "pool-size").None? ==> r.poolSize == 10
    ensures FindKey(lines, "sqlite-file").None? ==> r.sqliteFile == sqlitePath
  {
    var d := Defaults(sqlitePath).database;
    DatabaseSettings(
      TypeName(lines),
      StringOr(lines, "host", d.host),
      ParseInt(lines, "port", d.port),
      StringOr(lines, "database", d.database),
      StringOr(lines, "user", d.user),
      StringOr(lines, "password", d.password),
      StringOr(lines, "sqlite-file", d.sqliteFile),
      ParseInt(lines, "pool-size", d.poolSize))
  }

  /** The `[throttle]` part of `load`: five connections in ten seconds
      unless set. */
  function LoadThrottle(lines: seq<string>): (r: (int, int))
    ensures FindKey(lines, "max-connections").None? ==> r.0 == 5
    ensures FindKey(lines, "window-seconds").None? ==> r.1 == 10
  {
    (ParseInt(lines, "max-connections", 5), ParseInt(lines, "window-seconds", 10))
  }

  /** `load`: the database and throttle parts as above, and a lobby list
      that is never empty nor holds a blank name. */
  function Load(lines: seq<string>, sqlitePath: string): (r: ProxySettings)
    ensures r.database == LoadDatabase(lines, sqlitePath)
      && (r.throttleMaxConnections, r.throttleWindowSeconds) == LoadThrottle(lines)
    ensures |r.lobbyServers| > 0 && forall i :: 0 <= i < |r.lobbyServers| ==> !IsBlank(r.lobbyServers[i])
    ensures FindKey(lines, LOBBY_KEY).None? ==> r.lobbyServers == DEFAULT_LOBBIES
  {
    var throttle := LoadThrottle(lines);
    ProxySettings(LoadDatabase(lines, sqlitePath), LobbyServers(lines), throttle.0, throttle.1)
  }

  /** A file with no settings at all loads as the defaults. */
  lemma EmptyFileLoadsDefaults(lines: seq<string>, sqlitePath: string)
    requires forall j :: 0 <= j < |lines| ==> IsTrimmedAway(lines[j])
    ensures Load(lines, sqlitePath) == Defaults(sqlitePath)
  {
    forall key, j | 0 <= j < |lines| ensures !KeyLine(lines[j], key) {
      assert Trim(lines[j]) == [];
    }
  }
}

=== FILE: unpunish.dfy ===
/** `UnpunishCommand`: `/unpunish <id> [reason]` lifts an active punishment
    by its id, on behalf of the sender. */
module Unpunish {
  import opened Wrappers
  import opened JavaText
  import opened Model
  import opened PunishmentIdGenerator
  import opened Repository
  import opened Notifications
  import opened CommandArgs
  import Engine

  const UNPUNISH_PERMISSION: string := "bans.unpunish"
  const FULL_ACCESS: string := "bans.fullaccess"
  const DEFAULT_REASON: string := "Снято администратором"
  const MANUAL_REMOVE: string := "MANUAL_REMOVE"

  /** The id as looked up: trimmed and upper-cased. */
  function NormalizeId(arg: string): (r: string)
    ensures |r| <= |arg|
    ensures r == [] <==> forall i :: 0 <= i < |arg| ==> arg[i] <= ' '
  {
    ToUpper(Trim(arg))
  }

  /** The characters a generated id is made of. */
  predicate IdChar(c: char) {
    'A' <= c <= 'Z' || '0' <= c <= '9' || c == '-'
  }

  lemma GeneratedIdChars(c: string, draws: seq<int>)
    requires ValidDraws(draws)
    requires c == "NNR" || c == "NV" || c == "TM"
    ensures forall i :: 0 <= i < |Generate(c, draws)| ==> IdChar(Generate(c, draws)[i])
  {
    var id := Generate(c, draws);
    var head := PREFIX + c + "-";
    assert id[..|head|] == head;
    forall i | 0 <= i < |id| ensures IdChar(id[i]) {
      if i < |head| {
        assert id[i] == head[i];
      } else {
        assert id[i] in ALPHANUM;
        var k :| 0 <= k < |ALPHANUM| && ALPHANUM[k] == id[i];
        AlphabetLayout(k);
      }
    }
  }

  lemma IdCharCase(c: char)
    requires IdChar(c)
    ensures c > ' ' && UpperChar(c) == c
    ensures LowerChar(c) > ' ' && UpperChar(LowerChar(c)) == c
  {
  }

  /** Text made of id characters survives normalisation, also after
      lower-casing. */
  lemma IdCharsNormalize(id: string)
    requires |id| > 0
    requires forall i :: 0 <= i < |id| ==> IdChar(id[i])
    ensures NormalizeId(id) == id
    ensures NormalizeId(ToLower(id)) == id
  {
    IdCharsUpper(id);
    var low := ToLower(id);
    IdCharCase(id[0]);
    IdCharCase(id[|id| - 1]);
    assert low[0] > ' ' && low[|low| - 1] > ' ';
    assert Trim(id) == id;
    assert Trim(low) == low;
  }

  /** Upper-casing leaves id characters alone and undoes lower-casing. */
  lemma IdCharsUpper(id: string)
    requires forall i :: 0 <= i < |id| ==> IdChar(id[i])
    ensures ToUpper(id) == id && ToUpper(ToLower(id)) == id
  {
    var low := ToLower(id);
    forall i | 0 <= i < |id| ensures UpperChar(id[i]) == id[i] && UpperChar(low[i]) == id[i] {
      IdCharCase(id[i]);
    }
    assert ToUpper(id) == id;
    assert ToUpper(low) == id;
  }

  /** Every id the Paper service generates is found again when typed in
      lower case, or as it is. */
  lemma TypedIdFindsGenerated(c: string, draws: seq<int>)
    requires ValidDraws(draws)
    requires c == "NNR" || c == "NV" || c == "TM"
    ensures NormalizeId(Generate(c, draws)) == Generate(c, draws)
    ensures NormalizeId(ToLower(Generate(c, draws))) == Generate(c, draws)
  {
    GeneratedIdChars(c, draws);
    IdCharsNormalize(Generate(c, draws));
  }

  /** `args.length > 1 ? joinArgs(args, 1) : "Снято администратором"`. */
  function Reason(args: seq<string>): (r: string)
    ensures |args| <= 1 ==> r == DEFAULT_REASON
    ensures |args| > 1 ==> r == Trim(JoinFrom(args, 1))
  {
    if |args| > 1 then TrimmedJoin(args, 1) else DEFAULT_REASON
  }

  /** The message the sender gets. */
  datatype Result =
    | PermissionDenied
    | ShowUsage
    | LookupFailed(id: string)
    | NotFound(id: string)
    | AlreadyLifted(id: string)
    | RemoveFailed(id: string)
    | Lifted(id: string)

  /** The service afterwards, the listener calls made, and the message. */
  datatype Handled = Handled(svc: Engine.Service, events: seq<Event>, result: Result)

  predicate Permitted(permissions: set<string>) {
    UNPUNISH_PERMISSION in permissions || FULL_ACCESS in permissions
  }

  /** `onCommand`, with the sender's name as the actor. */
  function OnCommand(svc: Engine.Service, permissions: set<string>, args: seq<string>, sender: string,
                     now: Instant, isExpired: (Punishment, Instant) -> bool): (r: Handled)
    ensures r.result == PermissionDenied <==> !Permitted(permissions)
    ensures r.result == ShowUsage <==> Permitted(permissions) && |args| == 0
    ensures !r.result.PermissionDenied? && !r.result.ShowUsage? ==> |args| > 0 && r.result.id == NormalizeId(args[0])
    ensures r.result.LookupFailed? <==> Permitted(permissions) && |args| > 0 && !svc.store.online
    ensures r.result.NotFound? <==>
      Permitted(permissions) && |args| > 0 && svc.store.online && NormalizeId(args[0]) !in RowIds(svc.store.rows)
    ensures r.result.AlreadyLifted? <==>
      && Permitted(permissions) && |args| > 0 && svc.store.online
      && FindRow(svc.store.rows, NormalizeId(args[0])).Some?
      && !FindRow(svc.store.rows, NormalizeId(args[0])).value.active
    ensures !r.result.Lifted? && !r.result.RemoveFailed? ==> r.svc == svc && r.events == []
    ensures r.result.Lifted? ==>
      && var id := NormalizeId(args[0]);
         var p := FindRow(svc.store.rows, id).value;
      && FindRow(svc.store.rows, id).Some? && p.active
      && r.svc == Engine.Remove(svc, id, sender, Reason(args), MANUAL_REMOVE, now, isExpired).svc
      && Engine.Inactive(r.svc.store.rows, id)
      && r.events == NotifyRemove(svc.listeners, p, Reason(args))
    ensures Valid(svc.store) ==> Valid(r.svc.store)
  {
    if !Permitted(permissions) then Handled(svc, [], PermissionDenied)
    else if |args| == 0 then Handled(svc, [], ShowUsage)
    else
      var id := NormalizeId(args[0]);
      var found := FindByInternalId(svc.store, id);
      if found.Failure? then Handled(svc, [], LookupFailed(id))
      else if found.value.None? then Handled(svc, [], NotFound(id))
      else if !found.value.value.active then Handled(svc, [], AlreadyLifted(id))
      else
        var removed := Engine.Remove(svc, id, sender, Reason(args), MANUAL_REMOVE, now, isExpired);
        if removed.value.None? then Handled(removed.svc, removed.events, RemoveFailed(id))
        else Handled(removed.svc, removed.events, Lifted(id))
  }

  /** Lifting twice: once a lift went through, the same command again finds
      the record already lifted and changes nothing. */
  lemma UnpunishTwice(svc: Engine.Service, permissions: set<string>, args: seq<string>, sender: string,
                      now: Instant, later: Instant, isExpired: (Punishment, Instant) -> bool)
    requires Valid(svc.store)
    requires OnCommand(svc, permissions, args, sender, now, isExpired).result.Lifted?
    ensures var first := OnCommand(svc, permissions, args, sender, now, isExpired);
      var second := OnCommand(first.svc, permissions, args, sender, later, isExpired);
      second.result == AlreadyLifted(NormalizeId(args[0])) && second.svc == first.svc && second.events == []
  {
    LiftedFoundInactive(svc, permissions, args, sender, now, isExpired);
  }

  /** After a lift the store still answers, and the id now names a lifted
      record. */
  lemma LiftedFoundInactive(svc: Engine.Service, permissions: set<string>, args: seq<string>, sender: string,
                            now: Instant, isExpired: (Punishment, Instant) -> bool)
    requires Valid(svc.store)
    requires OnCommand(svc, permissions, args, sender, now, isExpired).result.Lifted?
    ensures var rows := OnCommand(svc, permissions, args, sender, now, isExpired).svc.store.rows;
      && OnCommand(svc, permissions, args, sender, now, isExpired).svc.store.online
      && FindRow(rows, NormalizeId(args[0])).Some?
      && !FindRow(rows, NormalizeId(args[0])).value.active
  {
    var id := NormalizeId(args[0]);
    var removed := Engine.Remove(svc, id, sender, Reason(args), MANUAL_REMOVE, now, isExpired);
    var rows := removed.svc.store.rows;
    assert FindRow(rows, id).value in rows;
  }
}

=== FILE: wrappers.dfy ===
/** Option and Result types standing for Java's nullable references, `Optional`
    and thrown exceptions. */
module Wrappers {

  datatype Option<+T> = None | Some(value: T) {
    predicate IsFailure() { None? }

    function PropagateFailure<U>(): Option<U>
      requires None?
    {
      None
    }

    function Extract(): T
      requires Some?
    {
      value
    }

    function GetOr(default: T): T {
      match this
      case Some(v) => v
      case None => default
    }
  }

  datatype Result<+R, +E> = Success(value: R) | Failure(error: E) {
    predicate IsFailure() { Failure? }

    function PropagateFailure<U>(): Result<U, E>
      requires Failure?
    {
      Failure(error)
    }

    function Extract(): R
      requires Success?
    {
      value
    }
  }
}
